=== FILE: README.md ===
# socialclaw core, modelled in Dafny

socialclaw is a platform where every user has a personal agent, and the
agents message each other, external agents and merchant agents on the
user's behalf. This project models the core of that platform as pure
functions over immutable data:

- the conversation ledger: threads, and one message row per recipient
  copy;
- the ambient interaction context: channel, auto-reply turn budget and
  active thread;
- local routing between platform users, with auto-reply turn limits and
  loop protection;
- the external agent-to-agent gateway (JSON-RPC and plain inbound);
- the agent-to-agent client;
- the background task store, task runner and scheduler;
- the contact registries, history stores, feed, skills, negotiation and
  grocery tools that the agents call;
- handle validation and the account endpoints;
- the debug endpoints and the demo simulation.

Each SQL table is a sequence of rows in insertion order, with a
`nextId` counter standing in for AUTOINCREMENT. Clocks, UUIDs, SHA-1
digests, random draws, JSON encoding and every reply of the reasoning
engine or of a remote agent are parameters. Every contract is stated
over all inputs.

One Dafny module per source file:

| module | source file |
|---|---|
| `Wrappers`, `Seqs`, `Text` | Python's `Optional`, list, and `str` built-ins |
| `Platform` | app/config.py and the agent-card URL helpers |
| `ConversationIds` | conversation id formats used across the services |
| `Inbox` | app/services/inbox.py |
| `InteractionContext` | app/services/interaction_context.py |
| `EventSerializer` | app/services/event_serializer.py |
| `LocalRouter` | app/services/local_router.py |
| `A2aRpc`, `A2aInbound` | app/routers/a2a_rpc.py, app/routers/a2a_inbound.py |
| `A2aClient` | common/a2a_client.py |
| `Contacts`, `DbContacts` | common/contacts.py, app/services/db_contacts.py |
| `SharedTools` | personal_agents/shared_tools.py |
| `TaskStore`, `TaskRunner`, `Scheduler` | app/services/task_store.py, task_runner.py, scheduler.py |
| `FeedStore` | app/services/feed_store.py |
| `History`, `DbHistory` | common/history.py, app/services/db_history.py |
| `Negotiation`, `Grocery` | common/negotiation.py, external_agents/freshbite_grocery/tools.py |
| `Skills` | app/services/skill_service.py |
| `Auth`, `AuthRouter` | app/auth.py, app/routers/auth_router.py |
| `Debug`, `Slugs`, `Simulation` | app/routers/debug.py, app/services/simulation.py |

## Model

| member | source | states |
|---|---|---|
| Inbox.EnsureConversation | app/services/inbox.py:20-30 | A new id gets an active thread without auto-respond, stamped with the current time. A known id leaves the whole ledger unchanged. No message row is touched, and the ledger invariant (increasing ids, unique thread ids) is kept. |
| Inbox.EnsureIdempotent | app/services/inbox.py:20-30 | A second ensure of the same id changes nothing, whatever participants or time it names. |
| Inbox.IsConversationStopped | app/services/inbox.py:32-40 | True only for a registered thread whose status is stopped. An unknown id is never stopped. |
| Inbox.StopConversation | app/services/inbox.py:42-55 | The thread is stopped. Exactly the unread rows of that thread are demoted to stopped, so none of its rows stays unread. Other threads and rows are unchanged. |
| Inbox.ResumeConversation | app/services/inbox.py:83-91 | The thread is active again and no longer reads as stopped. Messages are untouched, so rows demoted by a stop stay stopped. |
| Inbox.SetAutoRespond | app/services/inbox.py:93-102 | A known thread then reports the new flag. Only that thread changes. An unknown id changes nothing. |
| Inbox.IsAutoRespond | app/services/inbox.py:104-112 | False for an unknown thread, the stored flag otherwise. |
| Inbox.DeleteConversation | app/services/inbox.py:57-64 | Removes the thread and exactly its messages and keeps everything else. The id counter is kept, and a well-formed ledger stays well-formed. |
| Inbox.FilterValid | app/services/inbox.py:57-81 | Deleting rows and threads by any test keeps a well-formed ledger well-formed. |
| Inbox.DeleteAllConversations | app/services/inbox.py:66-81 | Removes every thread the user takes part in, as either participant, and every message of those threads. All other threads and messages stay. The count returned is the number of threads removed. |
| Inbox.NormalizeSenderType | app/services/inbox.py:176-184 | personal, user, human, contact and friend (any case, surrounding blanks ignored) map to friend; merchant maps to merchant; anything else maps to system. |
| Inbox.NormalizeRoundTrip | app/services/inbox.py:176-184 | Normalising the stored name of a sender type gives that type back. |
| Inbox.NormalizeInsensitive | app/services/inbox.py:176-184 | Normalisation ignores letter case and surrounding whitespace. |
| Inbox.Deliver | app/services/inbox.py:186-216 | Appends exactly one unread row with the next id, the given fields and the normalised sender type. Every earlier row is kept. Only the named thread gets the new last-message time, and an empty thread id touches no thread. The ledger invariant is kept. |
| Inbox.DeliverAs | app/services/inbox.py:186-216 | The new row is appended last, unread, with the next id and exactly the given fields. The counter moves on by one. Only the named thread gets the new last-message time, an empty thread id touches no thread, and a well-formed ledger stays well-formed. |
| Inbox.DeliverKeepsFlags | app/services/inbox.py:186-216 | A delivery never changes whether a thread exists, is stopped or auto-responds. |
| Inbox.GetConversationMessages | app/services/inbox.py:148-172 | Exactly the rows of that thread addressed to that user, in ledger order and with their multiplicity. Each row is flagged as the user's own exactly when it is outbound. |
| Inbox.DeliverElsewhereInvisible | app/services/inbox.py:148-172 | A row delivered to another recipient, or on another thread, never appears in this user's transcript of this thread: there is no cross-leakage between the two copies of an exchange. |
| Inbox.DeliverVisibleAtEnd | app/services/inbox.py:148-172 | A row delivered to the user on the thread appears once, at the end of their transcript. |
| Inbox.Summarize | app/services/inbox.py:114-146 | The partner is the other participant. The unread count counts this user's unread rows of the thread. The last message is this user's newest row of the thread: no later row of the ledger is visible to them there. It is absent exactly when there are none. |
| Inbox.LastVisible | app/services/inbox.py:135-142 | The last of the user's rows of a thread is one of them, with no later row visible to the user there. It is absent exactly when the user has none. |
| Inbox.DeliverBecomesLast | app/services/inbox.py:114-146 | A row just delivered to the user on a thread becomes that thread's last message in their summary, and their unread count there grows by one. |
| Inbox.GetConversations | app/services/inbox.py:114-146 | A permutation of the summaries of exactly the threads the user takes part in, newest last message first. |
| Inbox.GetUnread | app/services/inbox.py:220-229 | Exactly the recipient's unread rows, in ledger order. |
| Inbox.GetAll | app/services/inbox.py:231-240 | The recipient's latest rows, newest first, at most 50 of them, and no fewer than they have up to that bound. |
| Inbox.UnreadCount | app/services/inbox.py:242-251 | Agrees with the number of rows the unread listing returns. |
| Inbox.MarkRead | app/services/inbox.py:253-262 | Only the row with that id becomes read, and only if it was unread. |
| Inbox.MarkReadTouchesOne | app/services/inbox.py:253-262 | In a valid ledger, marking one id read changes at most one row. |
| Inbox.MarkReadConversation | app/services/inbox.py:264-273 | Every unread row of the thread addressed to the user becomes read, and nothing else changes. |
| Inbox.UpdateProcessingLog | app/services/inbox.py:275-284 | Only the row with that id gets the new log; status and everything else are kept. |
| Inbox.MarkProcessed | app/services/inbox.py:300-309 | The row with that id becomes processed, stamped with the current time, whatever its previous status. |
| Inbox.CountRecentMessages | app/services/inbox.py:286-298 | Counts the thread's rows for every recipient that were created strictly after the window start. |
| Inbox.DeliverCountsOnce | app/services/inbox.py:286-298 | A delivery on the thread now raises its recent count by exactly one. |
| Inbox.DeletedThreadIsBlank | app/services/inbox.py:57-64 | After a delete the thread has no recent messages, is not stopped and does not auto-respond. |
| InteractionContext.SetChannel | app/services/interaction_context.py:16-17 | Sets the channel, keeps the other two variables, and returns a token holding the previous channel. |
| InteractionContext.ResetChannel | app/services/interaction_context.py:20-21 | Puts back the channel the token holds and keeps the other variables. |
| InteractionContext.SetTurnBudget | app/services/interaction_context.py:28-29 | Sets the turn budget, keeps the other variables, and returns a token holding the previous budget. |
| InteractionContext.ResetTurnBudget | app/services/interaction_context.py:32-33 | Puts back the budget the token holds. |
| InteractionContext.SetConversationId | app/services/interaction_context.py:49-50 | Sets the active thread id, keeps the other variables, and returns a token holding the previous id. |
| InteractionContext.ResetConversationId | app/services/interaction_context.py:53-54 | Puts back the thread id the token holds. |
| InteractionContext.Decrement | app/services/interaction_context.py:36-42 | An unlimited budget stays unlimited and the result is none. Otherwise the budget drops by one, never below zero, and the new value is both stored and returned. |
| InteractionContext.DecrementTimesBudget | app/services/interaction_context.py:36-42 | k decrements of a budget n leave max(n - k, 0), and never touch the channel or the thread id. |
| InteractionContext.DecrementTimesUnlimited | app/services/interaction_context.py:36-42 | Decrementing an unlimited budget any number of times changes nothing. |
| InteractionContext.ResetRestores | app/services/interaction_context.py:16-54 | Resetting with the token of a set restores the context as it was, also for three nested sets undone in reverse order. |
| EventSerializer.ResponseDisplay | app/services/event_serializer.py:33-37 | A tool response shows its result field when it is a mapping that has one, and the whole response otherwise. |
| EventSerializer.PartPayload | app/services/event_serializer.py:17-43 | Non-empty text wins over a function call, which wins over a function response. A part with none of them yields no payload. Every payload carries the event's author, and a call carries empty args when it has none. |
| EventSerializer.Serialize | app/services/event_serializer.py:6-45 | An event without content or parts yields nothing, and never more payloads than parts. |
| EventSerializer.PayloadCount | app/services/event_serializer.py:17-43 | Exactly one payload for each part that has text, a call or a response. |
| EventSerializer.PayloadsAppend | app/services/event_serializer.py:17-43 | Payloads follow part order: the payloads of concatenated parts are the concatenated payloads. |
| EventSerializer.PayloadsShape | app/services/event_serializer.py:17-24 | Every payload has the event's author. Every text payload is non-empty and carries the event's partial flag. |
| EventSerializer.ToolLog | app/services/local_router.py:198-207 | The processing log holds exactly the tool calls and tool results of a run. |
| EventSerializer.Reply | app/routers/a2a_rpc.py:210-221 | A run with no final text gives the fallback reply. Otherwise the reply is the final texts joined by newlines. |
| EventSerializer.ReplySplits | app/routers/a2a_rpc.py:210-221 | When the final texts hold no newline, splitting the reply at newlines gives the final texts back. |
| EventSerializer.FinalTextsIgnoreOthers | app/routers/a2a_rpc.py:210-221 | Only non-partial text payloads contribute to a reply. Dropping every partial text and tool step leaves the reply's texts unchanged, and there is exactly one text per final text payload. |
| ConversationIds.PairKey | app/services/local_router.py:49 | The two lower-cased names joined by an underscore, the lexicographically smaller one first. |
| ConversationIds.PairKeySymmetric | app/services/local_router.py:49 | The pair key names the unordered pair: it is the same whichever side sends, and ignores letter case. |
| ConversationIds.MintedThreadId | app/services/local_router.py:47-51 | A fresh thread id is the pair's deterministic id followed by an underscore and 8 hex digits of a new UUID. |
| ConversationIds.MintedSymmetric | app/services/local_router.py:47-51 | A minted id starts with the same pair prefix whichever side is named first. |
| ConversationIds.ExternalThreadId | app/routers/a2a_rpc.py:34-36 | External threads are named conv_ext_ followed by the recipient, the sender and an 8-hex digest of the sender URL. |
| ConversationIds.ExternalThreadIdCaseless | app/routers/a2a_inbound.py:47-49 | The external thread id ignores the letter case of both names. |
| ConversationIds.A2aThreadId | personal_agents/shared_tools.py:242-244 | The default outbound agent-to-agent thread is conv_a2a_ plus at most 10 digest characters. |
| ConversationIds.A2aThreadIdCaseless | personal_agents/shared_tools.py:242-244 | That thread id ignores the letter case of both the sender id and the target URL. |
| Platform.ResolveAgentCardUrl | app/routers/debug.py:38-43 | A platform://user/ address becomes the user's public agent-card URL. Any other address is returned stripped. |
| Platform.InternalHandle | app/routers/a2a_rpc.py:48-60 | A blank sender URL yields no handle. A handle is only ever read from a platform://user/ address or from a public agent-card URL, and is never empty. |
| Platform.SchemeRoundTrip | app/routers/a2a_rpc.py:48-60 | Reading the handle back from platform://user/h gives h, for every plain handle h. |
| Platform.CardRoundTrip | app/routers/a2a_rpc.py:48-60 | Reading the handle back from h's public agent-card URL gives h. |
| Platform.ResolveScheme | app/routers/debug.py:38-43 | Resolving platform://user/h gives the agent-card URL of h. |
| LocalRouter.ChooseConversationId | app/services/local_router.py:69-72 | A given thread id is reused verbatim. A missing one is replaced by a fresh id for the sender/target pair. |
| LocalRouter.OpenThread | app/services/local_router.py:75-80 | After opening, the thread exists and is not stopped: a new message always reopens a thread the recipient had stopped. No message row is touched. |
| LocalRouter.DeliverCopies | app/services/local_router.py:83-100 | Exactly two rows are appended: the sender's outbound copy, then the target's inbound copy. Both are unread friend messages with the same text in the same thread. Thread existence and stop state are unchanged. |
| LocalRouter.RouteLocalMessage | app/services/local_router.py:54-135 | Without an inbox the router answers "not initialized" and writes nothing. Otherwise it writes exactly the two copies into an open thread. It schedules an auto-reply on the inbound copy exactly when the target has auto-inbox enabled and the thread has fewer than 20 messages in the last 10 minutes, and otherwise tells the sender to await a manual response. |
| LocalRouter.RouteAddsTwoRecent | app/services/local_router.py:119-122 | Each routed message adds two rows to the thread's recent window, so a thread with 18 or more recent rows schedules no further auto-reply. That bounds an auto-reply chain. |
| LocalRouter.RouteCopiesVisibleToOwners | app/services/local_router.py:83-100 | The sender's transcript gains the outbound copy and not the inbound one; the target's transcript gains the inbound copy and not the outbound one. |
| LocalRouter.SendResponseToSender | app/services/local_router.py:248-266 | A reply is routed back with the roles swapped, in the same thread. |
| LocalRouter.Backoff | app/services/local_router.py:229-230 | The wait after the i-th transient failure is 2^i seconds. |
| LocalRouter.SettledAttempt | app/services/local_router.py:191-240 | Finds the first attempt that does not fail transiently. Every attempt before it failed transiently, and at most 3 attempts are made. |
| LocalRouter.Answer | app/services/local_router.py:193-227 | After a successful run the row stores the run's tool log and is marked processed. The reply is the run's final texts, or the no-response text. When the row belongs to a thread the reply is routed back to the original sender. |
| LocalRouter.RunAutoProcess | app/services/local_router.py:150-245 | Without a router it does nothing. Otherwise it retries only transient failures, waiting 1, 2, 4 seconds. It gives up with the ledger untouched after 3 transient failures and abandons the row on any other error. On the first successful run it applies the answer. The interaction context is restored afterwards. |
| LocalRouter.AllTransientSchedule | app/services/local_router.py:229-240 | When every attempt fails transiently the responder makes 3 attempts and waits 1, 2 and 4 seconds, the last wait included. |
| LocalRouter.RouteLocalMessageDirect | app/services/local_router.py:269-306 | Without runners the answer is "not initialized". Otherwise it is the agent's final texts joined by newlines, or the no-response text when there are none. Nothing is written. |
| A2aRpc.TurnBudget | app/routers/a2a_rpc.py:112 | The per-request auto-reply budget always lies in 1..10. A stored value in range is kept. A missing or zero value falls back to the configured default of 3, and values outside the range are clamped. |
| A2aRpc.LiteralTurnBudget | app/routers/auth_router.py:44 | The clamp with a literal 3 in place of the setting: always in 1-10, a stored value in range kept, 3 when missing or zero, out-of-range values clamped. |
| A2aRpc.ClampsAgree | app/routers/debug.py:125 | The literal-3 clamp and the configured clamp agree on every non-zero stored limit, and everywhere while the setting has its default of 3. |
| A2aRpc.ExtractText | app/routers/a2a_rpc.py:39-45 | A message that is not a dict has no text. Otherwise the text is the dict parts' texts joined by newlines and stripped, so it never starts or ends with whitespace. |
| A2aRpc.ExtractOneText | app/routers/a2a_rpc.py:39-45 | A message with one clean text part reads as exactly that text, whatever non-text parts surround it. |
| A2aRpc.PartTextsAppend | app/routers/a2a_rpc.py:41-44 | Part texts are collected in part order. |
| A2aRpc.FindByUrl | app/routers/a2a_rpc.py:121-128 | Finds a contact of the recipient stored under the sender's URL, and reports none exactly when no such row exists. |
| A2aRpc.SetStatusByUrl | app/routers/a2a_rpc.py:142-145 | Exactly the recipient's rows with that URL get the new status. |
| A2aRpc.AddedRowGetsStatus | app/routers/a2a_rpc.py:130-148 | After a new sender is added under a URL no row had, the status update reaches exactly the new row, and a lookup by that URL finds it. |
| A2aRpc.RegisterSender | app/routers/a2a_rpc.py:116-163 | No sender URL means pending, with nothing registered. An unknown URL is added as a contact, active exactly for a platform sender and pending otherwise. A known URL keeps its stored status, except that a platform sender is promoted to active. A platform sender always ends active. |
| A2aRpc.RecordInbound | app/routers/a2a_rpc.py:165-174 | The thread exists afterwards, and exactly one inbound unread row addressed to the recipient is appended, with the normalised sender type. |
| A2aRpc.Respond | app/routers/a2a_rpc.py:184-231 | The engine runs in the inbox channel with the turn budget and the thread set. The caller's context is restored afterwards. The reply is the run's final texts or the no-response text, stored as one outbound row of the recipient. |
| A2aRpc.RpcThread | app/routers/a2a_rpc.py:164 | A supplied thread id is used verbatim. Otherwise the id is derived from the recipient, the sender name and the sender URL, or the sender name when there is no URL. |
| A2aRpc.Accept | app/routers/a2a_rpc.py:113-232 | The inbound row is always written. The engine runs exactly when the sender's status is active and either the recipient has auto-inbox on or the sender is a platform user. Without a run the answer is "Message received." and one row is written. With a run the engine gets the recipient's clamped budget and a second, outbound row holds the reply. |
| A2aRpc.Rpc | app/routers/a2a_rpc.py:82-232 | A method other than message/send is a 400, and so is a message without text. An unknown recipient is a 404. None of these writes anything. Otherwise the request is accepted for the stripped, lower-cased handle. |
| A2aRpc.PlatformSenderAnswered | app/routers/a2a_rpc.py:176-180 | A sender whose URL names a platform user is always registered as active and always answered. |
| A2aRpc.NoUrlNeverAnswered | app/routers/a2a_rpc.py:117-118 | A sender without a URL stays pending, registers nothing and is never answered. |
| A2aInbound.ParseType | common/models.py:10-11 | A contact record accepts exactly the types personal and merchant. |
| A2aInbound.InboundThread | app/routers/a2a_inbound.py:126 | A supplied thread id is used verbatim. Otherwise the id is derived from the recipient, the stripped sender name and the stripped card URL. |
| A2aInbound.RegisterInbound | app/routers/a2a_inbound.py:72-124 | A sender URL already known keeps its stored status and writes no contact. An unknown URL is added with the card's description, or "External agent", and marked pending. A contact type the record rejects is an error before anything is written. A new sender is never active. |
| A2aInbound.AcceptInbound | app/routers/a2a_inbound.py:126-182 | One inbound row is always written. A reply is produced exactly when the sender's status is active and the recipient has auto-inbox on. A reply comes from a run with the clamped turn budget and the thread set, is stored as an outbound row, and is sent back to the sender's URL under the recipient's public agent card. |
| A2aInbound.HandleInbound | app/routers/a2a_inbound.py:52-182 | An unknown recipient is a 404 and writes nothing. An accepted message uses the stripped, lower-cased recipient and the stripped sender name and URL. |
| A2aInbound.EndpointsDiffer | app/routers/a2a_inbound.py:98-124 | The two external endpoints disagree on a platform user writing for the first time. The JSON-RPC endpoint registers it active and answers it; the inbound endpoint registers it pending and only queues the message. |
| A2aInbound.KnownSenderKeepsStatus | app/routers/a2a_inbound.py:121-122 | A known sender's stored status decides alone: the inbound endpoint writes no contact. |
| A2aClient.ClassifyCard | common/a2a_client.py:54-68 | A card using the old supportedInterfaces key stays raw, and so does one that fails validation. A card is typed exactly when it has neither. |
| A2aClient.FirstTypedMatch | common/a2a_client.py:90-96 | Finds the first additional interface with a JSON-RPC transport and a non-empty URL; every interface before it fails the test. None is found exactly when no interface passes. |
| A2aClient.FirstRawMatch | common/a2a_client.py:101-112 | Finds the first raw interface whose binding (protocolBinding, else protocol) names JSON-RPC and whose URL is non-empty. None is found exactly when no interface qualifies. |
| A2aClient.FindJsonRpcUrl | common/a2a_client.py:101-112 | Gives the stripped URL of that first interface, or nothing. The scan stops there even when that URL strips to nothing. |
| A2aClient.FirstEndpoint | common/a2a_client.py:125-130 | Finds the first endpoint whose binding names JSON-RPC or A2A and whose stripped URL is not blank. A blank URL does not stop this scan. |
| A2aClient.SplitScheme | common/a2a_client.py:80 | The scheme is the text before the first colon, lower-cased, and the rest follows that colon. With no scheme the whole string is the rest. |
| A2aClient.NetlocLength | common/a2a_client.py:80 | The network location runs up to the first '/', '?' or '#'. |
| A2aClient.SchemeOf | common/a2a_client.py:75-81 | A lower-case scheme before the first colon is split off unchanged, with the rest of the URL after it. |
| A2aClient.NetlocOf | common/a2a_client.py:75-81 | The network location of //host/path is the host. |
| A2aClient.BaseOfCardUrl | common/a2a_client.py:75-81 | The base URL of scheme://host/path is scheme://host: the well-known card path is dropped. |
| A2aClient.GetRpcUrl | common/a2a_client.py:84-137 | The endpoint URL is taken from the first source that yields one, in priority order. A typed card uses its JSON-RPC interface, else its own URL. A raw card tries supportedInterfaces, then supported_interfaces, then endpoints, then its url key, and finally the base of the card URL. |
| A2aClient.PlatformCardEndpoint | common/a2a_client.py:54-59 | A card shaped like the platform's own, with one JSON-RPC interface, resolves to that interface's URL whatever else it holds. |
| A2aClient.Texts | common/a2a_client.py:148-153 | The texts of the text parts in order; the list is empty exactly when no part is a text part. |
| A2aClient.ExtractText | common/a2a_client.py:144-173 | A message reads as its texts joined by newlines, or the empty-message text. A task reads as its status message's texts and then its artifacts' texts, or a marker naming the task state ("unknown" without a status). |
| A2aClient.SingleTextReadsBack | common/a2a_client.py:148-153 | A one-part text message reads back as exactly its text. |
| A2aClient.ArtifactTextsAppend | common/a2a_client.py:162-167 | Artifact texts are read in artifact order. |
| A2aClient.StatusFirst | common/a2a_client.py:155-170 | The status message's texts come before every artifact's. |
| A2aClient.ReadJsonResult | common/a2a_client.py:227-252 | Gives the reply text on the sender-metadata path. A falsy result is "no response". A message that validates is read as a message, and one that does not is read from its dict parts, stripped, or as the empty-message text. A task that validates is read as a task, and one that does not is the task-response marker. Any other value reads as its text form. |
| A2aClient.MessageAgent | common/a2a_client.py:268-307 | message_agent never fails. A failed card fetch or a failed send becomes "[Error contacting agent at url] error". Otherwise the endpoint is chosen from the card, and the reply is read through the metadata path exactly when some sender metadata is given. |
| Contacts.FindIndex | common/contacts.py:39-43 | Finds the first contact whose name equals the query ignoring case. None is found exactly when no contact matches. |
| Contacts.Find | common/contacts.py:39-43 | The contact found is in the book and matches the name ignoring case. Nothing is found exactly when no contact matches. |
| Contacts.FindByTag | common/contacts.py:45-46 | Exactly the contacts with a tag equal to the query ignoring case, in book order. |
| Contacts.FindByType | common/contacts.py:48-49 | Exactly the contacts of that type, in book order. |
| Contacts.Add | common/contacts.py:51-59 | A name already in the book, ignoring case, is refused and the book is unchanged. Otherwise the contact is appended. |
| Contacts.Remove | common/contacts.py:61-69 | Drops every contact whose name matches ignoring case and keeps the others in their order and with their multiplicity. The name is reported not found, with the book unchanged, exactly when nothing matched. |
| Contacts.AddRemove | common/contacts.py:51-69 | Adding a new name and removing it again leaves the book as it was, and in between the name finds the added contact. |
| Contacts.ApplyPatch | common/contacts.py:76-78 | Each given field replaces the contact's attribute; an absent field leaves it alone. |
| Contacts.Update | common/contacts.py:71-80 | An unknown name changes nothing. Otherwise the first match is patched in place and every other contact stays as it was. |
| Contacts.ProbeStatus | common/contacts.py:87-104 | A ping leaves the contact active exactly when the card fetch answers HTTP 200, and unreachable on any other status or an exception; never unknown. |
| Contacts.Ping | common/contacts.py:82-104 | An unknown name changes nothing. Otherwise only the first match gets the probed status. |
| DbContacts.ReadStatus | app/services/db_contacts.py:28-33 | A stored status reads, after strip and lower-casing, as active, unreachable or unknown. Anything else, pending included, reads as unknown. |
| DbContacts.ReadStatusRoundTrip | app/services/db_contacts.py:28-33 | Writing a status and reading it back gives the same status. |
| DbContacts.RowToContact | app/services/db_contacts.py:27-41 | A row reads as a contact with the same fields and its status read as above. |
| DbContacts.SelectByName | app/services/db_contacts.py:47 | A selection is a permutation of the qualifying rows, ordered by name. |
| DbContacts.All | app/services/db_contacts.py:43-52 | Exactly the owner's contacts, one per row, ordered by name. |
| DbContacts.FindRow | app/services/db_contacts.py:54-63 | Finds the first row of the owner whose name equals the query ignoring case. None is found exactly when there is no such row. |
| DbContacts.Find | app/services/db_contacts.py:54-63 | Nothing is found exactly when no row of the owner matches the name ignoring case; otherwise the result is such a row, read as a contact. |
| DbContacts.FindByTag | app/services/db_contacts.py:65-80 | Exactly the owner's rows having a tag equal to the query ignoring case, ordered by name. |
| DbContacts.FindByType | app/services/db_contacts.py:82-91 | Exactly the owner's rows of that type, ordered by name. |
| DbContacts.Add | app/services/db_contacts.py:93-114 | A row with exactly the same owner and name violates the unique key: it is refused and nothing is written. Otherwise the contact is appended with its status written out. |
| DbContacts.AddThenFind | app/services/db_contacts.py:93-114 | A name the owner does not yet have, in any case, is found again after the add. |
| DbContacts.CaseVariantInserted | app/services/db_contacts.py:93-114 | The unique key is case-sensitive while lookups are not. Adding "bob" next to "Bob" is accepted, and a lookup of "bob" then returns "Bob". |
| DbContacts.Remove | app/services/db_contacts.py:116-128 | Deletes exactly the owner's rows matching the name ignoring case. Every other row stays, in its order and with its multiplicity, so other owners' rows are untouched. Not found is reported exactly when nothing matched. |
| DbContacts.Update | app/services/db_contacts.py:130-155 | An unknown name writes nothing. Otherwise every owner row matching the name ignoring case gets the patched fields of the first match, with the status written back in its read form. |
| DbContacts.UpdateDropsPending | app/services/db_contacts.py:130-155 | An update that does not set the status turns a pending row into unknown, because the status is read and written back. |
| DbContacts.Ping | app/services/db_contacts.py:157-189 | An unknown name is reported and writes nothing, and so does a pending contact. Otherwise the probed URL is the contact's URL with platform://user/ resolved to the agent card, and only the status is updated to the probe's outcome. |
| DbContacts.OwnerIsolation | app/services/db_contacts.py:116-155 | Updates and removals never touch another owner's rows. |
| SharedTools.Tokens | personal_agents/shared_tools.py:80 | The query splits into non-empty runs of lower-case letters and digits. |
| SharedTools.Expansions | personal_agents/shared_tools.py:70-83 | Exactly the synonyms of the raw terms are added. |
| SharedTools.Terms | personal_agents/shared_tools.py:66-83 | The search terms are exactly the tokens of the stripped, lower-cased query plus their synonyms, each once. |
| SharedTools.TermScore | personal_agents/shared_tools.py:85-101 | One term scores (doubled to integers) 8 for an exact tag, else 5 for a tag containing it, plus 4 when the name contains it and 3 when the description does. The score is positive exactly when the term is non-empty and occurs in a tag, the name or the description, and it is at most 15. |
| SharedTools.Score | personal_agents/shared_tools.py:85-101 | A contact scores above zero exactly when some term matches it. |
| SharedTools.ScoreIgnoresCase | personal_agents/shared_tools.py:86-88 | Scoring ignores the letter case of the name and the description. |
| SharedTools.Ranked | personal_agents/shared_tools.py:103-108 | Exactly the positively scored contacts, highest score first. |
| SharedTools.RankedScores | personal_agents/shared_tools.py:103-108 | Every ranked entry carries its contact's own positive score. |
| SharedTools.RankedContacts | personal_agents/shared_tools.py:103-108 | The ranked contacts are exactly those with a positive score. |
| SharedTools.RankedNoneIff | personal_agents/shared_tools.py:103-111 | Nothing is ranked exactly when no contact scores. |
| SharedTools.SearchTerms | personal_agents/shared_tools.py:103-113 | For a non-empty query's terms, "none found" exactly when no contact scores; otherwise exactly the scoring contacts with their scores, highest first. |
| SharedTools.Search | personal_agents/shared_tools.py:64-113 | A query blank after stripping asks for a search term. Otherwise the result is either "none found", exactly when no contact scores, or exactly the scoring contacts, highest score first. |
| SharedTools.SynonymReach | personal_agents/shared_tools.py:64-113 | A query for "mobile" finds a contact tagged "phone" with the exact-tag score, through the synonym table. |
| SharedTools.MatchLines | personal_agents/shared_tools.py:112 | One listing line per match. |
| SharedTools.SplitTags | personal_agents/shared_tools.py:171 | An empty tag string gives no tags. Every tag is non-empty, stripped and free of commas. |
| SharedTools.SplitTagsStable | personal_agents/shared_tools.py:171 | Joining the parsed tags with commas and parsing again gives the same tags. |
| SharedTools.AddContact | personal_agents/shared_tools.py:131-179 | A blank URL is refused, and so is a URL that is neither platform://user/ nor a registered agent's. Neither refusal writes anything. A contact type other than personal or merchant is an error. Otherwise the contact is added with its parsed tags. A contact is only ever written under a trusted URL. |
| SharedTools.ContactUrl | personal_agents/shared_tools.py:235-238 | A platform://user/ address is rewritten to the user's agent card, and any other URL is used as is. |
| SharedTools.RemoteThreadId | personal_agents/shared_tools.py:240-243 | The active thread of the interaction context is reused; without one, the default agent-to-agent thread of sender and URL is used. |
| SharedTools.Spend | personal_agents/shared_tools.py:254-255 | An unlimited budget is not touched; a limited one is decremented. |
| SharedTools.LogSend | personal_agents/shared_tools.py:302-309 | One outbound row, addressed to the sending agent itself, is appended. |
| SharedTools.LogReply | personal_agents/shared_tools.py:334-341 | One inbound row holding the response is appended, sent by the contact, and typed merchant exactly for a merchant contact. |
| SharedTools.SendTo | personal_agents/shared_tools.py:233-342 | With the turn budget exhausted the tool answers "Turn limit reached" and calls nobody. In the chat channel it then writes nothing, while the autonomous path has already logged the outbound copy. Otherwise it spends one turn and calls the contact's agent with the sender's card, "personal" and the thread. It logs the outbound message and the reply on the pair's inbox thread, both addressed to the sending agent. |
| SharedTools.SendMessageToContact | personal_agents/shared_tools.py:220-342 | An unknown contact is reported and nothing changes. The budget is spent only when a call is made. Earlier ledger rows are never changed. |
| SharedTools.ReplyTypeNormalized | personal_agents/shared_tools.py:289 | A merchant contact's reply is stored as a merchant message and any other reply as a friend message. |
| SharedTools.BudgetBoundsCalls | personal_agents/shared_tools.py:251-255 | Within one interaction context, a series of sends makes no more remote calls than the turn budget allows. |
| SharedTools.ReadOnlyQueryCaseless | personal_agents/shared_tools.py:860-862 | The read-only gate (the query starts with SELECT or WITH after strip) ignores letter case. |
| SharedTools.NormalizeSentiment | personal_agents/shared_tools.py:383 | A memory's sentiment is one of the four known values; a known value is kept and anything else becomes neutral. |
| SharedTools.NormalizePostType | personal_agents/shared_tools.py:540-542 | A post type the tool knows is kept and anything else becomes note. |
| TaskStore.SetStatus | app/services/task_store.py:53-68 | A status update stamps the update time and sets the completion time exactly for completed and failed, so a cancelled task keeps its old one. The phase and summary change only when given, and nothing else changes. |
| TaskStore.Append | app/services/task_store.py:70-84 | A progress entry is appended at the end of the log with the current time, and only the log and the update time change. |
| TaskStore.Get | app/services/task_store.py:34-40 | The task with that id, or none exactly when no task has it. |
| TaskStore.Create | app/services/task_store.py:20-32 | The new task is pending, identified by 12 hex digits of a fresh UUID, with an empty log and both times set to now. An id already taken fails the primary key. |
| TaskStore.CreateThenGet | app/services/task_store.py:20-32 | The created task is the one returned by a get of its id. |
| TaskStore.UpdateStatus | app/services/task_store.py:53-68 | Only the task with that id is updated. |
| TaskStore.UpdateCompose | app/services/task_store.py:53-84 | Two successive updates of one task equal one update applying both changes in order. |
| TaskStore.GetAfterUpdate | app/services/task_store.py:53-84 | After an update, a get returns the updated task. |
| TaskStore.AppendProgress | app/services/task_store.py:70-84 | An unknown id changes nothing. Otherwise only that task's log grows, by one entry. |
| TaskStore.AppendKeepsLog | app/services/task_store.py:70-84 | The earlier log entries are kept and the new one comes last. |
| TaskStore.ListByOwner | app/services/task_store.py:42-51 | Exactly the owner's tasks, each as often as it is stored, newest first. |
| TaskStore.ListPending | app/services/task_store.py:86-94 | Exactly the pending tasks, each as often as it is stored, oldest first. |
| TaskRunner.PromptFor | app/services/task_runner.py:195-200 | An intent starting with "social pulse", ignoring case, gets the social pulse prompt. Otherwise one starting with "feed engagement" gets the feed prompt, and anything else the autonomous prompt. |
| TaskRunner.Vocabulary | app/services/task_runner.py:232-237 | The phase keywords follow what the intent contains: "feed engagement" first, then "social pulse", else the shopping phases. |
| TaskRunner.PromptAndVocabularyDisagree | app/services/task_runner.py:195-237 | The prompt tests a prefix while the keywords test containment. "social pulse: feed engagement" gets the pulse prompt but the feed keywords. |
| TaskRunner.PulseIntentAgrees | app/services/task_runner.py:195-237 | A pulse intent that does not mention feed engagement gets the pulse prompt and the pulse keywords. |
| TaskRunner.FeedIntentAgrees | app/services/task_runner.py:195-237 | An intent starting with "feed engagement" gets the feed prompt and the feed keywords. |
| TaskRunner.PhaseOf | app/services/task_runner.py:238-241 | A text sets a phase exactly when it contains some keyword. The phase is the first such keyword in list order, upper-cased. |
| Text.Snippet | app/services/task_runner.py:242 | A short text is kept whole. A long one is cut to its first n characters followed by "...". |
| Text.JoinPartAt | app/services/skill_service.py:1004 | In a string joined with a separator, the k-th part sits at the offset given by the lengths of the earlier parts and separators. |
| Text.JoinOffsetIncreasing | app/services/skill_service.py:1004 | With a non-empty separator, an earlier part ends strictly before a later part starts. |
| TaskRunner.Step | app/services/task_runner.py:225-255 | Each non-partial text, tool call and tool result appends exactly one progress line, and partial texts are ignored. Only a text containing a keyword moves the phase. The task's identity, summary and completion time are untouched, and a running task stays running. |
| TaskRunner.RunSteps | app/services/task_runner.py:216-255 | A whole run keeps the task's identity and summary and leaves a running task running. |
| TaskRunner.LogLinesCount | app/services/task_runner.py:225-255 | One log line per logged payload. |
| TaskRunner.RunStepsProgress | app/services/task_runner.py:225-255 | The log a run leaves depends only on the log before it and the payloads, not on the phase or status. |
| TaskRunner.RunProgressLog | app/services/task_runner.py:225-255 | Applying the payloads one by one appends their stamped log lines in order. |
| TaskRunner.RunStepsLog | app/services/task_runner.py:225-255 | The progress log grows by exactly the run's log lines, in order, each stamped now. |
| TaskRunner.RunStepsPhase | app/services/task_runner.py:238-241 | After a run the phase is that of the last text that named one, or the old phase when none did. |
| TaskRunner.Started | app/services/task_runner.py:183-184 | A started task is running in phase STARTING, and its log ends with "Task started: intent". |
| TaskRunner.ExecuteTask | app/services/task_runner.py:182-270 | A task ends completed exactly when the runner started and the run finished. It ends cancelled exactly when it was cancelled during the run, and failed when the runner could not be created or the run raised. Each ending has its phase and summary: DONE with the joined final texts (or the no-output text), CANCELLED with the summary kept, ERROR with the error. The completion time is set except on cancellation. |
| TaskRunner.RunStepsCount | app/services/task_runner.py:225-255 | A run adds one log entry per payload that is not a partial text. |
| TaskRunner.Close | app/services/task_runner.py:259-270 | Closing an execution appends exactly one entry, the outcome's own line. |
| TaskRunner.ExecuteLog | app/services/task_runner.py:182-270 | The log gets "Task started", then, once the runner exists, "Agent starting work...", one line per logged payload and a closing line for the outcome. |
| TaskRunner.Submit | app/services/task_runner.py:168-172 | A submitted task is registered as running. |
| TaskRunner.Done | app/services/task_runner.py:172 | A finished task leaves the registry. |
| TaskRunner.Cancel | app/services/task_runner.py:174-180 | Cancelling succeeds exactly for a registered task, whose status becomes cancelled. Otherwise nothing changes. |
| TaskRunner.Stop | app/services/task_runner.py:162-166 | Stopping cancels every registered task and empties the registry. |
| TaskRunner.SubmittedIsCancellable | app/services/task_runner.py:168-180 | A submitted task can be cancelled, and cancelling keeps its phase and completion time. |
| TaskRunner.DoneIsNotCancellable | app/services/task_runner.py:172-180 | A task that has finished can no longer be cancelled, and the store is untouched. |
| TaskRunner.Execute | app/services/task_runner.py:182-270 | An unknown task id changes nothing. Otherwise the stored task becomes the executed task. |
| Scheduler.ParseRecurrence | app/database.py:99 | A recurrence is accepted exactly when it is once, daily, weekly or monthly. |
| Scheduler.RecurrenceName | app/database.py:99 | Each recurrence's stored name parses back to that recurrence. |
| Scheduler.AdvanceTrigger | app/services/scheduler.py:92-104 | A trigger that parses moves on by 7 days for weekly, 30 days for monthly and one day for daily or once. A trigger that does not parse counts from now by one of those periods. The move is always at least a day past the base. |
| Scheduler.DueRows | app/services/scheduler.py:48-55 | A schedule is selected exactly when it is active and its trigger text sorts at or before the clock's text. The selection keeps the rows' order and multiplicity. |
| Scheduler.DueRowsUnique | app/services/scheduler.py:48-55 | Selecting due rows from rows with distinct ids gives rows with distinct ids. |
| Scheduler.IsoTriggerWaitsForNextDay | app/services/scheduler.py:49-53 | A trigger written as date, "T", time is not due at any time of that same date, because the due test compares text and "T" sorts after the space of the clock's format. |
| Scheduler.AfterFiring | app/services/scheduler.py:74-87 | A fired one-off is completed and keeps its trigger. A recurring schedule keeps its status and moves its trigger one period on from the snapshot's trigger. Both record the run time and the task id. |
| Scheduler.UpdateById | app/services/scheduler.py:77-87 | Only the fired schedule's row changes. |
| Scheduler.FireRowEffect | app/services/scheduler.py:68-90 | Firing fails exactly when the task cannot be created. Otherwise one task for the schedule's owner and intent is appended and submitted, and only that schedule's row is updated. |
| Scheduler.FiredStep | app/services/scheduler.py:59-90 | Firing one row and then a list of rows is firing the list with that row in front: tasks follow row order and each fired row is updated with its own task. |
| Scheduler.FiredSlice | app/services/scheduler.py:59-90 | The same step, stated for a stretch of the due list. |
| Scheduler.FireAllCount | app/services/scheduler.py:59-90 | The loop stops at some row of the due list, and it has an error exactly when it stops before the end. |
| Scheduler.FireAllStops | app/services/scheduler.py:68-72 | When the loop stops early, it is because creating the task for the row it stopped at failed. |
| Scheduler.FireAllFired | app/services/scheduler.py:59-90 | The rows before the stopping point have all fired, in order, one task each. |
| Scheduler.FireAllFresh | app/services/scheduler.py:68-72 | When every task id drawn is new, the loop runs to the end without error. |
| Scheduler.CheckDue | app/services/scheduler.py:48-90 | The due rows before the stopping point have fired in order, one task each. There is an error exactly when not all due rows fired, and then the id the next row drew was already taken. With nothing due, nothing changes. |
| Scheduler.Poll | app/services/scheduler.py:38-46 | An error in a poll is swallowed. The result is the world after some prefix of the due rows has fired. |
| Scheduler.PollFiresAll | app/services/scheduler.py:38-90 | When every id drawn is new, a poll fires every due row, in order. |
| Scheduler.OnceFiresOnce | app/services/scheduler.py:48-90 | A due one-off schedule fires one submitted task, records it, and is then no longer due. |
| Scheduler.RecurringCatchesUp | app/services/scheduler.py:83-104 | A daily schedule more than a day behind moves one day on from its old trigger rather than from now, so it stays due. |
| Scheduler.CreateSchedule | app/services/scheduler.py:108-127 | A new schedule is active, with a 12-hex id and the trigger as given, appended at the end. An unknown recurrence or an id already taken is rejected and nothing is written. |
| Scheduler.CreatedIsDue | app/services/scheduler.py:108-127 | A new schedule is due exactly when its trigger text sorts at or before the clock's text. |
| FeedStore.CreatePost | app/services/feed_store.py:21-58 | A post is created exactly for a known post type and visibility and a fresh "fp_" id of 12 hex digits. It goes at the end with the author's handle standing in for an empty display name, empty details when none are given and the current time. The other tables and the feed's invariants are kept. |
| FeedStore.FindPost | app/services/feed_store.py:60-66 | The post with that id, or none exactly when there is no such post. |
| FeedStore.ReactionCounts | app/services/feed_store.py:294-299 | Each reaction type present on the post maps to its count, and types with no reaction are absent. |
| FeedStore.MyReactions | app/services/feed_store.py:300-306 | With no viewer the list is empty. Otherwise it holds exactly the viewer's reaction types on the post. |
| FeedStore.ToggleReaction | app/services/feed_store.py:181-205 | An existing reaction of that user, type and post is removed ("removed"). Otherwise a new one is appended ("added"), which the reaction table's CHECK and foreign key allow only for a known type on an existing post. |
| FeedStore.ToggleAddThenRemove | app/services/feed_store.py:181-205 | Adding and then toggling again restores the reaction list exactly. |
| FeedStore.ToggleRemoveThenAdd | app/services/feed_store.py:181-205 | Removing and then toggling again adds the reaction back, so the set of reactions is unchanged. |
| FeedStore.AddComment | app/services/feed_store.py:209-231 | A comment is added exactly when the post exists and the parent, if any, is an existing comment. It gets the next id, with the author's handle standing in for an empty display name. The feed's invariants are kept. |
| FeedStore.DeleteComment | app/services/feed_store.py:247-260 | Only the comment's author can delete it, and otherwise nothing changes. A deletion cascades to the replies under it, keeps the order of the survivors and keeps the feed's invariants. |
| FeedStore.SurvivorsWellFormed | app/database.py:167-175 | After a cascading delete, every surviving reply still has its parent. |
| FeedStore.DeletePost | app/services/feed_store.py:164-177 | Only the post's author can delete it, and otherwise nothing changes. A deletion also removes the post's reactions and comments, and keeps the feed's invariants. |
| FeedStore.TreeKeepsComments | app/services/feed_store.py:310-321 | The comment tree holds every input comment exactly once. |
| FeedStore.TreePlaced | app/services/feed_store.py:310-321 | Every reply sits under the comment its parent id names. |
| FeedStore.TreeRoots | app/services/feed_store.py:310-321 | The roots are exactly the comments with no parent among the inputs, in input order. |
| FeedStore.CommentTree | app/services/feed_store.py:233-245 | A post's comment tree holds exactly its comments, each once and each under its parent. Its roots are the comments with no parent on that post. |
| FeedStore.EnrichPost | app/services/feed_store.py:270-292 | An enriched post carries the post's reaction counts, the viewer's reactions and its comment count. The original post is embedded exactly when the post names one that exists. |
| FeedStore.GetPost | app/services/feed_store.py:60-70 | None exactly when no post has that id. |
| FeedStore.RanksTotal | app/services/feed_store.py:78-111 | Every feed ordering is a total preorder. |
| FeedStore.FeedCandidates | app/services/feed_store.py:78-111 | The public posts, restricted to those older than `before` only for the newest-first sort. |
| FeedStore.FeedRows | app/services/feed_store.py:72-114 | The feed shows only public posts, in the sort's order. No post left out ranks above one shown, and at most `limit` are shown. A negative limit shows them all. |
| FeedStore.GetFeed | app/services/feed_store.py:72-114 | One enriched public post per feed row, in order. |
| FeedStore.UserRows | app/services/feed_store.py:149-162 | Only the author's posts, newest first, and none left out is newer than one shown. A negative limit shows every one of them, each once. A limit of zero or more shows exactly that many, or all of them when the author has fewer. |
| FeedStore.GetUserPosts | app/services/feed_store.py:149-162 | One enriched post of the author per row, in order. |
| Negotiation.Midpoint | common/negotiation.py:50 | The counter lies halfway between the offer and the list price, rounded to the cent, and above an offer below the list price. |
| Negotiation.EvaluateOffer | common/negotiation.py:29-64 | An offer is accepted exactly when it reaches the list price, or reaches the floor and is within 5% of the list price, the 5% decided exactly in cents. The accepted price is the list price or the offer. An offer under the floor is countered with the floor itself. Any other offer is countered with the larger of the floor and the midpoint of offer and list price, which lies above the offer and not above the list price. Nothing is ever rejected. |
| Negotiation.EvaluationWithinRange | common/negotiation.py:29-64 | Every price an evaluation names lies between the floor and the list price. |
| Negotiation.AcceptanceMonotone | common/negotiation.py:29-64 | Raising an accepted offer keeps it accepted. |
| Negotiation.StartNegotiation | common/negotiation.py:10-22 | A new session opens at round 1 with up to 3 rounds and the item's list price and offer. It is stored under the merchant and item and replaces only that key. |
| Negotiation.GetSession | common/negotiation.py:25-26 | The stored session for that merchant and item, or none exactly when there is none. |
| Negotiation.ProcessRound | common/negotiation.py:67-85 | A round records the offer and counts itself. Past the round limit the session expires with a final offer at the floor. Otherwise the offer is evaluated, and an acceptance marks the session accepted. |
| Negotiation.RunRoundsSpec | common/negotiation.py:67-85 | Over several rounds, each offer is evaluated until the limit and met with the floor after it. A run that goes past the limit ends expired. |
| Negotiation.SessionExpires | common/negotiation.py:10-85 | After the opening offer, two more offers are evaluated. Every later one gets the final offer, and the session ends expired. |
| Negotiation.NeverBelowFloor | common/negotiation.py:29-85 | No round ever names a price below the floor. |
| Grocery.SearchCatalog | external_agents/freshbite_grocery/tools.py:30-55 | Exactly the catalog items, in catalog order, that match some query word (when a query is given), the category ignoring case (when given) and the price cap (when positive). Nothing matching gives the no-products answer. |
| Grocery.BlankQueryFindsNothing | external_agents/freshbite_grocery/tools.py:34-38 | A query of spaces alone has no words, so nothing matches. |
| Grocery.NoFilterListsAll | external_agents/freshbite_grocery/tools.py:30-55 | With no filters the whole catalog is listed. |
| Grocery.FindItem | external_agents/freshbite_grocery/tools.py:58-74 | The first item whose id equals the given one ignoring case, or none exactly when no id does. |
| Grocery.FindIgnoresCase | external_agents/freshbite_grocery/tools.py:58-74 | Lookups by id ignore case. |
| Grocery.CheckInventory | external_agents/freshbite_grocery/tools.py:77-85 | Unknown exactly when no item has that id. Otherwise in stock or out of stock as the item says. |
| Grocery.RoundCents | external_agents/freshbite_grocery/tools.py:97 | Rounding hundredths of a cent to the nearest cent. |
| Grocery.BulkUnit | external_agents/freshbite_grocery/tools.py:96-98 | The bulk unit price is the larger of the floor and the discounted price rounded to the cent. It is never above the list price. |
| Grocery.QuotePrice | external_agents/freshbite_grocery/tools.py:88-106 | An unknown product gets no quote. A single item costs the list price. Two or more cost the bulk unit price at the given discount, or at the default discount when none is given. The total is the unit price times the quantity. |
| Grocery.BulkNeverDearer | external_agents/freshbite_grocery/tools.py:88-106 | Buying in bulk never raises the unit price. |
| Grocery.CheckPolicy | external_agents/freshbite_grocery/tools.py:109-125 | An unknown product gets no verdict. Otherwise the verdict and price are those of the offer's evaluation. |
| Grocery.NeverRefused | external_agents/freshbite_grocery/tools.py:123-124 | The REJECT answer is never given. |
| Skills.Seed | app/services/skill_service.py:819-850 | Seeding keeps the catalog as it was and appends, in order, each starter whose slug is not there yet. Afterwards every starter's slug is present. |
| Skills.SeedIdempotent | app/services/skill_service.py:819-850 | Seeding twice is the same as seeding once. |
| Skills.ListCatalog | app/services/skill_service.py:855-874 | Exactly the skills in the category (when given) whose name, description or tags contain the query ignoring case (when given), most downloaded first. |
| Skills.FindSkill | app/services/skill_service.py:877-883 | The skill with that slug, or none exactly when there is none. |
| Skills.InstallSkill | app/services/skill_service.py:920-945 | Installing fails exactly for a slug not in the catalog. Otherwise the user has the skill, enabled. A first install is appended, and a repeated one re-enables the existing row without adding one. |
| Skills.UninstallSkill | app/services/skill_service.py:948-958 | Exactly the user's installs of that skill are removed. |
| Skills.InstallThenUninstall | app/services/skill_service.py:920-958 | Installing and then uninstalling leaves what uninstalling alone leaves. |
| Skills.ToggleSkill | app/services/skill_service.py:961-971 | Only the user's install of that skill changes, and only its enabled flag. |
| Skills.SaveConfig | app/services/skill_service.py:974-984 | Only the user's install of that skill changes, and only its configuration. |
| Skills.UserInstalls | app/services/skill_service.py:899-906 | The user's install rows, exactly: every one of them and no other user's, newest install first. |
| Skills.UserSkills | app/services/skill_service.py:895-917 | Exactly the user's installs of catalog skills, each joined with its skill. |
| Skills.EnabledInstalls | app/services/skill_service.py:991-997 | Exactly the user's enabled install rows, oldest install first. |
| Skills.EnabledSkills | app/services/skill_service.py:987-999 | The user's enabled installs of catalogued skills with content, each joined with its skill, oldest install first. Every such install is listed, and nothing else is. |
| Skills.EnabledComplete | app/services/skill_service.py:991-998 | Every enabled install of the user whose skill is catalogued with content is among the enabled skills, joined with its catalog entry. |
| Skills.JoinedSkill | app/services/skill_service.py:991-998 | Each joined install is paired with the catalog skill of its slug. |
| Skills.JoinedComplete | app/services/skill_service.py:895-917 | The join keeps every install whose skill is in the catalog. |
| Skills.Instructions | app/services/skill_service.py:987-1006 | The instructions are empty exactly when no skill is enabled. Otherwise each enabled skill's section sits at its own place in the newline-joined text, in the order of the enabled list. |
| Skills.InstructionsInOrder | app/services/skill_service.py:991-1004 | Of two enabled skills, the one installed earlier has its section earlier in the instructions, and the two sections do not overlap. |
| Skills.InstructionsComplete | app/services/skill_service.py:991-1004 | Every enabled install of a catalogued skill with content has its section in the instructions. |
| Skills.ToolName | app/services/skill_service.py:1029 | A tool is named "apply_" plus the slug with dashes and slashes turned into underscores plus "_skill". |
| Skills.ToolNamesCollide | app/services/skill_service.py:1029 | Slugs "a-b", "a/b" and "a_b" get the same tool name. |
| Skills.SkillTools | app/services/skill_service.py:1009-1050 | One tool per enabled skill with content, in install order, each returning that skill's content. |
| Skills.ParseClawhubPath | app/services/skill_service.py:1067-1071 | A search hit is listed exactly when its path has four segments. Its slug is owner/skill and its name is the skill segment title-cased with dashes as spaces. |
| Skills.ClawhubPathRoundTrip | app/services/skill_service.py:1067-1071 | A path built from four slash-free segments lists the owner/skill slug. |
| Skills.ScanStopsAtClose | app/services/skill_service.py:1096-1101 | Lines after the closing "---" of the frontmatter are ignored. |
| Skills.LastNameWins | app/services/skill_service.py:1096-1105 | A later "name:" line overrides earlier ones. |
| Skills.ParseFrontmatter | app/services/skill_service.py:1093-1105 | Content without frontmatter gets the slug's last segment, title-cased, as its name and no description. |
| Skills.ImportFromClawhub | app/services/skill_service.py:1086-1119 | A new slug is appended with the parsed name and description. An existing one only gets its content replaced. |
| Skills.ReimportKeepsName | app/services/skill_service.py:1086-1119 | Importing a skill again keeps its name. |
| Auth.ValidateHandle | app/auth.py:16 | A handle is valid exactly when it has 3 to 20 characters, starts with an ASCII letter and continues with letters, digits or underscores. |
| Auth.AsWrittenAccepts | app/auth.py:45-46 | The validator as written accepts exactly the valid handles and the valid handles followed by one newline. |
| Auth.TrailingNewlineAccepted | app/auth.py:16 | "abc\n" passes the validator as written but is not a valid handle. |
| Auth.NormalizeHandle | app/routers/auth_router.py:52 | A normalised handle has no upper-case letters and does not end in whitespace. |
| Auth.NormalizedChecksAgree | app/routers/auth_router.py:52-54 | On a stripped handle, the validator as written and the intended one agree. |
| Auth.BearerToken | app/auth.py:51-55 | A header not starting with "Bearer " is rejected with 401. Otherwise the token is the rest of the header. |
| Auth.BearerRoundTrip | app/auth.py:51-55 | The token put after "Bearer " is the token read back. |
| Auth.CurrentUser | app/auth.py:49-65 | Every failure is a 401. The user returned is the row whose id the token's subject names, and a decodable token for an existing user always succeeds. |
| Auth.FirstUser | app/auth.py:58-62 | The first row with that id, or none exactly when no row has it. |
| AuthRouter.Signup | app/routers/auth_router.py:50-79 | Signup fails in order: an invalid handle with 400, then a taken email and then a taken handle with 409. It succeeds exactly when the normalised handle is valid and free, the lower-cased email is free and the id is new. The new user is appended with the lower-cased email, the normalised handle and the password's hash. |
| AuthRouter.SignupKeepsUnique | app/database.py:14-16 | Signup keeps emails, handles and ids unique. |
| AuthRouter.FindByEmail | app/routers/auth_router.py:86 | The user with that email, or none exactly when there is none. |
| AuthRouter.Login | app/routers/auth_router.py:82-97 | Login succeeds exactly when a user has the lower-cased email and the password matches the stored hash. Either failure gives the same 401. |
| AuthRouter.SignupThenLogin | app/routers/auth_router.py:50-97 | A new user can log in with the password and the email in any case. |
| AuthRouter.CheckHandle | app/routers/auth_router.py:105-116 | An invalid format is reported exactly when the normalised handle is not valid. Otherwise the handle is reported free exactly when no user has it. |
| AuthRouter.CheckAgreesWithSignup | app/routers/auth_router.py:50-116 | A handle reported free can sign up when the email and id are free too. |
| AuthRouter.OrText | app/routers/auth_router.py:36-43 | An empty value falls back to the default, and a non-empty one is kept. |
| AuthRouter.OrEmpty | app/routers/auth_router.py:37-38 | An unset instructions or skills column reads as the empty text, and a set one as stored. |
| AuthRouter.View | app/routers/auth_router.py:31-47 | The user as shown has the stored id, email, handle and display name, the stored instructions and skills (empty when unset), the stored social and feed frequencies or "weekly" and "daily" when they are empty, the stored turn limit clamped to 1-10 with the literal 3 when unset or zero, and the stored auto-inbox, social, feed and onboarding flags. |
| AuthRouter.ClampStable | app/routers/auth_router.py:44 | Clamping an already clamped turn budget changes nothing. |
| AuthRouter.FrequencyDelta | app/routers/auth_router.py:197-202 | Daily is one day, weekly 7 days and monthly 30 days. Any other frequency gets the caller's fallback. |
| AuthRouter.Upsert | app/routers/auth_router.py:191-224 | Disabling deletes the schedule with that id. Enabling fails exactly for a frequency the table rejects. Otherwise there is one active schedule with that id, the trigger, the intent and the frequency. Every other schedule is kept, and ids stay unique. |
| AuthRouter.UpsertIdempotent | app/routers/auth_router.py:191-258 | Upserting the same schedule twice equals upserting it once. |
| AuthRouter.IdsDiffer | app/routers/auth_router.py:192-228 | The social pulse and feed engagement schedules of a user never share an id. |
| AuthRouter.Updated | app/routers/auth_router.py:149-171 | The stored profile takes the body's instructions, skills, auto-inbox, social and feed flags. Its frequencies are the body's, or "weekly" and "daily" when those are empty. Its turn limit is the body's when in 1-10, 3 when the body gives 0, and always in 1-10. The account's id, email, handle, password hash, display name and onboarding flag are kept. |
| AuthRouter.UpdateAgentProfile | app/routers/auth_router.py:145-188 | The update fails exactly when an enabled schedule's frequency is rejected by the table. Otherwise only the caller's row changes, to its updated form, and the profile shown is the view of that row. Each of the caller's two schedules exists exactly when enabled. When enabled, every row with its id is active, with its fixed intent, the body's frequency (weekly or daily when empty) as recurrence, and a trigger that period past the clock's time, a week or a day when the frequency is unknown. No other schedule changes, and unique schedule ids stay unique. |
| AuthRouter.UpsertBoth | app/routers/auth_router.py:191-258 | Fails exactly when an enabled schedule's frequency does not parse. Otherwise a disabled schedule is gone, and an enabled one is present. Every row with an enabled schedule's id is active, with the given intent, trigger and parsed recurrence. Other rows are kept, and unique ids stay unique. |
| AuthRouter.ProfileReadsBack | app/routers/auth_router.py:145-188 | A successful update reports back exactly what the body set: instructions and skills (empty when unset), flags, defaulted frequencies and the clamped turn limit, for the caller's own id, email and handle. |
| Debug.RequireDebug | app/routers/debug.py:28-30 | The debug endpoints are open exactly when DEBUG_SIMULATION is "1". Otherwise they answer 403. |
| Slugs.CollapseShape | app/routers/debug.py:34 | The result uses only a-z, 0-9 and single dashes, is empty exactly when the input is, and keeps the letters and digits. It starts with the input's first character when that is kept, and with a dash otherwise. |
| Slugs.CollapseAppend | app/routers/debug.py:34 | Cut after a kept character, a string collapses piece by piece: the collapse of the whole is the two collapses joined. |
| Slugs.CollapseRun | app/routers/debug.py:34 | A run of characters outside a-z and 0-9, followed by nothing or a kept character, becomes exactly one dash in front of the rest's collapse. |
| Slugs.StripOrFriend | app/routers/debug.py:34-35 | Trimming the dashes of a collapsed string leaves a non-empty slug with no dash at either end and the same letters and digits. When it has none the result is "friend". |
| Slugs.Slug | app/routers/debug.py:33-35 | A slug is never empty, uses only a-z, 0-9 and single inner dashes, and keeps the stripped lower-cased value's letters and digits in order. It is "friend" when there are none. |
| Slugs.SlugIdempotent | app/routers/debug.py:33-35 | Slugging a slug changes nothing. |
| Debug.RouteLocal | app/routers/debug.py:46-74 | The route needs debug mode, then a non-empty sender (400), then an existing sender (400), then an existing target (404). It succeeds exactly when all hold, and then routes the message between the normalised handles. |
| Debug.RouteLocalWritesTwoCopies | app/routers/debug.py:46-74 | A routed message writes the sender's copy and then the target's copy. |
| Debug.RunSocialPulse | app/routers/debug.py:77-100 | The run needs debug mode and then social pulse enabled (400). It creates one pending task for the user, submits it and returns its id. |
| Debug.Summarized | app/routers/debug.py:158-160 | The previous reply is put on one line and stripped. It is kept whole up to 300 characters and is never longer than 303. |
| Debug.Shorten | app/routers/debug.py:159-160 | Text up to 300 characters is kept. Longer text becomes a prefix of itself, with its trailing blanks removed, followed by "...". Everything the cut removes from the first 300 characters is whitespace, and the kept prefix does not end in whitespace. |
| Debug.Exchange | app/routers/debug.py:167-190 | One turn appends the owner's outbound message and then the contact's inbound reply, both in the thread. |
| Debug.RunThread | app/routers/debug.py:150-193 | A thread runs the full turn limit unless a reply starts with the error mark. Then it stops after that turn and reports that reply as the error. No earlier reply starts with the mark, and without an error the last reply does not either. Each turn adds the outbound text and the reply to the owner's thread. |
| Debug.ContactName | app/routers/debug.py:138 | The stripped contact name, or "Friend" when that is empty. |
| Debug.SimulateContact | app/routers/debug.py:136-205 | One contact's thread is named from the owner and the slugged contact name, and it is opened in the ledger. Every message it writes goes to the owner. |
| Debug.SimulateAll | app/routers/debug.py:135-205 | One thread per contact with a resolvable card, in order, and nothing written for any other. |
| Debug.TargetsExactly | app/routers/debug.py:115-140 | The simulated contacts are exactly the owner's active personal contacts whose card URL is set and resolves. |
| Debug.SimulateFriends | app/routers/debug.py:103-205 | Without debug mode the answer is 403. Otherwise the turn limit is the stored budget clamped to 1-10, with 3 when unset. There is one thread per target contact in name order, and only the owner's inbox grows, by two messages a turn. |
| Simulation.SenderName | app/services/simulation.py:182 | The display name when it is set and non-empty, otherwise the handle. |
| Simulation.ConvId | app/services/simulation.py:116-118 | A simulated conversation id starts with "conv_". |
| Simulation.ConvIdSymmetric | app/services/simulation.py:116-118 | The id is the same whichever side is named first, and ignores case. |
| Simulation.DeliverFriendMessage | app/services/simulation.py:149-171 | A friend message writes the sender's outbound copy and then the recipient's inbound copy, in the pair's shared conversation, which is opened. |
| Simulation.FriendMessage | app/services/simulation.py:173-197 | With fewer than two users nothing is written. Otherwise the drawn sender's message goes to the drawn recipient under the sender's display name. |
| Simulation.FriendMessageTwoUsers | app/services/simulation.py:176-183 | Between two distinct users, the two copies go to different inboxes. |
| Simulation.PromoTarget | app/services/simulation.py:125-135 | The first user, in user order, who has the merchant as a contact, or none exactly when no user has. |
| Simulation.MerchantPromo | app/services/simulation.py:120-147 | A promo goes to that first user alone, inbound from the merchant in their shared conversation. With no such user nothing is written. |
| Simulation.PromoAtMostOne | app/services/simulation.py:120-147 | A cycle writes at most one promo, and only to a user who has the merchant as a contact. |
| Simulation.Act | app/services/simulation.py:102-114 | With no users a cycle writes nothing. Any cycle only appends, at most two messages, and keeps the ledger's invariants. |
| Simulation.RunLoop | app/services/simulation.py:90-100 | The loop only appends to the ledger and keeps its invariants. |
| Simulation.ErrorsSkipped | app/services/simulation.py:94-99 | A cycle that raised leaves no trace, so the loop equals the loop over the cycles that succeeded. |
| Simulation.CancelStops | app/services/simulation.py:96-97 | Cancellation ends the loop, and no cycle after it runs. |
| History.Search | common/history.py:25-34 | Exactly the entries, in stored order, whose lower-cased summary and details contain some lower-cased word of the query. |
| History.BlankQueryFindsNothing | common/history.py:28-33 | A query of whitespace alone finds nothing. |
| History.All | common/history.py:36-37 | A copy of every entry in stored order. |
| History.Add | common/history.py:39-44 | The entry is appended after the existing ones, which are unchanged. |
| History.SearchAfterAdd | common/history.py:25-44 | After an add, a search finds what it found before, followed by the new entry when it matches. |
| DbHistory.Owned | app/services/db_history.py:53 | Exactly the owner's rows. |
| DbHistory.ByTimeTotal | app/services/db_history.py:53-65 | Timestamp order, ascending and descending, is a total preorder. |
| DbHistory.All | app/services/db_history.py:49-58 | Exactly the owner's entries, oldest timestamp first. |
| DbHistory.AllWithId | app/services/db_history.py:60-70 | Exactly the owner's rows with their ids, newest timestamp first. |
| DbHistory.Search | app/services/db_history.py:72-81 | Exactly the owner's entries that match some query word, oldest first, one for each matching row. |
| DbHistory.SearchWithId | app/services/db_history.py:83-90 | Exactly the owner's matching rows with their ids, newest first, each matching row once. |
| DbHistory.SearchesAgree | app/services/db_history.py:72-90 | Both searches find the same entries. |
| DbHistory.GetById | app/services/db_history.py:92-101 | The row with that id if the owner holds it, or none exactly when the owner holds no such row. |
| DbHistory.Delete | app/services/db_history.py:149-162 | Deleting succeeds exactly for a row the owner holds. Only that row goes, and a failed delete changes nothing. |
| DbHistory.DeleteTwice | app/services/db_history.py:149-162 | Deleting the same entry again fails. |
| DbHistory.Patched | app/services/db_history.py:175-178 | Each field given replaces the stored one, and fields not given are kept. |
| DbHistory.Update | app/services/db_history.py:164-186 | Updating succeeds exactly for a row the owner holds, and then patches only that row. A failed update, or one with no fields, changes nothing. |
| DbHistory.UpdateIdempotent | app/services/db_history.py:164-186 | Applying the same update twice equals applying it once. |
| DbHistory.UpdateThenGet | app/services/db_history.py:92-186 | After an update, reading the entry back gives the patched entry. |
| DbHistory.Add | app/services/db_history.py:103-147 | The entry is stored for the owner with the next id. A sharable entry is also posted publicly to the feed under the owner's handle, with its summary, type and history id. No other entry touches the feed. |
| DbHistory.PostedIffSharable | app/services/db_history.py:125-126 | For a valid post type and a fresh post id, the feed grows exactly when the entry is sharable. |
| DbHistory.AddInvisibleToOthers | app/services/db_history.py:103-126 | Adding an entry does not change what any other owner sees. |

## Left out

- The reasoning engine. The ADK runners, run configuration and prompt texts are not modelled. A run is the finite sequence of payloads it produced, and the texts a task or schedule is given are parameters.
- Environment settings (app/config.py) are fixed at their defaults. `A2A_MAX_TURNS` (app/config.py:30) is `A2aRpc.DefaultMaxTurns`, 3. `PUBLIC_BASE_URL` (app/config.py:17) is `Platform.PublicBaseUrl`, "http://localhost:8080". Another `A2A_MAX_TURNS` changes only `A2aRpc.TurnBudget` (app/routers/a2a_rpc.py:112, app/routers/a2a_inbound.py:69). The profile view, the profile update and the debug simulation use a literal 3 (app/routers/auth_router.py:44, app/routers/auth_router.py:168, app/routers/debug.py:125), modelled by `A2aRpc.LiteralTurnBudget`. `A2aRpc.ClampsAgree` states where the two can differ. Another `PUBLIC_BASE_URL` changes every card and endpoint URL, and the model does not follow it.
- An exception raised by the reasoning engine is not modelled. In A2aRpc.Respond, A2aRpc.Accept and A2aInbound.AcceptInbound (app/routers/a2a_rpc.py:206-219, app/routers/a2a_inbound.py:126-182) it would surface as an HTTP 500 after the inbound row is written, with the ambient context restored. The model's runs always finish.
- SQLite mechanics. Connections, SQL text, migrations (app/database.py, app/migrate.py) and `datetime('now')` are not modelled. Tables are sequences in insertion order, and the CHECK lists are datatype domains. Rows whose ORDER BY keys are equal are taken to come in insertion order under ASC and in reverse insertion order under DESC; SQLite promises neither.
- Datetimes. Times stored by the ledgers are integers. A listing ordered by `created_at` is modelled as insertion order (or its reverse): the stored `created_at` is taken never to decrease along a table. In the source it is the database's own `datetime('now')` at insert, so this holds while that clock does not run backwards. The model's `now` argument to `Inbox.Deliver` and `FeedStore.AddComment` is not constrained this way. The account's `created_at`, which `_user_out` also returns (app/routers/auth_router.py:46), is not part of `AuthRouter.UserOut`. Schedule triggers are kept as the text the caller gave, and the clock's reading, its `strftime` text and `datetime.fromisoformat` are parameters of the scheduler (`Scheduler.Clock`).
- Logging. `logger` calls are not modelled, including the one-line message preview in personal_agents/shared_tools.py:244-246.
- HTTP, the network and the a2a SDK. FastAPI routing, SSE streaming and the thin routers that only wrap the stores are not modelled. Every remote reply, fetched card and HTTP status is a parameter, and so is the SDK's card validation.
- Concurrency. Fire-and-forget tasks, the semaphore, sleeps and cooperative cancellation are not modelled. The ambient context is an explicit value, the runner's registry is a set of task ids, and the retry backoff is returned as the list of delays it would sleep.
- Foreign functions. uuid, sha1, bcrypt, JWT encoding and decoding, `json.dumps`/`json.loads`, `str.title` and the regex engine are parameters or specified functions. Only ASCII case mapping and whitespace are modelled.
- Files. The JSON files of the history store and the contact book (load and save) and the grocery catalog and policy files are not modelled: each store is its list, and the bulk discount is a parameter.
- `get_stats` and `get_recent_agents` (app/services/feed_store.py:116-147): read-only aggregate counts for the landing page, with no rule beyond the SQL aggregate.
- `get_product_details` and `get_customer_reviews` (external_agents/freshbite_grocery/tools.py:58-74, 128-138): text renderings of the id lookup that `Grocery.FindItem` models.
- `browse_clawhub` (app/services/skill_service.py:1055-1083): the GitHub search itself is network I/O. Only its path parsing is modelled, as `Skills.ParseClawhubPath`. `_fetch_and_cache_content` does nothing and is not modelled.
- `me`, `complete_onboarding` and `update_profile` (app/routers/auth_router.py:100-142): single-column updates with no rule beyond the write.
- `ContactRegistry.all` (common/contacts.py:36-37): values are immutable here, so the copy it returns is the list itself.
- Simulation message templates and `random.choice`/`random.sample`: each cycle's draws are fields of its `Action`. The user and contact lists are fixed for a whole run, where the source re-reads them each cycle.
- `message_agent`'s own sender card in the debug simulation: the remote agent is the parameter `agent(url, conversation, text)`.
- Negotiation.EvaluateOffer: the within-5% test `offer >= price * 0.95` is decided exactly in cents. The source multiplies binary floats, and the product can land just above the exact value. At a list price of 16.60 and an offer of 15.77, 16.60 * 0.95 evaluates to 15.770000000000001, so the source counters where the model accepts. `Negotiation.ProcessRound`, `Negotiation.NeverBelowFloor` and `Grocery.CheckPolicy` inherit this.
- Inbox.GetAll: newest first is modelled as reverse insertion order. Rows of equal `created_at` come out newest-inserted first, and a `created_at` that decreased along the table would be listed out of time order (see Datetimes).
- FeedStore.GetComments: oldest first is modelled as insertion order, under the same assumption on `created_at`.
- Skills.ListCatalog: the tag text searched is `json.dumps` of the tags only for printable ASCII tags without `"` or `\`. The escapes `json.dumps` writes for other characters are not modelled.
- Negotiation.Midpoint: rounds a half cent up. The source rounds a binary float with `round(x, 2)`, whose direction at an exact half depends on the float's representation.
- Grocery.RoundCents: the same half-cent convention for the bulk price. The source rounds a binary float.
- Grocery.BulkUnit: the discount is a whole percent, as in the policy file. A fractional discount is not modelled.
- SharedTools.Ranked: does not state that contacts with equal scores keep their stored order (Python's sort is stable). It states only that scores do not increase.
- Skills.UserSkills: does not state the newest-install-first order of the join. It states membership in both directions.
- Simulation.Act: states only the bounds of one cycle. What each kind of cycle writes is stated by `Simulation.FriendMessage` and `Simulation.MerchantPromo`.
- Simulation.RunLoop: states only that the loop appends and keeps the ledger valid. Its interaction with errors and cancellation is stated by `Simulation.ErrorsSkipped` and `Simulation.CancelStops`.
- Scheduler.CheckDue: the poll snapshot takes the due rows once, and each row is fired from the snapshot. A unique constraint failure on a task id ends the poll, which is the only error the model raises. A failure in the row update after the task was created is not modelled.
- Simulation.ErrorsSkipped: a raising cycle is modelled as writing nothing. In the source (app/services/simulation.py:149-171, app/services/inbox.py:210) the thread and the outbound copy are committed before a later delivery raises, and those rows stay.
- A2aClient.SplitScheme: the stripping of leading and trailing blanks and control characters, and the removal of tabs and newlines, that `urlparse` does first are not modelled.
- SQL `LIKE` patterns are modelled as plain substring tests: a `%` or `_` in a query is taken literally.
- `query_mssql`'s database access: only its read-only gate (`SharedTools.ReadOnlyQueryCaseless`) is modelled.

Behaviours modelled as the code does them, where a reader might expect otherwise:

- The retry loop of the auto-reply sleeps `2**attempt` seconds after every transient failure, the third included (app/services/local_router.py:229-230).
- `db_contacts.update` turns a stored `pending` status into `unknown`, because it writes back the status read through `_row_to_contact` (app/services/db_contacts.py:130-155).
- The contacts table's unique key on owner and name is exact, while lookups ignore case. An add can therefore insert a case variant of an existing name (`DbContacts.CaseVariantInserted`).
- `/inbound` raises on an unknown sender type before writing anything, and it never activates a platform sender (`A2aInbound.EndpointsDiffer`).
- A grocery search query of spaces alone is non-empty but has no words, so it matches nothing (`Grocery.BlankQueryFindsNothing`).
- `evaluate_offer` never rejects, so the REJECT answer of `check_negotiation_policy` cannot occur (`Grocery.NeverRefused`).
- `a2a_max_turns` is read as `x or 3`, so a stored 0 becomes 3 before the clamp to 1-10.
- A schedule with an unknown frequency fails the table's CHECK, so the whole profile update is rolled back (`AuthRouter.UpdateAgentProfile`).
- The prompt of a task is chosen by prefix and its phase keywords by containment, so the two can disagree (`TaskRunner.PromptAndVocabularyDisagree`).
- The due test compares trigger text with the clock's "YYYY-MM-DD HH:MM:SS" text. A trigger written with a `T` between date and time therefore fires only once its date has passed (`Scheduler.IsoTriggerWaitsForNextDay`).
- A recurring schedule more than one period behind moves one period on from its old trigger and fires again at the next poll (`Scheduler.RecurringCatchesUp`).

## Findings

| source | as written | input that shows it | evidently intended | confidence | as-written member | corrected member |
|---|---|---|---|---|---|---|
| app/auth.py:16 | `_HANDLE_RE.match` with a pattern ending in `$`, which also matches just before a final newline | the handle "abc\n" is accepted | the whole string matches the handle pattern, as `fullmatch` or `\Z` would require | not executed | Auth.ValidateHandleAsWritten (shown by Auth.TrailingNewlineAccepted) | Auth.ValidateHandle |

The endpoints strip the handle before validating it (app/routers/auth_router.py:52, 107), so no stored handle can end in a newline (`Auth.NormalizedChecksAgree`). Any other caller of `validate_handle` is exposed. The rest of the model uses `Auth.ValidateHandle`.

=== FILE: a2a_client.dfy ===
/** The agent-to-agent client (common/a2a_client.py): which JSON-RPC
    endpoint a fetched agent card names, how the text of a reply is read,
    and how `message_agent` turns every failure into a reply string. The
    HTTP exchanges are parameters: the card as fetched and the reply as
    received. */
module A2aClient {
  import opened Wrappers
  import opened Text
  import opened Platform
  import Seqs

  /** The arguments of `message_agent`; an absent optional argument is "". */
  datatype RemoteCall = RemoteCall(url: string, message: string, senderName: string, senderCard: string,
                                   senderType: string, conversationId: string)

  // ─── Agent cards ─────────────────────────────────────────────

  /** An interface entry of a raw card (`supportedInterfaces`,
      `supported_interfaces`). */
  datatype Iface = Iface(protocolBinding: Option<string>, protocol: Option<string>, url: Option<string>)

  /** An entry of a raw card's `endpoints`. */
  datatype Endpoint = Endpoint(protocolBinding: Option<string>, protocol: Option<string>,
                               endpoint: Option<string>, url: Option<string>)

  /** The card JSON as fetched. `supportedInterfaces` is `None` when the key
      is absent; the other lists are empty when absent. */
  datatype RawCard = RawCard(
    supportedInterfaces: Option<seq<Iface>>,
    supportedInterfacesSnake: seq<Iface>,
    endpoints: seq<Endpoint>,
    url: Option<string>,
    name: Option<string>)

  datatype TypedIface = TypedIface(transport: Option<string>, url: Option<string>)

  /** A card that validated against the SDK's `AgentCard`. */
  datatype TypedCard = TypedCard(url: string, additionalInterfaces: seq<TypedIface>, name: string)

  datatype Card = Typed(typed: TypedCard) | Raw(raw: RawCard)

  /** `fetch_agent_card` after the download: a card using the old
      `supportedInterfaces` key stays raw, so does one that fails
      validation (`validated` is `None`). */
  function ClassifyCard(data: RawCard, validated: Option<TypedCard>): (r: Card)
    ensures data.supportedInterfaces.Some? ==> r == Raw(data)
    ensures validated.None? ==> r == Raw(data)
    ensures r.Typed? <==> data.supportedInterfaces.None? && validated.Some?
    ensures r.Typed? ==> r.typed == validated.value
  {
    if data.supportedInterfaces.Some? then Raw(data)
    else if validated.Some? then Typed(validated.value)
    else Raw(data)
  }

  predicate NamesJsonRpc(binding: string) {
    Contains(Lower(binding), "jsonrpc")
  }

  predicate TypedMatch(i: TypedIface) {
    NamesJsonRpc(OrElse(i.transport, "")) && OrElse(i.url, "") != ""
  }

  /** The first additional interface with a JSON-RPC transport and a URL. */
  function FirstTypedMatch(ifaces: seq<TypedIface>): (r: Option<nat>)
    ensures r.Some? ==> r.value < |ifaces| && TypedMatch(ifaces[r.value])
    ensures r.Some? ==> forall j :: 0 <= j < r.value ==> !TypedMatch(ifaces[j])
    ensures r.None? <==> forall j :: 0 <= j < |ifaces| ==> !TypedMatch(ifaces[j])
  {
    Seqs.FirstIndex(ifaces, TypedMatch)
  }


  function IfaceBinding(i: Iface): string {
    OrElse(i.protocolBinding, OrElse(i.protocol, ""))
  }

  predicate RawMatch(i: Iface) {
    NamesJsonRpc(IfaceBinding(i)) && OrElse(i.url, "") != ""
  }

  function FirstRawMatch(ifaces: seq<Iface>): (r: Option<nat>)
    ensures r.Some? ==> r.value < |ifaces| && RawMatch(ifaces[r.value])
    ensures r.Some? ==> forall j :: 0 <= j < r.value ==> !RawMatch(ifaces[j])
    ensures r.None? <==> forall j :: 0 <= j < |ifaces| ==> !RawMatch(ifaces[j])
  {
    Seqs.FirstIndex(ifaces, RawMatch)
  }


  /** `_find_jsonrpc_url`: the stripped URL of the first matching interface.
      The scan stops there even when that URL strips to "". */
  function FindJsonRpcUrl(ifaces: seq<Iface>): (r: string)
    ensures FirstRawMatch(ifaces).None? ==> r == ""
    ensures FirstRawMatch(ifaces).Some? ==> r == Strip(ifaces[FirstRawMatch(ifaces).value].url.value)
  {
    match FirstRawMatch(ifaces)
    case None => ""
    case Some(k) => Strip(ifaces[k].url.value)
  }

  function EndpointUrl(e: Endpoint): string {
    Strip(OrElse(e.endpoint, OrElse(e.url, "")))
  }

  function EndpointBinding(e: Endpoint): string {
    Lower(OrElse(e.protocolBinding, OrElse(e.protocol, "")))
  }

  predicate NamesRpc(b: string) {
    Contains(b, "jsonrpc") || Contains(b, "a2a")
  }

  predicate EndpointMatch(e: Endpoint) {
    NamesRpc(EndpointBinding(e)) && EndpointUrl(e) != ""
  }

  /** The first JSON-RPC or A2A endpoint whose URL is not blank; unlike
      the interface lists, a blank URL does not stop the scan. */
  function FirstEndpoint(eps: seq<Endpoint>): (r: Option<nat>)
    ensures r.Some? ==> r.value < |eps| && EndpointMatch(eps[r.value])
    ensures r.Some? ==> forall j :: 0 <= j < r.value ==> !EndpointMatch(eps[j])
    ensures r.None? <==> forall j :: 0 <= j < |eps| ==> !EndpointMatch(eps[j])
  {
    Seqs.FirstIndex(eps, EndpointMatch)
  }


  // ─── URL parsing ─────────────────────────────────────────────

  predicate IsSchemeChar(c: char) {
    IsLetter(c) || IsDigit(c) || c == '+' || c == '-' || c == '.'
  }

  /** Python's `urlsplit` scheme rule: the text before the first ':' when it
      starts with a letter and holds scheme characters only (lower-cased);
      otherwise no scheme. */
  function SplitScheme(s: string): (r: (string, string))
    ensures r.0 == "" ==> r.1 == s
    ensures r.0 != "" ==>
      var i := |s| - |r.1| - 1;
      0 < i < |s| && s[i] == ':' && ':' !in s[..i] && s[i + 1..] == r.1 && r.0 == Lower(s[..i])
  {
    if ':' in s then
      var i := IndexOf(s, ':');
      if i > 0 && IsLetter(s[0]) && forall k :: 0 <= k < i ==> IsSchemeChar(s[k]) then
        (Lower(s[..i]), s[i + 1..])
      else ("", s)
    else ("", s)
  }

  predicate NetlocEnd(c: char) {
    c == '/' || c == '?' || c == '#'
  }

  /** Length of the prefix without '/', '?' or '#'. */
  function NetlocLength(s: string): (n: nat)
    ensures n <= |s|
    ensures forall k :: 0 <= k < n ==> !NetlocEnd(s[k])
    ensures n == |s| || NetlocEnd(s[n])
  {
    if |s| == 0 || NetlocEnd(s[0]) then 0 else 1 + NetlocLength(s[1..])
  }

  /** The network location: after a leading "//", up to the next '/', '?'
      or '#'. */
  function Netloc(rest: string): string {
    if StartsWith(rest, "//") then rest[2..][..NetlocLength(rest[2..])] else ""
  }

  /** `_derive_base_url`: `scheme://netloc`. */
  function DeriveBaseUrl(cardUrl: string): string {
    var (scheme, rest) := SplitScheme(cardUrl);
    scheme + "://" + Netloc(rest)
  }

  lemma {:induction false} NetlocLengthOf(host: string, path: string)
    requires forall k :: 0 <= k < |host| ==> !NetlocEnd(host[k])
    requires path == [] || path[0] == '/'
    ensures NetlocLength(host + path) == |host|
    decreases |host|
  {
    if |host| > 0 {
      assert (host + path)[1..] == host[1..] + path;
      NetlocLengthOf(host[1..], path);
    } else {
      assert host + path == path;
    }
  }

  /** A lower-case scheme before the first ':' is split off as it is. */
  lemma SchemeOf(scheme: string, rest: string)
    requires |scheme| > 0
    requires forall k :: 0 <= k < |scheme| ==> IsLowerLetter(scheme[k])
    ensures SplitScheme(scheme + ":" + rest) == (scheme, rest)
  {
    var u := scheme + ":" + rest;
    assert u[|scheme|] == ':';
    assert ':' !in scheme by {
      forall k | 0 <= k < |scheme| ensures scheme[k] != ':' {
        assert IsLowerLetter(scheme[k]);
      }
    }
    var i := IndexOf(u, ':');
    assert u[..|scheme|] == scheme;
    assert i == |scheme|;
    forall k | 0 <= k < i ensures IsSchemeChar(u[k]) {
      assert u[k] == scheme[k];
    }
    assert IsLetter(u[0]) by {
      assert u[0] == scheme[0];
    }
    LowerNoUpper(scheme) by {
      forall k | 0 <= k < |scheme| ensures !IsUpper(scheme[k]) {
        assert IsLowerLetter(scheme[k]);
      }
    }
    assert u[i + 1..] == rest;
  }

  /** The network location of "//host/path" is the host. */
  lemma NetlocOf(host: string, path: string)
    requires forall k :: 0 <= k < |host| ==> !NetlocEnd(host[k])
    requires path == [] || path[0] == '/'
    ensures Netloc("//" + host + path) == host
  {
    var rest := "//" + host + path;
    assert StartsWith(rest, "//");
    assert rest[2..] == host + path;
    NetlocLengthOf(host, path);
    assert (host + path)[..|host|] == host;
  }

  /** A card URL `scheme://host/path` has the base `scheme://host`: the
      path, here the well-known card path, is dropped. */
  lemma BaseOfCardUrl(scheme: string, host: string, path: string)
    requires |scheme| > 0
    requires forall k :: 0 <= k < |scheme| ==> IsLowerLetter(scheme[k])
    requires forall k :: 0 <= k < |host| ==> !NetlocEnd(host[k])
    requires path == [] || path[0] == '/'
    ensures DeriveBaseUrl(scheme + "://" + host + path) == scheme + "://" + host
  {
    var rest := "//" + host + path;
    assert scheme + "://" + host + path == scheme + ":" + rest;
    SchemeOf(scheme, rest);
    NetlocOf(host, path);
  }

  // ─── Choosing the endpoint ───────────────────────────────────

  /** `_get_rpc_url`. A validated card: its first JSON-RPC interface with a
      URL, else its `url`. A raw card: the first source that gives a
      non-blank URL among `supportedInterfaces`, `supported_interfaces`,
      `endpoints` and `url`, else the base of the card URL. */
  function GetRpcUrl(card: Card, cardUrl: string): (r: string)
    ensures card.Typed? && FirstTypedMatch(card.typed.additionalInterfaces).Some? ==>
      r == Strip(card.typed.additionalInterfaces[FirstTypedMatch(card.typed.additionalInterfaces).value].url.value)
    ensures card.Typed? && FirstTypedMatch(card.typed.additionalInterfaces).None? ==> r == Strip(card.typed.url)
    ensures card.Raw? && FindJsonRpcUrl(card.raw.supportedInterfaces.GetOr([])) != "" ==>
      r == FindJsonRpcUrl(card.raw.supportedInterfaces.GetOr([]))
    ensures card.Raw? && FindJsonRpcUrl(card.raw.supportedInterfaces.GetOr([])) == ""
                      && FindJsonRpcUrl(card.raw.supportedInterfacesSnake) != "" ==>
      r == FindJsonRpcUrl(card.raw.supportedInterfacesSnake)
    ensures card.Raw? && FindJsonRpcUrl(card.raw.supportedInterfaces.GetOr([])) == ""
                      && FindJsonRpcUrl(card.raw.supportedInterfacesSnake) == ""
                      && FirstEndpoint(card.raw.endpoints).Some? ==>
      r == EndpointUrl(card.raw.endpoints[FirstEndpoint(card.raw.endpoints).value])
    ensures card.Raw? && FindJsonRpcUrl(card.raw.supportedInterfaces.GetOr([])) == ""
                      && FindJsonRpcUrl(card.raw.supportedInterfacesSnake) == ""
                      && FirstEndpoint(card.raw.endpoints).None? ==>
      r == if OrElse(card.raw.url, "") != "" then Strip(card.raw.url.value) else DeriveBaseUrl(cardUrl)
  {
    match card
    case Typed(t) =>
      (match FirstTypedMatch(t.additionalInterfaces)
       case Some(k) => Strip(t.additionalInterfaces[k].url.value)
       case None => Strip(t.url))
    case Raw(c) =>
      var fromOld := FindJsonRpcUrl(c.supportedInterfaces.GetOr([]));
      var fromSnake := FindJsonRpcUrl(c.supportedInterfacesSnake);
      if fromOld != "" then fromOld
      else if fromSnake != "" then fromSnake
      else match FirstEndpoint(c.endpoints)
        case Some(k) => EndpointUrl(c.endpoints[k])
        case None => if OrElse(c.url, "") != "" then Strip(c.url.value) else DeriveBaseUrl(cardUrl)
  }

  /** The platform's own cards are typed as raw (they carry
      `supportedInterfaces`), and their one JSON-RPC interface is the
      endpoint chosen, whatever else the card holds. */
  lemma PlatformCardEndpoint(rpcUrl: string, data: RawCard, validated: Option<TypedCard>, cardUrl: string)
    requires rpcUrl != "" && rpcUrl[0] !in Whitespace && rpcUrl[|rpcUrl| - 1] !in Whitespace
    requires data.supportedInterfaces == Some([Iface(Some("JSONRPC"), None, Some(rpcUrl))])
    ensures GetRpcUrl(ClassifyCard(data, validated), cardUrl) == rpcUrl
  {
    var i := Iface(Some("JSONRPC"), None, Some(rpcUrl));
    assert Lower("JSONRPC") == "jsonrpc";
    ContainsSelf("jsonrpc");
    assert RawMatch(i);
    assert FirstRawMatch([i]) == Some(0);
    StripCharsEnds(rpcUrl, Whitespace);
  }

  // ─── Reading replies ─────────────────────────────────────────

  /** A message part: only text parts carry text. */
  datatype Part = TextPart(text: string) | OtherPart

  datatype TaskStatus = TaskStatus(state: string, message: Option<seq<Part>>)

  datatype Artifact = Artifact(parts: seq<Part>)

  /** The two reply kinds of the protocol. */
  datatype Reply =
    | MessageReply(parts: seq<Part>)
    | TaskReply(status: Option<TaskStatus>, artifacts: seq<Artifact>)

  const EmptyMessage: string := "[Empty message from agent]"

  /** The texts of the text parts, in order. */
  function Texts(parts: seq<Part>): (r: seq<string>)
    ensures |r| <= |parts|
    ensures (forall k :: 0 <= k < |parts| ==> !parts[k].TextPart?) <==> r == []
    decreases |parts|
  {
    if |parts| == 0 then []
    else (if parts[0].TextPart? then [parts[0].text] else []) + Texts(parts[1..])
  }

  function ArtifactTexts(arts: seq<Artifact>): seq<string>
    decreases |arts|
  {
    if |arts| == 0 then [] else Texts(arts[0].parts) + ArtifactTexts(arts[1..])
  }

  /** The texts of a task: its status message's first, then each
      artifact's. */
  function TaskTexts(status: Option<TaskStatus>, arts: seq<Artifact>): seq<string> {
    (if status.Some? && status.value.message.Some? then Texts(status.value.message.value) else [])
    + ArtifactTexts(arts)
  }

  function NoTextInTask(state: string): string {
    "[No text in task response — status=" + state + "]"
  }

  /** `_extract_text_from_result`. */
  function ExtractText(r: Reply): (out: string)
    ensures r.MessageReply? && Texts(r.parts) == [] ==> out == EmptyMessage
    ensures r.MessageReply? && Texts(r.parts) != [] ==> out == Join(Texts(r.parts), "\n")
    ensures r.TaskReply? && TaskTexts(r.status, r.artifacts) != [] ==> out == Join(TaskTexts(r.status, r.artifacts), "\n")
    ensures r.TaskReply? && TaskTexts(r.status, r.artifacts) == [] ==>
      out == NoTextInTask(if r.status.Some? then r.status.value.state else "unknown")
  {
    match r
    case MessageReply(parts) =>
      var texts := Texts(parts);
      if texts == [] then EmptyMessage else Join(texts, "\n")
    case TaskReply(status, arts) =>
      var texts := TaskTexts(status, arts);
      if texts != [] then Join(texts, "\n")
      else NoTextInTask(if status.Some? then status.value.state else "unknown")
  }

  /** A one-part text message reads back as its text. */
  lemma SingleTextReadsBack(t: string)
    ensures ExtractText(MessageReply([TextPart(t)])) == t
  {
    assert Texts([TextPart(t)]) == [t] by {
      assert [TextPart(t)][1..] == [];
    }
  }

  lemma {:induction false} ArtifactTextsAppend(a: seq<Artifact>, b: seq<Artifact>)
    ensures ArtifactTexts(a + b) == ArtifactTexts(a) + ArtifactTexts(b)
    decreases |a|
  {
    if |a| > 0 {
      assert (a + b)[1..] == a[1..] + b;
      ArtifactTextsAppend(a[1..], b);
    } else {
      assert a + b == b;
    }
  }

  /** The status message's texts come before every artifact's. */
  lemma StatusFirst(state: string, msg: seq<Part>, arts: seq<Artifact>)
    requires Texts(msg) != []
    ensures var out := ExtractText(TaskReply(Some(TaskStatus(state, Some(msg))), arts));
            out == Join(Texts(msg) + ArtifactTexts(arts), "\n")
  {
  }

  // ─── Sending ─────────────────────────────────────────────────

  /** A JSON part of a reply that did not validate. */
  datatype JsonPart = JsonDict(text: Option<string>) | JsonOther

  /** The `result` of the JSON-RPC response to the hand-built request.
      `validated` is the SDK's reading of it, `None` when validation
      fails. */
  datatype JsonResult =
    | Falsy
    | WithParts(parts: seq<JsonPart>, validatedMessage: Option<seq<Part>>)
    | WithTask(validatedTask: Option<Reply>)
    | Other(repr: string)

  const NoResponse: string := "[No response from agent]"
  const TaskFallback: string := "[Task response from agent]"

  function JsonTexts(parts: seq<JsonPart>): (r: seq<string>)
    ensures |r| <= |parts|
    decreases |parts|
  {
    if |parts| == 0 then []
    else (if parts[0].JsonDict? then [parts[0].text.GetOr("")] else []) + JsonTexts(parts[1..])
  }

  /** The reply text of `send_a2a_message` on the path that sends sender
      metadata. */
  function ReadJsonResult(res: JsonResult): (out: string)
    ensures res.Falsy? ==> out == NoResponse
    ensures res.WithParts? && res.validatedMessage.Some? ==> out == ExtractText(MessageReply(res.validatedMessage.value))
    ensures res.WithParts? && res.validatedMessage.None? ==>
      out == (if Strip(Join(JsonTexts(res.parts), "\n")) != "" then Strip(Join(JsonTexts(res.parts), "\n")) else EmptyMessage)
    ensures res.WithTask? && res.validatedTask.Some? && res.validatedTask.value.TaskReply? ==>
      out == ExtractText(res.validatedTask.value)
    ensures res.WithTask? && (res.validatedTask.None? || !res.validatedTask.value.TaskReply?) ==> out == TaskFallback
    ensures res.Other? ==> out == res.repr
  {
    match res
    case Falsy => NoResponse
    case WithParts(parts, validated) =>
      if validated.Some? then ExtractText(MessageReply(validated.value))
      else
        var joined := Strip(Join(JsonTexts(parts), "\n"));
        if joined != "" then joined else EmptyMessage
    case WithTask(validated) =>
      if validated.Some? && validated.value.TaskReply? then ExtractText(validated.value) else TaskFallback
    case Other(repr) => repr
  }

  /** Does the request carry sender metadata (any of the four optional
      arguments truthy)? */
  predicate HasMetadata(call: RemoteCall) {
    call.senderName != "" || call.senderCard != "" || call.senderType != "" || call.conversationId != ""
  }

  function ErrorReply(url: string, e: string): string {
    "[Error contacting agent at " + url + "] " + e
  }

  /** What was received: the JSON result of a hand-built request, or the
      SDK transport's reply. */
  datatype Received = Json(result: JsonResult) | Sdk(reply: Reply)

  /** `message_agent`: fetch the card, choose the endpoint, send, read the
      reply. It never fails: a failed fetch or send becomes the error
      reply. A received value of the other path's kind than the call's
      metadata selects is read as a failure of the send. */
  function MessageAgent(call: RemoteCall, fetched: Result<(RawCard, Option<TypedCard>), string>,
                        received: Result<Received, string>): (r: (Option<string>, string))
    ensures fetched.Err? ==> r == (None, ErrorReply(call.url, fetched.error))
    ensures fetched.Ok? ==> r.0 == Some(GetRpcUrl(ClassifyCard(fetched.value.0, fetched.value.1), call.url))
    ensures fetched.Ok? && received.Err? ==> r.1 == ErrorReply(call.url, received.error)
    ensures fetched.Ok? && received.Ok? && HasMetadata(call) && received.value.Json? ==>
      r.1 == ReadJsonResult(received.value.result)
    ensures fetched.Ok? && received.Ok? && !HasMetadata(call) && received.value.Sdk? ==>
      r.1 == ExtractText(received.value.reply)
  {
    match fetched
    case Err(e) => (None, ErrorReply(call.url, e))
    case Ok((data, validated)) =>
      var rpcUrl := GetRpcUrl(ClassifyCard(data, validated), call.url);
      match received
      case Err(e) => (Some(rpcUrl), ErrorReply(call.url, e))
      case Ok(Json(res)) =>
        if HasMetadata(call) then (Some(rpcUrl), ReadJsonResult(res))
        else (Some(rpcUrl), ErrorReply(call.url, "unexpected reply"))
      case Ok(Sdk(reply)) =>
        if HasMetadata(call) then (Some(rpcUrl), ErrorReply(call.url, "unexpected reply"))
        else (Some(rpcUrl), ExtractText(reply))
  }
}

=== FILE: a2a_inbound.dfy ===
/** The legacy `/inbound` endpoint for external agents
    (app/routers/a2a_inbound.py). Unlike the JSON-RPC endpoint it never
    activates a sender: every new sender is registered pending, platform
    users included, and a reply is sent only to an active contact of a
    recipient with auto-inbox on. The fetched card's description and the
    engine run are parameters. */
module A2aInbound {
  import opened Wrappers
  import opened Text
  import opened Platform
  import opened Inbox
  import opened InteractionContext
  import opened ConversationIds
  import EventSerializer
  import Contacts
  import DbContacts
  import A2aClient
  import Seqs
  import opened A2aRpc

  /** The request body; `senderType` defaults to "personal" upstream. */
  datatype InboundBody = InboundBody(
    recipientHandle: string,
    senderName: string,
    agentCardUrl: string,
    message: string,
    senderType: string,
    conversationId: Option<string>)

  /** The state after a handled message. `call` is the reply sent back to
      the sender, `None` when the message was only queued. */
  datatype Received = Received(
    ledger: Ledger,
    contacts: seq<DbContacts.ContactRow>,
    ctx: Context,
    conversationId: string,
    status: string,
    engineCtx: Option<Context>,
    call: Option<A2aClient.RemoteCall>)

  /** The contact type a `Contact` record accepts. */
  function ParseType(raw: string): (r: Option<Contacts.ContactType>)
    ensures r.Some? <==> raw == "personal" || raw == "merchant"
    ensures r == Some(Contacts.Merchant) <==> raw == "merchant"
  {
    if raw == "personal" then Some(Contacts.Personal)
    else if raw == "merchant" then Some(Contacts.Merchant)
    else None
  }

  function InboundSender(body: InboundBody): string {
    if Strip(body.senderName) != "" then Strip(body.senderName) else "External Agent"
  }

  /** The thread: the supplied id, else one derived from recipient, sender
      and card URL. */
  function InboundThread(body: InboundBody, recipient: string, sha1: string -> string): (r: string)
    ensures OrElse(body.conversationId, "") != "" ==> r == body.conversationId.value
    ensures OrElse(body.conversationId, "") == "" ==>
      r == ExternalThreadId(recipient, InboundSender(body), Strip(body.agentCardUrl), sha1)
  {
    OrElse(body.conversationId, ExternalThreadId(recipient, InboundSender(body), Strip(body.agentCardUrl), sha1))
  }

  /** The contact status of the sender and the contacts after it: a URL
      already known keeps its stored status; an unknown one is added and
      marked pending. A type the contact record rejects fails before any
      write. */
  function RegisterInbound(rows: seq<DbContacts.ContactRow>, recipient: string, senderName: string, url: string,
                           senderType: string, cardDescription: Option<string>)
    : (r: Result<Registered, HttpError>)
    ensures FindByUrl(rows, recipient, url).Some? ==>
      r == Ok(Registered(rows, rows[FindByUrl(rows, recipient, url).value].status))
    ensures FindByUrl(rows, recipient, url).None? && ParseType(senderType).None? ==> r.Err?
    ensures FindByUrl(rows, recipient, url).None? && ParseType(senderType).Some? ==>
      var c := Contacts.Contact(senderName, ParseType(senderType).value, url,
                                OrElse(cardDescription, "External agent"), ["external"], Contacts.Unknown);
      r == Ok(Registered(SetStatusByUrl(DbContacts.Add(rows, recipient, c).0, recipient, url, "pending"), "pending"))
    ensures r.Ok? && FindByUrl(rows, recipient, url).None? ==> r.value.status == "pending"
  {
    match FindByUrl(rows, recipient, url)
    case Some(k) => Ok(Registered(rows, rows[k].status))
    case None =>
      match ParseType(senderType)
      case None => Err(HttpError(500, "invalid contact type"))
      case Some(t) =>
        var c := Contacts.Contact(senderName, t, url, OrElse(cardDescription, "External agent"), ["external"], Contacts.Unknown);
        Ok(Registered(SetStatusByUrl(DbContacts.Add(rows, recipient, c).0, recipient, url, "pending"), "pending"))
  }

  /** The message once its sender is registered: one inbound row, then a
      reply only to an active contact of a recipient with auto-inbox on. */
  function AcceptInbound(user: User, l: Ledger, reg: Registered, ctx: Context, recipient: string,
                         senderName: string, url: string, conv: string, senderType: string, message: string,
                         run: seq<EventSerializer.Payload>, now: int): (r: Received)
    ensures r.contacts == reg.contacts && r.status == reg.status
    ensures r.conversationId == conv && r.ctx == ctx
    ensures |r.ledger.rows| > |l.rows| && r.ledger.rows[..|l.rows|] == l.rows
    ensures r.ledger.rows[|l.rows|] == Message(l.nextId, conv, recipient, senderName, NormalizeSenderType(senderType),
                                               Inbound, message, Unread, [], now, None)
    ensures r.call.Some? <==> reg.status == "active" && user.autoInboxEnabled
    ensures r.call.None? ==> |r.ledger.rows| == |l.rows| + 1 && r.engineCtx.None?
    ensures r.call.Some? ==>
      var reply := EventSerializer.Reply(run, NoResponse);
      && |r.ledger.rows| == |l.rows| + 2
      && r.engineCtx == Some(Context("inbox", Some(TurnBudget(user.maxTurns)), Some(conv)))
      && r.ledger.rows[|l.rows| + 1] == Message(l.nextId + 1, conv, recipient, recipient, Friend, Outbound,
                                                reply, Unread, [], now, None)
      && r.call.value == A2aClient.RemoteCall(url, reply, recipient, AgentCardUrl(recipient), "personal", conv)
    ensures Valid(l) ==> Valid(r.ledger)
  {
    var l1 := RecordInbound(l, conv, recipient, senderName, senderType, message, now);
    if reg.status != "active" || !user.autoInboxEnabled then
      Received(l1, reg.contacts, ctx, conv, reg.status, None, None)
    else
      var turn := Respond(l1, ctx, recipient, conv, TurnBudget(user.maxTurns), run, now);
      Seqs.PrefixTrans(l.rows, l1.rows, turn.ledger.rows);
      var call := A2aClient.RemoteCall(url, turn.reply, recipient, AgentCardUrl(recipient), "personal", conv);
      Received(turn.ledger, reg.contacts, turn.ctx, conv, reg.status, Some(turn.engineCtx), Some(call))
  }

  /** `inbound_a2a_message`: an unknown recipient is a 404 and a rejected
      contact type an error, both before anything is written; otherwise
      the message is accepted. Recipient, sender name and URL are
      stripped first, the recipient lower-cased. */
  function HandleInbound(users: map<string, User>, l: Ledger, contacts: seq<DbContacts.ContactRow>, ctx: Context,
                         body: InboundBody, cardDescription: Option<string>, sha1: string -> string,
                         run: seq<EventSerializer.Payload>, now: int): (r: Result<Received, HttpError>)
    ensures Lower(Strip(body.recipientHandle)) !in users ==> r == Err(HttpError(404, "Recipient not found"))
    ensures r.Ok? ==>
      var recipient := Lower(Strip(body.recipientHandle));
      var reg := RegisterInbound(contacts, recipient, InboundSender(body), Strip(body.agentCardUrl),
                                 body.senderType, cardDescription);
      && recipient in users
      && reg.Ok?
      && r.value == AcceptInbound(users[recipient], l, reg.value, ctx, recipient, InboundSender(body),
                                  Strip(body.agentCardUrl), InboundThread(body, recipient, sha1),
                                  body.senderType, body.message, run, now)
    ensures r.Err? ==> r.error.code in {404, 500}
  {
    var recipient := Lower(Strip(body.recipientHandle));
    if recipient !in users then Err(HttpError(404, "Recipient not found"))
    else
      match RegisterInbound(contacts, recipient, InboundSender(body), Strip(body.agentCardUrl), body.senderType, cardDescription)
      case Err(e) => Err(e)
      case Ok(reg) =>
        Ok(AcceptInbound(users[recipient], l, reg, ctx, recipient, InboundSender(body), Strip(body.agentCardUrl),
                         InboundThread(body, recipient, sha1), body.senderType, body.message, run, now))
  }

  /** The two endpoints disagree on a platform user writing for the first
      time: the JSON-RPC endpoint registers the sender active and answers
      it, `/inbound` registers it pending and only queues the message. */
  lemma EndpointsDiffer(users: map<string, User>, l: Ledger, contacts: seq<DbContacts.ContactRow>, ctx: Context,
                        h: string, body: InboundBody, p: Params, text: string, cardDescription: Option<string>,
                        sha1: string -> string, run: seq<EventSerializer.Payload>, now: int)
    requires PlainHandle(h)
    requires body.agentCardUrl == UserScheme + h
    requires SenderUrl(p) == UserScheme + h
    requires body.senderType == "personal"
    requires Lower(Strip(body.recipientHandle)) in users
    requires FindByUrl(contacts, Lower(Strip(body.recipientHandle)), UserScheme + h).None?
    ensures var recipient := Lower(Strip(body.recipientHandle));
            var viaRpc := Accept(users[recipient], l, contacts, ctx, recipient, p, text, sha1, run, now);
            var viaInbound := HandleInbound(users, l, contacts, ctx, body, cardDescription, sha1, run, now);
            && viaRpc.status == "active" && viaRpc.engineCtx.Some?
            && viaInbound.Ok? && viaInbound.value.status == "pending" && viaInbound.value.call.None?
  {
    var raw := UserScheme + h;
    SchemeShape(h);
    assert raw[|raw| - 1] == h[|h| - 1];
    StripCharsEnds(raw, Whitespace);
    assert Strip(body.agentCardUrl) == raw;
    NewSenderQueued(users, l, contacts, ctx, body, cardDescription, sha1, run, now);
    SchemeRoundTrip(h);
    PlatformSenderAnswered(users[Lower(Strip(body.recipientHandle))], l, contacts, ctx,
                           Lower(Strip(body.recipientHandle)), p, text, sha1, run, now);
  }

  /** `/inbound` registers a sender it does not know, of an accepted type,
      as pending and only queues its message. */
  lemma NewSenderQueued(users: map<string, User>, l: Ledger, contacts: seq<DbContacts.ContactRow>, ctx: Context,
                        body: InboundBody, cardDescription: Option<string>, sha1: string -> string,
                        run: seq<EventSerializer.Payload>, now: int)
    requires Lower(Strip(body.recipientHandle)) in users
    requires FindByUrl(contacts, Lower(Strip(body.recipientHandle)), Strip(body.agentCardUrl)).None?
    requires body.senderType == "personal" || body.senderType == "merchant"
    ensures var r := HandleInbound(users, l, contacts, ctx, body, cardDescription, sha1, run, now);
            r.Ok? && r.value.status == "pending" && r.value.call.None?
  {
  }

  /** A known sender's stored status decides alone: `/inbound` writes no
      contact and answers only an active contact of a recipient with
      auto-inbox on. */
  lemma KnownSenderKeepsStatus(users: map<string, User>, l: Ledger, contacts: seq<DbContacts.ContactRow>,
                               ctx: Context, body: InboundBody, cardDescription: Option<string>,
                               sha1: string -> string, run: seq<EventSerializer.Payload>, now: int)
    requires Lower(Strip(body.recipientHandle)) in users
    requires FindByUrl(contacts, Lower(Strip(body.recipientHandle)), Strip(body.agentCardUrl)).Some?
    ensures var r := HandleInbound(users, l, contacts, ctx, body, cardDescription, sha1, run, now);
            var k := FindByUrl(contacts, Lower(Strip(body.recipientHandle)), Strip(body.agentCardUrl)).value;
            r.Ok? && r.value.contacts == contacts && r.value.status == contacts[k].status
  {
  }
}

=== FILE: a2a_rpc.dfy ===
/** The JSON-RPC 2.0 `message/send` endpoint through which external agents
    reach a platform user (app/routers/a2a_rpc.py), together with the
    pieces the legacy `/inbound` endpoint shares with it: the recipient
    lookup, the turn budget, contact lookup by card URL, the inbound
    ledger copy and the engine reply. The engine run is the sequence of
    payloads it produced; `sha1` maps a string to its hex digest. */
module A2aRpc {
  import opened Wrappers
  import opened Text
  import opened Platform
  import opened Inbox
  import opened InteractionContext
  import opened ConversationIds
  import EventSerializer
  import Contacts
  import DbContacts
  import Seqs

  /** The configured default of `a2a_max_turns` (app/config.py). */
  const DefaultMaxTurns: int := 3

  /** A platform user as the endpoints read it. */
  datatype User = User(handle: string, autoInboxEnabled: bool, maxTurns: Option<int>)

  /** `max(1, min(10, int(x or A2A_MAX_TURNS)))`: a stored 0 counts as
      unset. */
  function TurnBudget(maxTurns: Option<int>): (r: int)
    ensures 1 <= r <= 10
    ensures maxTurns.Some? && 1 <= maxTurns.value <= 10 ==> r == maxTurns.value
    ensures maxTurns.None? || maxTurns.value == 0 ==> r == DefaultMaxTurns
    ensures maxTurns.Some? && maxTurns.value < 0 ==> r == 1
    ensures maxTurns.Some? && maxTurns.value > 10 ==> r == 10
  {
    var x := if maxTurns.Some? && maxTurns.value != 0 then maxTurns.value else DefaultMaxTurns;
    if x < 1 then 1 else if x > 10 then 10 else x
  }

  /** `max(1, min(10, int(x or 3)))`: the clamp the profile endpoints and
      the debug simulation apply, with the literal 3 where `TurnBudget`
      has the configured default. */
  function LiteralTurnBudget(maxTurns: Option<int>): (r: int)
    ensures 1 <= r <= 10
    ensures maxTurns.Some? && 1 <= maxTurns.value <= 10 ==> r == maxTurns.value
    ensures maxTurns.None? || maxTurns.value == 0 ==> r == 3
    ensures maxTurns.Some? && maxTurns.value < 0 ==> r == 1
    ensures maxTurns.Some? && maxTurns.value > 10 ==> r == 10
  {
    var x := if maxTurns.Some? && maxTurns.value != 0 then maxTurns.value else 3;
    if x < 1 then 1 else if x > 10 then 10 else x
  }

  /** The two clamps agree on every stored non-zero limit, whatever
      `A2A_MAX_TURNS` is set to; with it at its default of 3, as this
      model fixes it, they agree everywhere. */
  lemma ClampsAgree(maxTurns: Option<int>)
    ensures maxTurns.Some? && maxTurns.value != 0 ==> LiteralTurnBudget(maxTurns) == TurnBudget(maxTurns)
    ensures LiteralTurnBudget(maxTurns) == TurnBudget(maxTurns)
  {
  }

  // ─── The request ─────────────────────────────────────────────

  /** A message part as JSON: a dict (with or without a "text" key) or any
      other value. */
  datatype RpcPart = DictPart(text: Option<string>) | NonDictPart

  datatype RpcMessage = DictMessage(parts: seq<RpcPart>) | NonDictMessage

  /** The `params` object; `None` is an absent or null key. */
  datatype Params = Params(
    message: Option<RpcMessage>,
    senderName: Option<string>,
    senderAgentCardUrl: Option<string>,
    agentCardUrl: Option<string>,
    senderType: Option<string>,
    conversationId: Option<string>)

  datatype Request = Request(rpcMethod: Option<string>, params: Params)

  /** The texts of the dict parts that carry one, in order. */
  function PartTexts(parts: seq<RpcPart>): (r: seq<string>)
    ensures |r| <= |parts|
    ensures (forall k :: 0 <= k < |parts| ==> !(parts[k].DictPart? && parts[k].text.Some?)) ==> r == []
    decreases |parts|
  {
    if |parts| == 0 then []
    else (if parts[0].DictPart? && parts[0].text.Some? then [parts[0].text.value] else []) + PartTexts(parts[1..])
  }

  /** `_extract_text`: the part texts joined by newlines, stripped; "" for
      a message that is not a dict. */
  function ExtractText(m: RpcMessage): (r: string)
    ensures m.NonDictMessage? ==> r == ""
    ensures m.DictMessage? ==> r == Strip(Join(PartTexts(m.parts), "\n"))
    ensures r == [] || (r[0] !in Whitespace && r[|r| - 1] !in Whitespace)
  {
    match m
    case NonDictMessage => ""
    case DictMessage(parts) =>
      StripEnds(Join(PartTexts(parts), "\n"));
      Strip(Join(PartTexts(parts), "\n"))
  }

  /** A message of one clean text part reads as that text, whatever
      non-text parts surround it. */
  lemma ExtractOneText(t: string, before: seq<RpcPart>, after: seq<RpcPart>)
    requires t != [] && t[0] !in Whitespace && t[|t| - 1] !in Whitespace
    requires forall k :: 0 <= k < |before| ==> !(before[k].DictPart? && before[k].text.Some?)
    requires forall k :: 0 <= k < |after| ==> !(after[k].DictPart? && after[k].text.Some?)
    ensures ExtractText(DictMessage(before + [DictPart(Some(t))] + after)) == t
  {
    var parts := before + [DictPart(Some(t))] + after;
    PartTextsAppend(before + [DictPart(Some(t))], after);
    PartTextsAppend(before, [DictPart(Some(t))]);
    assert PartTexts([DictPart(Some(t))]) == [t] by {
      assert [DictPart(Some(t))][1..] == [];
    }
    assert PartTexts(parts) == [t];
    StripCharsEnds(t, Whitespace);
  }

  lemma {:induction false} PartTextsAppend(a: seq<RpcPart>, b: seq<RpcPart>)
    ensures PartTexts(a + b) == PartTexts(a) + PartTexts(b)
    decreases |a|
  {
    if |a| > 0 {
      assert (a + b)[1..] == a[1..] + b;
      PartTextsAppend(a[1..], b);
    } else {
      assert a + b == b;
    }
  }

  // ─── Contacts by card URL ────────────────────────────────────

  predicate HasUrl(row: DbContacts.ContactRow, owner: string, url: string) {
    row.owner == owner && row.agentCardUrl == url
  }

  /** `SELECT * FROM contacts WHERE owner_agent_id = ? AND agent_card_url = ?`,
      first row. */
  function FindByUrl(rows: seq<DbContacts.ContactRow>, owner: string, url: string): (r: Option<nat>)
    ensures r.Some? ==> r.value < |rows| && HasUrl(rows[r.value], owner, url)
    ensures r.None? <==> forall j :: 0 <= j < |rows| ==> !HasUrl(rows[j], owner, url)
  {
    Seqs.FirstIndex(rows, (row: DbContacts.ContactRow) => HasUrl(row, owner, url))
  }

  /** `UPDATE contacts SET status = ? WHERE owner_agent_id = ? AND
      agent_card_url = ?`. */
  function SetStatusByUrl(rows: seq<DbContacts.ContactRow>, owner: string, url: string, status: string)
    : (r: seq<DbContacts.ContactRow>)
    ensures |r| == |rows|
    ensures forall j :: 0 <= j < |rows| ==>
      r[j] == if HasUrl(rows[j], owner, url) then rows[j].(status := status) else rows[j]
  {
    seq(|rows|, j requires 0 <= j < |rows| =>
      if HasUrl(rows[j], owner, url) then rows[j].(status := status) else rows[j])
  }

  /** After an add under a URL no row had, the rows with that URL are the
      new row alone, so the status update reaches exactly it. */
  lemma AddedRowGetsStatus(rows: seq<DbContacts.ContactRow>, owner: string, c: Contacts.Contact, status: string)
    requires forall j :: 0 <= j < |rows| ==> !HasUrl(rows[j], owner, c.agentCardUrl)
    requires forall row :: row in rows ==> row.owner != owner || row.name != c.name
    ensures var added := DbContacts.Add(rows, owner, c).0;
            var r := SetStatusByUrl(added, owner, c.agentCardUrl, status);
            r == rows + [DbContacts.FromContact(owner, c).(status := status)]
            && FindByUrl(r, owner, c.agentCardUrl) == Some(|rows|)
  {
    var added := DbContacts.Add(rows, owner, c).0;
    var r := SetStatusByUrl(added, owner, c.agentCardUrl, status);
    assert added == rows + [DbContacts.FromContact(owner, c)];
    assert r == rows + [DbContacts.FromContact(owner, c).(status := status)];
    assert HasUrl(r[|rows|], owner, c.agentCardUrl);
    assert forall j :: 0 <= j < |rows| ==> r[j] == rows[j];
  }

  /** The contact status the RPC endpoint settles on, and the contacts
      after it. */
  datatype Registered = Registered(contacts: seq<DbContacts.ContactRow>, status: string)

  /** The contact an unknown sender is registered as. */
  function SenderContact(senderName: string, senderUrl: string, senderType: string, internal: bool): Contacts.Contact {
    Contacts.Contact(senderName,
                     if internal then Contacts.Personal
                     else if senderType == "merchant" then Contacts.Merchant else Contacts.Personal,
                     senderUrl, "External agent", ["external"], Contacts.Unknown)
  }

  /** The status logic of `rpc`: no sender URL is pending and registers
      nothing; an unknown URL is added, active exactly for a platform
      sender; a known URL keeps its stored status unless a platform
      sender upgrades it to active. The status is decided even when the
      add fails on a duplicate name. */
  function RegisterSender(rows: seq<DbContacts.ContactRow>, handle: string, senderName: string,
                          senderUrl: string, senderType: string, internal: bool): (r: Registered)
    ensures senderUrl == "" ==> r == Registered(rows, "pending")
    ensures senderUrl != "" && FindByUrl(rows, handle, senderUrl).None? ==>
      r.status == (if internal then "active" else "pending")
      && r.contacts == SetStatusByUrl(DbContacts.Add(rows, handle, SenderContact(senderName, senderUrl, senderType, internal)).0,
                                      handle, senderUrl, r.status)
    ensures senderUrl != "" && FindByUrl(rows, handle, senderUrl).Some? ==>
      var stored := rows[FindByUrl(rows, handle, senderUrl).value].status;
      r.status == (if internal then "active" else stored)
      && (internal && stored != "active" ==> r.contacts == SetStatusByUrl(rows, handle, senderUrl, "active"))
      && (!internal || stored == "active" ==> r.contacts == rows)
    ensures internal && senderUrl != "" ==> r.status == "active"
  {
    if senderUrl == "" then Registered(rows, "pending")
    else match FindByUrl(rows, handle, senderUrl)
      case None =>
        var added := DbContacts.Add(rows, handle, SenderContact(senderName, senderUrl, senderType, internal)).0;
        var status := if internal then "active" else "pending";
        Registered(SetStatusByUrl(added, handle, senderUrl, status), status)
      case Some(k) =>
        if internal && rows[k].status != "active" then Registered(SetStatusByUrl(rows, handle, senderUrl, "active"), "active")
        else Registered(rows, rows[k].status)
  }

  // ─── The ledger copies ───────────────────────────────────────

  /** The received message: the thread is ensured, then one inbound row
      addressed to the recipient. */
  function RecordInbound(l: Ledger, conv: string, handle: string, senderName: string, senderType: string,
                         text: string, now: int): (r: Ledger)
    ensures |r.rows| == |l.rows| + 1 && r.rows[..|l.rows|] == l.rows
    ensures r.rows[|l.rows|] == Message(l.nextId, conv, handle, senderName, NormalizeSenderType(senderType),
                                        Inbound, text, Unread, [], now, None)
    ensures r.nextId == l.nextId + 1
    ensures HasConversation(r, conv)
    ensures Valid(l) ==> Valid(r)
  {
    var l1 := EnsureConversation(l, conv, handle, senderName, now);
    DeliverKeepsFlags(l1, handle, senderName, NormalizeSenderType(senderType), text, conv, Inbound, now, conv);
    Deliver(l1, handle, senderName, senderType, text, conv, Inbound, now).0
  }

  const NoResponse: string := "[No response generated]"

  /** The engine's turn, as both endpoints run it. */
  datatype Turn = Turn(ledger: Ledger, engineCtx: Context, ctx: Context, reply: string)

  /** The respond step: the engine runs in the inbox channel with the
      budget and the thread set, all three restored afterwards; its final
      texts, joined, are the reply, stored as one outbound row addressed
      to the recipient itself. */
  function Respond(l: Ledger, ctx: Context, handle: string, conv: string, maxTurns: int,
                   run: seq<EventSerializer.Payload>, now: int): (r: Turn)
    ensures r.engineCtx == Context("inbox", Some(maxTurns), Some(conv))
    ensures r.ctx == ctx
    ensures r.reply == EventSerializer.Reply(run, NoResponse)
    ensures |r.ledger.rows| == |l.rows| + 1 && r.ledger.rows[..|l.rows|] == l.rows
    ensures r.ledger.rows[|l.rows|] == Message(l.nextId, conv, handle, handle, Friend, Outbound,
                                               r.reply, Unread, [], now, None)
    ensures Valid(l) ==> Valid(r.ledger)
  {
    var (c1, t1) := SetChannel(ctx, "inbox");
    var (c2, t2) := SetTurnBudget(c1, Some(maxTurns));
    var (c3, t3) := SetConversationId(c2, Some(conv));
    var reply := EventSerializer.Reply(run, NoResponse);
    var after := ResetChannel(ResetConversationId(ResetTurnBudget(c3, t2), t3), t1);
    var l1 := DeliverAs(l, handle, handle, Friend, reply, conv, Outbound, now).0;
    Turn(l1, c3, after, reply)
  }

  // ─── The endpoint ────────────────────────────────────────────

  /** The state after a handled request. `engineCtx` is the context the
      engine ran in, `None` when it did not run; `reply` is the text of
      the JSON-RPC result. */
  datatype Handled = Handled(
    ledger: Ledger,
    contacts: seq<DbContacts.ContactRow>,
    ctx: Context,
    conversationId: string,
    status: string,
    engineCtx: Option<Context>,
    reply: string)

  const Ack: string := "Message received."

  function SenderUrl(p: Params): string {
    OrElse(p.senderAgentCardUrl, OrElse(p.agentCardUrl, ""))
  }

  function SenderName(p: Params): string {
    OrElse(p.senderName, "External Agent")
  }

  /** The thread: the supplied id, else one derived from recipient, sender
      and sender URL (or the sender's name when there is no URL). */
  function RpcThread(p: Params, handle: string, sha1: string -> string): (r: string)
    ensures OrElse(p.conversationId, "") != "" ==> r == p.conversationId.value
    ensures OrElse(p.conversationId, "") == "" ==>
      r == ExternalThreadId(handle, SenderName(p), if SenderUrl(p) != "" then SenderUrl(p) else SenderName(p), sha1)
  {
    var conv := OrElse(p.conversationId, "");
    if conv != "" then conv
    else ExternalThreadId(handle, SenderName(p), if SenderUrl(p) != "" then SenderUrl(p) else SenderName(p), sha1)
  }

  predicate ShouldRespond(status: string, user: User, internal: bool) {
    status == "active" && (user.autoInboxEnabled || internal)
  }

  /** `rpc` once the request is accepted. */
  function Accept(user: User, l: Ledger, contacts: seq<DbContacts.ContactRow>, ctx: Context, handle: string,
                  p: Params, text: string, sha1: string -> string, run: seq<EventSerializer.Payload>, now: int)
    : (r: Handled)
    ensures var internal := InternalHandle(SenderUrl(p)).Some?;
            var reg := RegisterSender(contacts, handle, SenderName(p), SenderUrl(p), OrElse(p.senderType, "personal"), internal);
            r.contacts == reg.contacts && r.status == reg.status
    ensures r.conversationId == RpcThread(p, handle, sha1)
    ensures r.ctx == ctx
    ensures |r.ledger.rows| > |l.rows| && r.ledger.rows[..|l.rows|] == l.rows
    ensures r.ledger.rows[|l.rows|] == Message(l.nextId, r.conversationId, handle, SenderName(p),
                                               NormalizeSenderType(OrElse(p.senderType, "personal")),
                                               Inbound, text, Unread, [], now, None)
    ensures r.engineCtx.Some? <==> ShouldRespond(r.status, user, InternalHandle(SenderUrl(p)).Some?)
    ensures r.engineCtx.None? ==> |r.ledger.rows| == |l.rows| + 1 && r.reply == Ack
    ensures r.engineCtx.Some? ==>
      && |r.ledger.rows| == |l.rows| + 2
      && r.engineCtx.value == Context("inbox", Some(TurnBudget(user.maxTurns)), Some(r.conversationId))
      && r.reply == EventSerializer.Reply(run, NoResponse)
      && r.ledger.rows[|l.rows| + 1] == Message(l.nextId + 1, r.conversationId, handle, handle, Friend, Outbound,
                                                r.reply, Unread, [], now, None)
    ensures Valid(l) ==> Valid(r.ledger)
  {
    var senderName := SenderName(p);
    var senderUrl := SenderUrl(p);
    var senderType := OrElse(p.senderType, "personal");
    var internal := InternalHandle(senderUrl).Some?;
    var reg := RegisterSender(contacts, handle, senderName, senderUrl, senderType, internal);
    var conv := RpcThread(p, handle, sha1);
    var l1 := RecordInbound(l, conv, handle, senderName, senderType, text, now);
    if !ShouldRespond(reg.status, user, internal) then
      Handled(l1, reg.contacts, ctx, conv, reg.status, None, Ack)
    else
      var turn := Respond(l1, ctx, handle, conv, TurnBudget(user.maxTurns), run, now);
      Seqs.PrefixTrans(l.rows, l1.rows, turn.ledger.rows);
      Handled(turn.ledger, reg.contacts, turn.ctx, conv, reg.status, Some(turn.engineCtx), turn.reply)
  }

  /** `rpc`: a method other than `message/send` and a message without text
      are 400s, an unknown recipient a 404, each before anything is
      written; otherwise the request is accepted. The handle is stripped
      and lower-cased first. */
  function Rpc(users: map<string, User>, l: Ledger, contacts: seq<DbContacts.ContactRow>, ctx: Context,
               rawHandle: string, req: Request, sha1: string -> string, run: seq<EventSerializer.Payload>,
               now: int): (r: Result<Handled, HttpError>)
    ensures req.rpcMethod != Some("message/send") ==> r == Err(HttpError(400, "Unsupported method"))
    ensures req.rpcMethod == Some("message/send") && ExtractText(req.params.message.GetOr(DictMessage([]))) == "" ==>
      r == Err(HttpError(400, "Empty message"))
    ensures r.Ok? ==> Lower(Strip(rawHandle)) in users
    ensures r.Err? && r.error.code == 404 ==> Lower(Strip(rawHandle)) !in users
    ensures r.Ok? ==>
      r.value == Accept(users[Lower(Strip(rawHandle))], l, contacts, ctx, Lower(Strip(rawHandle)), req.params,
                        ExtractText(req.params.message.GetOr(DictMessage([]))), sha1, run, now)
    ensures r.Err? ==> r.error.code in {400, 404}
  {
    var handle := Lower(Strip(rawHandle));
    if req.rpcMethod != Some("message/send") then Err(HttpError(400, "Unsupported method"))
    else
      var text := ExtractText(req.params.message.GetOr(DictMessage([])));
      if text == "" then Err(HttpError(400, "Empty message"))
      else if handle !in users then Err(HttpError(404, "Recipient not found"))
      else Ok(Accept(users[handle], l, contacts, ctx, handle, req.params, text, sha1, run, now))
  }

  /** A platform sender new to the recipient's contacts is registered as
      active and, the status being active, always answered. */
  lemma PlatformSenderAnswered(user: User, l: Ledger, contacts: seq<DbContacts.ContactRow>, ctx: Context,
                               handle: string, p: Params, text: string, sha1: string -> string,
                               run: seq<EventSerializer.Payload>, now: int)
    requires InternalHandle(SenderUrl(p)).Some?
    ensures var r := Accept(user, l, contacts, ctx, handle, p, text, sha1, run, now);
            r.status == "active" && r.engineCtx.Some?
  {
    assert SenderUrl(p) != "";
  }

  /** A sender without a URL is never answered. */
  lemma NoUrlNeverAnswered(user: User, l: Ledger, contacts: seq<DbContacts.ContactRow>, ctx: Context,
                           handle: string, p: Params, text: string, sha1: string -> string,
                           run: seq<EventSerializer.Payload>, now: int)
    requires SenderUrl(p) == ""
    ensures var r := Accept(user, l, contacts, ctx, handle, p, text, sha1, run, now);
            r.status == "pending" && r.engineCtx.None? && r.contacts == contacts
  {
  }
}

=== FILE: auth.dfy ===
/** Handle validation and bearer-token extraction (app/auth.py). Token
    signing and decoding and password hashing are parameters: the model
    sees a decoder from token to user id or error detail. */
module Auth {
  import opened Wrappers
  import opened Text
  import opened Platform

  /** A character the pattern admits after the first. */
  predicate HandleTailChar(c: char) {
    IsLetter(c) || IsDigit(c) || c == '_'
  }

  /** A well-formed handle: 3 to 20 characters, an ASCII letter first,
      then ASCII letters, digits and underscores. */
  predicate HandleShape(h: string) {
    3 <= |h| <= 20 && IsLetter(h[0]) && forall i :: 1 <= i < |h| ==> HandleTailChar(h[i])
  }

  /** The length of the run of tail characters starting at `i`. */
  function TailRun(h: string, i: nat): (n: nat)
    requires i <= |h|
    ensures i + n <= |h|
    ensures forall k :: i <= k < i + n ==> HandleTailChar(h[k])
    ensures i + n == |h| || !HandleTailChar(h[i + n])
    decreases |h| - i
  {
    if i < |h| && HandleTailChar(h[i]) then 1 + TailRun(h, i + 1) else 0
  }

  /** Where the pattern `^[a-zA-Z][a-zA-Z0-9_]{2,19}` stops in `h`: just
      after the longest run of tail characters it may take, or None when
      the first character is no letter. */
  function PatternEnd(h: string): (p: Option<nat>)
    ensures p.Some? ==> 1 <= p.value <= 20 && p.value <= |h|
  {
    if |h| == 0 || !IsLetter(h[0]) then None
    else
      var n := TailRun(h, 1);
      Some(1 + if n > 19 then 19 else n)
  }

  /** `validate_handle` as written: `re.match` of the pattern ending in
      `$`, which in Python also matches just before a final newline. A
      shorter run of the tail class cannot help: the character after it
      is a tail character, neither the end nor a newline. */
  function ValidateHandleAsWritten(h: string): bool {
    match PatternEnd(h)
    case None => false
    case Some(p) => p >= 3 && (p == |h| || (p == |h| - 1 && h[p] == '\n'))
  }

  /** The validation the pattern evidently intends: the whole string matches. */
  function ValidateHandle(h: string): (r: bool)
    ensures r <==> HandleShape(h)
  {
    match PatternEnd(h)
    case None => false
    case Some(p) =>
      assert p >= 3 && p == |h| ==> HandleShape(h);
      assert HandleShape(h) ==> TailRun(h, 1) == |h| - 1;
      p >= 3 && p == |h|
  }

  /** The handles the written check accepts: the well-formed ones, and
      the well-formed ones followed by one newline. */
  lemma {:induction false} AsWrittenAccepts(h: string)
    ensures ValidateHandleAsWritten(h) <==>
      HandleShape(h) || (|h| > 0 && h[|h| - 1] == '\n' && HandleShape(h[..|h| - 1]))
  {
    if |h| > 0 && h[|h| - 1] == '\n' && HandleShape(h[..|h| - 1]) {
      var t := h[..|h| - 1];
      assert forall k :: 1 <= k < |t| ==> HandleTailChar(h[k]) by {
        forall k | 1 <= k < |t| ensures HandleTailChar(h[k]) { assert h[k] == t[k]; }
      }
      assert !HandleTailChar(h[|h| - 1]);
      assert TailRun(h, 1) == |h| - 2;
    }
    if ValidateHandleAsWritten(h) {
      var p := PatternEnd(h).value;
      if p == |h| - 1 {
        var t := h[..|h| - 1];
        assert forall k :: 1 <= k < |t| ==> HandleTailChar(t[k]) by {
          forall k | 1 <= k < |t| ensures HandleTailChar(t[k]) { assert t[k] == h[k]; }
        }
      }
    }
  }

  /** The discrepancy: "abc\n" passes the written check, though it is no
      well-formed handle. */
  lemma TrailingNewlineAccepted()
    ensures ValidateHandleAsWritten("abc\n")
    ensures !ValidateHandle("abc\n")
  {
    AsWrittenAccepts("abc\n");
    assert "abc\n"[..3] == "abc";
    assert HandleShape("abc");
  }

  /** Signup and the handle check lower-case and strip a handle first. */
  function NormalizeHandle(raw: string): (r: string)
    ensures r == [] || r[|r| - 1] !in Whitespace
    ensures forall i :: 0 <= i < |r| ==> !IsUpper(r[i])
  {
    var lo := Lower(raw);
    StripEnds(lo);
    StripKeepsNoUpper(lo);
    Strip(lo)
  }

  /** Stripping only removes characters, so it adds no capital letter. */
  lemma StripKeepsNoUpper(s: string)
    requires forall i :: 0 <= i < |s| ==> !IsUpper(s[i])
    ensures forall i :: 0 <= i < |Strip(s)| ==> !IsUpper(Strip(s)[i])
  {
    var a, b := StripCharsSlice(s, Whitespace);
    assert forall i :: 0 <= i < |Strip(s)| ==> Strip(s)[i] == s[a + i];
  }

  /** On a normalised handle the written check and the intended one agree:
      the stripping removes the newline the pattern would let through. */
  lemma NormalizedChecksAgree(raw: string)
    ensures ValidateHandleAsWritten(NormalizeHandle(raw)) == ValidateHandle(NormalizeHandle(raw))
  {
    AsWrittenAccepts(NormalizeHandle(raw));
  }

  const BearerPrefix: string := "Bearer "

  const BadHeader: HttpError := HttpError(401, "Missing or invalid authorization header")

  /** The token of an Authorization header, the header with its first
      seven characters removed; a missing header reads as "". */
  function BearerToken(header: Option<string>): (r: Result<string, HttpError>)
    ensures r.Err? <==> !StartsWith(header.GetOr(""), BearerPrefix)
    ensures r.Err? ==> r.error == BadHeader
    ensures r.Ok? ==> header == Some(BearerPrefix + r.value)
  {
    var h := header.GetOr("");
    if StartsWith(h, BearerPrefix) then
      assert h == BearerPrefix + h[7..];
      Ok(h[7..])
    else Err(BadHeader)
  }

  /** A header built from a token gives the token back. */
  lemma BearerRoundTrip(token: string)
    ensures BearerToken(Some(BearerPrefix + token)) == Ok(token)
  {
    assert (BearerPrefix + token)[..7] == BearerPrefix;
  }

  /** The user id a header's token decodes to, if it decodes. */
  function ClaimedId(header: Option<string>, decode: string -> Result<string, string>): Option<string> {
    match BearerToken(header)
    case Err(_) => None
    case Ok(token) => if decode(token).Ok? then Some(decode(token).value) else None
  }

  /** `get_current_user`: the header's token decoded to a user id, and
      the row of that user. Every failure is a 401. */
  function CurrentUser<U>(header: Option<string>, decode: string -> Result<string, string>,
                          users: seq<(string, U)>): (r: Result<U, HttpError>)
    ensures r.Err? ==> r.error.code == 401
    ensures BearerToken(header).Err? ==> r == Err(BadHeader)
    ensures r.Ok? ==>
      && ClaimedId(header, decode).Some?
      && exists i :: 0 <= i < |users| && users[i] == (ClaimedId(header, decode).value, r.value)
    ensures (&& ClaimedId(header, decode).Some?
             && exists i :: 0 <= i < |users| && users[i].0 == ClaimedId(header, decode).value) ==> r.Ok?
  {
    match BearerToken(header)
    case Err(e) => Err(e)
    case Ok(token) =>
      match decode(token)
      case Err(detail) => Err(HttpError(401, detail))
      case Ok(id) =>
        match FirstUser(users, id)
        case None => Err(HttpError(401, "User not found"))
        case Some(u) => Ok(u)
  }

  function FirstUser<U>(users: seq<(string, U)>, id: string): (r: Option<U>)
    ensures r.None? <==> forall i :: 0 <= i < |users| ==> users[i].0 != id
    ensures r.Some? ==> exists i :: 0 <= i < |users| && users[i] == (id, r.value)
    decreases |users|
  {
    if |users| == 0 then None
    else if users[0].0 == id then Some(users[0].1)
    else
      var r := FirstUser(users[1..], id);
      assert forall i :: 1 <= i < |users| ==> users[i] == users[1..][i - 1];
      r
  }
}

=== FILE: auth_router.dfy ===
/** The account endpoints (app/routers/auth_router.py): signup, login, the
    handle check, the user view and the agent-profile update with its two
    schedule upserts. The users and `scheduled_tasks` tables are
    sequences of rows; the fresh user id, the password hash and check,
    the clock and the schedules' intent texts are parameters. */
module AuthRouter {
  import opened Wrappers
  import opened Text
  import opened Platform
  import opened Auth
  import Seqs
  import Scheduler
  import A2aRpc

  datatype UserRow = UserRow(
    id: string,
    email: string,
    handle: string,
    passwordHash: string,
    displayName: string,
    agentInstructions: Option<string>,
    agentSkills: Option<string>,
    autoInbox: bool,
    socialEnabled: bool,
    socialFrequency: string,
    feedEnabled: bool,
    feedFrequency: string,
    maxTurns: Option<int>,
    onboarded: bool)

  const BadHandle: HttpError :=
    HttpError(400, "Handle must be 3-20 chars, start with a letter, and contain only letters, numbers, underscores.")
  const EmailTaken: HttpError := HttpError(409, "Email already registered")
  const HandleTaken: HttpError := HttpError(409, "Handle already taken")
  const IdTaken: HttpError := HttpError(500, "UNIQUE constraint failed: users.id")
  const BadLogin: HttpError := HttpError(401, "Invalid email or password")

  predicate EmailUsed(users: seq<UserRow>, email: string) {
    exists i :: 0 <= i < |users| && users[i].email == email
  }

  predicate HandleUsed(users: seq<UserRow>, handle: string) {
    exists i :: 0 <= i < |users| && users[i].handle == handle
  }

  predicate IdUsed(users: seq<UserRow>, id: string) {
    exists i :: 0 <= i < |users| && users[i].id == id
  }

  /** No two users share an email, a handle or an id (the table's UNIQUE
      and PRIMARY KEY constraints). */
  ghost predicate UniqueUsers(users: seq<UserRow>) {
    forall i, j :: 0 <= i < j < |users| ==>
      users[i].email != users[j].email && users[i].handle != users[j].handle && users[i].id != users[j].id
  }

  /** The row a signup inserts: the column defaults for everything the
      request does not give. */
  function NewUser(id: string, email: string, handle: string, passwordHash: string, displayName: string): UserRow {
    UserRow(id, email, handle, passwordHash, displayName, Some(""), Some(""), false, false, "weekly", false, "daily", Some(3), false)
  }

  /** `signup`: the handle lower-cased and stripped, then validated; a
      taken email (lower-cased) or handle is a 409 and nothing is
      inserted. */
  function Signup(users: seq<UserRow>, email: string, password: string, handle: string, displayName: string,
                  id: string, hash: string -> string): (r: Result<(seq<UserRow>, UserRow), HttpError>)
    ensures !HandleShape(NormalizeHandle(handle)) ==> r == Err(BadHandle)
    ensures HandleShape(NormalizeHandle(handle)) && EmailUsed(users, Lower(email)) ==> r == Err(EmailTaken)
    ensures (&& HandleShape(NormalizeHandle(handle)) && !EmailUsed(users, Lower(email))
             && HandleUsed(users, NormalizeHandle(handle))) ==> r == Err(HandleTaken)
    ensures r.Ok? <==> HandleShape(NormalizeHandle(handle)) && !EmailUsed(users, Lower(email)) &&
                       !HandleUsed(users, NormalizeHandle(handle)) && !IdUsed(users, id)
    ensures r.Ok? ==>
      && r.value.0 == users + [r.value.1]
      && r.value.1 == NewUser(id, Lower(email), NormalizeHandle(handle), hash(password), displayName)
  {
    var h := NormalizeHandle(handle);
    if !ValidateHandle(h) then Err(BadHandle)
    else if EmailUsed(users, Lower(email)) then Err(EmailTaken)
    else if HandleUsed(users, h) then Err(HandleTaken)
    else if IdUsed(users, id) then Err(IdTaken)
    else
      var row := NewUser(id, Lower(email), h, hash(password), displayName);
      Ok((users + [row], row))
  }

  /** A signup keeps emails, handles and ids unique. */
  lemma SignupKeepsUnique(users: seq<UserRow>, email: string, password: string, handle: string, displayName: string,
                          id: string, hash: string -> string)
    requires UniqueUsers(users)
    requires Signup(users, email, password, handle, displayName, id, hash).Ok?
    ensures UniqueUsers(Signup(users, email, password, handle, displayName, id, hash).value.0)
  {
  }

  /** The first row with the (lower-cased) email. */
  function FindByEmail(users: seq<UserRow>, email: string): (r: Option<UserRow>)
    ensures r.None? <==> !EmailUsed(users, email)
    ensures r.Some? ==> r.value in users && r.value.email == email
  {
    match Seqs.FirstIndex(users, (u: UserRow) => u.email == email)
    case None => None
    case Some(k) => Some(users[k])
  }

  /** `login`: an unknown email and a wrong password give the same 401. */
  function Login(users: seq<UserRow>, email: string, password: string, verify: (string, string) -> bool)
    : (r: Result<UserRow, HttpError>)
    ensures r.Err? ==> r.error == BadLogin
    ensures r.Ok? <==> FindByEmail(users, Lower(email)).Some? &&
                       verify(password, FindByEmail(users, Lower(email)).value.passwordHash)
    ensures r.Ok? ==> r.value in users && r.value.email == Lower(email)
  {
    match FindByEmail(users, Lower(email))
    case None => Err(BadLogin)
    case Some(u) => if verify(password, u.passwordHash) then Ok(u) else Err(BadLogin)
  }

  /** A new account can log in at once with its password, whatever case
      its email is typed in, given a hash check that accepts the hash of
      the password. */
  lemma SignupThenLogin(users: seq<UserRow>, email: string, password: string, handle: string, displayName: string,
                        id: string, hash: string -> string, verify: (string, string) -> bool, typed: string)
    requires Signup(users, email, password, handle, displayName, id, hash).Ok?
    requires verify(password, hash(password))
    requires Lower(typed) == Lower(email)
    ensures var (users', row) := Signup(users, email, password, handle, displayName, id, hash).value;
            Login(users', typed, password, verify) == Ok(row)
  {
    var (users', row) := Signup(users, email, password, handle, displayName, id, hash).value;
    var p := (u: UserRow) => u.email == Lower(email);
    assert forall j :: 0 <= j < |users| ==> !p(users'[j]);
    Seqs.FirstIndexAt(users', p, |users|);
  }

  datatype HandleCheck = InvalidFormat | Available(free: bool)

  /** `check_handle` */
  function CheckHandle(users: seq<UserRow>, handle: string): (r: HandleCheck)
    ensures r.InvalidFormat? <==> !HandleShape(NormalizeHandle(handle))
    ensures r.Available? ==> (r.free <==> !HandleUsed(users, NormalizeHandle(handle)))
  {
    var h := NormalizeHandle(handle);
    if !ValidateHandle(h) then InvalidFormat else Available(!HandleUsed(users, h))
  }

  /** A free handle reported by the availability lookup is one signup does not refuse
      for its handle. */
  lemma CheckAgreesWithSignup(users: seq<UserRow>, email: string, password: string, handle: string,
                              displayName: string, id: string, hash: string -> string)
    requires CheckHandle(users, handle) == Available(true)
    requires !EmailUsed(users, Lower(email)) && !IdUsed(users, id)
    ensures Signup(users, email, password, handle, displayName, id, hash).Ok?
  {
  }

  /** `x or fallback` on a stored text column. */
  function OrText(x: string, fallback: string): (r: string)
    ensures r != "" || fallback == ""
    ensures x != "" ==> r == x
  {
    if x == "" then fallback else x
  }

  /** `x or ""` on a nullable text column. */
  function OrEmpty(x: Option<string>): (r: string)
    ensures x.None? ==> r == ""
    ensures x.Some? ==> r == x.value
  {
    match x
    case None => ""
    case Some(v) => v
  }

  datatype UserOut = UserOut(
    id: string,
    email: string,
    handle: string,
    displayName: string,
    agentInstructions: string,
    agentSkills: string,
    autoInbox: bool,
    socialEnabled: bool,
    socialFrequency: string,
    feedEnabled: bool,
    feedFrequency: string,
    maxTurns: int,
    onboarded: bool)

  /** `_user_out`: the row as reported, with the frequencies' defaults
      and the turn limit clamped to [1, 10]. */
  function View(row: UserRow): (r: UserOut)
    ensures 1 <= r.maxTurns <= 10
    ensures r.maxTurns == A2aRpc.LiteralTurnBudget(row.maxTurns)
    ensures r.socialFrequency != "" && r.feedFrequency != ""
    ensures r.socialFrequency == if row.socialFrequency == "" then "weekly" else row.socialFrequency
    ensures r.feedFrequency == if row.feedFrequency == "" then "daily" else row.feedFrequency
    ensures r.id == row.id && r.email == row.email && r.handle == row.handle && r.displayName == row.displayName
    ensures r.agentInstructions == OrEmpty(row.agentInstructions) && r.agentSkills == OrEmpty(row.agentSkills)
    ensures r.autoInbox == row.autoInbox && r.socialEnabled == row.socialEnabled && r.feedEnabled == row.feedEnabled
    ensures r.onboarded == row.onboarded
  {
    UserOut(row.id, row.email, row.handle, row.displayName,
            OrEmpty(row.agentInstructions), OrEmpty(row.agentSkills), row.autoInbox, row.socialEnabled,
            OrText(row.socialFrequency, "weekly"), row.feedEnabled, OrText(row.feedFrequency, "daily"),
            A2aRpc.LiteralTurnBudget(row.maxTurns), row.onboarded)
  }

  /** The clamp is stable: a stored clamped limit is reported as stored. */
  lemma ClampStable(x: Option<int>)
    ensures A2aRpc.LiteralTurnBudget(Some(A2aRpc.LiteralTurnBudget(x))) == A2aRpc.LiteralTurnBudget(x)
  {
  }

  // ─── Schedules ──────────────────────────────────────────────

  /** The period a frequency names, `fallback` for any other name. */
  function FrequencyDelta(frequency: string, fallback: int): (r: int)
    ensures frequency == "daily" ==> r == Scheduler.Day
    ensures frequency == "weekly" ==> r == 7 * Scheduler.Day
    ensures frequency == "monthly" ==> r == 30 * Scheduler.Day
    ensures frequency !in {"daily", "weekly", "monthly"} ==> r == fallback
  {
    if frequency == "daily" then Scheduler.Day
    else if frequency == "weekly" then 7 * Scheduler.Day
    else if frequency == "monthly" then 30 * Scheduler.Day
    else fallback
  }

  /** The trigger time a profile update writes: the clock's time plus
      the frequency's period, formatted (auth_router.py:197-203,
      auth_router.py:233-239). */
  function NextAt(c: Scheduler.Clock, frequency: string, fallback: int): string {
    c.format(c.now + FrequencyDelta(frequency, fallback))
  }

  function HasId(id: string): Scheduler.Schedule -> bool {
    (s: Scheduler.Schedule) => s.id == id
  }

  function OtherId(id: string): Scheduler.Schedule -> bool {
    (s: Scheduler.Schedule) => s.id != id
  }

  /** The rows with id `id` rewritten to the given intent, trigger and
      recurrence and made active; the rest untouched. */
  function Rewrite(rows: seq<Scheduler.Schedule>, id: string, intent: string, trigger: string, rec: Scheduler.Recurrence)
    : (r: seq<Scheduler.Schedule>)
    ensures |r| == |rows|
    ensures forall j :: 0 <= j < |rows| ==> r[j].id == rows[j].id
    ensures forall j :: 0 <= j < |rows| && rows[j].id != id ==> r[j] == rows[j]
    ensures forall j :: 0 <= j < |rows| && rows[j].id == id ==>
      r[j] == rows[j].(intent := intent, trigger := trigger, recurrence := rec, status := Scheduler.Active)
  {
    seq(|rows|, j requires 0 <= j < |rows| =>
      if rows[j].id == id
      then rows[j].(intent := intent, trigger := trigger, recurrence := rec, status := Scheduler.Active)
      else rows[j])
  }

  /** A schedule row as an enabled upsert leaves it: active, with the
      intent, trigger and recurrence written. */
  predicate Written(s: Scheduler.Schedule, intent: string, trigger: string, rec: Scheduler.Recurrence) {
    s.status == Scheduler.Active && s.trigger == trigger && s.intent == intent && s.recurrence == rec
  }

  /** `_upsert_social_pulse` and `_upsert_feed_engagement` with the
      schedule id, owner, period and intent given: disabled deletes the
      row; enabled rewrites it, or inserts it, active, with the frequency
      as recurrence. A frequency outside the column's domain fails its
      CHECK. */
  function Upsert(rows: seq<Scheduler.Schedule>, id: string, owner: string, enabled: bool, frequency: string,
                  intent: string, trigger: string): (r: Result<seq<Scheduler.Schedule>, string>)
    ensures !enabled ==> r == Ok(Seqs.Filter(rows, OtherId(id)))
    ensures enabled ==> (r.Err? <==> Scheduler.ParseRecurrence(frequency).None?)
    ensures r.Ok? ==> forall s :: s in r.value && s.id != id <==> s in rows && s.id != id
    ensures r.Ok? && enabled ==> exists j :: 0 <= j < |r.value| && r.value[j].id == id
    ensures r.Ok? && enabled ==> forall j :: 0 <= j < |r.value| && r.value[j].id == id ==>
      && r.value[j].status == Scheduler.Active
      && r.value[j].trigger == trigger
      && r.value[j].intent == intent
      && r.value[j].recurrence == Scheduler.ParseRecurrence(frequency).value
    ensures r.Ok? && Scheduler.UniqueIds(rows) ==> Scheduler.UniqueIds(r.value)
  {
    if !enabled then
      var kept := Seqs.Filter(rows, OtherId(id));
      assert forall j :: 0 <= j < |kept| ==> kept[j].id != id;
      FilterKeepsUnique(rows, id);
      Ok(kept)
    else
      match Scheduler.ParseRecurrence(frequency)
      case None => Err("CHECK constraint failed: recurrence")
      case Some(rec) =>
        match Seqs.FirstIndex(rows, HasId(id))
        case Some(k) =>
          var r := Rewrite(rows, id, intent, trigger, rec);
          RewriteSameRest(rows, id, intent, trigger, rec);
          assert r[k].id == id;
          Ok(r)
        case None =>
          var row := Scheduler.Schedule(id, owner, intent, trigger, rec, Scheduler.Active, None, None);
          var r := rows + [row];
          assert r[|rows|] == row;
          assert forall j :: 0 <= j < |rows| ==> r[j] == rows[j] && rows[j].id != id;
          Ok(r)
  }

  lemma {:induction false} FilterKeepsUnique(rows: seq<Scheduler.Schedule>, id: string)
    ensures Scheduler.UniqueIds(rows) ==> Scheduler.UniqueIds(Seqs.Filter(rows, OtherId(id)))
    decreases |rows|
  {
    if |rows| > 0 && Scheduler.UniqueIds(rows) {
      var rest := rows[1..];
      assert forall i :: 0 <= i < |rest| ==> rest[i] == rows[i + 1];
      FilterKeepsUnique(rest, id);
      var kept := Seqs.Filter(rest, OtherId(id));
      assert forall x :: x in kept ==> x in rest && x.id != rows[0].id;
    }
  }

  lemma RewriteSameRest(rows: seq<Scheduler.Schedule>, id: string, intent: string, trigger: string, rec: Scheduler.Recurrence)
    ensures var r := Rewrite(rows, id, intent, trigger, rec);
            forall s :: s in r && s.id != id <==> s in rows && s.id != id
  {
    var r := Rewrite(rows, id, intent, trigger, rec);
    forall s | s in r && s.id != id ensures s in rows {
      var j :| 0 <= j < |r| && r[j] == s;
      assert r[j] == rows[j];
    }
    forall s | s in rows && s.id != id ensures s in r {
      var j :| 0 <= j < |rows| && rows[j] == s;
      assert r[j] == rows[j];
    }
  }

  /** An upsert repeated with the same arguments changes nothing more. */
  lemma UpsertIdempotent(rows: seq<Scheduler.Schedule>, id: string, owner: string, enabled: bool, frequency: string,
                         intent: string, trigger: string)
    requires Upsert(rows, id, owner, enabled, frequency, intent, trigger).Ok?
    ensures var once := Upsert(rows, id, owner, enabled, frequency, intent, trigger).value;
            Upsert(once, id, owner, enabled, frequency, intent, trigger) == Ok(once)
  {
    var once := Upsert(rows, id, owner, enabled, frequency, intent, trigger).value;
    if !enabled {
      var p := OtherId(id);
      assert forall j :: 0 <= j < |once| ==> p(once[j]);
      FilterAll(once, p);
    } else {
      var rec := Scheduler.ParseRecurrence(frequency).value;
      var j :| 0 <= j < |once| && once[j].id == id;
      assert HasId(id)(once[j]);
      RewriteFixed(once, id, intent, trigger, rec);
    }
  }

  /** Rewriting rows that already carry the new values leaves them as
      they are. */
  lemma RewriteFixed(rows: seq<Scheduler.Schedule>, id: string, intent: string, trigger: string, rec: Scheduler.Recurrence)
    requires forall j :: 0 <= j < |rows| && rows[j].id == id ==>
      rows[j].status == Scheduler.Active && rows[j].trigger == trigger &&
      rows[j].intent == intent && rows[j].recurrence == rec
    ensures Rewrite(rows, id, intent, trigger, rec) == rows
  {
    var r := Rewrite(rows, id, intent, trigger, rec);
    forall j | 0 <= j < |rows| ensures r[j] == rows[j] {
    }
  }

  lemma {:induction false} FilterAll(xs: seq<Scheduler.Schedule>, p: Scheduler.Schedule -> bool)
    requires forall i :: 0 <= i < |xs| ==> p(xs[i])
    ensures Seqs.Filter(xs, p) == xs
    decreases |xs|
  {
    if |xs| > 0 {
      FilterAll(xs[1..], p);
    }
  }

  function SocialId(handle: string): string { "social_" + handle }

  function FeedId(handle: string): string { "feed_" + handle }

  lemma IdsDiffer(handle: string)
    ensures SocialId(handle) != FeedId(handle)
  {
    assert SocialId(handle)[0] != FeedId(handle)[0];
  }

  /** The body of an agent-profile update. */
  datatype ProfileBody = ProfileBody(
    instructions: Option<string>,
    skills: Option<string>,
    autoInbox: bool,
    socialEnabled: bool,
    socialFrequency: string,
    feedEnabled: bool,
    feedFrequency: string,
    maxTurns: int)

  datatype Db = Db(users: seq<UserRow>, schedules: seq<Scheduler.Schedule>)

  /** The row after the update: the instructions, skills, flags and
      frequencies of the body, the frequencies defaulted and the turn
      limit clamped (an unset or zero limit becomes 3). The account's own
      columns are kept. */
  function Updated(row: UserRow, body: ProfileBody): (r: UserRow)
    ensures r.agentInstructions == body.instructions && r.agentSkills == body.skills
    ensures r.autoInbox == body.autoInbox && r.socialEnabled == body.socialEnabled && r.feedEnabled == body.feedEnabled
    ensures r.socialFrequency != "" && r.feedFrequency != ""
    ensures body.socialFrequency != "" ==> r.socialFrequency == body.socialFrequency
    ensures body.socialFrequency == "" ==> r.socialFrequency == "weekly"
    ensures body.feedFrequency != "" ==> r.feedFrequency == body.feedFrequency
    ensures body.feedFrequency == "" ==> r.feedFrequency == "daily"
    ensures r.maxTurns.Some? && 1 <= r.maxTurns.value <= 10
    ensures 1 <= body.maxTurns <= 10 ==> r.maxTurns == Some(body.maxTurns)
    ensures body.maxTurns == 0 ==> r.maxTurns == Some(3)
    ensures r.id == row.id && r.handle == row.handle && r.email == row.email
    ensures r.passwordHash == row.passwordHash && r.displayName == row.displayName && r.onboarded == row.onboarded
  {
    row.(agentInstructions := body.instructions, agentSkills := body.skills,
         autoInbox := body.autoInbox,
         socialEnabled := body.socialEnabled, socialFrequency := OrText(body.socialFrequency, "weekly"),
         feedEnabled := body.feedEnabled, feedFrequency := OrText(body.feedFrequency, "daily"),
         maxTurns := Some(A2aRpc.LiteralTurnBudget(Some(body.maxTurns))))
  }

  /** One schedule after its upsert: absent when disabled; when enabled,
      present, and every row with its id active with the intent and
      trigger written and the frequency as recurrence. */
  ghost predicate UpsertedOne(after: seq<Scheduler.Schedule>, id: string, enabled: bool, frequency: string,
                              intent: string, trigger: string) {
    && (!enabled ==> forall s :: s in after ==> s.id != id)
    && (enabled ==> exists j :: 0 <= j < |after| && after[j].id == id)
    && (enabled ==> Scheduler.ParseRecurrence(frequency).Some?)
    && (enabled && Scheduler.ParseRecurrence(frequency).Some? ==>
          forall j :: 0 <= j < |after| && after[j].id == id ==>
            Written(after[j], intent, trigger, Scheduler.ParseRecurrence(frequency).value))
  }

  /** The schedule table after a successful profile update of `handle`:
      the social-pulse schedule upserted with the body's frequency
      (weekly when empty) and a trigger that period past the clock's
      time (a week for an unknown frequency); the feed-engagement
      schedule likewise (daily; a day); every other schedule untouched;
      and unique schedule ids kept unique. */
  ghost predicate ProfileSchedules(before: seq<Scheduler.Schedule>, after: seq<Scheduler.Schedule>, handle: string,
                                   body: ProfileBody, socialIntent: string, feedIntent: string, c: Scheduler.Clock) {
    var social := OrText(body.socialFrequency, "weekly");
    var feed := OrText(body.feedFrequency, "daily");
    && UpsertedOne(after, SocialId(handle), body.socialEnabled, social, socialIntent,
                   NextAt(c, social, 7 * Scheduler.Day))
    && UpsertedOne(after, FeedId(handle), body.feedEnabled, feed, feedIntent,
                   NextAt(c, feed, Scheduler.Day))
    && (forall s :: s in after && s.id != SocialId(handle) && s.id != FeedId(handle)
                <==> s in before && s.id != SocialId(handle) && s.id != FeedId(handle))
    && (Scheduler.UniqueIds(before) ==> Scheduler.UniqueIds(after))
  }

  /** `update_agent_profile` for the signed-in user `me`: the user row
      rewritten, then the social-pulse schedule (a week when the
      frequency is unknown) and the feed-engagement schedule (a day)
      upserted with a trigger that far past the clock's time, written in
      the clock's text format. A failing upsert rolls the whole update back.
      `socialIntent` and `feedIntent` are the schedules' fixed intent
      texts. */
  function UpdateAgentProfile(db: Db, me: UserRow, body: ProfileBody, socialIntent: string, feedIntent: string,
                              c: Scheduler.Clock): (r: Result<(Db, UserOut), string>)
    ensures r.Err? <==>
      (body.socialEnabled && Scheduler.ParseRecurrence(OrText(body.socialFrequency, "weekly")).None?) ||
      (body.feedEnabled && Scheduler.ParseRecurrence(OrText(body.feedFrequency, "daily")).None?)
    ensures r.Ok? ==>
      && |r.value.0.users| == |db.users|
      && (forall j :: 0 <= j < |db.users| ==>
            r.value.0.users[j] == if db.users[j].id == me.id then Updated(db.users[j], body) else db.users[j])
      && r.value.1 == View(Updated(me, body))
      && r.value.1.maxTurns == A2aRpc.LiteralTurnBudget(Some(body.maxTurns))
    ensures r.Ok? ==> ProfileSchedules(db.schedules, r.value.0.schedules, me.handle, body, socialIntent, feedIntent, c)
  {
    var upserted := ProfileUpsert(db.schedules, me.handle, body, socialIntent, feedIntent, c);
    if upserted.Err? then Err(upserted.error)
    else Ok((Db(UpdateUser(db.users, me, body), upserted.value), View(Updated(me, body))))
  }

  /** A successful profile update reports back what the body set: the
      instructions and skills (empty when unset), the flags, the
      frequencies with their defaults and the clamped turn limit, for the
      caller's own account. */
  lemma ProfileReadsBack(db: Db, me: UserRow, body: ProfileBody, socialIntent: string, feedIntent: string,
                         c: Scheduler.Clock)
    requires UpdateAgentProfile(db, me, body, socialIntent, feedIntent, c).Ok?
    ensures var out := UpdateAgentProfile(db, me, body, socialIntent, feedIntent, c).value.1;
            && out.id == me.id && out.email == me.email && out.handle == me.handle
            && out.agentInstructions == OrEmpty(body.instructions) && out.agentSkills == OrEmpty(body.skills)
            && out.autoInbox == body.autoInbox && out.socialEnabled == body.socialEnabled
            && out.feedEnabled == body.feedEnabled
            && out.socialFrequency == OrText(body.socialFrequency, "weekly")
            && out.feedFrequency == OrText(body.feedFrequency, "daily")
            && out.maxTurns == A2aRpc.LiteralTurnBudget(Some(body.maxTurns))
  {
  }

  /** The two schedule upserts of a profile update, with the body's
      frequencies defaulted and each trigger one period past the clock's
      time. */
  function ProfileUpsert(rows: seq<Scheduler.Schedule>, handle: string, body: ProfileBody,
                         socialIntent: string, feedIntent: string, c: Scheduler.Clock)
    : (r: Result<seq<Scheduler.Schedule>, string>)
    ensures r.Err? <==>
      (body.socialEnabled && Scheduler.ParseRecurrence(OrText(body.socialFrequency, "weekly")).None?) ||
      (body.feedEnabled && Scheduler.ParseRecurrence(OrText(body.feedFrequency, "daily")).None?)
  {
    var social := OrText(body.socialFrequency, "weekly");
    var feed := OrText(body.feedFrequency, "daily");
    UpsertBoth(rows, handle,
               body.socialEnabled, social, socialIntent, NextAt(c, social, 7 * Scheduler.Day),
               body.feedEnabled, feed, feedIntent, NextAt(c, feed, Scheduler.Day))
  }

  /** The caller's row replaced by its updated form; every other row kept. */
  function UpdateUser(users: seq<UserRow>, me: UserRow, body: ProfileBody): (r: seq<UserRow>)
    ensures |r| == |users|
    ensures forall j :: 0 <= j < |users| ==> r[j] == if users[j].id == me.id then Updated(users[j], body) else users[j]
  {
    seq(|users|, j requires 0 <= j < |users| => if users[j].id == me.id then Updated(users[j], body) else users[j])
  }

  /** The two schedule upserts of a profile update, social first: the
      update fails when an enabled schedule's frequency does not parse; an
      enabled schedule is present afterwards, active, with the intent,
      trigger and recurrence written, and a disabled one is gone; every
      other schedule is untouched, and unique ids stay unique. */
  function UpsertBoth(rows: seq<Scheduler.Schedule>, handle: string,
                      socialEnabled: bool, social: string, socialIntent: string, socialAt: string,
                      feedEnabled: bool, feed: string, feedIntent: string, feedAt: string)
    : (r: Result<seq<Scheduler.Schedule>, string>)
    ensures r.Err? <==>
      (socialEnabled && Scheduler.ParseRecurrence(social).None?) || (feedEnabled && Scheduler.ParseRecurrence(feed).None?)
    ensures r.Ok? && !socialEnabled ==> forall s :: s in r.value ==> s.id != SocialId(handle)
    ensures r.Ok? && socialEnabled ==> exists j :: 0 <= j < |r.value| && r.value[j].id == SocialId(handle)
    ensures r.Ok? && !feedEnabled ==> forall s :: s in r.value ==> s.id != FeedId(handle)
    ensures r.Ok? && feedEnabled ==> exists j :: 0 <= j < |r.value| && r.value[j].id == FeedId(handle)
    ensures r.Ok? ==> forall s :: s in r.value && s.id != SocialId(handle) && s.id != FeedId(handle)
                                  <==> s in rows && s.id != SocialId(handle) && s.id != FeedId(handle)
    ensures r.Ok? && socialEnabled ==> forall j :: 0 <= j < |r.value| && r.value[j].id == SocialId(handle) ==>
      Written(r.value[j], socialIntent, socialAt, Scheduler.ParseRecurrence(social).value)
    ensures r.Ok? && feedEnabled ==> forall j :: 0 <= j < |r.value| && r.value[j].id == FeedId(handle) ==>
      Written(r.value[j], feedIntent, feedAt, Scheduler.ParseRecurrence(feed).value)
    ensures r.Ok? && Scheduler.UniqueIds(rows) ==> Scheduler.UniqueIds(r.value)
  {
    IdsDiffer(handle);
    match Upsert(rows, SocialId(handle), handle, socialEnabled, social, socialIntent, socialAt)
    case Err(e) => Err(e)
    case Ok(s1) =>
      match Upsert(s1, FeedId(handle), handle, feedEnabled, feed, feedIntent, feedAt)
      case Err(e) => Err(e)
      case Ok(s2) =>
        KeptIdIndexed(s1, s2, SocialId(handle), FeedId(handle));
        if socialEnabled then
          KeptWritten(s1, s2, SocialId(handle), FeedId(handle),
                      socialIntent, socialAt, Scheduler.ParseRecurrence(social).value);
          Ok(s2)
        else
          Ok(s2)
  }

  /** A second upsert, under another id, keeps the values written to
      the rows with the first id. */
  lemma KeptWritten(a: seq<Scheduler.Schedule>, b: seq<Scheduler.Schedule>, id: string, other: string,
                    intent: string, trigger: string, rec: Scheduler.Recurrence)
    requires id != other
    requires forall s :: s in b && s.id != other <==> s in a && s.id != other
    requires forall j :: 0 <= j < |a| && a[j].id == id ==> Written(a[j], intent, trigger, rec)
    ensures forall j :: 0 <= j < |b| && b[j].id == id ==> Written(b[j], intent, trigger, rec)
  {
    forall j | 0 <= j < |b| && b[j].id == id ensures Written(b[j], intent, trigger, rec) {
      assert b[j] in b;
      var k :| 0 <= k < |a| && a[k] == b[j];
    }
  }

  /** A second upsert, under another id, keeps the rows with the first
      id: where they are, and that there are none. */
  lemma KeptIdIndexed(a: seq<Scheduler.Schedule>, b: seq<Scheduler.Schedule>, id: string, other: string)
    requires id != other
    requires forall s :: s in b && s.id != other <==> s in a && s.id != other
    ensures (exists j :: 0 <= j < |a| && a[j].id == id) ==> exists j :: 0 <= j < |b| && b[j].id == id
    ensures (forall s :: s in a ==> s.id != id) ==> forall s :: s in b ==> s.id != id
  {
    if j :| 0 <= j < |a| && a[j].id == id {
      assert a[j] in b;
      var k :| 0 <= k < |b| && b[k] == a[j];
    }
  }
}

=== FILE: contacts.dfy ===
/** The in-memory contact book (common/contacts.py) and the contact record
    shared by both registries (common/models.py). The JSON file behind the
    book is not modelled: the book is its list of contacts, in file order. */
module Contacts {
  import opened Wrappers
  import opened Text
  import opened Seqs

  datatype ContactType = Personal | Merchant
  datatype ContactStatus = Active | Unreachable | Unknown

  datatype Contact = Contact(
    name: string,
    ctype: ContactType,
    agentCardUrl: string,
    description: string,
    tags: seq<string>,
    status: ContactStatus)

  /** Names are compared case-insensitively. */
  predicate SameName(a: string, b: string) {
    Lower(a) == Lower(b)
  }

  predicate Named(c: Contact, name: string) {
    SameName(c.name, name)
  }

  /** Index of the first contact named `name`, if any. */
  function FindIndex(cs: seq<Contact>, name: string): (r: Option<nat>)
    ensures r.Some? ==> r.value < |cs| && Named(cs[r.value], name)
    ensures r.Some? ==> forall j :: 0 <= j < r.value ==> !Named(cs[j], name)
    ensures r.None? <==> forall j :: 0 <= j < |cs| ==> !Named(cs[j], name)
    decreases |cs|
  {
    if |cs| == 0 then None
    else if Named(cs[0], name) then Some(0)
    else
      var rest := FindIndex(cs[1..], name);
      if rest.Some? then Some(rest.value + 1) else None
  }

  /** `find`: the first case-insensitive match. */
  function Find(cs: seq<Contact>, name: string): (r: Option<Contact>)
    ensures r.Some? ==> r.value in cs && Named(r.value, name)
    ensures r.None? <==> forall c :: c in cs ==> !Named(c, name)
  {
    var i := FindIndex(cs, name);
    if i.Some? then Some(cs[i.value]) else None
  }

  function LowerAll(xs: seq<string>): (r: seq<string>)
    ensures |r| == |xs|
    ensures forall i :: 0 <= i < |xs| ==> r[i] == Lower(xs[i])
  {
    seq(|xs|, i requires 0 <= i < |xs| => Lower(xs[i]))
  }

  predicate HasTag(c: Contact, tag: string) {
    Lower(tag) in LowerAll(c.tags)
  }

  /** `find_by_tag`: case-insensitive tag membership, in book order. */
  function FindByTag(cs: seq<Contact>, tag: string): (r: seq<Contact>)
    ensures forall c :: c in r <==> c in cs && exists t :: t in c.tags && SameName(t, tag)
    ensures SubseqOf(r, cs)
  {
    FilterIsSubseq(cs, (c: Contact) => HasTag(c, tag));
    var r := Filter(cs, (c: Contact) => HasTag(c, tag));
    assert forall c :: HasTag(c, tag) <==> exists t :: t in c.tags && SameName(t, tag) by {
      forall c ensures HasTag(c, tag) <==> exists t :: t in c.tags && SameName(t, tag) {
        var lt := LowerAll(c.tags);
        if HasTag(c, tag) {
          var i :| 0 <= i < |lt| && lt[i] == Lower(tag);
          assert c.tags[i] in c.tags && SameName(c.tags[i], tag);
        }
        if exists t :: t in c.tags && SameName(t, tag) {
          var t :| t in c.tags && SameName(t, tag);
          var i :| 0 <= i < |c.tags| && c.tags[i] == t;
          assert lt[i] == Lower(tag);
        }
      }
    }
    r
  }

  /** `find_by_type`: exact type equality, in book order. */
  function FindByType(cs: seq<Contact>, t: ContactType): (r: seq<Contact>)
    ensures forall c :: c in r <==> c in cs && c.ctype == t
    ensures SubseqOf(r, cs)
  {
    FilterIsSubseq(cs, (c: Contact) => c.ctype == t);
    Filter(cs, (c: Contact) => c.ctype == t)
  }

  function AlreadyExists(name: string): string {
    "Contact '" + name + "' already exists. Use update instead."
  }

  function NotFound(name: string): string {
    "Contact '" + name + "' not found."
  }

  /** `add`: refused for a name already in the book (case-insensitive),
      appended otherwise. */
  function Add(cs: seq<Contact>, c: Contact): (r: (seq<Contact>, string))
    ensures Find(cs, c.name).Some? ==> r == (cs, AlreadyExists(c.name))
    ensures Find(cs, c.name).None? ==> r == (cs + [c], "Added '" + c.name + "' to contacts.")
  {
    if Find(cs, c.name).Some? then (cs, AlreadyExists(c.name))
    else (cs + [c], "Added '" + c.name + "' to contacts.")
  }

  /** `remove`: drops every case-insensitive match. */
  function Remove(cs: seq<Contact>, name: string): (r: (seq<Contact>, string))
    ensures forall c :: c in r.0 <==> c in cs && !Named(c, name)
    ensures Find(r.0, name).None?
    ensures Find(cs, name).None? <==> r.1 == NotFound(name)
    ensures Find(cs, name).None? ==> r.0 == cs
    ensures KeptFrom(r.0, cs, (c: Contact) => !Named(c, name))
  {
    var kept := Filter(cs, (c: Contact) => !Named(c, name));
    FilterCount(cs, (c: Contact) => !Named(c, name));
    FilterKeeps(cs, (c: Contact) => !Named(c, name));
    if |kept| == |cs| then
      KeepAllWhenCountFull(cs, name);
      KeepAll(cs, name);
      (kept, NotFound(name))
    else
      assert Find(cs, name).Some? by {
        if Find(cs, name).None? {
          KeepAll(cs, name);
        }
      }
      (kept, "Removed '" + name + "' from contacts.")
  }

  lemma {:induction false} KeepAll(cs: seq<Contact>, name: string)
    requires forall c :: c in cs ==> !Named(c, name)
    ensures Filter(cs, (c: Contact) => !Named(c, name)) == cs
    decreases |cs|
  {
    if |cs| > 0 {
      KeepAll(cs[1..], name);
      assert cs == [cs[0]] + cs[1..];
    }
  }

  lemma {:induction false} KeepAllWhenCountFull(cs: seq<Contact>, name: string)
    requires Count(cs, (c: Contact) => !Named(c, name)) == |cs|
    ensures forall c :: c in cs ==> !Named(c, name)
    decreases |cs|
  {
    if |cs| > 0 {
      assert Count(cs[1..], (c: Contact) => !Named(c, name)) <= |cs[1..]| by {
        CountBound(cs[1..], (c: Contact) => !Named(c, name));
      }
      KeepAllWhenCountFull(cs[1..], name);
      assert cs == [cs[0]] + cs[1..];
    }
  }

  lemma {:induction false} CountBound<T>(xs: seq<T>, p: T -> bool)
    ensures Count(xs, p) <= |xs|
    decreases |xs|
  {
    if |xs| > 0 {
      CountBound(xs[1..], p);
    }
  }

  /** Adding a new name and removing it again leaves the book as it was. */
  lemma AddRemove(cs: seq<Contact>, c: Contact)
    requires Find(cs, c.name).None?
    ensures Remove(Add(cs, c).0, c.name).0 == cs
    ensures Find(Add(cs, c).0, c.name) == Some(c)
  {
    var added := cs + [c];
    KeepAll(cs, c.name);
    FilterAppend(cs, [c], (x: Contact) => !Named(x, c.name));
    assert Filter([c], (x: Contact) => !Named(x, c.name)) == [];
    FindIndexAppend(cs, c);
  }

  lemma {:induction false} FindIndexAppend(cs: seq<Contact>, c: Contact)
    requires forall j :: 0 <= j < |cs| ==> !Named(cs[j], c.name)
    ensures FindIndex(cs + [c], c.name) == Some(|cs|)
    decreases |cs|
  {
    if |cs| > 0 {
      assert (cs + [c])[1..] == cs[1..] + [c];
      FindIndexAppend(cs[1..], c);
    }
  }

  /** The attributes `update` may set; an absent field is left alone.
      Keyword arguments naming no attribute of a contact are ignored by the
      source and cannot be expressed here. */
  datatype Patch = Patch(
    name: Option<string>,
    ctype: Option<ContactType>,
    agentCardUrl: Option<string>,
    description: Option<string>,
    tags: Option<seq<string>>,
    status: Option<ContactStatus>)

  function ApplyPatch(c: Contact, p: Patch): (r: Contact)
    ensures r.name == p.name.GetOr(c.name) && r.ctype == p.ctype.GetOr(c.ctype)
    ensures r.agentCardUrl == p.agentCardUrl.GetOr(c.agentCardUrl)
    ensures r.description == p.description.GetOr(c.description)
    ensures r.tags == p.tags.GetOr(c.tags) && r.status == p.status.GetOr(c.status)
  {
    Contact(p.name.GetOr(c.name), p.ctype.GetOr(c.ctype), p.agentCardUrl.GetOr(c.agentCardUrl),
            p.description.GetOr(c.description), p.tags.GetOr(c.tags), p.status.GetOr(c.status))
  }

  /** `update`: the first match is patched in place; every other contact
      stays as it was. */
  function Update(cs: seq<Contact>, name: string, p: Patch): (r: (seq<Contact>, string))
    ensures |r.0| == |cs|
    ensures Find(cs, name).None? ==> r == (cs, NotFound(name))
    ensures Find(cs, name).Some? ==> r.1 == "Updated '" + name + "'."
    ensures FindIndex(cs, name).Some? ==>
      var i := FindIndex(cs, name).value;
      r.0[i] == ApplyPatch(cs[i], p) && forall j :: 0 <= j < |cs| && j != i ==> r.0[j] == cs[j]
  {
    match FindIndex(cs, name)
    case None => (cs, NotFound(name))
    case Some(i) => (cs[i := ApplyPatch(cs[i], p)], "Updated '" + name + "'.")
  }

  /** How the card fetch of a ping ends: an HTTP status, or an exception. */
  datatype Probe = HttpStatus(code: int) | Failed(error: string)

  function ProbeStatus(probe: Probe): (r: ContactStatus)
    ensures r == Active <==> probe == HttpStatus(200)
    ensures r != Unknown
  {
    if probe == HttpStatus(200) then Active else Unreachable
  }

  /** `ping`: HTTP 200 makes the contact active; any other status or an
      exception makes it unreachable. */
  function Ping(cs: seq<Contact>, name: string, probe: Probe): (r: (seq<Contact>, string))
    ensures Find(cs, name).None? ==> r == (cs, NotFound(name))
    ensures FindIndex(cs, name).Some? ==>
      var i := FindIndex(cs, name).value;
      r.0 == cs[i := cs[i].(status := ProbeStatus(probe))]
  {
    match FindIndex(cs, name)
    case None => (cs, NotFound(name))
    case Some(i) =>
      var msg := match probe
        case HttpStatus(200) => name + " is active and reachable."
        case HttpStatus(code) => name + " returned status " + IntToString(code) + "."
        case Failed(e) => name + " is unreachable: " + e;
      (cs[i := cs[i].(status := ProbeStatus(probe))], msg)
  }

  /** `str(n)` for any integer. */
  function IntToString(n: int): (r: string)
    ensures |r| >= 1
  {
    if n < 0 then "-" + NatToString(-n) else NatToString(n)
  }
}

=== FILE: conversation_ids.dfy ===
/** How the services name conversation threads. Random suffixes and SHA-1
    digests are parameters: `uuidHex` is the hex of a fresh UUID and `sha1`
    maps a string to its hex digest. */
module ConversationIds {
  import opened Text

  /** `"_".join(sorted([a.lower(), b.lower()]))` */
  function PairKey(a: string, b: string): (r: string)
    ensures LexLe(Lower(a), Lower(b)) ==> r == Lower(a) + "_" + Lower(b)
    ensures !LexLe(Lower(a), Lower(b)) ==> r == Lower(b) + "_" + Lower(a)
  {
    var x := Lower(a);
    var y := Lower(b);
    if LexLe(x, y) then x + "_" + y else y + "_" + x
  }

  /** The pair key names the unordered pair: it does not depend on which
      side is the sender, nor on letter case. */
  lemma PairKeySymmetric(a: string, b: string)
    ensures PairKey(a, b) == PairKey(b, a)
    ensures PairKey(Lower(a), Lower(b)) == PairKey(a, b)
  {
    var x := Lower(a);
    var y := Lower(b);
    LexTotal(x, y);
    if LexLe(x, y) && LexLe(y, x) {
      LexAntisymmetric(x, y);
    }
    LowerIdempotent(a);
    LowerIdempotent(b);
  }

  /** The deterministic thread of a pair of users
      (app/services/simulation.py:116-118, and the inbox copy in
      personal_agents/shared_tools.py:257,300). */
  function PairThreadId(a: string, b: string): (r: string)
    ensures StartsWith(r, "conv_")
  {
    var r := "conv_" + PairKey(a, b);
    assert r[..5] == "conv_";
    r
  }

  /** `_new_conversation_id` (app/services/local_router.py:47-51): the pair
      thread id plus an 8-hex random suffix. */
  function MintedThreadId(a: string, b: string, uuidHex: string): (r: string)
    ensures StartsWith(r, PairThreadId(a, b) + "_")
    ensures r == PairThreadId(a, b) + "_" + Take(uuidHex, 8)
  {
    var p := PairThreadId(a, b) + "_";
    var r := p + Take(uuidHex, 8);
    assert r[..|p|] == p;
    r
  }

  /** A minted id starts with the same pair prefix whichever side sends. */
  lemma MintedSymmetric(a: string, b: string, hex1: string, hex2: string)
    ensures StartsWith(MintedThreadId(a, b, hex1), PairThreadId(b, a) + "_")
  {
    PairKeySymmetric(a, b);
  }

  /** `_conv_id` of the external endpoints (app/routers/a2a_rpc.py:34-36,
      app/routers/a2a_inbound.py:47-49). */
  function ExternalThreadId(recipient: string, sender: string, url: string, sha1: string -> string): (r: string)
    ensures StartsWith(r, "conv_ext_")
  {
    var r := "conv_ext_" + Lower(recipient) + "_" + Lower(sender) + "_" + Take(sha1(url), 8);
    assert r[..9] == "conv_ext_";
    r
  }

  /** The external thread id ignores the case of both names, but not of the
      URL. */
  lemma ExternalThreadIdCaseless(recipient: string, sender: string, url: string, sha1: string -> string)
    ensures ExternalThreadId(Lower(recipient), Lower(sender), url, sha1) == ExternalThreadId(recipient, sender, url, sha1)
  {
    LowerIdempotent(recipient);
    LowerIdempotent(sender);
  }

  /** The default agent-to-agent thread of `send_message_to_contact`
      (personal_agents/shared_tools.py:242-244): a 10-hex digest of the
      lower-cased sender and target card URL. */
  function A2aThreadId(agentId: string, url: string, sha1: string -> string): (r: string)
    ensures StartsWith(r, "conv_a2a_")
    ensures |r| <= 9 + 10
  {
    var r := "conv_a2a_" + Take(sha1(Lower(agentId) + "::" + Lower(url)), 10);
    assert r[..9] == "conv_a2a_";
    r
  }

  lemma A2aThreadIdCaseless(agentId: string, url: string, sha1: string -> string)
    ensures A2aThreadId(Lower(agentId), Lower(url), sha1) == A2aThreadId(agentId, url, sha1)
  {
    LowerIdempotent(agentId);
    LowerIdempotent(url);
  }
}

=== FILE: db_contacts.dfy ===
/** The SQLite contact registry (app/services/db_contacts.py): one
    `contacts` table shared by all owners, each registry instance scoped to
    one owner. Rows are kept in insertion order; the stored status is free
    text (the platform also writes "pending"). Name lookups use SQLite's
    `COLLATE NOCASE`, i.e. ASCII case folding, while the uniqueness
    constraint on (owner, name) compares names exactly. */
module DbContacts {
  import opened Wrappers
  import opened Text
  import opened Seqs
  import Contacts
  import opened Platform

  datatype ContactRow = ContactRow(
    owner: string,
    name: string,
    ctype: Contacts.ContactType,
    agentCardUrl: string,
    description: string,
    tags: seq<string>,
    status: string)

  function StatusName(s: Contacts.ContactStatus): string {
    match s
    case Active => "active"
    case Unreachable => "unreachable"
    case Unknown => "unknown"
  }

  /** The status a row is read as: "active", "unreachable" and "unknown"
      (after strip and lower-casing) are kept, anything else, "pending"
      included, reads as unknown. */
  function ReadStatus(raw: string): (r: Contacts.ContactStatus)
    ensures Lower(Strip(raw)) == "active" <==> r == Contacts.Active
    ensures Lower(Strip(raw)) == "unreachable" <==> r == Contacts.Unreachable
    ensures Lower(Strip(raw)) !in {"active", "unreachable"} <==> r == Contacts.Unknown
  {
    var s := Lower(Strip(raw));
    if s == "active" then Contacts.Active
    else if s == "unreachable" then Contacts.Unreachable
    else Contacts.Unknown
  }

  /** Writing a status and reading it back gives the same status. */
  lemma ReadStatusRoundTrip(s: Contacts.ContactStatus)
    ensures ReadStatus(StatusName(s)) == s
  {
    match s
    case Active => ReadPlain("active");
    case Unreachable => ReadPlain("unreachable");
    case Unknown => ReadPlain("unknown");
  }

  /** A word of lower-case letters is read as the status it spells. */
  lemma ReadPlain(w: string)
    requires forall i :: 0 <= i < |w| ==> IsLowerLetter(w[i])
    ensures w == "active" ==> ReadStatus(w) == Contacts.Active
    ensures w == "unreachable" ==> ReadStatus(w) == Contacts.Unreachable
    ensures w != "active" && w != "unreachable" ==> ReadStatus(w) == Contacts.Unknown
  {
    LowerWord(w);
  }

  /** `_row_to_contact` */
  function RowToContact(row: ContactRow): (r: Contacts.Contact)
    ensures r.name == row.name && r.ctype == row.ctype && r.agentCardUrl == row.agentCardUrl
    ensures r.description == row.description && r.tags == row.tags
    ensures r.status == ReadStatus(row.status)
  {
    Contacts.Contact(row.name, row.ctype, row.agentCardUrl, row.description, row.tags, ReadStatus(row.status))
  }

  function ToContacts(rows: seq<ContactRow>): (r: seq<Contacts.Contact>)
    ensures |r| == |rows|
    ensures forall i :: 0 <= i < |rows| ==> r[i] == RowToContact(rows[i])
  {
    seq(|rows|, i requires 0 <= i < |rows| => RowToContact(rows[i]))
  }

  predicate OwnedBy(row: ContactRow, owner: string) {
    row.owner == owner
  }

  /** `name = ? COLLATE NOCASE` within one owner's rows. */
  predicate Matches(row: ContactRow, owner: string, name: string) {
    row.owner == owner && Lower(row.name) == Lower(name)
  }

  function ByName(a: ContactRow, b: ContactRow): bool {
    LexLe(a.name, b.name)
  }

  lemma ByNameTotal()
    ensures TotalPreorder(ByName)
  {
    forall a: ContactRow, b: ContactRow ensures ByName(a, b) || ByName(b, a) {
      LexTotal(a.name, b.name);
    }
    forall a: ContactRow, b: ContactRow, c: ContactRow | ByName(a, b) && ByName(b, c) ensures ByName(a, c) {
      LexTransitive(a.name, b.name, c.name);
    }
  }

  /** The owner's rows satisfying `p`, ordered by name (`ORDER BY name`). */
  function SelectByName(rows: seq<ContactRow>, p: ContactRow -> bool): (r: seq<ContactRow>)
    ensures multiset(r) == multiset(Filter(rows, p))
    ensures Sorted(r, ByName)
    ensures forall x :: x in r <==> x in rows && p(x)
  {
    ByNameTotal();
    var r := SortBy(Filter(rows, p), ByName);
    assert forall x :: x in r <==> x in multiset(r);
    r
  }

  /** Contacts read from `sel`, in the same order, keep their names and
      every row of `sel` is among them. */
  lemma ToContactsMembers(sel: seq<ContactRow>)
    ensures forall row :: row in sel ==> RowToContact(row) in ToContacts(sel)
  {
    var r := ToContacts(sel);
    forall row | row in sel ensures RowToContact(row) in r {
      var i :| 0 <= i < |sel| && sel[i] == row;
      assert r[i] == RowToContact(row);
    }
  }

  /** Reading rows sorted by name gives contacts sorted by name. */
  lemma ToContactsSorted(sel: seq<ContactRow>)
    requires Sorted(sel, ByName)
    ensures forall i, j :: 0 <= i < j < |ToContacts(sel)| ==> LexLe(ToContacts(sel)[i].name, ToContacts(sel)[j].name)
  {
    var r := ToContacts(sel);
    forall i, j | 0 <= i < j < |r| ensures LexLe(r[i].name, r[j].name) {
      assert ByName(sel[i], sel[j]);
    }
  }

  /** `all`: the owner's contacts, ordered by name. */
  function All(rows: seq<ContactRow>, owner: string): (r: seq<Contacts.Contact>)
    ensures |r| == Count(rows, (x: ContactRow) => OwnedBy(x, owner))
    ensures forall row :: row in rows && OwnedBy(row, owner) ==> RowToContact(row) in r
    ensures forall i, j :: 0 <= i < j < |r| ==> LexLe(r[i].name, r[j].name)
  {
    var sel := SelectByName(rows, (x: ContactRow) => OwnedBy(x, owner));
    FilterCount(rows, (x: ContactRow) => OwnedBy(x, owner));
    assert |sel| == |multiset(sel)|;
    ToContactsMembers(sel);
    ToContacts(sel)
  }

  /** Index of the first row of `owner` matching `name`. */
  function FindRow(rows: seq<ContactRow>, owner: string, name: string): (r: Option<nat>)
    ensures r.Some? ==> r.value < |rows| && Matches(rows[r.value], owner, name)
    ensures r.Some? ==> forall j :: 0 <= j < r.value ==> !Matches(rows[j], owner, name)
    ensures r.None? <==> forall j :: 0 <= j < |rows| ==> !Matches(rows[j], owner, name)
    decreases |rows|
  {
    if |rows| == 0 then None
    else if Matches(rows[0], owner, name) then Some(0)
    else
      var rest := FindRow(rows[1..], owner, name);
      if rest.Some? then Some(rest.value + 1) else None
  }

  /** `find` */
  function Find(rows: seq<ContactRow>, owner: string, name: string): (r: Option<Contacts.Contact>)
    ensures r.None? <==> forall row :: row in rows ==> !Matches(row, owner, name)
    ensures r.Some? ==> exists row :: row in rows && Matches(row, owner, name) && r.value == RowToContact(row)
  {
    match FindRow(rows, owner, name)
    case None => None
    case Some(i) =>
      assert rows[i] in rows;
      Some(RowToContact(rows[i]))
  }

  predicate HasTagIgnoringCase(tags: seq<string>, tag: string) {
    exists t :: t in tags && Lower(t) == Lower(tag)
  }

  predicate TaggedRow(row: ContactRow, owner: string, tag: string) {
    row.owner == owner && HasTagIgnoringCase(row.tags, tag)
  }

  /** `find_by_tag`: owner's rows with a tag equal to `tag` ignoring case,
      by name. */
  function FindByTag(rows: seq<ContactRow>, owner: string, tag: string): (r: seq<Contacts.Contact>)
    ensures |r| == Count(rows, (x: ContactRow) => TaggedRow(x, owner, tag))
    ensures forall row :: row in rows && TaggedRow(row, owner, tag) ==> RowToContact(row) in r
    ensures forall i :: 0 <= i < |r| ==> HasTagIgnoringCase(r[i].tags, tag)
    ensures forall i, j :: 0 <= i < j < |r| ==> LexLe(r[i].name, r[j].name)
  {
    var sel := SelectByName(rows, (x: ContactRow) => TaggedRow(x, owner, tag));
    FilterCount(rows, (x: ContactRow) => TaggedRow(x, owner, tag));
    assert |sel| == |multiset(sel)|;
    ToContactsMembers(sel);
    ToContactsSorted(sel);
    ToContactsTagged(sel, owner, tag);
    ToContacts(sel)
  }

  /** Contacts read from tagged rows carry the tag. */
  lemma ToContactsTagged(sel: seq<ContactRow>, owner: string, tag: string)
    requires forall x :: x in sel ==> TaggedRow(x, owner, tag)
    ensures forall i :: 0 <= i < |ToContacts(sel)| ==> HasTagIgnoringCase(ToContacts(sel)[i].tags, tag)
  {
    forall i | 0 <= i < |sel| ensures HasTagIgnoringCase(ToContacts(sel)[i].tags, tag) {
      assert sel[i] in sel;
    }
  }

  /** `find_by_type`: exact type, by name. */
  function FindByType(rows: seq<ContactRow>, owner: string, t: Contacts.ContactType): (r: seq<Contacts.Contact>)
    ensures |r| == Count(rows, (x: ContactRow) => x.owner == owner && x.ctype == t)
    ensures forall i :: 0 <= i < |r| ==> r[i].ctype == t
    ensures forall row :: row in rows && row.owner == owner && row.ctype == t ==> RowToContact(row) in r
    ensures forall i, j :: 0 <= i < j < |r| ==> LexLe(r[i].name, r[j].name)
  {
    var sel := SelectByName(rows, (x: ContactRow) => x.owner == owner && x.ctype == t);
    FilterCount(rows, (x: ContactRow) => x.owner == owner && x.ctype == t);
    assert |sel| == |multiset(sel)|;
    ToContactsMembers(sel);
    ToContactsSorted(sel);
    assert forall i :: 0 <= i < |sel| ==> sel[i] in sel;
    ToContacts(sel)
  }

  function FromContact(owner: string, c: Contacts.Contact): ContactRow {
    ContactRow(owner, c.name, c.ctype, c.agentCardUrl, c.description, c.tags, StatusName(c.status))
  }

  /** `add`: the insert fails on an exact (owner, name) duplicate. */
  function Add(rows: seq<ContactRow>, owner: string, c: Contacts.Contact): (r: (seq<ContactRow>, string))
    ensures (exists row :: row in rows && row.owner == owner && row.name == c.name) ==>
      r == (rows, Contacts.AlreadyExists(c.name))
    ensures (forall row :: row in rows ==> row.owner != owner || row.name != c.name) ==>
      r == (rows + [FromContact(owner, c)], "Added '" + c.name + "' to contacts.")
  {
    if exists row :: row in rows && row.owner == owner && row.name == c.name then (rows, Contacts.AlreadyExists(c.name))
    else (rows + [FromContact(owner, c)], "Added '" + c.name + "' to contacts.")
  }

  /** A contact added under a fresh name is found again, with its status
      read back unchanged. */
  lemma AddThenFind(rows: seq<ContactRow>, owner: string, c: Contacts.Contact)
    requires forall row :: row in rows ==> !Matches(row, owner, c.name)
    ensures Find(Add(rows, owner, c).0, owner, c.name) == Some(c)
  {
    var rows' := Add(rows, owner, c).0;
    assert rows' == rows + [FromContact(owner, c)];
    FindRowAppend(rows, owner, FromContact(owner, c));
    ReadStatusRoundTrip(c.status);
  }

  lemma {:induction false} FindRowAppend(rows: seq<ContactRow>, owner: string, row: ContactRow)
    requires row.owner == owner
    requires forall x :: x in rows ==> !Matches(x, owner, row.name)
    ensures FindRow(rows + [row], owner, row.name) == Some(|rows|)
    decreases |rows|
  {
    if |rows| > 0 {
      assert (rows + [row])[1..] == rows[1..] + [row];
      FindRowAppend(rows[1..], owner, row);
    }
  }

  /** Exact uniqueness is weaker than case-insensitive lookup: a name that
      differs only in case is inserted beside the existing one. */
  lemma CaseVariantInserted(owner: string, c: Contacts.Contact)
    requires c.name == "Bob"
    ensures var rows := [FromContact(owner, c)];
            var r := Add(rows, owner, c.(name := "bob"));
            |r.0| == 2 && Find(r.0, owner, "bob") == Some(RowToContact(rows[0]))
  {
    var rows := [FromContact(owner, c)];
    var c2 := c.(name := "bob");
    assert !(exists row :: row in rows && row.owner == owner && row.name == c2.name) by {
      assert rows[0].name == "Bob";
    }
    assert Lower("Bob") == "bob";
    var r := Add(rows, owner, c2);
    assert Matches(r.0[0], owner, "bob");
  }

  /** `remove`: deletes every row of the owner matching the name. */
  function Remove(rows: seq<ContactRow>, owner: string, name: string): (r: (seq<ContactRow>, string))
    ensures forall x :: x in r.0 <==> x in rows && !Matches(x, owner, name)
    ensures Find(r.0, owner, name).None?
    ensures (forall x :: x in rows ==> !Matches(x, owner, name)) <==> r.1 == Contacts.NotFound(name)
    ensures forall x :: x in rows && x.owner != owner ==> x in r.0
    ensures KeptFrom(r.0, rows, (x: ContactRow) => !Matches(x, owner, name))
  {
    var kept := Filter(rows, (x: ContactRow) => !Matches(x, owner, name));
    FilterCount(rows, (x: ContactRow) => !Matches(x, owner, name));
    FilterKeeps(rows, (x: ContactRow) => !Matches(x, owner, name));
    if |kept| == |rows| then
      KeptAll(rows, owner, name);
      (kept, Contacts.NotFound(name))
    else
      assert exists x :: x in rows && Matches(x, owner, name) by {
        if forall x :: x in rows ==> !Matches(x, owner, name) {
          CountAll(rows, owner, name);
        }
      }
      (kept, "Removed '" + name + "' from contacts.")
  }

  lemma {:induction false} KeptAll(rows: seq<ContactRow>, owner: string, name: string)
    requires Count(rows, (x: ContactRow) => !Matches(x, owner, name)) == |rows|
    ensures forall x :: x in rows ==> !Matches(x, owner, name)
    decreases |rows|
  {
    if |rows| > 0 {
      Contacts.CountBound(rows[1..], (x: ContactRow) => !Matches(x, owner, name));
      KeptAll(rows[1..], owner, name);
      assert rows == [rows[0]] + rows[1..];
    }
  }

  lemma {:induction false} CountAll(rows: seq<ContactRow>, owner: string, name: string)
    requires forall x :: x in rows ==> !Matches(x, owner, name)
    ensures Count(rows, (x: ContactRow) => !Matches(x, owner, name)) == |rows|
    decreases |rows|
  {
    if |rows| > 0 {
      CountAll(rows[1..], owner, name);
    }
  }

  /** The attributes `update` writes back; the name is not among them. */
  datatype Patch = Patch(
    ctype: Option<Contacts.ContactType>,
    agentCardUrl: Option<string>,
    description: Option<string>,
    tags: Option<seq<string>>,
    status: Option<Contacts.ContactStatus>)

  /** `update`: the first match is read (status normalised), patched, and
      written over every matching row of the owner. */
  function Update(rows: seq<ContactRow>, owner: string, name: string, p: Patch): (r: (seq<ContactRow>, string))
    ensures |r.0| == |rows|
    ensures FindRow(rows, owner, name).None? ==> r == (rows, Contacts.NotFound(name))
    ensures FindRow(rows, owner, name).Some? ==>
      var c := RowToContact(rows[FindRow(rows, owner, name).value]);
      r.1 == "Updated '" + name + "'." &&
      forall i :: 0 <= i < |rows| ==>
        r.0[i] == if Matches(rows[i], owner, name)
                  then rows[i].(ctype := p.ctype.GetOr(c.ctype), agentCardUrl := p.agentCardUrl.GetOr(c.agentCardUrl),
                                description := p.description.GetOr(c.description), tags := p.tags.GetOr(c.tags),
                                status := StatusName(p.status.GetOr(c.status)))
                  else rows[i]
  {
    match FindRow(rows, owner, name)
    case None => (rows, Contacts.NotFound(name))
    case Some(k) =>
      var c := RowToContact(rows[k]);
      var rows' := seq(|rows|, i requires 0 <= i < |rows| =>
        if Matches(rows[i], owner, name)
        then rows[i].(ctype := p.ctype.GetOr(c.ctype), agentCardUrl := p.agentCardUrl.GetOr(c.agentCardUrl),
                      description := p.description.GetOr(c.description), tags := p.tags.GetOr(c.tags),
                      status := StatusName(p.status.GetOr(c.status)))
        else rows[i]);
      (rows', "Updated '" + name + "'.")
  }

  /** Updating a pending contact without touching its status rewrites the
      stored status as "unknown": the read normalisation leaks into the
      write. */
  lemma UpdateDropsPending(row: ContactRow, p: Patch)
    requires row.status == "pending" && p.status.None?
    ensures Update([row], row.owner, row.name, p).0[0].status == "unknown"
  {
    var w := row.status;
    assert |w| == 7 && forall i :: 0 <= i < |w| ==> IsLowerLetter(w[i]);
    ReadPlain(w);
    UpdateOneStatus(row, p);
  }

  /** Updating a contact's own row writes the patched status, or the one
      the row was read as. */
  lemma UpdateOneStatus(row: ContactRow, p: Patch)
    ensures Update([row], row.owner, row.name, p).0[0].status == StatusName(p.status.GetOr(ReadStatus(row.status)))
  {
    assert Matches(row, row.owner, row.name);
    assert FindRow([row], row.owner, row.name).Some?;
  }

  /** Outcome of a `ping`, besides the rows. */
  datatype PingResult =
    | PingNotFound
    | SkippedPending
    | Probed(url: string, message: string)

  /** `ping`: a pending contact is skipped without a request; otherwise the
      resolved card URL is fetched and the status set from the outcome. */
  function Ping(rows: seq<ContactRow>, owner: string, name: string, probe: Contacts.Probe): (r: (seq<ContactRow>, PingResult))
    ensures FindRow(rows, owner, name).None? ==> r == (rows, PingNotFound)
    ensures FindRow(rows, owner, name).Some? && Lower(Strip(rows[FindRow(rows, owner, name).value].status)) == "pending" ==>
      r == (rows, SkippedPending)
    ensures r.1.Probed? ==>
      FindRow(rows, owner, name).Some? &&
      r.1.url == ResolveAgentCardUrl(rows[FindRow(rows, owner, name).value].agentCardUrl) &&
      r.0 == Update(rows, owner, name, Patch(None, None, None, None, Some(Contacts.ProbeStatus(probe)))).0
  {
    match FindRow(rows, owner, name)
    case None => (rows, PingNotFound)
    case Some(k) =>
      if Lower(Strip(rows[k].status)) == "pending" then (rows, SkippedPending)
      else
        var url := ResolveAgentCardUrl(rows[k].agentCardUrl);
        var status := Contacts.ProbeStatus(probe);
        var msg := match probe
          case HttpStatus(200) => name + " is active and reachable."
          case HttpStatus(code) => name + " returned status " + Contacts.IntToString(code) + "."
          case Failed(e) => name + " is unreachable: " + e;
        (Update(rows, owner, name, Patch(None, None, None, None, Some(status))).0, Probed(url, msg))
  }

  /** Every write of one owner's registry leaves the other owners' rows
      where and as they were. */
  lemma OwnerIsolation(rows: seq<ContactRow>, owner: string, name: string, p: Patch, i: nat)
    requires i < |rows| && rows[i].owner != owner
    ensures Update(rows, owner, name, p).0[i] == rows[i]
    ensures rows[i] in Remove(rows, owner, name).0
  {
  }
}

=== FILE: db_history.dfy ===
/** The SQLite history store (app/services/db_history.py): the history
    table shared by every user, seen through one owner. Rows are in
    insertion (row id) order; `ORDER BY timestamp` is a stable sort on
    the timestamp text, which keeps rows with equal timestamps in row id
    order. A sharable entry is also posted to the feed. */
module DbHistory {
  import opened Wrappers
  import opened Text
  import opened History
  import Seqs
  import FeedStore

  datatype HistoryRow = HistoryRow(id: nat, owner: string, entry: HistoryEntry)

  datatype HistoryDb = HistoryDb(rows: seq<HistoryRow>, nextId: nat)

  /** Row ids are allocated in increasing order below `nextId`. */
  predicate Valid(db: HistoryDb) {
    && (forall i, j :: 0 <= i < j < |db.rows| ==> db.rows[i].id < db.rows[j].id)
    && (forall i :: 0 <= i < |db.rows| ==> db.rows[i].id < db.nextId)
  }

  predicate OwnedBy(r: HistoryRow, owner: string) {
    r.owner == owner
  }

  /** `WHERE owner_agent_id = ?` */
  function Owned(db: HistoryDb, owner: string): (r: seq<HistoryRow>)
    ensures forall x :: x in r <==> x in db.rows && x.owner == owner
  {
    Seqs.Filter(db.rows, (x: HistoryRow) => OwnedBy(x, owner))
  }

  function ByTime(a: HistoryRow, b: HistoryRow): bool {
    LexLe(a.entry.timestamp, b.entry.timestamp)
  }

  function ByTimeDesc(a: HistoryRow, b: HistoryRow): bool {
    LexLe(b.entry.timestamp, a.entry.timestamp)
  }

  lemma ByTimeTotal()
    ensures Seqs.TotalPreorder(ByTime) && Seqs.TotalPreorder(ByTimeDesc)
  {
    forall a: HistoryRow, b: HistoryRow ensures ByTime(a, b) || ByTime(b, a) {
      LexTotal(a.entry.timestamp, b.entry.timestamp);
    }
    forall a: HistoryRow, b: HistoryRow, c: HistoryRow | ByTime(a, b) && ByTime(b, c) ensures ByTime(a, c) {
      LexTransitive(a.entry.timestamp, b.entry.timestamp, c.entry.timestamp);
    }
    forall a: HistoryRow, b: HistoryRow ensures ByTimeDesc(a, b) || ByTimeDesc(b, a) {
      LexTotal(a.entry.timestamp, b.entry.timestamp);
    }
    forall a: HistoryRow, b: HistoryRow, c: HistoryRow | ByTimeDesc(a, b) && ByTimeDesc(b, c)
      ensures ByTimeDesc(a, c)
    {
      LexTransitive(c.entry.timestamp, b.entry.timestamp, a.entry.timestamp);
    }
  }

  /** The owner's rows, oldest first (`ORDER BY timestamp`). */
  function OwnedAscending(db: HistoryDb, owner: string): (r: seq<HistoryRow>)
    ensures multiset(r) == multiset(Owned(db, owner))
    ensures Seqs.Sorted(r, ByTime)
    ensures forall x :: x in r <==> x in db.rows && x.owner == owner
  {
    ByTimeTotal();
    var r := Seqs.SortBy(Owned(db, owner), ByTime);
    assert forall x :: x in r <==> x in multiset(r);
    r
  }

  function Entries(rs: seq<HistoryRow>): (r: seq<HistoryEntry>)
    ensures |r| == |rs| && forall i :: 0 <= i < |r| ==> r[i] == rs[i].entry
  {
    seq(|rs|, i requires 0 <= i < |rs| => rs[i].entry)
  }

  /** `all`: the owner's entries, oldest first. */
  function All(db: HistoryDb, owner: string): (r: seq<HistoryEntry>)
    ensures |r| == |Owned(db, owner)|
    ensures forall i, j :: 0 <= i < j < |r| ==> LexLe(r[i].timestamp, r[j].timestamp)
    ensures forall e :: e in r <==> exists k :: 0 <= k < |db.rows| && db.rows[k].owner == owner && db.rows[k].entry == e
  {
    var rs := OwnedAscending(db, owner);
    assert |rs| == |multiset(rs)|;
    EntriesOfOwned(db, owner, rs);
    Entries(rs)
  }

  /** The entries of the owner's rows, in any order that keeps them
      sorted, are the owner's entries, sorted by timestamp. */
  lemma EntriesOfOwned(db: HistoryDb, owner: string, rs: seq<HistoryRow>)
    requires forall x :: x in rs <==> x in db.rows && x.owner == owner
    requires Seqs.Sorted(rs, ByTime)
    ensures forall i, j :: 0 <= i < j < |Entries(rs)| ==> LexLe(Entries(rs)[i].timestamp, Entries(rs)[j].timestamp)
    ensures forall e :: e in Entries(rs) <==>
      exists k :: 0 <= k < |db.rows| && db.rows[k].owner == owner && db.rows[k].entry == e
  {
    var r := Entries(rs);
    forall i, j | 0 <= i < j < |r| ensures LexLe(r[i].timestamp, r[j].timestamp) {
      assert ByTime(rs[i], rs[j]);
    }
    forall e | e in r ensures exists k :: 0 <= k < |db.rows| && db.rows[k].owner == owner && db.rows[k].entry == e {
      var i :| 0 <= i < |r| && r[i] == e;
      assert rs[i] in rs;
    }
    forall k | 0 <= k < |db.rows| && db.rows[k].owner == owner ensures db.rows[k].entry in r {
      assert db.rows[k] in rs;
      var i :| 0 <= i < |rs| && rs[i] == db.rows[k];
      assert r[i] == db.rows[k].entry;
    }
  }

  /** `all_with_id`: the owner's rows, newest first
      (`ORDER BY timestamp DESC`). */
  function AllWithId(db: HistoryDb, owner: string): (r: seq<HistoryRow>)
    ensures multiset(r) == multiset(Owned(db, owner))
    ensures forall i, j :: 0 <= i < j < |r| ==> LexLe(r[j].entry.timestamp, r[i].entry.timestamp)
    ensures forall x :: x in r <==> x in db.rows && x.owner == owner
  {
    ByTimeTotal();
    var r := Seqs.SortBy(Owned(db, owner), ByTimeDesc);
    assert forall x :: x in r <==> x in multiset(r);
    r
  }

  /** A row matches when its entry does. */
  function RowHits(query: string, dumps: map<string, string> -> string): HistoryRow -> bool {
    (x: HistoryRow) => Matches(x.entry, query, dumps)
  }

  lemma EntriesAppend(a: seq<HistoryRow>, b: seq<HistoryRow>)
    ensures Entries(a + b) == Entries(a) + Entries(b)
  {
    assert forall i :: 0 <= i < |a + b| ==> Entries(a + b)[i] == (Entries(a) + Entries(b))[i];
  }

  /** Permuted rows have permuted entries. */
  lemma {:induction false} EntriesPerm(a: seq<HistoryRow>, b: seq<HistoryRow>)
    requires multiset(a) == multiset(b)
    ensures multiset(Entries(a)) == multiset(Entries(b))
    decreases |a|
  {
    if |a| == 0 {
      assert |b| == |multiset(b)| == 0;
    } else {
      var x := a[0];
      assert x in multiset(b);
      var k :| 0 <= k < |b| && b[k] == x;
      var rest := b[..k] + b[k + 1..];
      assert b == b[..k] + [x] + b[k + 1..];
      assert a == [x] + a[1..];
      assert multiset(b) == multiset(b[..k]) + multiset{x} + multiset(b[k + 1..]);
      assert multiset(rest) == multiset(b[..k]) + multiset(b[k + 1..]);
      assert multiset(a) == multiset{x} + multiset(a[1..]);
      assert multiset(a[1..]) == multiset(a) - multiset{x};
      assert multiset(rest) == multiset(b) - multiset{x};
      EntriesPerm(a[1..], rest);
      EntriesAppend([x], a[1..]);
      EntriesAppend(b[..k] + [x], b[k + 1..]);
      EntriesAppend(b[..k], [x]);
      EntriesAppend(b[..k], b[k + 1..]);
    }
  }

  /** Reading the entries and then filtering them is filtering the rows
      and then reading their entries. */
  lemma {:induction false} EntriesFilter(s: seq<HistoryRow>, query: string, dumps: map<string, string> -> string)
    ensures Seqs.Filter(Entries(s), History.Hits(query, dumps)) == Entries(Seqs.Filter(s, RowHits(query, dumps)))
    decreases |s|
  {
    if |s| > 0 {
      EntriesFilter(s[1..], query, dumps);
      assert Entries(s)[1..] == Entries(s[1..]);
      var head: seq<HistoryRow> := if RowHits(query, dumps)(s[0]) then [s[0]] else [];
      EntriesAppend(head, Seqs.Filter(s[1..], RowHits(query, dumps)));
    }
  }

  /** `search`: the owner's entries some keyword occurs in, oldest first,
      one for each matching row. */
  function Search(db: HistoryDb, owner: string, query: string, dumps: map<string, string> -> string)
    : (r: seq<HistoryEntry>)
    ensures forall e :: e in r <==>
      (exists k :: 0 <= k < |db.rows| && db.rows[k].owner == owner && db.rows[k].entry == e) &&
      Matches(e, query, dumps)
    ensures forall i, j :: 0 <= i < j < |r| ==> LexLe(r[i].timestamp, r[j].timestamp)
    ensures multiset(r) == multiset(Entries(Seqs.Filter(Owned(db, owner), RowHits(query, dumps))))
  {
    var s := OwnedAscending(db, owner);
    var all := All(db, owner);
    assert all == Entries(s);
    var r := History.Search(all, query, dumps);
    assert r == Seqs.Filter(all, History.Hits(query, dumps));
    Seqs.FilterSorted(all, History.Hits(query, dumps),
                      (a: HistoryEntry, b: HistoryEntry) => LexLe(a.timestamp, b.timestamp));
    EntriesFilter(s, query, dumps);
    Seqs.FilterPerm(s, Owned(db, owner), RowHits(query, dumps));
    EntriesPerm(Seqs.Filter(s, RowHits(query, dumps)), Seqs.Filter(Owned(db, owner), RowHits(query, dumps)));
    r
  }

  /** `search_with_id`: the owner's rows some keyword occurs in, newest
      first, each matching row once. */
  function SearchWithId(db: HistoryDb, owner: string, query: string, dumps: map<string, string> -> string)
    : (r: seq<HistoryRow>)
    ensures forall x :: x in r <==> x in db.rows && x.owner == owner && Matches(x.entry, query, dumps)
    ensures forall i, j :: 0 <= i < j < |r| ==> LexLe(r[j].entry.timestamp, r[i].entry.timestamp)
    ensures multiset(r) == multiset(Seqs.Filter(Owned(db, owner), RowHits(query, dumps)))
  {
    var all := AllWithId(db, owner);
    assert Seqs.Sorted(all, ByTimeDesc);
    Seqs.FilterSorted(all, RowHits(query, dumps), ByTimeDesc);
    Seqs.FilterPerm(all, Owned(db, owner), RowHits(query, dumps));
    Seqs.Filter(all, RowHits(query, dumps))
  }

  /** The two searches agree: the rows found are those of the entries
      found. */
  lemma SearchesAgree(db: HistoryDb, owner: string, query: string, dumps: map<string, string> -> string)
    ensures forall x :: x in SearchWithId(db, owner, query, dumps) ==> x.entry in Search(db, owner, query, dumps)
    ensures forall e :: e in Search(db, owner, query, dumps) ==>
      exists x :: x in SearchWithId(db, owner, query, dumps) && x.entry == e
  {
    RowsFoundAreEntriesFound(db, owner, query, dumps);
    EntriesFoundHaveRows(db, owner, query, dumps);
  }

  lemma RowsFoundAreEntriesFound(db: HistoryDb, owner: string, query: string, dumps: map<string, string> -> string)
    ensures forall x :: x in SearchWithId(db, owner, query, dumps) ==> x.entry in Search(db, owner, query, dumps)
  {
    var rows := SearchWithId(db, owner, query, dumps);
    var entries := Search(db, owner, query, dumps);
    forall x | x in rows ensures x.entry in entries {
      assert x in db.rows && x.owner == owner && Matches(x.entry, query, dumps);
      var k :| 0 <= k < |db.rows| && db.rows[k] == x;
      assert db.rows[k].owner == owner && db.rows[k].entry == x.entry;
    }
  }

  lemma EntriesFoundHaveRows(db: HistoryDb, owner: string, query: string, dumps: map<string, string> -> string)
    ensures forall e :: e in Search(db, owner, query, dumps) ==>
      exists x :: x in SearchWithId(db, owner, query, dumps) && x.entry == e
  {
    var rows := SearchWithId(db, owner, query, dumps);
    var entries := Search(db, owner, query, dumps);
    forall e | e in entries ensures exists x :: x in rows && x.entry == e {
      assert Matches(e, query, dumps);
      var k :| 0 <= k < |db.rows| && db.rows[k].owner == owner && db.rows[k].entry == e;
      assert db.rows[k] in db.rows;
      assert db.rows[k] in rows;
    }
  }

  /** `get_by_id`: the row with that id, when this owner's. */
  function GetById(db: HistoryDb, owner: string, id: nat): (r: Option<HistoryRow>)
    ensures r.Some? ==> r.value in db.rows && r.value.id == id && r.value.owner == owner
    ensures r.None? <==> forall k :: 0 <= k < |db.rows| ==> !(db.rows[k].id == id && db.rows[k].owner == owner)
  {
    match Seqs.FirstIndex(db.rows, (x: HistoryRow) => x.id == id && x.owner == owner)
    case None => None
    case Some(k) => Some(db.rows[k])
  }

  /** `delete`: False, and nothing removed, unless the row is this
      owner's; otherwise the row is gone and every other row stays. */
  function Delete(db: HistoryDb, owner: string, id: nat): (r: (HistoryDb, bool))
    ensures r.1 <==> GetById(db, owner, id).Some?
    ensures !r.1 ==> r.0 == db
    ensures r.1 ==> forall x :: x in r.0.rows <==> x in db.rows && x.id != id
    ensures r.0.nextId == db.nextId
    ensures Valid(db) ==> Valid(r.0)
  {
    if GetById(db, owner, id).None? then (db, false)
    else
      var rows := Seqs.Filter(db.rows, (x: HistoryRow) => x.id != id);
      Seqs.FilterIsSubseq(db.rows, (x: HistoryRow) => x.id != id);
      SubseqKeepsValid(db, rows);
      (HistoryDb(rows, db.nextId), true)
  }

  lemma {:induction false} SubseqKeepsValid(db: HistoryDb, rows: seq<HistoryRow>)
    requires Seqs.SubseqOf(rows, db.rows)
    ensures Valid(db) ==> Valid(HistoryDb(rows, db.nextId))
    decreases |db.rows|
  {
    if Valid(db) && |rows| > 0 {
      var tail := HistoryDb(db.rows[1..], db.nextId);
      assert Valid(tail) by {
        forall i, j | 0 <= i < j < |tail.rows| ensures tail.rows[i].id < tail.rows[j].id {
          assert tail.rows[i] == db.rows[i + 1] && tail.rows[j] == db.rows[j + 1];
        }
      }
      if rows[0] == db.rows[0] && Seqs.SubseqOf(rows[1..], db.rows[1..]) {
        SubseqKeepsValid(tail, rows[1..]);
        SubseqMembers(rows[1..], db.rows[1..]);
        forall j | 0 < j < |rows| ensures rows[0].id < rows[j].id {
          assert rows[1..][j - 1] == rows[j];
          assert rows[j] in rows[1..];
          var m :| 0 <= m < |tail.rows| && tail.rows[m] == rows[j];
          assert db.rows[m + 1] == rows[j];
        }
        forall i, j | 0 <= i < j < |rows| ensures rows[i].id < rows[j].id {
          if i > 0 {
            assert rows[1..][i - 1] == rows[i] && rows[1..][j - 1] == rows[j];
          }
        }
      } else {
        SubseqKeepsValid(tail, rows);
      }
    }
  }

  lemma {:induction false} SubseqMembers(a: seq<HistoryRow>, b: seq<HistoryRow>)
    requires Seqs.SubseqOf(a, b)
    ensures forall x :: x in a ==> x in b
    decreases |b|
  {
    if |a| > 0 {
      if a[0] == b[0] && Seqs.SubseqOf(a[1..], b[1..]) {
        SubseqMembers(a[1..], b[1..]);
        forall x | x in a ensures x in b {
          if x != a[0] {
            assert x in a[1..];
          }
        }
      } else {
        SubseqMembers(a, b[1..]);
      }
    }
  }

  /** A deleted entry is gone for good: a second delete finds nothing. */
  lemma DeleteTwice(db: HistoryDb, owner: string, id: nat)
    ensures !Delete(Delete(db, owner, id).0, owner, id).1
  {
  }

  /** The fields `update` may set; None leaves a field as it is. */
  datatype HistoryUpdate = HistoryUpdate(
    kind: Option<string>, visibility: Option<string>, summary: Option<string>, sentiment: Option<string>)

  predicate NoFields(u: HistoryUpdate) {
    u.kind.None? && u.visibility.None? && u.summary.None? && u.sentiment.None?
  }

  function Patched(e: HistoryEntry, u: HistoryUpdate): (r: HistoryEntry)
    ensures r.kind == u.kind.GetOr(e.kind) && r.visibility == u.visibility.GetOr(e.visibility)
    ensures r.summary == u.summary.GetOr(e.summary) && r.sentiment == u.sentiment.GetOr(e.sentiment)
    ensures r.timestamp == e.timestamp && r.details == e.details && r.contactsInvolved == e.contactsInvolved
  {
    e.(kind := u.kind.GetOr(e.kind), visibility := u.visibility.GetOr(e.visibility),
       summary := u.summary.GetOr(e.summary), sentiment := u.sentiment.GetOr(e.sentiment))
  }

  function PatchRow(x: HistoryRow, id: nat, u: HistoryUpdate): HistoryRow {
    if x.id == id then x.(entry := Patched(x.entry, u)) else x
  }

  /** `UPDATE history SET ... WHERE id = ?` */
  function PatchAll(rows: seq<HistoryRow>, id: nat, u: HistoryUpdate): (r: seq<HistoryRow>)
    ensures |r| == |rows| && forall k :: 0 <= k < |rows| ==> r[k] == PatchRow(rows[k], id, u)
  {
    seq(|rows|, k requires 0 <= k < |rows| => PatchRow(rows[k], id, u))
  }

  /** `update`: False for a row that is not this owner's; True otherwise,
      with the given fields set on that row and nothing else changed, and
      no write at all when no field is given. */
  function Update(db: HistoryDb, owner: string, id: nat, u: HistoryUpdate): (r: (HistoryDb, bool))
    ensures r.1 <==> GetById(db, owner, id).Some?
    ensures !r.1 || NoFields(u) ==> r.0 == db
    ensures |r.0.rows| == |db.rows| && r.0.nextId == db.nextId
    ensures forall k :: 0 <= k < |db.rows| ==>
      && r.0.rows[k].id == db.rows[k].id && r.0.rows[k].owner == db.rows[k].owner
      && (r.0.rows[k].entry == if r.1 && db.rows[k].id == id then Patched(db.rows[k].entry, u) else db.rows[k].entry)
  {
    if GetById(db, owner, id).None? then (db, false)
    else if NoFields(u) then
      assert forall e :: Patched(e, u) == e;
      (db, true)
    else
      (HistoryDb(PatchAll(db.rows, id, u), db.nextId), true)
  }

  /** Setting the same fields twice is setting them once. */
  lemma UpdateIdempotent(db: HistoryDb, owner: string, id: nat, u: HistoryUpdate)
    ensures Update(Update(db, owner, id, u).0, owner, id, u).0 == Update(db, owner, id, u).0
  {
    if GetById(db, owner, id).Some? && !NoFields(u) {
      var rows := PatchAll(db.rows, id, u);
      var k :| 0 <= k < |db.rows| && db.rows[k].id == id && db.rows[k].owner == owner;
      assert rows[k].id == id && rows[k].owner == owner;
      assert GetById(HistoryDb(rows, db.nextId), owner, id).Some?;
      PatchAllTwice(db.rows, id, u);
    }
  }

  lemma PatchAllTwice(rows: seq<HistoryRow>, id: nat, u: HistoryUpdate)
    ensures PatchAll(PatchAll(rows, id, u), id, u) == PatchAll(rows, id, u)
  {
    var once := PatchAll(rows, id, u);
    forall m | 0 <= m < |once| ensures PatchRow(once[m], id, u) == once[m] {
      PatchedTwice(rows[m].entry, u);
    }
  }

  lemma PatchedTwice(e: HistoryEntry, u: HistoryUpdate)
    ensures Patched(Patched(e, u), u) == Patched(e, u)
  {
  }

  /** An updated row reads back with the new fields. */
  lemma UpdateThenGet(db: HistoryDb, owner: string, id: nat, u: HistoryUpdate)
    requires GetById(db, owner, id).Some?
    ensures GetById(Update(db, owner, id, u).0, owner, id).Some?
    ensures GetById(Update(db, owner, id, u).0, owner, id).value.entry == Patched(GetById(db, owner, id).value.entry, u)
  {
    var d := Update(db, owner, id, u).0;
    var p := (x: HistoryRow) => x.id == id && x.owner == owner;
    var k := Seqs.FirstIndex(db.rows, p).value;
    Seqs.FirstIndexAt(d.rows, p, k);
  }

  /** `add`: the entry stored as this owner's newest row, then, for a
      sharable entry, a public feed post of its summary that points back at
      the row. `display` is the owner's display name, None when the owner
      has no user row. A failed post leaves the row stored and is reported
      as the error. */
  function Add(db: HistoryDb, feed: FeedStore.Feed, owner: string, e: HistoryEntry, display: Option<string>,
               uuidHex: string, now: int): (r: (HistoryDb, FeedStore.Feed, Option<string>))
    ensures r.0.rows == db.rows + [HistoryRow(db.nextId, owner, e)] && r.0.nextId == db.nextId + 1
    ensures e.visibility != "sharable" ==> r.1 == feed && r.2.None?
    ensures r.2.Some? ==> r.1 == feed
    ensures e.visibility == "sharable" && r.2.None? ==>
      && |r.1.posts| == |feed.posts| + 1 && r.1.posts[..|feed.posts|] == feed.posts
      && r.1.posts[|feed.posts|].authorHandle == owner
      && r.1.posts[|feed.posts|].content == e.summary
      && r.1.posts[|feed.posts|].postType == e.kind
      && r.1.posts[|feed.posts|].historyId == Some(db.nextId)
      && r.1.posts[|feed.posts|].visibility == FeedStore.Public
    ensures Valid(db) ==> Valid(r.0)
  {
    var db' := HistoryDb(db.rows + [HistoryRow(db.nextId, owner, e)], db.nextId + 1);
    if e.visibility != "sharable" then (db', feed, None)
    else
      match FeedStore.CreatePost(feed, owner, display.GetOr(owner), e.kind, e.summary, Some(e.details),
                                 Some(db.nextId), None, "public", uuidHex, now)
      case Err(msg) => (db', feed, Some(msg))
      case Ok((feed', p)) =>
        assert feed'.posts[..|feed.posts|] == feed.posts;
        (db', feed', None)
  }

  /** A well-typed sharable entry with a fresh post id is posted; any other
      entry never is. */
  lemma PostedIffSharable(db: HistoryDb, feed: FeedStore.Feed, owner: string, e: HistoryEntry,
                          display: Option<string>, uuidHex: string, now: int)
    requires e.kind in FeedStore.PostTypes && !FeedStore.HasPost(feed, "fp_" + Take(uuidHex, 12))
    ensures |Add(db, feed, owner, e, display, uuidHex, now).1.posts| > |feed.posts| <==> e.visibility == "sharable"
  {
  }

  /** Another owner's view is untouched by an add. */
  lemma AddInvisibleToOthers(db: HistoryDb, feed: FeedStore.Feed, owner: string, other: string, e: HistoryEntry,
                             display: Option<string>, uuidHex: string, now: int)
    requires other != owner
    ensures Owned(Add(db, feed, owner, e, display, uuidHex, now).0, other) == Owned(db, other)
  {
    var p := (x: HistoryRow) => OwnedBy(x, other);
    Seqs.FilterAppend(db.rows, [HistoryRow(db.nextId, owner, e)], p);
    assert Seqs.Filter([HistoryRow(db.nextId, owner, e)], p) == [];
  }
}

=== FILE: debug.dfy ===
/** The debug endpoints (app/routers/debug.py): the environment gate, the
    slug of a contact name, route-local with its checks, the social-pulse
    trigger and the friends simulation. The gate's environment value, the
    clock, fresh ids and the remote agents' replies are parameters. */
module Debug {
  import opened Wrappers
  import opened Text
  import opened Platform
  import opened Inbox
  import LocalRouter
  import DbContacts
  import Contacts
  import TaskStore
  import TaskRunner
  import A2aRpc
  import Slugs

  /** The endpoints answer only when DEBUG_SIMULATION is "1" (unset reads
      as "0"). */
  function RequireDebug(env: Option<string>): (r: Option<HttpError>)
    ensures r.None? <==> env == Some("1")
    ensures r.Some? ==> r.value == HttpError(403, "Debug simulation disabled")
  {
    if env.GetOr("0") != "1" then Some(HttpError(403, "Debug simulation disabled")) else None
  }

  // ─── route-local and run-social-pulse ───────────────────────

  datatype LocalRouteRequest = LocalRouteRequest(sender: string, target: string, message: string,
                                                 conversationId: Option<string>)

  /** `debug_route_local`: both handles stripped and lower-cased; an empty
      or unknown sender is a 400, an unknown target a 404; otherwise the
      local router's outcome. */
  function RouteLocal(env: Option<string>, handles: set<string>, body: LocalRouteRequest, inbox: Option<Ledger>,
                      autoInbox: map<string, bool>, uuidHex: string, now: int)
    : (r: Result<Result<LocalRouter.Routed, string>, HttpError>)
    ensures RequireDebug(env).Some? ==> r == Err(RequireDebug(env).value)
    ensures RequireDebug(env).None? && Lower(Strip(body.sender)) == "" ==>
      r == Err(HttpError(400, "Sender handle is required"))
    ensures RequireDebug(env).None? && Lower(Strip(body.sender)) != "" && Lower(Strip(body.sender)) !in handles ==>
      r == Err(HttpError(400, "Sender handle must be an existing platform user"))
    ensures r.Err? && r.error.code == 404 ==> Lower(Strip(body.target)) !in handles
    ensures r.Ok? <==> RequireDebug(env).None? && Lower(Strip(body.sender)) != "" &&
                       Lower(Strip(body.sender)) in handles && Lower(Strip(body.target)) in handles
    ensures r.Ok? ==> r.value == LocalRouter.RouteLocalMessage(inbox, autoInbox, Lower(Strip(body.target)), body.message,
                                   Lower(Strip(body.sender)), body.conversationId.GetOr(""), uuidHex, now)
  {
    var sender := Lower(Strip(body.sender));
    var target := Lower(Strip(body.target));
    if RequireDebug(env).Some? then Err(RequireDebug(env).value)
    else if sender == "" then Err(HttpError(400, "Sender handle is required"))
    else if sender !in handles then Err(HttpError(400, "Sender handle must be an existing platform user"))
    else if target !in handles then Err(HttpError(404, "Target handle not found"))
    else Ok(LocalRouter.RouteLocalMessage(inbox, autoInbox, target, body.message, sender,
                                          body.conversationId.GetOr(""), uuidHex, now))
  }

  /** A routed debug message leaves the two copies any local message
      leaves: the sender's outbound copy, then the target's inbound one. */
  lemma RouteLocalWritesTwoCopies(env: Option<string>, handles: set<string>, body: LocalRouteRequest, l: Ledger,
                                  autoInbox: map<string, bool>, uuidHex: string, now: int)
    requires RouteLocal(env, handles, body, Some(l), autoInbox, uuidHex, now).Ok?
    ensures var ro := RouteLocal(env, handles, body, Some(l), autoInbox, uuidHex, now).value.value;
            && |ro.ledger.rows| == |l.rows| + 2
            && ro.ledger.rows[|l.rows|].recipientId == Lower(Strip(body.sender))
            && ro.ledger.rows[|l.rows| + 1].recipientId == Lower(Strip(body.target))
  {
  }

  /** `debug_run_social_pulse`: for a user with social pulse enabled, a
      new task submitted to the runner. `enabled` is the user's flag,
      None when there is no row for the handle. */
  function RunSocialPulse(env: Option<string>, enabled: Option<bool>, handle: string, intent: string,
                          store: TaskStore.Store, registry: TaskRunner.Registry, uuidHex: string, now: int)
    : (r: Result<(TaskStore.Store, TaskRunner.Registry, string), HttpError>)
    ensures RequireDebug(env).Some? ==> r == Err(RequireDebug(env).value)
    ensures RequireDebug(env).None? && enabled != Some(true) ==>
      r == Err(HttpError(400, "Social pulse is disabled for this user"))
    ensures r.Ok? ==>
      && enabled == Some(true)
      && |r.value.0.tasks| == |store.tasks| + 1
      && r.value.0.tasks[..|store.tasks|] == store.tasks
      && r.value.0.tasks[|store.tasks|].id == r.value.2
      && r.value.0.tasks[|store.tasks|].owner == handle
      && r.value.0.tasks[|store.tasks|].status == TaskStore.Pending
      && r.value.1.running == registry.running + {r.value.2}
    ensures RequireDebug(env).None? && enabled == Some(true) ==>
      (r.Ok? <==> TaskStore.Create(store, handle, intent, "", uuidHex, now).Ok?)
  {
    if RequireDebug(env).Some? then Err(RequireDebug(env).value)
    else if enabled != Some(true) then Err(HttpError(400, "Social pulse is disabled for this user"))
    else
      match TaskStore.Create(store, handle, intent, "", uuidHex, now)
      case Err(e) => Err(HttpError(500, e))
      case Ok((store', t)) =>
        assert store'.tasks[..|store.tasks|] == store.tasks;
        Ok((store', TaskRunner.Submit(registry, t.id), t.id))
  }

  // ─── simulate/friends ───────────────────────────────────────

  const ErrorMark: string := "[Error contacting agent"

  /** The previous reply on one line, cut to 300 characters with "..."
      added when it was longer. */
  function Summarized(last: string): (r: string)
    ensures |r| <= 303
    ensures |Strip(ReplaceChar(last, '\n', ' '))| <= 300 ==> r == Strip(ReplaceChar(last, '\n', ' '))
  {
    Shorten(Strip(ReplaceChar(last, '\n', ' ')))
  }

  /** A text over 300 characters keeps its first 300 less the trailing
      blanks among them, followed by "..."; a shorter one is kept. */
  function Shorten(s: string): (r: string)
    ensures |r| <= 303
    ensures |s| <= 300 ==> r == s
    ensures |s| > 300 ==>
      && EndsWith(r, "...")
      && r[..|r| - 3] == s[..|r| - 3]
      && (|r| == 3 || r[|r| - 4] !in Whitespace)
      && forall i :: |r| - 3 <= i < 300 ==> s[i] in Whitespace
  {
    if |s| > 300 then
      var t := TrimEnd(s[..300], Whitespace);
      assert (t + "...")[..|t|] == t;
      assert (t + "...")[|t|..] == "...";
      t + "..."
    else s
  }

  /** The message of turn `turn` of `limit`. */
  function OutboundText(contactName: string, owner: string, turn: nat, limit: nat, last: string): string {
    if turn == 1 then
      "Hey " + contactName + ", this is " + owner + ". Starting our autonomous check-in thread. " +
      "Share one update and one recommendation."
    else
      "Turn " + NatToString(turn) + "/" + NatToString(limit) + ". Continuing the same thread." +
      (if Summarized(last) != "" then " Your previous reply: " + Summarized(last) else "") +
      " Give one concise follow-up."
  }

  /** `l'` is `l` with rows appended, each addressed to `owner` in thread
      `conv`. */
  ghost predicate AppendedFor(l: Ledger, l': Ledger, owner: string, conv: string) {
    |l.rows| <= |l'.rows| && l'.rows[..|l.rows|] == l.rows &&
    forall i :: |l.rows| <= i < |l'.rows| ==> l'.rows[i].recipientId == owner && l'.rows[i].conversationId == conv
  }

  /** `l'` is `l` with rows appended, each addressed to `owner`. */
  ghost predicate AppendedTo(l: Ledger, l': Ledger, owner: string) {
    |l.rows| <= |l'.rows| && l'.rows[..|l.rows|] == l.rows &&
    forall i :: |l.rows| <= i < |l'.rows| ==> l'.rows[i].recipientId == owner
  }

  /** The two copies of one turn: the owner's message as outbound, the
      reply as inbound, both in the owner's ledger. */
  function Exchange(l: Ledger, conv: string, owner: string, contactName: string, text: string, reply: string, now: int)
    : (r: Ledger)
    ensures |r.rows| == |l.rows| + 2 && r.rows[..|l.rows|] == l.rows
    ensures r.rows[|l.rows|].direction == Outbound && r.rows[|l.rows|].message == text
    ensures r.rows[|l.rows| + 1].direction == Inbound && r.rows[|l.rows| + 1].message == reply
    ensures r.rows[|l.rows| + 1].senderName == contactName
    ensures AppendedFor(l, r, owner, conv)
    ensures HasConversation(l, conv) ==> HasConversation(r, conv)
    ensures Valid(l) ==> Valid(r)
  {
    var (l1, m1) := DeliverAs(l, owner, owner, Friend, text, conv, Outbound, now);
    var (l2, m2) := DeliverAs(l1, owner, contactName, Friend, reply, conv, Inbound, now);
    AppendedTwo(l, l2, m1, m2, owner, conv);
    DeliverKeepsConversation(l, owner, owner, text, conv, Outbound, now);
    DeliverKeepsConversation(l1, owner, contactName, reply, conv, Inbound, now);
    l2
  }

  /** Delivery keeps the ids of the conversations, so a known thread
      stays known. */
  lemma DeliverKeepsConversation(l: Ledger, recipientId: string, senderName: string, message: string,
                                 conv: string, direction: Direction, now: int)
    ensures HasConversation(l, conv) ==>
      HasConversation(DeliverAs(l, recipientId, senderName, Friend, message, conv, direction, now).0, conv)
  {
    var l' := DeliverAs(l, recipientId, senderName, Friend, message, conv, direction, now).0;
    if HasConversation(l, conv) {
      var i :| 0 <= i < |l.conversations| && l.conversations[i].id == conv;
      assert l'.conversations[i].id == conv;
    }
  }

  lemma AppendedTwo(l: Ledger, l2: Ledger, m1: Message, m2: Message, owner: string, conv: string)
    requires l2.rows == l.rows + [m1] + [m2]
    requires m1.recipientId == owner && m1.conversationId == conv
    requires m2.recipientId == owner && m2.conversationId == conv
    ensures AppendedFor(l, l2, owner, conv)
  {
    assert l2.rows[..|l.rows|] == l.rows;
  }

  lemma AppendedForTrans(a: Ledger, b: Ledger, c: Ledger, owner: string, conv: string)
    requires AppendedFor(a, b, owner, conv) && AppendedFor(b, c, owner, conv)
    ensures AppendedFor(a, c, owner, conv)
  {
    Seqs.PrefixTrans(a.rows, b.rows, c.rows);
    forall i | |a.rows| <= i < |c.rows| ensures c.rows[i].recipientId == owner && c.rows[i].conversationId == conv {
      if i < |b.rows| {
        assert c.rows[i] == b.rows[i];
      }
    }
  }

  /** The outcome of one simulated thread. */
  datatype Thread = Thread(contactName: string, conversationId: string, turnsExecuted: nat, lastResponse: string,
                           error: Option<string>)

  /** The turns of one thread, from the first up to `limit`.
      `agent(url, conv, text)` is the remote agent's reply to `text`. A
      reply that starts with the error mark ends the thread. Returns the
      ledger, the turns executed, the last reply and the error. */
  method RunThread(l: Ledger, url: string, conv: string, owner: string, contactName: string,
                   agent: (string, string, string) -> string, limit: nat, now: int)
    returns (l': Ledger, turns: nat, last: string, error: Option<string>)
    ensures turns <= limit
    ensures |l'.rows| == |l.rows| + 2 * turns
    ensures AppendedFor(l, l', owner, conv)
    ensures error.Some? ==> error.value == last && StartsWith(last, ErrorMark) && turns >= 1
    ensures error.None? ==> turns == limit
    ensures turns > 0 ==> l'.rows[|l'.rows| - 1].message == last
    ensures error.None? ==> turns == 0 || !StartsWith(last, ErrorMark)
    ensures QuietReplies(l, l', if error.None? then turns else turns - 1)
    ensures HasConversation(l, conv) ==> HasConversation(l', conv)
    ensures Valid(l) ==> Valid(l')
  {
    l', turns, last, error := l, 0, "", None;
    while turns < limit && error.None?
      invariant ThreadInv(l, l', owner, conv, limit, turns, last, error)
      decreases limit - turns, if error.None? then 1 else 0
    {
      var text := OutboundText(contactName, owner, turns + 1, limit, last);
      var reply := agent(url, conv, text);
      var l2 := Exchange(l', conv, owner, contactName, text, reply, now);
      TurnKeeps(l, l', l2, owner, contactName, conv, limit, turns, last, text, reply, now);
      l', turns, last := l2, turns + 1, reply;
      if StartsWith(last, ErrorMark) {
        error := Some(last);
      }
    }
  }

  /** What the thread loop knows after `turns` turns. */
  ghost predicate ThreadInv(l: Ledger, l': Ledger, owner: string, conv: string, limit: nat, turns: nat, last: string,
                            error: Option<string>) {
    && turns <= limit
    && |l'.rows| == |l.rows| + 2 * turns
    && AppendedFor(l, l', owner, conv)
    && (error.Some? ==> error.value == last && StartsWith(last, ErrorMark) && turns >= 1)
    && (turns > 0 ==> l'.rows[|l'.rows| - 1].message == last)
    && (error.None? ==> turns == 0 || !StartsWith(last, ErrorMark))
    && QuietReplies(l, l', if error.None? then turns else turns - 1)
    && (HasConversation(l, conv) ==> HasConversation(l', conv))
    && (Valid(l) ==> Valid(l'))
  }

  lemma TurnKeeps(l: Ledger, l1: Ledger, l2: Ledger, owner: string, contactName: string, conv: string, limit: nat,
                  turns: nat, last: string, text: string, reply: string, now: int)
    requires ThreadInv(l, l1, owner, conv, limit, turns, last, None) && turns < limit
    requires l2 == Exchange(l1, conv, owner, contactName, text, reply, now)
    ensures ThreadInv(l, l2, owner, conv, limit, turns + 1, reply,
                      if StartsWith(reply, ErrorMark) then Some(reply) else None)
  {
    ExchangeStep(l, l1, l2, conv, owner, contactName, text, reply, now);
    QuietStep(l, l1, l2, turns, reply);
  }

  /** No reply among the first `n` turns appended after `l` carries the
      error mark (each turn appends the message, then the reply). */
  ghost predicate QuietReplies(l: Ledger, l': Ledger, n: nat) {
    |l.rows| + 2 * n <= |l'.rows| &&
    forall k :: 0 <= k < n ==> !StartsWith(l'.rows[|l.rows| + 2 * k + 1].message, ErrorMark)
  }

  lemma QuietStep(l: Ledger, l1: Ledger, l2: Ledger, n: nat, reply: string)
    requires QuietReplies(l, l1, n) && |l1.rows| == |l.rows| + 2 * n
    requires |l2.rows| == |l1.rows| + 2 && l2.rows[..|l1.rows|] == l1.rows
    requires l2.rows[|l1.rows| + 1].message == reply
    ensures QuietReplies(l, l2, n)
    ensures !StartsWith(reply, ErrorMark) ==> QuietReplies(l, l2, n + 1)
  {
    forall k | 0 <= k < n ensures l2.rows[|l.rows| + 2 * k + 1] == l1.rows[|l.rows| + 2 * k + 1] {
      assert l2.rows[..|l1.rows|][|l.rows| + 2 * k + 1] == l2.rows[|l.rows| + 2 * k + 1];
    }
  }

  /** One more turn keeps what the thread loop knows of its ledger. */
  lemma ExchangeStep(l: Ledger, l1: Ledger, l2: Ledger, conv: string, owner: string, contactName: string,
                     text: string, reply: string, now: int)
    requires AppendedFor(l, l1, owner, conv)
    requires HasConversation(l, conv) ==> HasConversation(l1, conv)
    requires Valid(l) ==> Valid(l1)
    requires l2 == Exchange(l1, conv, owner, contactName, text, reply, now)
    ensures AppendedFor(l, l2, owner, conv)
    ensures |l2.rows| == |l1.rows| + 2 && l2.rows[|l2.rows| - 1].message == reply
    ensures HasConversation(l, conv) ==> HasConversation(l2, conv)
    ensures Valid(l) ==> Valid(l2)
  {
    AppendedForTrans(l, l1, l2, owner, conv);
  }

  lemma AppendedForTo(a: Ledger, b: Ledger, owner: string, conv: string)
    requires AppendedFor(a, b, owner, conv)
    ensures AppendedTo(a, b, owner)
  {
  }

  lemma AppendedToTrans(a: Ledger, b: Ledger, c: Ledger, owner: string)
    requires AppendedTo(a, b, owner) && AppendedTo(b, c, owner)
    ensures AppendedTo(a, c, owner)
  {
    Seqs.PrefixTrans(a.rows, b.rows, c.rows);
    forall i | |a.rows| <= i < |c.rows| ensures c.rows[i].recipientId == owner {
      if i < |b.rows| {
        assert c.rows[i] == b.rows[i];
      }
    }
  }

  /** The contacts a simulation talks to: the owner's active personal
      contacts with an agent card URL. */
  predicate SimTarget(owner: string, c: DbContacts.ContactRow) {
    c.owner == owner && c.ctype == Contacts.Personal && c.status == "active" && c.agentCardUrl != ""
  }

  /** A selected contact is skipped when its URL resolves to nothing. */
  predicate Reachable(c: DbContacts.ContactRow) {
    ResolveAgentCardUrl(c.agentCardUrl) != ""
  }

  /** The name a contact is addressed by: its stripped name, "Friend" when
      that is empty. */
  function ContactName(c: DbContacts.ContactRow): (r: string)
    ensures r != ""
    ensures Strip(c.name) != "" ==> r == Strip(c.name)
  {
    if Strip(c.name) == "" then "Friend" else Strip(c.name)
  }

  /** The conversation of the owner's thread with a contact. */
  function ThreadId(owner: string, contactName: string): string {
    "sim-" + owner + "-friend-" + Slugs.Slug(contactName)
  }

  /** A thread ran every turn, or stopped at the first error reply. */
  predicate ThreadOutcome(t: Thread, limit: int) {
    && t.turnsExecuted <= limit
    && (t.error.None? ==> t.turnsExecuted == limit)
    && (t.error.Some? ==> t.error.value == t.lastResponse && StartsWith(t.lastResponse, ErrorMark) && t.turnsExecuted >= 1)
  }

  /** The thread of one contact: its name, conversation and outcome. */
  predicate ThreadOf(t: Thread, owner: string, c: DbContacts.ContactRow, limit: int) {
    && t.contactName == ContactName(c)
    && t.conversationId == ThreadId(owner, ContactName(c))
    && ThreadOutcome(t, limit)
  }

  function TotalTurns(ts: seq<Thread>): nat {
    if |ts| == 0 then 0 else TotalTurns(ts[..|ts| - 1]) + ts[|ts| - 1].turnsExecuted
  }

  /** The query's rows: the owner's targets, ordered by name. */
  function Selected(owner: string, rows: seq<DbContacts.ContactRow>): seq<DbContacts.ContactRow> {
    DbContacts.SelectByName(rows, (c: DbContacts.ContactRow) => SimTarget(owner, c))
  }

  /** The contacts that get a thread, in name order. */
  function Targets(owner: string, rows: seq<DbContacts.ContactRow>): seq<DbContacts.ContactRow> {
    Seqs.Filter(Selected(owner, rows), Reachable)
  }

  /** One contact's thread: the conversation made sure of, then the turns. */
  method SimulateContact(l: Ledger, owner: string, c: DbContacts.ContactRow, limit: nat,
                         agent: (string, string, string) -> string, now: int)
    returns (l': Ledger, t: Thread)
    ensures ThreadOf(t, owner, c, limit)
    ensures AppendedTo(l, l', owner)
    ensures |l'.rows| == |l.rows| + 2 * t.turnsExecuted
    ensures HasConversation(l', t.conversationId)
    ensures Valid(l) ==> Valid(l')
  {
    var name := ContactName(c);
    var conv := ThreadId(owner, name);
    var lc := EnsureConversation(l, conv, owner, name, now);
    var turns, last, error;
    l', turns, last, error := RunThread(lc, ResolveAgentCardUrl(c.agentCardUrl), conv, owner, name, agent, limit, now);
    AppendedForTo(lc, l', owner, conv);
    t := Thread(name, conv, turns, last, error);
  }

  lemma TotalTurnsSnoc(ts: seq<Thread>, t: Thread)
    ensures TotalTurns(ts + [t]) == TotalTurns(ts) + t.turnsExecuted
  {
    assert (ts + [t])[..|ts|] == ts;
  }

  /** `ts` are the threads of the contacts `cs`, one each, in order. */
  predicate ThreadsOf(ts: seq<Thread>, owner: string, cs: seq<DbContacts.ContactRow>, limit: int)
    decreases |ts|
  {
    && |ts| == |cs|
    && (|ts| > 0 ==>
          && ThreadsOf(ts[..|ts| - 1], owner, cs[..|cs| - 1], limit)
          && ThreadOf(ts[|ts| - 1], owner, cs[|cs| - 1], limit))
  }

  lemma ThreadsOfSnoc(ts: seq<Thread>, owner: string, cs: seq<DbContacts.ContactRow>, limit: int,
                      t: Thread, c: DbContacts.ContactRow)
    requires ThreadsOf(ts, owner, cs, limit) && ThreadOf(t, owner, c, limit)
    ensures ThreadsOf(ts + [t], owner, cs + [c], limit)
  {
    var ts', cs' := ts + [t], cs + [c];
    assert ts'[..|ts|] == ts && cs'[..|cs|] == cs;
    assert ts'[|ts|] == t && cs'[|cs|] == c;
  }

  /** Thread `k` is the thread of contact `k`. */
  lemma {:induction false} ThreadsOfAt(ts: seq<Thread>, owner: string, cs: seq<DbContacts.ContactRow>, limit: int, k: nat)
    requires ThreadsOf(ts, owner, cs, limit) && k < |ts|
    ensures |ts| == |cs| && ThreadOf(ts[k], owner, cs[k], limit)
    decreases |ts|
  {
    if k < |ts| - 1 {
      var ts', cs' := ts[..|ts| - 1], cs[..|cs| - 1];
      ThreadsOfAt(ts', owner, cs', limit, k);
      assert ts'[k] == ts[k] && cs'[k] == cs[k];
    }
  }

  /** Part way through the simulation: `threads` are the threads of the
      contacts `done`, and the ledger grew from `l0` by their messages,
      all to the owner. */
  ghost predicate Progress(l0: Ledger, l: Ledger, owner: string, threads: seq<Thread>,
                           done: seq<DbContacts.ContactRow>, limit: int) {
    && ThreadsOf(threads, owner, done, limit)
    && AppendedTo(l0, l, owner)
    && |l.rows| == |l0.rows| + 2 * TotalTurns(threads)
    && (Valid(l0) ==> Valid(l))
  }

  /** The loop step of the simulation: a reachable contact gets its
      thread, an unreachable one is skipped. */
  method SimulateNext(ghost l0: Ledger, l: Ledger, owner: string, c: DbContacts.ContactRow, limit: nat,
                      agent: (string, string, string) -> string, now: int,
                      threads: seq<Thread>, ghost done: seq<DbContacts.ContactRow>)
    returns (l': Ledger, threads': seq<Thread>)
    requires Progress(l0, l, owner, threads, done, limit)
    ensures Reachable(c) ==> Progress(l0, l', owner, threads', done + [c], limit)
    ensures !Reachable(c) ==> Progress(l0, l', owner, threads', done, limit)
  {
    if Reachable(c) {
      l', threads' := SimulateReachable(l0, l, owner, c, limit, agent, now, threads, done);
    } else {
      l', threads' := l, threads;
    }
  }

  /** A reachable contact's thread extends the simulation's progress. */
  method SimulateReachable(ghost l0: Ledger, l: Ledger, owner: string, c: DbContacts.ContactRow, limit: nat,
                           agent: (string, string, string) -> string, now: int,
                           threads: seq<Thread>, ghost done: seq<DbContacts.ContactRow>)
    returns (l': Ledger, threads': seq<Thread>)
    requires Progress(l0, l, owner, threads, done, limit)
    ensures Progress(l0, l', owner, threads', done + [c], limit)
  {
    var t;
    l', t := SimulateContact(l, owner, c, limit, agent, now);
    ProgressGrows(l0, l, l', owner, threads, done, limit, t, c);
    threads' := threads + [t];
  }

  /** One more contact's thread keeps the simulation's progress. */
  lemma ProgressGrows(l0: Ledger, l: Ledger, l2: Ledger, owner: string, threads: seq<Thread>,
                      done: seq<DbContacts.ContactRow>, limit: int, t: Thread, c: DbContacts.ContactRow)
    requires Progress(l0, l, owner, threads, done, limit)
    requires ThreadOf(t, owner, c, limit) && AppendedTo(l, l2, owner)
    requires |l2.rows| == |l.rows| + 2 * t.turnsExecuted && (Valid(l) ==> Valid(l2))
    ensures Progress(l0, l2, owner, threads + [t], done + [c], limit)
  {
    AppendedToTrans(l0, l, l2, owner);
    TotalTurnsSnoc(threads, t);
    ThreadsOfSnoc(threads, owner, done, limit, t, c);
  }

  /** The threads of the selected contacts, in order, skipping the
      unreachable ones. */
  method SimulateAll(l: Ledger, owner: string, selected: seq<DbContacts.ContactRow>, limit: nat,
                     agent: (string, string, string) -> string, now: int)
    returns (l': Ledger, threads: seq<Thread>)
    ensures ThreadsOf(threads, owner, Seqs.FilterBack(selected, Reachable), limit)
    ensures AppendedTo(l, l', owner)
    ensures |l'.rows| == |l.rows| + 2 * TotalTurns(threads)
    ensures Valid(l) ==> Valid(l')
    decreases |selected|
  {
    if |selected| == 0 {
      return l, [];
    }
    var init, c := selected[..|selected| - 1], selected[|selected| - 1];
    assert selected == init + [c];
    ghost var done := Seqs.FilterBack(init, Reachable);
    Seqs.FilterBackSnoc(init, c, Reachable);
    assert Seqs.FilterBack(selected, Reachable) == if Reachable(c) then done + [c] else done;
    var l1, ts := SimulateAll(l, owner, init, limit, agent, now);
    l', threads := SimulateNext(l, l1, owner, c, limit, agent, now, ts, done);
  }

  /** The contacts that get a thread are exactly the owner's active
      personal contacts whose agent card URL resolves to something. */
  lemma TargetsExactly(owner: string, rows: seq<DbContacts.ContactRow>)
    ensures forall x :: x in Targets(owner, rows) <==> x in rows && SimTarget(owner, x) && Reachable(x)
  {
  }

  datatype Simulation = Simulation(turnLimit: int, threads: seq<Thread>)

  /** `debug_simulate_friends`: one thread per reachable target, in name
      order, each with up to the owner's turn budget of exchanges; every
      message lands in the owner's own ledger. */
  method SimulateFriends(env: Option<string>, owner: string, maxTurns: Option<int>,
                         rows: seq<DbContacts.ContactRow>, l: Ledger,
                         agent: (string, string, string) -> string, now: int)
    returns (r: Result<(Ledger, Simulation), HttpError>)
    ensures r.Err? <==> env != Some("1")
    ensures r.Err? ==> r.error.code == 403
    ensures r.Ok? ==> r.value.1.turnLimit == A2aRpc.LiteralTurnBudget(maxTurns)
    ensures r.Ok? ==> ThreadsOf(r.value.1.threads, owner, Targets(owner, rows), r.value.1.turnLimit)
    ensures r.Ok? ==> AppendedTo(l, r.value.0, owner)
    ensures r.Ok? ==> |r.value.0.rows| == |l.rows| + 2 * TotalTurns(r.value.1.threads)
    ensures r.Ok? && Valid(l) ==> Valid(r.value.0)
  {
    if RequireDebug(env).Some? {
      return Err(RequireDebug(env).value);
    }
    var limit := A2aRpc.LiteralTurnBudget(maxTurns);
    var l', threads := SimulateAll(l, owner, Selected(owner, rows), limit, agent, now);
    Seqs.FilterBackIsFilter(Selected(owner, rows), Reachable);
    return Ok((l', Simulation(limit, threads)));
  }
}

=== FILE: event_serializer.dfy ===
/** The agent engine's events and their flattening into stream payloads
    (app/services/event_serializer.py). The engine itself is not modelled:
    an engine run is a finite sequence of the payloads it produced. */
module EventSerializer {
  import opened Wrappers
  import Seqs
  import Text

  /** A value carried in tool arguments or tool responses. `Object` keeps the
      text Python's `str()` would print for it alongside its fields. */
  datatype Value =
    | Str(s: string)
    | Scalar(repr: string)
    | Object(fields: map<string, Value>, repr: string)

  /** Python's `str(v)`. */
  function Show(v: Value): string {
    match v
    case Str(s) => s
    case Scalar(r) => r
    case Object(_, r) => r
  }

  datatype FunctionCall = FunctionCall(name: string, args: Option<map<string, Value>>)

  datatype FunctionResponse = FunctionResponse(name: string, response: Value)

  /** One content part; the optional fields are the attributes that may be
      `None`. */
  datatype Part = Part(
    text: Option<string>,
    functionCall: Option<FunctionCall>,
    functionResponse: Option<FunctionResponse>)

  datatype Content = Content(parts: Option<seq<Part>>)

  datatype Event = Event(author: string, content: Option<Content>, partial: Option<bool>)

  datatype Payload =
    | TextPayload(author: string, content: string, partial: bool)
    | CallPayload(author: string, name: string, args: map<string, Value>)
    | ResponsePayload(author: string, name: string, response: string)

  predicate HasText(p: Part) {
    p.text.Some? && p.text.value != ""
  }

  /** What a tool response is displayed as: the `result` field of an object
      that has one, otherwise the whole response. */
  function ResponseDisplay(resp: Value): (r: string)
    ensures resp.Object? && "result" in resp.fields ==> r == Show(resp.fields["result"])
    ensures !resp.Object? ==> r == Show(resp)
    ensures resp.Object? && "result" !in resp.fields ==> r == resp.repr
  {
    match resp
    case Object(fields, repr) => if "result" in fields then Show(fields["result"]) else repr
    case _ => Show(resp)
  }

  /** The payload of one part: text wins over a function call, which wins
      over a function response; a part with none of them yields nothing. */
  function PartPayload(author: string, partial: bool, p: Part): (r: Option<Payload>)
    ensures HasText(p) ==> r == Some(TextPayload(author, p.text.value, partial))
    ensures !HasText(p) && p.functionCall.Some? ==>
      r == Some(CallPayload(author, p.functionCall.value.name, p.functionCall.value.args.GetOr(map[])))
    ensures !HasText(p) && p.functionCall.None? && p.functionResponse.Some? ==>
      r == Some(ResponsePayload(author, p.functionResponse.value.name, ResponseDisplay(p.functionResponse.value.response)))
    ensures r.None? <==> !HasText(p) && p.functionCall.None? && p.functionResponse.None?
    ensures r.Some? ==> r.value.author == author
  {
    if HasText(p) then Some(TextPayload(author, p.text.value, partial))
    else if p.functionCall.Some? then
      Some(CallPayload(author, p.functionCall.value.name, p.functionCall.value.args.GetOr(map[])))
    else if p.functionResponse.Some? then
      Some(ResponsePayload(author, p.functionResponse.value.name, ResponseDisplay(p.functionResponse.value.response)))
    else None
  }

  /** The payloads of a list of parts, in part order. */
  function PartsPayloads(author: string, partial: bool, parts: seq<Part>): (r: seq<Payload>)
    ensures |r| <= |parts|
    decreases |parts|
  {
    if |parts| == 0 then []
    else
      var head := PartPayload(author, partial, parts[0]);
      (if head.Some? then [head.value] else []) + PartsPayloads(author, partial, parts[1..])
  }

  function PartsOf(e: Event): seq<Part> {
    if e.content.Some? && e.content.value.parts.Some? then e.content.value.parts.value else []
  }

  /** `serialize_event`. */
  function Serialize(e: Event): (r: seq<Payload>)
    ensures PartsOf(e) == [] ==> r == []
    ensures |r| <= |PartsOf(e)|
  {
    PartsPayloads(e.author, e.partial.GetOr(false), PartsOf(e))
  }

  /** Number of parts that carry text, a call or a response. */
  function Productive(parts: seq<Part>): nat
    decreases |parts|
  {
    if |parts| == 0 then 0
    else (if PartPayload("", false, parts[0]).Some? then 1 else 0) + Productive(parts[1..])
  }

  /** Each productive part yields exactly one payload and every other part
      none. */
  lemma {:induction false} PayloadCount(author: string, partial: bool, parts: seq<Part>)
    ensures |PartsPayloads(author, partial, parts)| == Productive(parts)
    decreases |parts|
  {
    if |parts| > 0 {
      PayloadCount(author, partial, parts[1..]);
    }
  }

  /** Payloads follow part order: serialising a concatenation of parts is the
      concatenation of the serialisations. */
  lemma {:induction false} PayloadsAppend(author: string, partial: bool, a: seq<Part>, b: seq<Part>)
    ensures PartsPayloads(author, partial, a + b) == PartsPayloads(author, partial, a) + PartsPayloads(author, partial, b)
    decreases |a|
  {
    if |a| > 0 {
      assert (a + b)[1..] == a[1..] + b;
      PayloadsAppend(author, partial, a[1..], b);
    } else {
      assert a + b == b;
    }
  }

  /** Every payload carries the event's author, every text payload is
      non-empty and carries the event's partial flag. */
  lemma {:induction false} PayloadsShape(author: string, partial: bool, parts: seq<Part>)
    ensures forall q :: q in PartsPayloads(author, partial, parts) ==> q.author == author
    ensures forall q :: q in PartsPayloads(author, partial, parts) && q.TextPayload? ==>
      q.content != "" && q.partial == partial
    decreases |parts|
  {
    if |parts| > 0 {
      PayloadsShape(author, partial, parts[1..]);
    }
  }

  /** All payloads of an engine run, event by event. */
  function StreamPayloads(events: seq<Event>): seq<Payload>
    decreases |events|
  {
    if |events| == 0 then [] else Serialize(events[0]) + StreamPayloads(events[1..])
  }

  predicate IsFinalText(p: Payload) {
    p.TextPayload? && !p.partial
  }

  predicate IsToolStep(p: Payload) {
    p.CallPayload? || p.ResponsePayload?
  }

  /** The contents of the non-partial text payloads, in order. */
  function FinalTexts(ps: seq<Payload>): (r: seq<string>)
    ensures |r| <= |ps|
    decreases |ps|
  {
    if |ps| == 0 then []
    else (if IsFinalText(ps[0]) then [ps[0].content] else []) + FinalTexts(ps[1..])
  }

  /** The tool calls and tool results of a run, in order (the processing
      log). */
  function ToolLog(ps: seq<Payload>): (r: seq<Payload>)
    ensures forall q :: q in r <==> q in ps && IsToolStep(q)
  {
    Seqs.Filter(ps, IsToolStep)
  }

  /** The reply assembled from a run: its final texts joined by newlines,
      or `fallback` when there are none. */
  function Reply(ps: seq<Payload>, fallback: string): (r: string)
    ensures FinalTexts(ps) == [] ==> r == fallback
    ensures FinalTexts(ps) != [] ==> r == Text.Join(FinalTexts(ps), "\n")
  {
    var texts := FinalTexts(ps);
    if texts == [] then fallback else Text.Join(texts, "\n")
  }

  /** Final texts without line breaks of their own are read back from the
      reply by splitting it at its line breaks. */
  lemma ReplySplits(ps: seq<Payload>, fallback: string)
    requires FinalTexts(ps) != []
    requires forall k :: 0 <= k < |FinalTexts(ps)| ==> '\n' !in FinalTexts(ps)[k]
    ensures Text.Split(Reply(ps, fallback), '\n') == FinalTexts(ps)
  {
    Text.JoinSplit(FinalTexts(ps), '\n');
  }

  /** Only non-partial texts contribute to a reply: dropping every partial
      text payload or tool step from a run leaves its final texts as they
      were. */
  lemma {:induction false} FinalTextsIgnoreOthers(ps: seq<Payload>)
    ensures FinalTexts(Seqs.Filter(ps, IsFinalText)) == FinalTexts(ps)
    ensures |FinalTexts(ps)| == Seqs.Count(ps, IsFinalText)
    decreases |ps|
  {
    if |ps| > 0 {
      FinalTextsIgnoreOthers(ps[1..]);
      var rest := Seqs.Filter(ps[1..], IsFinalText);
      if IsFinalText(ps[0]) {
        assert Seqs.Filter(ps, IsFinalText) == [ps[0]] + rest;
        assert ([ps[0]] + rest)[1..] == rest;
      } else {
        assert Seqs.Filter(ps, IsFinalText) == rest;
      }
    }
  }
}

=== FILE: feed_store.dfy ===
/** The feed (app/services/feed_store.py) over the `feed_posts`,
    `feed_reactions` and `feed_comments` tables (app/database.py:141-175).
    Each table is a sequence in insertion order; reaction and comment ids
    come from autoincrement counters, post ids from the hex of a fresh
    UUID. Foreign keys are enforced, so deleting a post or a comment
    cascades. Times are whole seconds. */
module FeedStore {
  import opened Wrappers
  import opened Text
  import Seqs

  const PostTypes: set<string> :=
    {"purchase", "recommendation", "review", "research", "inquiry", "note", "preference", "contact_exchange", "reshare"}

  const ReactionTypes: set<string> := {"like", "interesting", "helpful"}

  datatype Visibility = Public | Private

  /** `details` is the JSON object stored with the post. */
  datatype Post = Post(
    id: string,
    authorHandle: string,
    authorDisplay: string,
    postType: string,
    content: string,
    details: map<string, string>,
    historyId: Option<int>,
    originalPostId: Option<string>,
    visibility: Visibility,
    createdAt: int)

  datatype Reaction = Reaction(id: nat, postId: string, user: string, reactionType: string)

  datatype Comment = Comment(
    id: nat,
    postId: string,
    author: string,
    authorDisplay: string,
    content: string,
    parentId: Option<nat>,
    createdAt: int)

  datatype Feed = Feed(
    posts: seq<Post>,
    reactions: seq<Reaction>,
    comments: seq<Comment>,
    nextReactionId: nat,
    nextCommentId: nat)

  predicate HasPost(f: Feed, id: string) {
    exists i :: 0 <= i < |f.posts| && f.posts[i].id == id
  }

  predicate HasComment(cs: seq<Comment>, id: nat) {
    exists i :: 0 <= i < |cs| && cs[i].id == id
  }

  /** Comments in id order, each id below the counter, each parent an
      earlier comment: what autoincrement ids and the parent foreign key
      give. */
  ghost predicate CommentsWellFormed(cs: seq<Comment>, next: nat) {
    && (forall i, j :: 0 <= i < j < |cs| ==> cs[i].id < cs[j].id)
    && (forall i :: 0 <= i < |cs| ==> cs[i].id < next)
    && (forall i :: 0 <= i < |cs| && cs[i].parentId.Some? ==>
          cs[i].parentId.value < cs[i].id && HasComment(cs, cs[i].parentId.value))
  }

  /** The table constraints: unique post ids, at most one reaction per
      (post, user, type), and the foreign keys of reactions and comments. */
  ghost predicate Valid(f: Feed) {
    && (forall i, j :: 0 <= i < j < |f.posts| ==> f.posts[i].id != f.posts[j].id)
    && (forall i, j :: 0 <= i < j < |f.reactions| ==>
          (f.reactions[i].postId, f.reactions[i].user, f.reactions[i].reactionType) !=
          (f.reactions[j].postId, f.reactions[j].user, f.reactions[j].reactionType))
    && (forall i :: 0 <= i < |f.reactions| ==> HasPost(f, f.reactions[i].postId))
    && (forall i :: 0 <= i < |f.reactions| ==> f.reactions[i].reactionType in ReactionTypes)
    && (forall i :: 0 <= i < |f.comments| ==> HasPost(f, f.comments[i].postId))
    && CommentsWellFormed(f.comments, f.nextCommentId)
  }

  // ─── Posts ───────────────────────────────────────────────────

  /** `create_post`: id "fp_" and 12 hex digits, the display name
      defaulting to the handle and the details to an empty object. A type
      or visibility outside the columns' domains, or a taken id, is
      rejected. */
  function CreatePost(f: Feed, author: string, display: string, postType: string, content: string,
                      details: Option<map<string, string>>, historyId: Option<int>, originalPostId: Option<string>,
                      visibility: string, uuidHex: string, now: int): (r: Result<(Feed, Post), string>)
    ensures r.Ok? <==> postType in PostTypes && visibility in {"public", "private"} && !HasPost(f, "fp_" + Take(uuidHex, 12))
    ensures r.Ok? ==>
      var (f', p) := r.value;
      && f'.posts == f.posts + [p]
      && f'.reactions == f.reactions && f'.comments == f.comments
      && p.id == "fp_" + Take(uuidHex, 12)
      && p.authorHandle == author
      && p.authorDisplay == (if display == "" then author else display)
      && p.details == details.GetOr(map[])
      && p.visibility == (if visibility == "public" then Public else Private)
      && p.createdAt == now
    ensures r.Ok? && Valid(f) ==> Valid(r.value.0)
  {
    var id := "fp_" + Take(uuidHex, 12);
    if postType !in PostTypes then Err("CHECK constraint failed: type")
    else if visibility !in {"public", "private"} then Err("CHECK constraint failed: visibility")
    else if HasPost(f, id) then Err("UNIQUE constraint failed: feed_posts.id")
    else
      var p := Post(id, author, if display == "" then author else display, postType, content, details.GetOr(map[]),
                    historyId, originalPostId, if visibility == "public" then Public else Private, now);
      var f' := f.(posts := f.posts + [p]);
      PostsGrow(f, f');
      Ok((f', p))
  }

  /** Posts kept in place stay findable. */
  lemma PostsGrow(f: Feed, f': Feed)
    requires |f.posts| <= |f'.posts| && f'.posts[..|f.posts|] == f.posts
    ensures forall id :: HasPost(f, id) ==> HasPost(f', id)
  {
    forall id | HasPost(f, id) ensures HasPost(f', id) {
      var i :| 0 <= i < |f.posts| && f.posts[i].id == id;
      assert f'.posts[i] == f.posts[i];
    }
  }

  function FindPost(f: Feed, id: string): (r: Option<Post>)
    ensures r.Some? <==> HasPost(f, id)
    ensures r.Some? ==> r.value in f.posts && r.value.id == id
  {
    match Seqs.FirstIndex(f.posts, (p: Post) => p.id == id)
    case None => None
    case Some(k) => Some(f.posts[k])
  }

  // ─── Reactions ───────────────────────────────────────────────

  function CountType(rs: seq<Reaction>, postId: string, t: string): nat {
    Seqs.Count(rs, (r: Reaction) => r.postId == postId && r.reactionType == t)
  }

  /** The reaction counts of a post by type, types without reactions
      absent. */
  function ReactionCounts(f: Feed, postId: string): (r: map<string, nat>)
    requires forall i :: 0 <= i < |f.reactions| ==> f.reactions[i].reactionType in ReactionTypes
    ensures forall t :: t in r <==> t in ReactionTypes && CountType(f.reactions, postId, t) > 0
    ensures forall t :: t in r ==> r[t] == CountType(f.reactions, postId, t)
  {
    map t | t in ReactionTypes && CountType(f.reactions, postId, t) > 0 :: CountType(f.reactions, postId, t)
  }

  /** The types of some reactions, in order. */
  function TypesOf(xs: seq<Reaction>): (r: seq<string>)
    ensures |r| == |xs|
    ensures forall t :: t in r <==> exists x :: x in xs && x.reactionType == t
    decreases |xs|
  {
    if |xs| == 0 then [] else [xs[0].reactionType] + TypesOf(xs[1..])
  }

  /** The viewer's reaction types on a post; none without a viewer. */
  function MyReactions(f: Feed, postId: string, viewer: string): (r: seq<string>)
    ensures viewer == "" ==> r == []
    ensures viewer != "" ==> forall t :: t in r <==>
      exists x :: x in f.reactions && x.postId == postId && x.user == viewer && x.reactionType == t
  {
    if viewer == "" then []
    else TypesOf(Seqs.Filter(f.reactions, (x: Reaction) => x.postId == postId && x.user == viewer))
  }

  predicate Matches(x: Reaction, postId: string, user: string, t: string) {
    x.postId == postId && x.user == user && x.reactionType == t
  }

  datatype Toggled = Toggled(feed: Feed, action: string)

  function FirstMatch(rs: seq<Reaction>, postId: string, user: string, t: string): (r: Option<nat>)
    ensures r.Some? ==> r.value < |rs| && Matches(rs[r.value], postId, user, t)
    ensures r.None? <==> forall i :: 0 <= i < |rs| ==> !Matches(rs[i], postId, user, t)
  {
    Seqs.FirstIndex(rs, (x: Reaction) => Matches(x, postId, user, t))
  }

  /** The (post, user, type) triples present. */
  function Triples(rs: seq<Reaction>): set<(string, string, string)> {
    set i | 0 <= i < |rs| :: (rs[i].postId, rs[i].user, rs[i].reactionType)
  }

  /** `toggle_reaction`: removes the user's reaction of that type if there
      is one ("removed"), adds it otherwise ("added"). Adding an unknown
      type, or to a post that does not exist, is rejected. */
  function ToggleReaction(f: Feed, postId: string, user: string, t: string): (r: Result<Toggled, string>)
    ensures FirstMatch(f.reactions, postId, user, t).Some? ==>
      var k := FirstMatch(f.reactions, postId, user, t).value;
      r == Ok(Toggled(f.(reactions := f.reactions[..k] + f.reactions[k + 1..]), "removed"))
    ensures FirstMatch(f.reactions, postId, user, t).None? ==>
      (r.Ok? <==> t in ReactionTypes && HasPost(f, postId)) &&
      (r.Ok? ==> r.value == Toggled(f.(reactions := f.reactions + [Reaction(f.nextReactionId, postId, user, t)],
                                       nextReactionId := f.nextReactionId + 1), "added"))
  {
    match FirstMatch(f.reactions, postId, user, t)
    case Some(k) => Ok(Toggled(f.(reactions := f.reactions[..k] + f.reactions[k + 1..]), "removed"))
    case None =>
      if t !in ReactionTypes then Err("CHECK constraint failed: reaction_type")
      else if !HasPost(f, postId) then Err("FOREIGN KEY constraint failed")
      else
        Ok(Toggled(f.(reactions := f.reactions + [Reaction(f.nextReactionId, postId, user, t)],
                      nextReactionId := f.nextReactionId + 1), "added"))
  }

  /** Adding a reaction and toggling it again removes exactly it. */
  lemma ToggleAddThenRemove(f: Feed, postId: string, user: string, t: string)
    requires FirstMatch(f.reactions, postId, user, t).None?
    requires ToggleReaction(f, postId, user, t).Ok?
    ensures var once := ToggleReaction(f, postId, user, t).value;
            var twice := ToggleReaction(once.feed, postId, user, t);
            once.action == "added" && twice.Ok? && twice.value.action == "removed"
            && twice.value.feed.reactions == f.reactions
  {
    var rs := f.reactions;
    var once := ToggleReaction(f, postId, user, t).value.feed;
    Seqs.FirstIndexAt(once.reactions, (x: Reaction) => Matches(x, postId, user, t), |rs|);
    assert once.reactions[..|rs|] + once.reactions[|rs| + 1..] == rs;
  }

  /** Removing a reaction and toggling again brings its triple back: with
      triples unique, none is left after the removal. */
  lemma ToggleRemoveThenAdd(f: Feed, postId: string, user: string, t: string)
    requires Valid(f)
    requires FirstMatch(f.reactions, postId, user, t).Some?
    ensures var once := ToggleReaction(f, postId, user, t).value;
            var twice := ToggleReaction(once.feed, postId, user, t);
            once.action == "removed" && twice.Ok? && twice.value.action == "added"
            && Triples(twice.value.feed.reactions) == Triples(f.reactions)
  {
    var rs := f.reactions;
    var k := FirstMatch(rs, postId, user, t).value;
    var rest := rs[..k] + rs[k + 1..];
    RemovedHasNoMatch(rs, k, postId, user, t);
    assert HasPost(f, postId) && t in ReactionTypes;
    var once := ToggleReaction(f, postId, user, t).value.feed;
    assert once.reactions == rest && once.posts == f.posts;
    assert Reaction(f.nextReactionId, postId, user, t) ==
           Reaction(f.nextReactionId, rs[k].postId, rs[k].user, rs[k].reactionType);
    TriplesAfterReAdd(rs, k, f.nextReactionId);
  }

  lemma RemovedHasNoMatch(rs: seq<Reaction>, k: nat, postId: string, user: string, t: string)
    requires k < |rs| && Matches(rs[k], postId, user, t)
    requires forall i, j :: 0 <= i < j < |rs| ==>
      (rs[i].postId, rs[i].user, rs[i].reactionType) != (rs[j].postId, rs[j].user, rs[j].reactionType)
    ensures FirstMatch(rs[..k] + rs[k + 1..], postId, user, t).None?
  {
    var rest := rs[..k] + rs[k + 1..];
    forall i | 0 <= i < |rest| ensures !Matches(rest[i], postId, user, t) {
      if i < k {
        assert rest[i] == rs[i];
      } else {
        assert rest[i] == rs[i + 1];
      }
    }
  }

  lemma TriplesAfterReAdd(rs: seq<Reaction>, k: nat, id: nat)
    requires k < |rs|
    ensures Triples(rs[..k] + rs[k + 1..] + [Reaction(id, rs[k].postId, rs[k].user, rs[k].reactionType)]) == Triples(rs)
  {
    var rest := rs[..k] + rs[k + 1..];
    var again := rest + [Reaction(id, rs[k].postId, rs[k].user, rs[k].reactionType)];
    forall x | x in Triples(rs) ensures x in Triples(again) {
      var i :| 0 <= i < |rs| && x == (rs[i].postId, rs[i].user, rs[i].reactionType);
      if i < k {
        assert again[i] == rs[i];
      } else if i > k {
        assert again[i - 1] == rs[i];
      } else {
        assert x == (again[|rest|].postId, again[|rest|].user, again[|rest|].reactionType);
      }
    }
    forall x | x in Triples(again) ensures x in Triples(rs) {
      var i :| 0 <= i < |again| && x == (again[i].postId, again[i].user, again[i].reactionType);
      if i < k {
        assert again[i] == rs[i];
      } else if i < |rest| {
        assert again[i] == rs[i + 1];
      } else {
        assert x == (rs[k].postId, rs[k].user, rs[k].reactionType);
      }
    }
  }

  // ─── Comments ────────────────────────────────────────────────

  /** `add_comment`: the display name defaults to the handle; a post or a
      parent comment that does not exist violates a foreign key. */
  function AddComment(f: Feed, postId: string, author: string, display: string, content: string,
                      parentId: Option<nat>, now: int): (r: Result<(Feed, Comment), string>)
    ensures r.Ok? <==> HasPost(f, postId) && (parentId.None? || HasComment(f.comments, parentId.value))
    ensures r.Ok? ==>
      var (f', c) := r.value;
      && f'.comments == f.comments + [c]
      && c == Comment(f.nextCommentId, postId, author, if display == "" then author else display, content, parentId, now)
      && f'.posts == f.posts && f'.reactions == f.reactions && f'.nextCommentId == f.nextCommentId + 1
    ensures r.Ok? && Valid(f) ==> Valid(r.value.0)
  {
    if !HasPost(f, postId) || (parentId.Some? && !HasComment(f.comments, parentId.value)) then
      Err("FOREIGN KEY constraint failed")
    else
      var c := Comment(f.nextCommentId, postId, author, if display == "" then author else display, content, parentId, now);
      var f' := f.(comments := f.comments + [c], nextCommentId := f.nextCommentId + 1);
      AddCommentKeepsValid(f, c);
      Ok((f', c))
  }

  /** A comment with the next id, on an existing post, under an existing
      parent, keeps the table constraints. */
  lemma AddCommentKeepsValid(f: Feed, c: Comment)
    requires c.id == f.nextCommentId && HasPost(f, c.postId)
    requires c.parentId.None? || HasComment(f.comments, c.parentId.value)
    ensures Valid(f) ==> Valid(f.(comments := f.comments + [c], nextCommentId := f.nextCommentId + 1))
  {
    if Valid(f) {
      var cs := f.comments + [c];
      CommentsGrow(f.comments, c);
      assert forall i :: 0 <= i < |cs| ==> HasPost(f, cs[i].postId);
      if c.parentId.Some? {
        var k :| 0 <= k < |f.comments| && f.comments[k].id == c.parentId.value;
        assert c.parentId.value < c.id;
      }
      assert CommentsWellFormed(cs, f.nextCommentId + 1);
    }
  }

  lemma CommentsGrow(cs: seq<Comment>, c: Comment)
    ensures forall id :: HasComment(cs, id) ==> HasComment(cs + [c], id)
    ensures forall i :: 0 <= i < |cs| ==> (cs + [c])[i] == cs[i]
  {
    forall id | HasComment(cs, id) ensures HasComment(cs + [c], id) {
      var i :| 0 <= i < |cs| && cs[i].id == id;
      assert (cs + [c])[i] == cs[i];
    }
  }

  /** Whether comment `i` goes when the `doomed` comments are deleted: it
      is doomed itself, or its parent goes (the parent foreign key
      cascades). */
  predicate Deleted(cs: seq<Comment>, doomed: Comment -> bool, i: nat)
    requires i < |cs|
    decreases i
  {
    doomed(cs[i]) ||
    (cs[i].parentId.Some? &&
     exists j :: 0 <= j < i && cs[j].id == cs[i].parentId.value && Deleted(cs, doomed, j))
  }

  /** The comments among the first `n` that survive the deletion. */
  function Survivors(cs: seq<Comment>, doomed: Comment -> bool, n: nat): (r: seq<Comment>)
    requires n <= |cs|
    ensures forall x :: x in r <==> exists i :: 0 <= i < n && cs[i] == x && !Deleted(cs, doomed, i)
    ensures |r| <= n
    decreases n
  {
    if n == 0 then []
    else Survivors(cs, doomed, n - 1) + (if Deleted(cs, doomed, n - 1) then [] else [cs[n - 1]])
  }

  lemma {:induction false} SurvivorsOrdered(cs: seq<Comment>, doomed: Comment -> bool, n: nat)
    requires n <= |cs|
    requires forall i, j :: 0 <= i < j < |cs| ==> cs[i].id < cs[j].id
    ensures forall a, b :: 0 <= a < b < |Survivors(cs, doomed, n)| ==>
      Survivors(cs, doomed, n)[a].id < Survivors(cs, doomed, n)[b].id
    decreases n
  {
    if n > 0 {
      SurvivorsOrdered(cs, doomed, n - 1);
      var r0 := Survivors(cs, doomed, n - 1);
      var r := Survivors(cs, doomed, n);
      forall x | x in r0 ensures x.id < cs[n - 1].id {
        var i :| 0 <= i < n - 1 && cs[i] == x && !Deleted(cs, doomed, i);
      }
      assert r == r0 + (if Deleted(cs, doomed, n - 1) then [] else [cs[n - 1]]);
      forall a, b | 0 <= a < b < |r| ensures r[a].id < r[b].id {
        assert r[a] == r0[a];
        if b < |r0| {
          assert r[b] == r0[b];
          assert r0[a].id < r0[b].id;
        } else {
          assert !Deleted(cs, doomed, n - 1) && r == r0 + [cs[n - 1]];
          assert r0[a] in r0;
        }
      }
    }
  }

  /** A comment whose parent goes, goes too. */
  lemma ParentSurvives(cs: seq<Comment>, doomed: Comment -> bool, i: nat, j: nat)
    requires j < i < |cs| && cs[i].parentId == Some(cs[j].id)
    ensures !Deleted(cs, doomed, i) ==> !Deleted(cs, doomed, j)
  {
  }

  lemma SurvivorParent(cs: seq<Comment>, next: nat, doomed: Comment -> bool, i: nat)
    requires CommentsWellFormed(cs, next)
    requires i < |cs| && !Deleted(cs, doomed, i) && cs[i].parentId.Some?
    ensures HasComment(Survivors(cs, doomed, |cs|), cs[i].parentId.value)
  {
    var j :| 0 <= j < |cs| && cs[j].id == cs[i].parentId.value;
    assert cs[i].parentId.value < cs[i].id;
    assert j < i;
    ParentSurvives(cs, doomed, i, j);
    var r := Survivors(cs, doomed, |cs|);
    assert cs[j] in r;
    var a :| 0 <= a < |r| && r[a] == cs[j];
  }

  /** The deletion keeps the table well formed: ids stay in order and no
      survivor points at a deleted parent. */
  lemma SurvivorsWellFormed(cs: seq<Comment>, next: nat, doomed: Comment -> bool)
    requires CommentsWellFormed(cs, next)
    ensures CommentsWellFormed(Survivors(cs, doomed, |cs|), next)
  {
    var r := Survivors(cs, doomed, |cs|);
    SurvivorsOrdered(cs, doomed, |cs|);
    forall a | 0 <= a < |r| ensures r[a].id < next {
      assert r[a] in r;
    }
    forall a | 0 <= a < |r| && r[a].parentId.Some?
      ensures r[a].parentId.value < r[a].id && HasComment(r, r[a].parentId.value)
    {
      assert r[a] in r;
      var i :| 0 <= i < |cs| && cs[i] == r[a] && !Deleted(cs, doomed, i);
      SurvivorParent(cs, next, doomed, i);
    }
  }

  /** `delete_comment`: only the author may delete; the comment goes with
      every reply below it. */
  function DeleteComment(f: Feed, commentId: nat, author: string): (r: (Feed, bool))
    ensures r.1 <==> exists i :: 0 <= i < |f.comments| && f.comments[i].id == commentId && f.comments[i].author == author
    ensures !r.1 ==> r.0 == f
    ensures r.1 ==> r.0 == f.(comments := Survivors(f.comments, (c: Comment) => c.id == commentId, |f.comments|))
    ensures r.1 ==> !HasComment(r.0.comments, commentId)
    ensures r.1 && Valid(f) ==> Valid(r.0)
  {
    if !exists i :: 0 <= i < |f.comments| && f.comments[i].id == commentId && f.comments[i].author == author then (f, false)
    else
      var doomed := (c: Comment) => c.id == commentId;
      var f' := f.(comments := Survivors(f.comments, doomed, |f.comments|));
      assert !HasComment(f'.comments, commentId) by {
        forall x | x in f'.comments ensures x.id != commentId {
          var i :| 0 <= i < |f.comments| && f.comments[i] == x && !Deleted(f.comments, doomed, i);
        }
      }
      SurvivorsKeepValid(f, f', doomed);
      (f', true)
  }

  lemma SurvivorsKeepValid(f: Feed, f': Feed, doomed: Comment -> bool)
    requires f' == f.(comments := Survivors(f.comments, doomed, |f.comments|))
    ensures Valid(f) ==> Valid(f')
  {
    if Valid(f) {
      SurvivorsWellFormed(f.comments, f.nextCommentId, doomed);
      forall i | 0 <= i < |f'.comments| ensures HasPost(f', f'.comments[i].postId) {
        assert f'.comments[i] in f'.comments;
      }
    }
  }

  /** `delete_post`: only the author may delete; the post goes with its
      reactions, its comments and every reply below them. */
  function DeletePost(f: Feed, postId: string, author: string): (r: (Feed, bool))
    ensures r.1 <==> exists i :: 0 <= i < |f.posts| && f.posts[i].id == postId && f.posts[i].authorHandle == author
    ensures !r.1 ==> r.0 == f
    ensures r.1 ==>
      && r.0.posts == Seqs.Filter(f.posts, (p: Post) => p.id != postId)
      && r.0.reactions == Seqs.Filter(f.reactions, (x: Reaction) => x.postId != postId)
      && r.0.comments == Survivors(f.comments, (c: Comment) => c.postId == postId, |f.comments|)
    ensures r.1 ==> !HasPost(r.0, postId) && forall x :: x in r.0.comments ==> x.postId != postId
    ensures r.1 && Valid(f) ==> Valid(r.0)
  {
    if !exists i :: 0 <= i < |f.posts| && f.posts[i].id == postId && f.posts[i].authorHandle == author then (f, false)
    else
      var doomed := (c: Comment) => c.postId == postId;
      var f' := f.(posts := Seqs.Filter(f.posts, (p: Post) => p.id != postId),
                   reactions := Seqs.Filter(f.reactions, (x: Reaction) => x.postId != postId),
                   comments := Survivors(f.comments, doomed, |f.comments|));
      assert forall x :: x in f'.comments ==> x.postId != postId by {
        forall x | x in f'.comments ensures x.postId != postId {
          var i :| 0 <= i < |f.comments| && f.comments[i] == x && !Deleted(f.comments, doomed, i);
        }
      }
      assert !HasPost(f', postId) by {
        forall i | 0 <= i < |f'.posts| ensures f'.posts[i].id != postId {
          assert f'.posts[i] in f'.posts;
        }
      }
      DeletePostKeepsValid(f, postId, f');
      (f', true)
  }

  lemma DeletePostKeepsValid(f: Feed, postId: string, f': Feed)
    requires f' == f.(posts := Seqs.Filter(f.posts, (p: Post) => p.id != postId),
                      reactions := Seqs.Filter(f.reactions, (x: Reaction) => x.postId != postId),
                      comments := Survivors(f.comments, (c: Comment) => c.postId == postId, |f.comments|))
    ensures Valid(f) ==> Valid(f')
  {
    if Valid(f) {
      SurvivorsWellFormed(f.comments, f.nextCommentId, (c: Comment) => c.postId == postId);
      KeptPostsDistinct(f.posts, postId);
      KeptReactionsDistinct(f.reactions, postId);
      OtherPostsKept(f, postId, f');
      KeptRowsPosted(f, postId, f');
    }
  }

  /** The reactions and comments that survive the delete all belong to a
      post that survives it. */
  lemma KeptRowsPosted(f: Feed, postId: string, f': Feed)
    requires forall i :: 0 <= i < |f.reactions| ==> HasPost(f, f.reactions[i].postId)
    requires forall i :: 0 <= i < |f.comments| ==> HasPost(f, f.comments[i].postId)
    requires forall id :: HasPost(f, id) && id != postId ==> HasPost(f', id)
    requires f'.reactions == Seqs.Filter(f.reactions, (x: Reaction) => x.postId != postId)
    requires f'.comments == Survivors(f.comments, (c: Comment) => c.postId == postId, |f.comments|)
    requires forall i :: 0 <= i < |f.reactions| ==> f.reactions[i].reactionType in ReactionTypes
    ensures forall i :: 0 <= i < |f'.reactions| ==> HasPost(f', f'.reactions[i].postId)
    ensures forall i :: 0 <= i < |f'.reactions| ==> f'.reactions[i].reactionType in ReactionTypes
    ensures forall i :: 0 <= i < |f'.comments| ==> HasPost(f', f'.comments[i].postId)
  {
    var doomed := (c: Comment) => c.postId == postId;
    forall i | 0 <= i < |f'.reactions|
      ensures HasPost(f', f'.reactions[i].postId) && f'.reactions[i].reactionType in ReactionTypes {
      assert f'.reactions[i] in f.reactions;
    }
    forall i | 0 <= i < |f'.comments| ensures HasPost(f', f'.comments[i].postId) {
      assert f'.comments[i] in f'.comments;
      var k :| 0 <= k < |f.comments| && f.comments[k] == f'.comments[i] && !Deleted(f.comments, doomed, k);
    }
  }

  /** Dropping a post's row keeps the other post ids distinct. */
  lemma KeptPostsDistinct(ps: seq<Post>, postId: string)
    requires forall i, j :: 0 <= i < j < |ps| ==> ps[i].id != ps[j].id
    ensures var r := Seqs.Filter(ps, (p: Post) => p.id != postId);
            forall i, j :: 0 <= i < j < |r| ==> r[i].id != r[j].id
  {
    var distinctIds := (a: Post, b: Post) => a.id != b.id;
    assert Seqs.Sorted(ps, distinctIds);
    Seqs.FilterSorted(ps, (p: Post) => p.id != postId, distinctIds);
  }

  /** Dropping a post's reactions keeps the other reactions distinct. */
  lemma KeptReactionsDistinct(rs: seq<Reaction>, postId: string)
    requires forall i, j :: 0 <= i < j < |rs| ==>
      (rs[i].postId, rs[i].user, rs[i].reactionType) != (rs[j].postId, rs[j].user, rs[j].reactionType)
    ensures var r := Seqs.Filter(rs, (x: Reaction) => x.postId != postId);
            forall i, j :: 0 <= i < j < |r| ==>
              (r[i].postId, r[i].user, r[i].reactionType) != (r[j].postId, r[j].user, r[j].reactionType)
  {
    var distinctTriples := (a: Reaction, b: Reaction) =>
      (a.postId, a.user, a.reactionType) != (b.postId, b.user, b.reactionType);
    assert Seqs.Sorted(rs, distinctTriples);
    Seqs.FilterSorted(rs, (x: Reaction) => x.postId != postId, distinctTriples);
  }

  /** Every other post is still there after the delete. */
  lemma OtherPostsKept(f: Feed, postId: string, f': Feed)
    requires f'.posts == Seqs.Filter(f.posts, (p: Post) => p.id != postId)
    ensures forall id :: HasPost(f, id) && id != postId ==> HasPost(f', id)
  {
    forall id | HasPost(f, id) && id != postId ensures HasPost(f', id) {
      var i :| 0 <= i < |f.posts| && f.posts[i].id == id;
      assert f.posts[i] in f'.posts;
    }
  }

  // ─── Comment tree ────────────────────────────────────────────

  datatype Node = Node(comment: Comment, replies: seq<Node>)

  /** The parent a comment names; an id of 0 counts as none. */
  function ParentOf(c: Comment): (r: Option<nat>)
    ensures r.Some? ==> c.parentId == r && r.value != 0
  {
    if c.parentId.Some? && c.parentId.value != 0 then c.parentId else None
  }

  /** The comments of a forest, each node before its replies. */
  function Flat(ns: seq<Node>): seq<Comment>
    decreases ns
  {
    if |ns| == 0 then [] else [ns[0].comment] + Flat(ns[0].replies) + Flat(ns[1..])
  }

  function RootComments(ns: seq<Node>): (r: seq<Comment>)
    ensures |r| == |ns| && forall i :: 0 <= i < |ns| ==> r[i] == ns[i].comment
  {
    seq(|ns|, i requires 0 <= i < |ns| => ns[i].comment)
  }

  /** Every reply names the node it hangs under as its parent. */
  ghost predicate Placed(ns: seq<Node>)
    decreases ns
  {
    |ns| == 0 ||
    ((forall j :: 0 <= j < |ns[0].replies| ==> ParentOf(ns[0].replies[j].comment) == Some(ns[0].comment.id))
     && Placed(ns[0].replies) && Placed(ns[1..]))
  }

  /** `c` appended to the replies of the first node with id `pid`, and
      whether there was one. */
  function Attach(ns: seq<Node>, pid: nat, c: Comment): (r: (seq<Node>, bool))
    ensures !r.1 ==> r.0 == ns
    ensures r.1 ==> |ns| > 0 && |r.0| == |ns|
    decreases ns
  {
    if |ns| == 0 then (ns, false)
    else
      var n := ns[0];
      if n.comment.id == pid then ([Node(n.comment, n.replies + [Node(c, [])])] + ns[1..], true)
      else
        var (rs, found) := Attach(n.replies, pid, c);
        if found then ([Node(n.comment, rs)] + ns[1..], true)
        else
          var (rest, g) := Attach(ns[1..], pid, c);
          assert g ==> |rest| == |ns[1..]|;
          ([n] + rest, g)
  }

  lemma FlatCons(n: Node, ns: seq<Node>)
    ensures Flat([n] + ns) == [n.comment] + Flat(n.replies) + Flat(ns)
  {
    assert ([n] + ns)[0] == n && ([n] + ns)[1..] == ns;
  }

  /** The attachment succeeds exactly when a node with that id exists. */
  lemma {:induction false} AttachFinds(ns: seq<Node>, pid: nat, c: Comment)
    ensures Attach(ns, pid, c).1 <==> exists x :: x in Flat(ns) && x.id == pid
    decreases ns
  {
    if |ns| > 0 {
      var n := ns[0];
      assert ns == [n] + ns[1..];
      FlatCons(n, ns[1..]);
      AttachFinds(n.replies, pid, c);
      AttachFinds(ns[1..], pid, c);
    }
  }

  /** `Attach` adds `c` to the comments of the forest when it finds the
      parent, and changes nothing when it does not. */
  ghost predicate AddsOnce(ns: seq<Node>, pid: nat, c: Comment) {
    var a := Attach(ns, pid, c);
    multiset(Flat(a.0)) == multiset(Flat(ns)) + (if a.1 then multiset{c} else multiset{})
  }

  /** A successful attachment adds `c` once and keeps every comment. */
  lemma {:induction false} AttachAddsOnce(ns: seq<Node>, pid: nat, c: Comment)
    ensures var (r, found) := Attach(ns, pid, c);
            multiset(Flat(r)) == multiset(Flat(ns)) + (if found then multiset{c} else multiset{})
    decreases ns
  {
    if |ns| > 0 {
      var n := ns[0];
      if n.comment.id == pid {
        AddsHere(ns, pid, c);
      } else {
        AttachAddsOnce(n.replies, pid, c);
        if Attach(n.replies, pid, c).1 {
          AddsBelow(ns, pid, c);
        } else {
          AttachAddsOnce(ns[1..], pid, c);
          AddsLater(ns, pid, c);
        }
      }
    }
  }

  lemma AddsHere(ns: seq<Node>, pid: nat, c: Comment)
    requires |ns| > 0 && ns[0].comment.id == pid
    ensures AddsOnce(ns, pid, c)
  {
    var n, tail := ns[0], ns[1..];
    assert ns == [n] + tail;
    FlatCons(n, tail);
    AttachUnfold(ns, pid, c);
    var n' := Node(n.comment, n.replies + [Node(c, [])]);
    FlatCons(n', tail);
    AttachHere(n, c);
    ConsGrows(n.comment, Flat(n.replies), Flat(tail), Flat(n'.replies), Flat(tail), multiset{c});
  }

  lemma AddsBelow(ns: seq<Node>, pid: nat, c: Comment)
    requires |ns| > 0 && ns[0].comment.id != pid && Attach(ns[0].replies, pid, c).1
    requires AddsOnce(ns[0].replies, pid, c)
    ensures AddsOnce(ns, pid, c)
  {
    var n, tail := ns[0], ns[1..];
    AttachUnfold(ns, pid, c);
    assert ns == [n] + tail;
    HeadGrows(n, Attach(n.replies, pid, c).0, tail, multiset{c});
  }

  /** A node whose replies' comments grow by `extra`, in front of a forest. */
  lemma HeadGrows(n: Node, replies': seq<Node>, tail: seq<Node>, extra: multiset<Comment>)
    requires multiset(Flat(replies')) == multiset(Flat(n.replies)) + extra
    ensures multiset(Flat([Node(n.comment, replies')] + tail)) == multiset(Flat([n] + tail)) + extra
  {
    FlatCons(Node(n.comment, replies'), tail);
    FlatCons(n, tail);
    ConsGrows(n.comment, Flat(n.replies), Flat(tail), Flat(replies'), Flat(tail), extra);
  }

  lemma AddsLater(ns: seq<Node>, pid: nat, c: Comment)
    requires |ns| > 0 && ns[0].comment.id != pid && !Attach(ns[0].replies, pid, c).1
    requires AddsOnce(ns[1..], pid, c)
    ensures AddsOnce(ns, pid, c)
  {
    var n, tail := ns[0], ns[1..];
    var a := Attach(tail, pid, c);
    AttachUnfold(ns, pid, c);
    assert ns == [n] + tail;
    TailGrows(n, tail, a.0, if a.1 then multiset{c} else multiset{});
  }

  /** A node in front of a forest whose comments grow by `extra`. */
  lemma TailGrows(n: Node, tail: seq<Node>, tail': seq<Node>, extra: multiset<Comment>)
    requires multiset(Flat(tail')) == multiset(Flat(tail)) + extra
    ensures multiset(Flat([n] + tail')) == multiset(Flat([n] + tail)) + extra
  {
    FlatCons(n, tail');
    FlatCons(n, tail);
    ConsGrows(n.comment, Flat(n.replies), Flat(tail), Flat(n.replies), Flat(tail'), extra);
  }

  /** One step of `Attach` on a non-empty forest, case by case. */
  lemma AttachUnfold(ns: seq<Node>, pid: nat, c: Comment)
    requires |ns| > 0
    ensures ns[0].comment.id == pid ==>
      Attach(ns, pid, c) == ([Node(ns[0].comment, ns[0].replies + [Node(c, [])])] + ns[1..], true)
    ensures ns[0].comment.id != pid && Attach(ns[0].replies, pid, c).1 ==>
      Attach(ns, pid, c) == ([Node(ns[0].comment, Attach(ns[0].replies, pid, c).0)] + ns[1..], true)
    ensures ns[0].comment.id != pid && !Attach(ns[0].replies, pid, c).1 ==>
      Attach(ns, pid, c) == ([ns[0]] + Attach(ns[1..], pid, c).0, Attach(ns[1..], pid, c).1)
  {
  }

  /** A comment in front of two lists that grow by `extra` between them. */
  lemma ConsGrows(a: Comment, x: seq<Comment>, y: seq<Comment>, x': seq<Comment>, y': seq<Comment>,
                  extra: multiset<Comment>)
    requires multiset(x') + multiset(y') == multiset(x) + multiset(y) + extra
    ensures multiset([a] + x' + y') == multiset([a] + x + y) + extra
  {
    assert multiset([a] + x' + y') == multiset{a} + multiset(x') + multiset(y');
    assert multiset([a] + x + y) == multiset{a} + multiset(x) + multiset(y);
    assert multiset{a} + multiset(x') + multiset(y') == multiset{a} + (multiset(x) + multiset(y) + extra);
  }

  /** The attachment never changes the roots. */
  lemma {:induction false} AttachKeepsRoots(ns: seq<Node>, pid: nat, c: Comment)
    ensures |Attach(ns, pid, c).0| == |ns|
    ensures forall i :: 0 <= i < |ns| ==> Attach(ns, pid, c).0[i].comment == ns[i].comment
    decreases ns
  {
    if |ns| > 0 {
      var n := ns[0];
      if n.comment.id != pid {
        var (rs, found) := Attach(n.replies, pid, c);
        if !found {
          AttachKeepsRoots(ns[1..], pid, c);
          var (rest, g) := Attach(ns[1..], pid, c);
          forall i | 0 <= i < |ns| ensures ([n] + rest)[i].comment == ns[i].comment {
            if i > 0 {
              assert ([n] + rest)[i] == rest[i - 1];
              assert ns[1..][i - 1] == ns[i];
            }
          }
        }
      }
    }
  }

  /** Attaching `c` under its own parent keeps every reply placed. */
  lemma {:induction false} AttachKeepsPlaced(ns: seq<Node>, pid: nat, c: Comment)
    requires Placed(ns) && ParentOf(c) == Some(pid)
    ensures Placed(Attach(ns, pid, c).0)
    decreases ns
  {
    if |ns| > 0 {
      var n := ns[0];
      if n.comment.id == pid {
        var n' := Node(n.comment, n.replies + [Node(c, [])]);
        assert ([n'] + ns[1..])[0] == n' && ([n'] + ns[1..])[1..] == ns[1..];
        PlacedLeafAppend(n.replies, c);
      } else {
        var (rs, found) := Attach(n.replies, pid, c);
        AttachKeepsPlaced(n.replies, pid, c);
        if found {
          var n' := Node(n.comment, rs);
          assert ([n'] + ns[1..])[0] == n' && ([n'] + ns[1..])[1..] == ns[1..];
          AttachKeepsRoots(n.replies, pid, c);
        } else {
          var (rest, g) := Attach(ns[1..], pid, c);
          AttachKeepsPlaced(ns[1..], pid, c);
          assert ([n] + rest)[0] == n && ([n] + rest)[1..] == rest;
        }
      }
    }
  }

  lemma {:induction false} PlacedLeafAppend(ns: seq<Node>, c: Comment)
    requires Placed(ns)
    ensures Placed(ns + [Node(c, [])])
    decreases |ns|
  {
    if |ns| == 0 {
      assert [Node(c, [])][1..] == [];
    } else {
      assert (ns + [Node(c, [])])[0] == ns[0];
      assert (ns + [Node(c, [])])[1..] == ns[1..] + [Node(c, [])];
      PlacedLeafAppend(ns[1..], c);
    }
  }

  lemma {:induction false} FlatAppend(a: seq<Node>, b: seq<Node>)
    ensures Flat(a + b) == Flat(a) + Flat(b)
    decreases |a|
  {
    if |a| == 0 {
      assert a + b == b;
    } else {
      assert (a + b)[0] == a[0] && (a + b)[1..] == a[1..] + b;
      FlatAppend(a[1..], b);
    }
  }

  lemma AttachHere(n: Node, c: Comment)
    ensures Flat(n.replies + [Node(c, [])]) == Flat(n.replies) + [c]
  {
    FlatAppend(n.replies, [Node(c, [])]);
    assert Flat([Node(c, [])]) == [c] + Flat([]) + Flat([]);
  }

  /** The parent a comment names is in the list. */
  predicate HasParentIn(c: Comment, cs: seq<Comment>) {
    ParentOf(c).Some? && exists k :: 0 <= k < |cs| && cs[k].id == ParentOf(c).value
  }

  function IsRoot(cs: seq<Comment>): Comment -> bool {
    (c: Comment) => !HasParentIn(c, cs)
  }

  /** A parent named in the list comes before its replies. */
  ghost predicate ParentsFirst(cs: seq<Comment>) {
    forall i, k :: 0 <= i < |cs| && 0 <= k < |cs| && ParentOf(cs[i]) == Some(cs[k].id) ==> k < i
  }

  /** One comment into the forest: under its parent when that is there,
      as a new root otherwise. */
  function AddToTree(forest: seq<Node>, c: Comment): seq<Node> {
    if ParentOf(c).Some? && Attach(forest, ParentOf(c).value, c).1 then Attach(forest, ParentOf(c).value, c).0
    else forest + [Node(c, [])]
  }

  /** `_build_comment_tree`: the comments in list order, each under its
      parent when the parent is in the list, as a root otherwise. */
  function BuildTree(cs: seq<Comment>): seq<Node>
    decreases |cs|
  {
    if |cs| == 0 then [] else AddToTree(BuildTree(cs[..|cs| - 1]), cs[|cs| - 1])
  }

  /** Every comment appears in the tree exactly once. */
  lemma {:induction false} TreeKeepsComments(cs: seq<Comment>)
    ensures multiset(Flat(BuildTree(cs))) == multiset(cs)
    decreases |cs|
  {
    if |cs| > 0 {
      var n := |cs| - 1;
      var c := cs[n];
      assert cs == cs[..n] + [c];
      TreeKeepsComments(cs[..n]);
      var forest := BuildTree(cs[..n]);
      if ParentOf(c).Some? && Attach(forest, ParentOf(c).value, c).1 {
        AttachAddsOnce(forest, ParentOf(c).value, c);
      } else {
        FlatAppend(forest, [Node(c, [])]);
        assert Flat([Node(c, [])]) == [c] + Flat([]) + Flat([]);
      }
    }
  }

  /** Every reply in the tree hangs under its own parent. */
  lemma {:induction false} TreePlaced(cs: seq<Comment>)
    ensures Placed(BuildTree(cs))
    decreases |cs|
  {
    if |cs| > 0 {
      var n := |cs| - 1;
      var c := cs[n];
      TreePlaced(cs[..n]);
      var forest := BuildTree(cs[..n]);
      if ParentOf(c).Some? && Attach(forest, ParentOf(c).value, c).1 {
        AttachKeepsPlaced(forest, ParentOf(c).value, c);
      } else {
        PlacedLeafAppend(forest, c);
      }
    }
  }

  /** When parents come first, a comment goes under a node exactly when
      its parent is in the list. */
  lemma AttachedIffParentIn(cs: seq<Comment>)
    requires ParentsFirst(cs) && |cs| > 0
    ensures var n := |cs| - 1;
            (ParentOf(cs[n]).Some? && Attach(BuildTree(cs[..n]), ParentOf(cs[n]).value, cs[n]).1)
            <==> HasParentIn(cs[n], cs)
  {
    var n := |cs| - 1;
    var pre, c := cs[..n], cs[n];
    ParentInPrefix(cs);
    TreeKeepsComments(pre);
    var forest := BuildTree(pre);
    if ParentOf(c).Some? {
      var pid := ParentOf(c).value;
      AttachFinds(forest, pid, c);
      if Attach(forest, pid, c).1 {
        var x :| x in Flat(forest) && x.id == pid;
        assert x in multiset(Flat(forest));
        var k :| 0 <= k < |pre| && pre[k] == x;
      } else {
        forall k | 0 <= k < n ensures pre[k].id != pid {
          assert pre[k] in multiset(pre);
        }
      }
    }
  }

  /** Adding a comment adds a root exactly when it does not go under a
      node. */
  lemma RootsStep(forest: seq<Node>, c: Comment)
    ensures RootComments(AddToTree(forest, c)) ==
            RootComments(forest) + (if ParentOf(c).Some? && Attach(forest, ParentOf(c).value, c).1 then [] else [c])
  {
    if ParentOf(c).Some? && Attach(forest, ParentOf(c).value, c).1 {
      AttachKeepsRoots(forest, ParentOf(c).value, c);
    }
  }

  /** The roots are the comments whose parent is not in the list, in list
      order. */
  lemma {:induction false} TreeRoots(cs: seq<Comment>)
    requires ParentsFirst(cs)
    ensures RootComments(BuildTree(cs)) == Seqs.Filter(cs, IsRoot(cs))
    decreases |cs|
  {
    if |cs| > 0 {
      var n := |cs| - 1;
      var pre, c := cs[..n], cs[n];
      assert cs == pre + [c];
      ParentInPrefix(cs);
      TreeRoots(pre);
      AttachedIffParentIn(cs);
      RootsStep(BuildTree(pre), c);
      Seqs.FilterAppend(pre, [c], IsRoot(cs));
      assert forall i :: 0 <= i < |pre| ==> pre[i] == cs[i];
      Seqs.FilterCongruent(pre, IsRoot(cs), IsRoot(pre));
      assert Seqs.Filter([c], IsRoot(cs)) == if IsRoot(cs)(c) then [c] else [];
    }
  }

  /** In a list whose parents come first, a comment's parent is in the
      list iff it is among the comments before it. */
  lemma ParentInPrefix(cs: seq<Comment>)
    requires ParentsFirst(cs) && |cs| > 0
    ensures var n := |cs| - 1;
            && ParentsFirst(cs[..n])
            && (HasParentIn(cs[n], cs) <==> HasParentIn(cs[n], cs[..n]))
            && forall i :: 0 <= i < n ==> (HasParentIn(cs[i], cs) <==> HasParentIn(cs[i], cs[..n]))
  {
    var n := |cs| - 1;
    var pre := cs[..n];
    forall i | 0 <= i < n ensures HasParentIn(cs[i], cs) <==> HasParentIn(cs[i], pre) {
      ParentInPrefixAt(cs, i);
    }
    ParentInPrefixAt(cs, n);
    forall i, k | 0 <= i < n && 0 <= k < n && ParentOf(pre[i]) == Some(pre[k].id) ensures k < i {
      assert pre[i] == cs[i] && pre[k] == cs[k];
    }
  }

  /** One comment's parent, when parents come first, is in the list iff
      it is in the list without its last comment. */
  lemma ParentInPrefixAt(cs: seq<Comment>, i: nat)
    requires ParentsFirst(cs) && i < |cs|
    ensures HasParentIn(cs[i], cs) <==> HasParentIn(cs[i], cs[..|cs| - 1])
  {
    var pre := cs[..|cs| - 1];
    if HasParentIn(cs[i], cs) {
      var k :| 0 <= k < |cs| && cs[k].id == ParentOf(cs[i]).value;
      assert k < i;
      assert pre[k] == cs[k];
    }
    if HasParentIn(cs[i], pre) {
      var k :| 0 <= k < |pre| && pre[k].id == ParentOf(cs[i]).value;
      assert cs[k] == pre[k];
    }
  }

  // ─── Reading ─────────────────────────────────────────────────

  function PostOf(postId: string): Comment -> bool {
    (c: Comment) => c.postId == postId
  }

  /** `get_comments`: the post's comments as a tree. */
  function GetComments(f: Feed, postId: string): seq<Node> {
    BuildTree(Seqs.Filter(f.comments, PostOf(postId)))
  }

  function IdBefore(a: Comment, b: Comment): bool {
    a.id < b.id
  }

  /** Ids that grow along the list and parents with smaller ids put every
      parent before its replies. */
  lemma ParentsFirstByIds(cs: seq<Comment>)
    requires Seqs.Sorted(cs, IdBefore)
    requires forall i :: 0 <= i < |cs| && cs[i].parentId.Some? ==> cs[i].parentId.value < cs[i].id
    ensures ParentsFirst(cs)
  {
  }

  /** The comment tree of a post holds each of its comments exactly once,
      every reply under its own parent; the roots are the post's comments
      whose parent is not a comment of the same post, oldest first. */
  lemma CommentTree(f: Feed, postId: string)
    requires Valid(f)
    ensures var mine := Seqs.Filter(f.comments, PostOf(postId));
            && multiset(Flat(GetComments(f, postId))) == multiset(mine)
            && (forall c :: c in Flat(GetComments(f, postId)) <==> c in f.comments && c.postId == postId)
            && Placed(GetComments(f, postId))
            && RootComments(GetComments(f, postId)) == Seqs.Filter(mine, IsRoot(mine))
  {
    var mine := Seqs.Filter(f.comments, PostOf(postId));
    PostCommentsParentsFirst(f, postId);
    TreeKeepsComments(mine);
    TreePlaced(mine);
    TreeRoots(mine);
    Seqs.SameMembers(Flat(GetComments(f, postId)), mine);
  }

  /** A post's comments, in stored order, come after their parents. */
  lemma PostCommentsParentsFirst(f: Feed, postId: string)
    requires Valid(f)
    ensures ParentsFirst(Seqs.Filter(f.comments, PostOf(postId)))
  {
    var mine := Seqs.Filter(f.comments, PostOf(postId));
    assert Seqs.Sorted(f.comments, IdBefore);
    Seqs.FilterSorted(f.comments, PostOf(postId), IdBefore);
    forall i | 0 <= i < |mine| && mine[i].parentId.Some? ensures mine[i].parentId.value < mine[i].id {
      assert mine[i] in f.comments;
    }
    ParentsFirstByIds(mine);
  }

  /** A post as the API returns it. */
  datatype PostView = PostView(
    post: Post,
    reactions: map<string, nat>,
    myReactions: seq<string>,
    commentCount: nat,
    originalPost: Option<Post>)

  /** The CHECK on `reaction_type`, which the counts rely on. */
  predicate TypedReactions(f: Feed) {
    forall i :: 0 <= i < |f.reactions| ==> f.reactions[i].reactionType in ReactionTypes
  }

  function CommentCount(f: Feed, postId: string): nat {
    Seqs.Count(f.comments, PostOf(postId))
  }

  /** `_enrich_post`: reaction counts by type, the viewer's reactions, the
      comment count, and for a reshare the original post when it still
      exists. An empty original id counts as none. */
  function EnrichPost(f: Feed, p: Post, viewer: string): (r: PostView)
    requires TypedReactions(f)
    ensures r.post == p
    ensures forall t :: t in r.reactions <==>
      t in ReactionTypes && exists x :: x in f.reactions && x.postId == p.id && x.reactionType == t
    ensures forall t :: t in r.reactions ==> r.reactions[t] == CountType(f.reactions, p.id, t)
    ensures r.myReactions == MyReactions(f, p.id, viewer)
    ensures r.commentCount == |Seqs.Filter(f.comments, PostOf(p.id))|
    ensures r.originalPost.Some? <==> p.originalPostId.GetOr("") != "" && HasPost(f, p.originalPostId.value)
    ensures r.originalPost.Some? ==> r.originalPost.value in f.posts && r.originalPost.value.id == p.originalPostId.value
  {
    var counts := ReactionCounts(f, p.id);
    forall t ensures CountType(f.reactions, p.id, t) > 0 <==>
                     exists x :: x in f.reactions && x.postId == p.id && x.reactionType == t {
      CountPositive(f.reactions, p.id, t);
    }
    Seqs.FilterCount(f.comments, PostOf(p.id));
    var orig := if p.originalPostId.GetOr("") == "" then None else FindPost(f, p.originalPostId.value);
    PostView(p, counts, MyReactions(f, p.id, viewer), CommentCount(f, p.id), orig)
  }

  /** A type is counted exactly when some reaction of that type is on the
      post. */
  lemma {:induction false} CountPositive(rs: seq<Reaction>, postId: string, t: string)
    ensures CountType(rs, postId, t) > 0 <==> exists x :: x in rs && x.postId == postId && x.reactionType == t
    decreases |rs|
  {
    if |rs| > 0 {
      CountPositive(rs[1..], postId, t);
      assert rs == [rs[0]] + rs[1..];
    }
  }

  /** `get_post`: `None` for an unknown id. */
  function GetPost(f: Feed, postId: string, viewer: string): (r: Option<PostView>)
    requires TypedReactions(f)
    ensures r.None? <==> !HasPost(f, postId)
    ensures r.Some? ==> r.value.post in f.posts && r.value.post.id == postId
  {
    match FindPost(f, postId)
    case None => None
    case Some(p) => Some(EnrichPost(f, p, viewer))
  }

  function ReactionTotal(f: Feed, postId: string): nat {
    Seqs.Count(f.reactions, (x: Reaction) => x.postId == postId)
  }

  function NewestFirst(a: Post, b: Post): bool {
    a.createdAt >= b.createdAt
  }

  /** A score, highest first, ties newest first. */
  function ByScore(score: Post -> int): (Post, Post) -> bool {
    (a: Post, b: Post) => score(a) > score(b) || (score(a) == score(b) && a.createdAt >= b.createdAt)
  }

  lemma RanksTotal(score: Post -> int)
    ensures Seqs.TotalPreorder(NewestFirst)
    ensures Seqs.TotalPreorder(ByScore(score))
  {
  }

  /** The posts a feed page shows and the order they rank in: "top" by
      reactions, "discussed" by comments, otherwise newest first, with
      `before` (the empty cursor being `None`) keeping only older posts in
      that last case. */
  function FeedOrder(f: Feed, sort: string): (Post, Post) -> bool {
    if sort == "top" then ByScore((p: Post) => ReactionTotal(f, p.id))
    else if sort == "discussed" then ByScore((p: Post) => CommentCount(f, p.id))
    else NewestFirst
  }

  function FeedCandidates(f: Feed, before: Option<int>, sort: string): (r: seq<Post>)
    ensures forall p :: p in r <==>
      p in f.posts && p.visibility == Public &&
      (sort !in {"top", "discussed"} && before.Some? ==> p.createdAt < before.value)
  {
    var public := Seqs.Filter(f.posts, (p: Post) => p.visibility == Public);
    if sort in {"top", "discussed"} || before.None? then public
    else Seqs.Filter(public, (p: Post) => p.createdAt < before.value)
  }

  /** The rows of `get_feed`: public posts only, best first in the chosen
      order, at most `limit` of them (no limit when negative), and no
      post left out that ranks above one shown. */
  function FeedRows(f: Feed, limit: int, before: Option<int>, sort: string): (r: seq<Post>)
    ensures forall p :: p in r ==> p in f.posts && p.visibility == Public
    ensures sort !in {"top", "discussed"} && before.Some? ==> forall p :: p in r ==> p.createdAt < before.value
    ensures Seqs.Sorted(r, FeedOrder(f, sort))
    ensures limit < 0 ==> multiset(r) == multiset(FeedCandidates(f, before, sort))
    ensures limit >= 0 ==> |r| == if limit < |FeedCandidates(f, before, sort)| then limit else |FeedCandidates(f, before, sort)|
    ensures forall p, i :: p in FeedCandidates(f, before, sort) && p !in r && 0 <= i < |r| ==>
      FeedOrder(f, sort)(r[i], p)
  {
    RanksTotal((p: Post) => ReactionTotal(f, p.id));
    RanksTotal((p: Post) => CommentCount(f, p.id));
    var cands := FeedCandidates(f, before, sort);
    var r := Seqs.TopBy(cands, FeedOrder(f, sort), limit);
    forall p | p in r ensures p in cands {
      assert p in multiset(r);
    }
    r
  }

  /** `get_feed`: the rows, each enriched for the viewer. */
  function GetFeed(f: Feed, viewer: string, limit: int, before: Option<int>, sort: string): (r: seq<PostView>)
    requires TypedReactions(f)
    ensures |r| == |FeedRows(f, limit, before, sort)|
    ensures forall i :: 0 <= i < |r| ==> r[i].post == FeedRows(f, limit, before, sort)[i]
    ensures forall i :: 0 <= i < |r| ==> r[i].post.visibility == Public
  {
    EnrichAll(f, FeedRows(f, limit, before, sort), viewer)
  }

  /** Each row enriched for the viewer, in the rows' order. */
  function EnrichAll(f: Feed, rows: seq<Post>, viewer: string): (r: seq<PostView>)
    requires TypedReactions(f)
    ensures |r| == |rows| && forall i :: 0 <= i < |r| ==> r[i].post == rows[i]
  {
    seq(|rows|, i requires 0 <= i < |rows| => EnrichPost(f, rows[i], viewer))
  }

  function ByAuthor(author: string): Post -> bool {
    (p: Post) => p.authorHandle == author
  }

  /** The rows of `get_user_posts`: the author's posts newest first,
      private ones included, at most `limit` of them (no limit when
      negative), and none left out that is newer than one shown. */
  function UserRows(f: Feed, author: string, limit: int): (r: seq<Post>)
    ensures forall p :: p in r ==> p in f.posts && p.authorHandle == author
    ensures Seqs.Sorted(r, NewestFirst)
    ensures limit < 0 ==> |r| == Seqs.Count(f.posts, ByAuthor(author))
    ensures limit < 0 ==> multiset(r) == multiset(Seqs.Filter(f.posts, ByAuthor(author)))
    ensures limit >= 0 ==> |r| == if limit < Seqs.Count(f.posts, ByAuthor(author)) then limit
                                  else Seqs.Count(f.posts, ByAuthor(author))
    ensures forall p, i :: p in f.posts && p.authorHandle == author && p !in r && 0 <= i < |r| ==>
      r[i].createdAt >= p.createdAt
  {
    RanksTotal((p: Post) => 0);
    var mine := Seqs.Filter(f.posts, ByAuthor(author));
    Seqs.FilterCount(f.posts, ByAuthor(author));
    var rows := Seqs.TopBy(mine, NewestFirst, limit);
    UserRowsFacts(mine, rows, limit);
    rows
  }

  lemma UserRowsFacts(mine: seq<Post>, rows: seq<Post>, limit: int)
    requires multiset(rows) <= multiset(mine)
    requires limit < 0 ==> multiset(rows) == multiset(mine)
    ensures forall p :: p in rows ==> p in mine
    ensures limit < 0 ==> |rows| == |mine|
  {
    assert forall p :: p in rows ==> p in multiset(rows);
    if limit < 0 {
      assert |rows| == |multiset(rows)| == |multiset(mine)| == |mine|;
    }
  }

  /** `get_user_posts`: the rows, each enriched for the viewer. */
  function GetUserPosts(f: Feed, author: string, viewer: string, limit: int): (r: seq<PostView>)
    requires TypedReactions(f)
    ensures |r| == |UserRows(f, author, limit)|
    ensures forall i :: 0 <= i < |r| ==> r[i].post == UserRows(f, author, limit)[i] && r[i].post.authorHandle == author
  {
    var rows := UserRows(f, author, limit);
    AllByAuthor(rows, author);
    EnrichAll(f, rows, viewer)
  }

  lemma AllByAuthor(rows: seq<Post>, author: string)
    requires forall p :: p in rows ==> p.authorHandle == author
    ensures forall i :: 0 <= i < |rows| ==> rows[i].authorHandle == author
  {
    forall i | 0 <= i < |rows| ensures rows[i].authorHandle == author {
      assert rows[i] in rows;
    }
  }
}

=== FILE: grocery.dfy ===
/** The grocery merchant's tools (external_agents/freshbite_grocery/tools.py)
    over a catalog held in memory. Prices are integer cents; the bulk
    discount from the policy file is a parameter in whole percent. */
module Grocery {
  import opened Wrappers
  import opened Text
  import opened Negotiation
  import Seqs

  const DefaultBulkDiscount: int := 15

  /** The text a query word is looked for in. */
  function SearchText(item: Item): string {
    Lower(item.name + " " + item.description + " " + item.category)
  }

  /** The three filters of `search_catalog`: some query word in the item's
      text when there is a query, the category equal ignoring case when
      one is given, and the price at most `maxPrice` when that is
      positive. */
  predicate Keep(item: Item, query: string, category: string, maxPrice: int) {
    && (query == "" || AnyWordIn(Words(Lower(query)), SearchText(item)))
    && (category == "" || Lower(item.category) == Lower(category))
    && (maxPrice <= 0 || item.price <= maxPrice)
  }

  datatype SearchOutcome = NoProducts | Found(items: seq<Item>)

  /** `search_catalog`: the items that pass the filters, in catalog order,
      or the "No products found" answer when none does. */
  function SearchCatalog(catalog: seq<Item>, query: string, category: string, maxPrice: int): (r: SearchOutcome)
    ensures r.NoProducts? <==> forall i :: 0 <= i < |catalog| ==> !Keep(catalog[i], query, category, maxPrice)
    ensures r.Found? ==> |r.items| > 0 && forall x :: x in r.items <==> x in catalog && Keep(x, query, category, maxPrice)
    ensures r.Found? ==> Seqs.SubseqOf(r.items, catalog)
  {
    var kept := Seqs.Filter(catalog, (x: Item) => Keep(x, query, category, maxPrice));
    Seqs.FilterIsSubseq(catalog, (x: Item) => Keep(x, query, category, maxPrice));
    if |kept| == 0 then
      assert forall i :: 0 <= i < |catalog| ==> catalog[i] !in kept;
      NoProducts
    else
      Found(kept)
  }

  /** A query of spaces alone has no words, so nothing matches it. */
  lemma BlankQueryFindsNothing(catalog: seq<Item>, query: string, category: string, maxPrice: int)
    requires query != "" && forall i :: 0 <= i < |query| ==> query[i] in Whitespace
    ensures SearchCatalog(catalog, query, category, maxPrice) == NoProducts
  {
    forall i | 0 <= i < |query| ensures Lower(query)[i] in Whitespace {
      LowerCharSpace(query[i]);
    }
    WordsShape(Lower(query));
  }

  /** With no query, category or price cap every item is listed. */
  lemma NoFilterListsAll(catalog: seq<Item>)
    requires |catalog| > 0
    ensures SearchCatalog(catalog, "", "", 0) == Found(catalog)
  {
    var p := (x: Item) => Keep(x, "", "", 0);
    assert forall i :: 0 <= i < |catalog| ==> p(catalog[i]);
    FilterAll(catalog, p);
  }

  lemma {:induction false} FilterAll<T(!new)>(xs: seq<T>, p: T -> bool)
    requires forall i :: 0 <= i < |xs| ==> p(xs[i])
    ensures Seqs.Filter(xs, p) == xs
    decreases |xs|
  {
    if |xs| > 0 {
      FilterAll(xs[1..], p);
    }
  }

  /** The first item whose id equals `id` ignoring case. */
  function FindItem(catalog: seq<Item>, id: string): (r: Option<Item>)
    ensures r.None? <==> forall i :: 0 <= i < |catalog| ==> Upper(catalog[i].id) != Upper(id)
    ensures r.Some? ==> r.value in catalog && Upper(r.value.id) == Upper(id)
  {
    match Seqs.FirstIndex(catalog, (x: Item) => Upper(x.id) == Upper(id))
    case None => None
    case Some(k) => Some(catalog[k])
  }

  lemma UpperOfLower(s: string)
    ensures Upper(Lower(s)) == Upper(s)
  {
  }

  /** An id is looked up the same in any case. */
  lemma FindIgnoresCase(catalog: seq<Item>, id: string)
    ensures FindItem(catalog, Lower(id)) == FindItem(catalog, id)
  {
    UpperOfLower(id);
  }

  datatype Inventory = NotInCatalog | InStock(name: string) | OutOfStock(name: string)

  /** `check_inventory` */
  function CheckInventory(catalog: seq<Item>, id: string): (r: Inventory)
    ensures r.NotInCatalog? <==> FindItem(catalog, id).None?
    ensures r.InStock? ==> exists x :: x in catalog && Upper(x.id) == Upper(id) && x.inStock && x.name == r.name
    ensures r.OutOfStock? ==> exists x :: x in catalog && Upper(x.id) == Upper(id) && !x.inStock && x.name == r.name
  {
    match FindItem(catalog, id)
    case None => NotInCatalog
    case Some(x) => if x.inStock then InStock(x.name) else OutOfStock(x.name)
  }

  /** `round(x / 100, 2)` of a price in hundredths of a cent, a half going up. */
  function RoundCents(x: int): (r: int)
    ensures -50 < 100 * r - x <= 50
  {
    (x + 50) / 100
  }

  /** The bulk unit price: the list price less the discount, rounded to
      the cent, never under the floor. */
  function BulkUnit(item: Item, discountPct: int): (r: int)
    ensures r >= item.minPrice
    ensures 0 <= discountPct && 0 <= item.price && item.minPrice <= item.price ==> r <= item.price
    ensures r == item.minPrice || -50 < 100 * r - item.price * (100 - discountPct) <= 50
    ensures r >= RoundCents(item.price * (100 - discountPct))
    ensures r == item.minPrice || r == RoundCents(item.price * (100 - discountPct))
  {
    var discounted := RoundCents(item.price * (100 - discountPct));
    assert item.price * (100 - discountPct) == 100 * item.price - item.price * discountPct;
    assert 0 <= discountPct && 0 <= item.price ==> item.price * discountPct >= 0;
    if discounted > item.minPrice then discounted else item.minPrice
  }

  datatype Quote = Quote(name: string, unitPrice: int, quantity: int, total: int)

  /** `quote_price`: the list price for one unit, the bulk unit price from
      two units on; the total is unit price times quantity. `discountPct`
      is the policy's percentage, 15 when the policy has none. */
  function QuotePrice(catalog: seq<Item>, id: string, quantity: int, discountPct: Option<int>): (r: Option<Quote>)
    ensures r.None? <==> FindItem(catalog, id).None?
    ensures r.Some? ==>
      var item := FindItem(catalog, id).value;
      && r.value.name == item.name && r.value.quantity == quantity
      && r.value.total == r.value.unitPrice * quantity
      && (quantity < 2 ==> r.value.unitPrice == item.price)
      && (quantity >= 2 ==> r.value.unitPrice >= item.minPrice)
      && (quantity >= 2 ==> r.value.unitPrice == BulkUnit(item, discountPct.GetOr(DefaultBulkDiscount)))
      && (quantity >= 2 && discountPct.GetOr(DefaultBulkDiscount) >= 0 && 0 <= item.minPrice <= item.price
          ==> r.value.unitPrice <= item.price)
  {
    match FindItem(catalog, id)
    case None => None
    case Some(item) =>
      var unit := if quantity >= 2 then BulkUnit(item, discountPct.GetOr(DefaultBulkDiscount)) else item.price;
      Some(Quote(item.name, unit, quantity, unit * quantity))
  }

  /** A bulk order never costs more per unit than a single one. */
  lemma BulkNeverDearer(catalog: seq<Item>, id: string, quantity: int, discountPct: Option<int>)
    requires quantity >= 2 && discountPct.GetOr(DefaultBulkDiscount) >= 0
    requires FindItem(catalog, id).Some?
    requires 0 <= FindItem(catalog, id).value.minPrice <= FindItem(catalog, id).value.price
    ensures QuotePrice(catalog, id, quantity, discountPct).value.unitPrice <=
            QuotePrice(catalog, id, 1, discountPct).value.unitPrice
  {
  }

  datatype PolicyAnswer = NoSuchProduct | AcceptAt(price: int) | CounterAt(price: int) | Refuse

  /** `check_negotiation_policy`: the evaluation of the offer against the
      item, as the ACCEPT, COUNTER or REJECT answer. */
  function CheckPolicy(catalog: seq<Item>, id: string, offer: int): (r: PolicyAnswer)
    ensures r.NoSuchProduct? <==> FindItem(catalog, id).None?
    ensures FindItem(catalog, id).Some? ==>
      var d := EvaluateOffer(FindItem(catalog, id).value, offer);
      && (r.AcceptAt? <==> d.Accept?)
      && (r.CounterAt? <==> d.Counter?)
      && (r.Refuse? <==> d.Reject?)
      && (r.AcceptAt? || r.CounterAt? ==> r.price == PriceOf(d).value)
  {
    match FindItem(catalog, id)
    case None => NoSuchProduct
    case Some(item) =>
      match EvaluateOffer(item, offer)
      case Accept(p) => AcceptAt(p)
      case Counter(p) => CounterAt(p)
      case _ => Refuse
  }

  /** The REJECT answer is never given: an evaluation always accepts or
      counters. */
  lemma NeverRefused(catalog: seq<Item>, id: string, offer: int)
    ensures !CheckPolicy(catalog, id, offer).Refuse?
  {
  }

  /** The answer's leading word. */
  function Verdict(a: PolicyAnswer): string {
    match a
    case NoSuchProduct => ""
    case AcceptAt(_) => "ACCEPT"
    case CounterAt(_) => "COUNTER"
    case Refuse => "REJECT"
  }
}

=== FILE: history.dfy ===
/** The JSON-file history store (common/history.py): a personal agent's
    memory of past interactions, held in file order. Reading and writing
    the file is left out; the store is its list of entries. `dumps` is
    the JSON encoding of an entry's details. */
module History {
  import opened Text
  import Seqs

  datatype HistoryEntry = HistoryEntry(
    timestamp: string,
    kind: string,
    summary: string,
    details: map<string, string>,
    contactsInvolved: seq<string>,
    sentiment: string,
    visibility: string)

  datatype Store = Store(entries: seq<HistoryEntry>)

  /** The text a keyword is looked for in: the summary and the details'
      JSON, lower-cased. */
  function SearchText(e: HistoryEntry, dumps: map<string, string> -> string): string {
    Lower(e.summary + " " + dumps(e.details))
  }

  /** The keywords of a query: its lower-cased whitespace-separated words. */
  function Keywords(query: string): seq<string> {
    Words(Lower(query))
  }

  /** An entry matches when some keyword occurs in its text. */
  predicate Matches(e: HistoryEntry, query: string, dumps: map<string, string> -> string) {
    AnyWordIn(Keywords(query), SearchText(e, dumps))
  }

  function Hits(query: string, dumps: map<string, string> -> string): HistoryEntry -> bool {
    (e: HistoryEntry) => Matches(e, query, dumps)
  }

  /** `search`: the entries some keyword of `query` occurs in, in their
      stored order. */
  function Search(entries: seq<HistoryEntry>, query: string, dumps: map<string, string> -> string)
    : (r: seq<HistoryEntry>)
    ensures forall e :: e in r <==>
      e in entries && exists k :: 0 <= k < |Keywords(query)| && Contains(SearchText(e, dumps), Keywords(query)[k])
    ensures Seqs.SubseqOf(r, entries)
  {
    var r := Seqs.Filter(entries, Hits(query, dumps));
    Seqs.FilterIsSubseq(entries, Hits(query, dumps));
    forall e ensures Matches(e, query, dumps) <==>
      exists k :: 0 <= k < |Keywords(query)| && Contains(SearchText(e, dumps), Keywords(query)[k]) {
      AnyWordInIff(Keywords(query), SearchText(e, dumps));
    }
    r
  }

  /** A query of whitespace alone, the empty one included, has no
      keywords and finds nothing. */
  lemma BlankQueryFindsNothing(entries: seq<HistoryEntry>, query: string, dumps: map<string, string> -> string)
    requires forall i :: 0 <= i < |query| ==> query[i] in Whitespace
    ensures Search(entries, query, dumps) == []
  {
    forall i | 0 <= i < |query| ensures Lower(query)[i] in Whitespace {
      LowerCharSpace(query[i]);
    }
    WordsShape(Lower(query));
  }

  /** `all`: a copy of the entries. */
  function All(s: Store): (r: seq<HistoryEntry>)
    ensures |r| == |s.entries| && forall i :: 0 <= i < |r| ==> r[i] == s.entries[i]
  {
    s.entries[..]
  }

  /** `add`: the entry appended at the end. */
  function Add(s: Store, e: HistoryEntry): (r: Store)
    ensures |r.entries| == |s.entries| + 1 && r.entries[|s.entries|] == e
    ensures r.entries[..|s.entries|] == s.entries
  {
    Store(s.entries + [e])
  }

  /** After an add, a search finds what it found before and the new entry
      after them when it matches. */
  lemma SearchAfterAdd(s: Store, e: HistoryEntry, query: string, dumps: map<string, string> -> string)
    ensures Search(All(Add(s, e)), query, dumps) ==
      Search(All(s), query, dumps) + (if Matches(e, query, dumps) then [e] else [])
  {
    assert All(Add(s, e)) == s.entries + [e];
    assert All(s) == s.entries;
    Seqs.FilterAppend(s.entries, [e], Hits(query, dumps));
    assert [e][1..] == [];
  }
}

=== FILE: inbox.dfy ===
/** The conversation ledger (`InboxStore`, app/services/inbox.py).

    Every message is stored once per reader: the row's `recipientId` is the
    user whose inbox shows it, and an exchange between two users leaves an
    outbound copy for the sender and an inbound copy for the target. The
    tables are sequences in insertion (row id) order; `createdAt` comes
    from a clock that callers pass as `now`. */
module Inbox {
  import opened Wrappers
  import opened Text
  import opened Seqs
  import EventSerializer

  datatype MessageStatus = Unread | Read | Processed | Stopped
  datatype SenderType = Friend | Merchant | System
  datatype Direction = Inbound | Outbound
  datatype ThreadStatus = ThreadActive | ThreadStopped

  datatype Message = Message(
    id: nat,
    conversationId: string,
    recipientId: string,
    senderName: string,
    senderType: SenderType,
    direction: Direction,
    message: string,
    status: MessageStatus,
    processingLog: seq<EventSerializer.Payload>,
    createdAt: int,
    processedAt: Option<int>)

  datatype Conversation = Conversation(
    id: string,
    participantA: string,
    participantB: string,
    status: ThreadStatus,
    autoRespond: bool,
    lastMessageAt: int,
    createdAt: int)

  datatype Ledger = Ledger(rows: seq<Message>, conversations: seq<Conversation>, nextId: nat)

  const Empty: Ledger := Ledger([], [], 1)

  /** Row ids are allocated in increasing order below `nextId`, and
      conversation ids are a primary key. */
  ghost predicate Valid(l: Ledger) {
    && (forall i, j :: 0 <= i < j < |l.rows| ==> l.rows[i].id < l.rows[j].id)
    && (forall i :: 0 <= i < |l.rows| ==> l.rows[i].id < l.nextId)
    && (forall i, j :: 0 <= i < j < |l.conversations| ==> l.conversations[i].id != l.conversations[j].id)
  }

  lemma EmptyValid()
    ensures Valid(Empty)
  {
  }

  // ─── Conversations ───────────────────────────────────────────

  function FindConversation(cs: seq<Conversation>, id: string): (r: Option<Conversation>)
    ensures r.Some? ==> r.value in cs && r.value.id == id
    ensures r.None? <==> forall i :: 0 <= i < |cs| ==> cs[i].id != id
    decreases |cs|
  {
    if |cs| == 0 then None
    else if cs[0].id == id then Some(cs[0])
    else FindConversation(cs[1..], id)
  }

  /** A conversation is known when some record carries its id. */
  predicate HasConversation(l: Ledger, id: string) {
    FindConversation(l.conversations, id).Some?
  }

  /** `ensure_conversation`: `INSERT OR IGNORE` of an active thread with
      auto-respond off. */
  function EnsureConversation(l: Ledger, id: string, a: string, b: string, now: int): (r: Ledger)
    ensures r.rows == l.rows && r.nextId == l.nextId
    ensures HasConversation(r, id)
    ensures HasConversation(l, id) ==> r == l
    ensures !HasConversation(l, id) ==>
      r.conversations == l.conversations + [Conversation(id, a, b, ThreadActive, false, now, now)]
    ensures Valid(l) ==> Valid(r)
  {
    if HasConversation(l, id) then l
    else
      var c := Conversation(id, a, b, ThreadActive, false, now, now);
      assert FindConversation(l.conversations + [c], id).Some? by {
        var cs := l.conversations + [c];
        assert cs[|cs| - 1].id == id;
      }
      l.(conversations := l.conversations + [c])
  }

  /** A second `ensure_conversation` with the same id changes nothing, not
      even the status or auto-respond flag set in between. */
  lemma EnsureIdempotent(l: Ledger, id: string, a: string, b: string, a': string, b': string, now: int, now': int)
    ensures var l1 := EnsureConversation(l, id, a, b, now);
            EnsureConversation(l1, id, a', b', now') == l1
  {
  }

  /** `is_conversation_stopped`: false for an unknown id. */
  function IsConversationStopped(l: Ledger, id: string): (r: bool)
    ensures r ==> HasConversation(l, id)
    ensures r ==> exists i :: 0 <= i < |l.conversations| && l.conversations[i].id == id && l.conversations[i].status == ThreadStopped
    ensures (forall i :: 0 <= i < |l.conversations| && l.conversations[i].id == id ==> l.conversations[i].status == ThreadStopped)
            ==> (r <==> HasConversation(l, id))
  {
    var c := FindConversation(l.conversations, id);
    if c.Some? then
      assert c.value in l.conversations;
      c.value.status == ThreadStopped
    else false
  }

  /** The conversation table with `f` applied to the record(s) whose id is
      `id` (SQL `UPDATE ... WHERE id = ?`). */
  function UpdateConversation(cs: seq<Conversation>, id: string, f: Conversation -> Conversation): (r: seq<Conversation>)
    ensures |r| == |cs|
    ensures forall i :: 0 <= i < |cs| ==> r[i] == if cs[i].id == id then f(cs[i]) else cs[i]
  {
    seq(|cs|, i requires 0 <= i < |cs| => if cs[i].id == id then f(cs[i]) else cs[i])
  }

  /** The rows with `f` applied to those satisfying `p` (SQL `UPDATE ...
      WHERE`). */
  function UpdateRows(rows: seq<Message>, p: Message -> bool, f: Message -> Message): (r: seq<Message>)
    ensures |r| == |rows|
    ensures forall i :: 0 <= i < |rows| ==> r[i] == if p(rows[i]) then f(rows[i]) else rows[i]
  {
    seq(|rows|, i requires 0 <= i < |rows| => if p(rows[i]) then f(rows[i]) else rows[i])
  }

  /** Looking a conversation up after updating it finds the updated record,
      for any update that keeps the id. */
  lemma {:induction false} FindUpdated(cs: seq<Conversation>, id: string, f: Conversation -> Conversation)
    requires forall c :: f(c).id == c.id
    ensures FindConversation(UpdateConversation(cs, id, f), id) ==
      if FindConversation(cs, id).Some? then Some(f(FindConversation(cs, id).value)) else None
    decreases |cs|
  {
    if |cs| > 0 {
      var u := UpdateConversation(cs, id, f);
      assert u[1..] == UpdateConversation(cs[1..], id, f);
      FindUpdated(cs[1..], id, f);
    }
  }

  /** `stop_conversation`: the thread is marked stopped and every unread row
      of it, whoever the recipient, becomes stopped. */
  function StopConversation(l: Ledger, id: string): (r: Ledger)
    ensures r.nextId == l.nextId && |r.rows| == |l.rows|
    ensures forall i :: 0 <= i < |l.rows| ==>
      r.rows[i] == if l.rows[i].conversationId == id && l.rows[i].status == Unread
                   then l.rows[i].(status := Stopped) else l.rows[i]
    ensures forall i :: 0 <= i < |r.rows| && r.rows[i].conversationId == id ==> r.rows[i].status != Unread
    ensures HasConversation(l, id) ==> IsConversationStopped(r, id)
    ensures |r.conversations| == |l.conversations|
    ensures forall i :: 0 <= i < |l.conversations| && l.conversations[i].id != id ==> r.conversations[i] == l.conversations[i]
    ensures Valid(l) ==> Valid(r)
  {
    var cs := UpdateConversation(l.conversations, id, (c: Conversation) => c.(status := ThreadStopped));
    var rows := UpdateRows(l.rows, (m: Message) => m.conversationId == id && m.status == Unread, (m: Message) => m.(status := Stopped));
    FindUpdated(l.conversations, id, (c: Conversation) => c.(status := ThreadStopped));
    Ledger(rows, cs, l.nextId)
  }

  /** `resume_conversation`: only the thread status changes; rows already
      stopped stay stopped. */
  function ResumeConversation(l: Ledger, id: string): (r: Ledger)
    ensures r.rows == l.rows && r.nextId == l.nextId
    ensures !IsConversationStopped(r, id)
    ensures |r.conversations| == |l.conversations|
    ensures forall i :: 0 <= i < |l.conversations| ==>
      r.conversations[i] == if l.conversations[i].id == id then l.conversations[i].(status := ThreadActive) else l.conversations[i]
    ensures Valid(l) ==> Valid(r)
  {
    FindUpdated(l.conversations, id, (c: Conversation) => c.(status := ThreadActive));
    Ledger(l.rows, UpdateConversation(l.conversations, id, (c: Conversation) => c.(status := ThreadActive)), l.nextId)
  }

  /** `set_auto_respond` */
  function SetAutoRespond(l: Ledger, id: string, enabled: bool): (r: Ledger)
    ensures r.rows == l.rows && r.nextId == l.nextId
    ensures HasConversation(l, id) ==> IsAutoRespond(r, id) == enabled
    ensures !HasConversation(l, id) ==> r.conversations == l.conversations
    ensures |r.conversations| == |l.conversations|
    ensures forall i :: 0 <= i < |l.conversations| ==>
      r.conversations[i] == if l.conversations[i].id == id then l.conversations[i].(autoRespond := enabled) else l.conversations[i]
    ensures Valid(l) ==> Valid(r)
  {
    var cs := UpdateConversation(l.conversations, id, (c: Conversation) => c.(autoRespond := enabled));
    FindUpdated(l.conversations, id, (c: Conversation) => c.(autoRespond := enabled));
    Ledger(l.rows, cs, l.nextId)
  }

  /** `is_auto_respond`: false for an unknown id. */
  function IsAutoRespond(l: Ledger, id: string): (r: bool)
    ensures r ==> HasConversation(l, id)
    ensures HasConversation(l, id) ==> r == FindConversation(l.conversations, id).value.autoRespond
  {
    var c := FindConversation(l.conversations, id);
    c.Some? && c.value.autoRespond
  }

  /** `delete_conversation`: the thread and every row of it disappear. */
  function DeleteConversation(l: Ledger, id: string): (r: Ledger)
    ensures !HasConversation(r, id)
    ensures forall m :: m in r.rows <==> m in l.rows && m.conversationId != id
    ensures forall c :: c in r.conversations <==> c in l.conversations && c.id != id
    ensures r.nextId == l.nextId
    ensures Valid(l) ==> Valid(r)
  {
    var r := Ledger(Filter(l.rows, (m: Message) => m.conversationId != id), Filter(l.conversations, (c: Conversation) => c.id != id), l.nextId);
    FilterValid(l, (m: Message) => m.conversationId != id, (c: Conversation) => c.id != id);
    r
  }

  /** Dropping rows and threads keeps the ledger invariant: filtering keeps
      ids increasing and distinct. */
  lemma FilterValid(l: Ledger, p: Message -> bool, q: Conversation -> bool)
    ensures Valid(l) ==> Valid(Ledger(Filter(l.rows, p), Filter(l.conversations, q), l.nextId))
  {
    if !Valid(l) { return; }
    var rows, cs := Filter(l.rows, p), Filter(l.conversations, q);
    var before := (a: Message, b: Message) => a.id < b.id;
    var apart := (a: Conversation, b: Conversation) => a.id != b.id;
    assert Sorted(l.rows, before);
    assert Sorted(l.conversations, apart);
    FilterSorted(l.rows, p, before);
    FilterSorted(l.conversations, q, apart);
    forall i | 0 <= i < |rows| ensures rows[i].id < l.nextId {
      assert rows[i] in l.rows;
    }
  }

  predicate Involves(c: Conversation, user: string) {
    c.participantA == user || c.participantB == user
  }

  predicate InSet(ids: set<string>, m: Message) {
    m.conversationId in ids
  }

  /** `delete_all_conversations`: removes every thread the user takes part
      in with all its rows, and returns how many threads went. */
  function DeleteAllConversations(l: Ledger, user: string): (r: (Ledger, nat))
    requires Valid(l)
    ensures forall c :: c in r.0.conversations <==> c in l.conversations && !Involves(c, user)
    ensures forall m :: m in r.0.rows ==> m in l.rows
    ensures forall m :: m in l.rows && (forall c :: c in l.conversations && Involves(c, user) ==> c.id != m.conversationId) ==> m in r.0.rows
    ensures forall m :: m in r.0.rows ==> forall c :: c in l.conversations && Involves(c, user) ==> c.id != m.conversationId
    ensures r.1 == Count(l.conversations, (c: Conversation) => Involves(c, user))
    ensures r.0.nextId == l.nextId
    ensures Valid(r.0)
  {
    var ids := GoneIds(l.conversations, user);
    FilterValid(l, (m: Message) => !InSet(ids, m), (c: Conversation) => !Involves(c, user));
    var rows := Filter(l.rows, (m: Message) => !InSet(ids, m));
    var cs := Filter(l.conversations, (c: Conversation) => !Involves(c, user));
    FilterCount(l.conversations, (c: Conversation) => Involves(c, user));
    (Ledger(rows, cs, l.nextId), |Filter(l.conversations, (c: Conversation) => Involves(c, user))|)
  }

  /** The ids of the threads `user` takes part in. */
  function GoneIds(cs: seq<Conversation>, user: string): (r: set<string>)
    ensures forall c :: c in cs && Involves(c, user) ==> c.id in r
    ensures forall x :: x in r ==> exists c :: c in cs && Involves(c, user) && c.id == x
  {
    set c | c in cs && Involves(c, user) :: c.id
  }

  // ─── Message delivery ────────────────────────────────────────

  /** `_normalize_sender_type`: case and surrounding space are ignored;
      the callers' "personal" family becomes friend, the three stored types
      are kept, and anything else is system. */
  function NormalizeSenderType(raw: string): (r: SenderType)
    ensures Lower(Strip(raw)) in {"personal", "user", "human", "contact", "friend"} <==> r == Friend
    ensures Lower(Strip(raw)) == "merchant" <==> r == Merchant
  {
    var n := Lower(Strip(raw));
    if n in {"personal", "user", "human", "contact"} then Friend
    else if n == "friend" then Friend
    else if n == "merchant" then Merchant
    else System
  }

  /** The stored spelling of a sender type. */
  function SenderTypeName(t: SenderType): string {
    match t
    case Friend => "friend"
    case Merchant => "merchant"
    case System => "system"
  }

  /** Normalising a stored spelling gives the type back. */
  lemma NormalizeRoundTrip(t: SenderType)
    ensures NormalizeSenderType(SenderTypeName(t)) == t
  {
    var w := SenderTypeName(t);
    PlainWord(w);
    assert w[0] in {'f', 'm', 's'} && w[1] in {'r', 'e', 'y'};
    assert w !in {"personal", "user", "human", "contact"};
  }

  /** A stored spelling is its own stripped lower-case form. */
  lemma PlainWord(w: string)
    requires w in {"friend", "merchant", "system"}
    ensures Lower(Strip(w)) == w
  {
    assert forall i :: 0 <= i < |w| ==> IsLowerLetter(w[i]);
    LowerWord(w);
  }

  /** Normalisation ignores case and surrounding whitespace. */
  lemma NormalizeInsensitive(raw: string)
    ensures NormalizeSenderType(Lower(Strip(raw))) == NormalizeSenderType(raw)
  {
    StripLowerStable(raw);
  }

  /** `deliver`: appends exactly one unread row and returns it. The
      conversation's `lastMessageAt` is bumped only for a non-empty
      conversation id. */
  function Deliver(l: Ledger, recipientId: string, senderName: string, senderType: string,
                   message: string, conversationId: string, direction: Direction, now: int): (r: (Ledger, Message))
    ensures r.0.rows == l.rows + [r.1]
    ensures r.1.id == l.nextId && r.0.nextId == l.nextId + 1
    ensures r.1.recipientId == recipientId && r.1.senderName == senderName
    ensures r.1.conversationId == conversationId && r.1.direction == direction
    ensures r.1.message == message && r.1.createdAt == now
    ensures r.1.senderType == NormalizeSenderType(senderType)
    ensures r.1.status == Unread && r.1.processingLog == [] && r.1.processedAt.None?
    ensures conversationId == "" ==> r.0.conversations == l.conversations
    ensures |r.0.conversations| == |l.conversations|
    ensures forall i :: 0 <= i < |l.conversations| ==>
      r.0.conversations[i] == if conversationId != "" && l.conversations[i].id == conversationId
                              then l.conversations[i].(lastMessageAt := now) else l.conversations[i]
    ensures Valid(l) ==> Valid(r.0)
  {
    DeliverAs(l, recipientId, senderName, NormalizeSenderType(senderType), message, conversationId, direction, now)
  }

  /** `deliver` once the sender type is normalised: callers that pass a
      fixed spelling such as "friend" deliver with its normalised type. */
  function DeliverAs(l: Ledger, recipientId: string, senderName: string, t: SenderType,
                     message: string, conversationId: string, direction: Direction, now: int): (r: (Ledger, Message))
    ensures r.0.rows == l.rows + [r.1]
    ensures r.1 == Message(l.nextId, conversationId, recipientId, senderName, t, direction, message, Unread, [], now, None)
    ensures r.0.nextId == l.nextId + 1
    ensures conversationId == "" ==> r.0.conversations == l.conversations
    ensures |r.0.conversations| == |l.conversations|
    ensures forall i :: 0 <= i < |l.conversations| ==>
      r.0.conversations[i] == if conversationId != "" && l.conversations[i].id == conversationId
                              then l.conversations[i].(lastMessageAt := now) else l.conversations[i]
    ensures Valid(l) ==> Valid(r.0)
  {
    var row := Message(l.nextId, conversationId, recipientId, senderName, t, direction, message, Unread, [], now, None);
    var cs := if conversationId != "" then UpdateConversation(l.conversations, conversationId, (c: Conversation) => c.(lastMessageAt := now))
              else l.conversations;
    (Ledger(l.rows + [row], cs, l.nextId + 1), row)
  }

  /** Same ids, statuses and auto-respond flags, record by record. */
  predicate SameFlags(cs: seq<Conversation>, cs': seq<Conversation>) {
    |cs| == |cs'| &&
    forall i :: 0 <= i < |cs| ==>
      cs[i].id == cs'[i].id && cs[i].status == cs'[i].status && cs[i].autoRespond == cs'[i].autoRespond
  }

  lemma {:induction false} FindSameFlags(cs: seq<Conversation>, cs': seq<Conversation>, id: string)
    requires SameFlags(cs, cs')
    ensures FindConversation(cs, id).Some? == FindConversation(cs', id).Some?
    ensures FindConversation(cs, id).Some? ==>
      FindConversation(cs, id).value.status == FindConversation(cs', id).value.status &&
      FindConversation(cs, id).value.autoRespond == FindConversation(cs', id).value.autoRespond
    decreases |cs|
  {
    if |cs| > 0 && cs[0].id != id {
      FindSameFlags(cs[1..], cs'[1..], id);
    }
  }

  /** A delivery never changes whether a thread exists, is stopped or
      auto-responds. */
  lemma DeliverKeepsFlags(l: Ledger, recipientId: string, senderName: string, t: SenderType,
                          message: string, conversationId: string, direction: Direction, now: int, id: string)
    ensures var l' := DeliverAs(l, recipientId, senderName, t, message, conversationId, direction, now).0;
            HasConversation(l', id) == HasConversation(l, id) &&
            IsConversationStopped(l', id) == IsConversationStopped(l, id) &&
            IsAutoRespond(l', id) == IsAutoRespond(l, id)
  {
    var l' := DeliverAs(l, recipientId, senderName, t, message, conversationId, direction, now).0;
    assert SameFlags(l.conversations, l'.conversations);
    FindSameFlags(l.conversations, l'.conversations, id);
  }

  // ─── Reads ───────────────────────────────────────────────────

  /** A row as shown in a thread view: `is_from_me` is set for outbound rows. */
  datatype MessageView = MessageView(row: Message, isFromMe: bool)

  function View(m: Message): MessageView {
    MessageView(m, m.direction == Outbound)
  }

  function Views(rows: seq<Message>): (r: seq<MessageView>)
    ensures |r| == |rows|
    ensures forall i :: 0 <= i < |rows| ==> r[i].row == rows[i] && (r[i].isFromMe <==> rows[i].direction == Outbound)
    ensures RowsOf(r) == rows
  {
    seq(|rows|, i requires 0 <= i < |rows| => View(rows[i]))
  }

  /** The stored rows behind a list of views. */
  function RowsOf(vs: seq<MessageView>): (r: seq<Message>)
    ensures |r| == |vs| && forall i :: 0 <= i < |vs| ==> r[i] == vs[i].row
  {
    seq(|vs|, i requires 0 <= i < |vs| => vs[i].row)
  }

  /** The filter a thread view applies. */
  function VisibleTo(conv: string, user: string): Message -> bool {
    (m: Message) => VisibleIn(m, conv, user)
  }

  predicate VisibleIn(m: Message, conv: string, user: string) {
    m.conversationId == conv && m.recipientId == user
  }

  /** `get_conversation_messages`: the copies of the thread addressed to
      `user`, oldest first. */
  function GetConversationMessages(l: Ledger, conv: string, user: string): (r: seq<MessageView>)
    ensures forall v :: v in r ==> v.row in l.rows && VisibleIn(v.row, conv, user)
    ensures forall m :: m in l.rows && VisibleIn(m, conv, user) ==> View(m) in r
    ensures forall i :: 0 <= i < |r| ==> (r[i].isFromMe <==> r[i].row.direction == Outbound)
    ensures KeptFrom(RowsOf(r), l.rows, VisibleTo(conv, user))
  {
    var rows := Filter(l.rows, VisibleTo(conv, user));
    FilterKeeps(l.rows, VisibleTo(conv, user));
    ViewsMembers(rows);
    Views(rows)
  }

  lemma ViewsMembers(rows: seq<Message>)
    ensures forall m :: m in rows ==> View(m) in Views(rows)
    ensures forall v :: v in Views(rows) ==> v.row in rows
  {
    var r := Views(rows);
    forall m | m in rows ensures View(m) in r {
      var i :| 0 <= i < |rows| && rows[i] == m;
      assert r[i] == View(m);
    }
  }

  lemma ViewsAppend(a: seq<Message>, b: seq<Message>)
    ensures Views(a + b) == Views(a) + Views(b)
  {
  }

  /** No cross-recipient leakage: delivering a row to anyone else, or into
      another thread, leaves a user's view of a thread unchanged. */
  lemma DeliverElsewhereInvisible(l: Ledger, conv: string, user: string,
                                  recipientId: string, senderName: string, senderType: string,
                                  message: string, conversationId: string, direction: Direction, now: int)
    requires recipientId != user || conversationId != conv
    ensures var (l', _) := Deliver(l, recipientId, senderName, senderType, message, conversationId, direction, now);
            GetConversationMessages(l', conv, user) == GetConversationMessages(l, conv, user)
  {
    var (l', m) := Deliver(l, recipientId, senderName, senderType, message, conversationId, direction, now);
    FilterAppend(l.rows, [m], VisibleTo(conv, user));
  }

  /** The thread view after a delivery to `user` in `conv` gains exactly the
      delivered row, at the end. */
  lemma DeliverVisibleAtEnd(l: Ledger, conv: string, user: string, senderName: string, senderType: string,
                            message: string, direction: Direction, now: int)
    ensures var (l', m) := Deliver(l, user, senderName, senderType, message, conv, direction, now);
            GetConversationMessages(l', conv, user) == GetConversationMessages(l, conv, user) + [View(m)]
  {
    var (l', m) := Deliver(l, user, senderName, senderType, message, conv, direction, now);
    var p := VisibleTo(conv, user);
    assert p(m);
    FilterSnoc(l.rows, m, p);
    ViewsAppend(Filter(l.rows, p), [m]);
    assert Views([m]) == [View(m)];
  }

  predicate UnreadFor(m: Message, recipientId: string) {
    m.recipientId == recipientId && m.status == Unread
  }

  /** One entry of a user's conversation list. */
  datatype ConversationSummary = ConversationSummary(
    conversation: Conversation,
    partner: string,
    unreadCount: nat,
    lastMessage: Option<Message>)

  function Last(rows: seq<Message>): (r: Option<Message>)
    ensures r.None? <==> rows == []
    ensures r.Some? ==> r.value == rows[|rows| - 1]
  {
    if rows == [] then None else Some(rows[|rows| - 1])
  }

  /** `m` is stored at some position and no later row of the thread is
      addressed to `user`. */
  ghost predicate NewestVisible(rows: seq<Message>, m: Message, conv: string, user: string) {
    exists i :: 0 <= i < |rows| && rows[i] == m && forall j :: i < j < |rows| ==> !VisibleIn(rows[j], conv, user)
  }

  /** The other participant, the user's unread rows in the thread, and the
      newest row of the thread addressed to the user. */
  function Summarize(l: Ledger, user: string, c: Conversation): (r: ConversationSummary)
    ensures r.conversation == c
    ensures r.partner == if c.participantA == user then c.participantB else c.participantA
    ensures r.unreadCount == Count(l.rows, UnreadIn(c.id, user))
    ensures r.lastMessage.Some? ==> r.lastMessage.value in l.rows && VisibleIn(r.lastMessage.value, c.id, user)
    ensures r.lastMessage.None? <==> forall m :: m in l.rows ==> !VisibleIn(m, c.id, user)
    ensures r.lastMessage.Some? ==> NewestVisible(l.rows, r.lastMessage.value, c.id, user)
  {
    LastVisible(l.rows, c.id, user);
    ConversationSummary(
      c,
      if c.participantA == user then c.participantB else c.participantA,
      Count(l.rows, UnreadIn(c.id, user)),
      Last(Filter(l.rows, VisibleTo(c.id, user))))
  }

  lemma NewestOfThread(rows: seq<Message>, conv: string, user: string)
    requires Filter(rows, VisibleTo(conv, user)) != []
    ensures var visible := Filter(rows, VisibleTo(conv, user));
            var last := visible[|visible| - 1];
            last in rows && VisibleIn(last, conv, user) && NewestVisible(rows, last, conv, user)
  {
    var p := VisibleTo(conv, user);
    var visible := Filter(rows, p);
    var last := visible[|visible| - 1];
    assert last in visible;
    LastOfFilter(rows, p);
    var i :| 0 <= i < |rows| && rows[i] == last && forall j :: i < j < |rows| ==> !p(rows[j]);
    assert forall j :: i < j < |rows| ==> !VisibleIn(rows[j], conv, user);
  }

  lemma NoneVisible(rows: seq<Message>, conv: string, user: string)
    requires Filter(rows, VisibleTo(conv, user)) == []
    ensures forall m :: m in rows ==> !VisibleIn(m, conv, user)
  {
    var p := VisibleTo(conv, user);
    forall m | m in rows ensures !VisibleIn(m, conv, user) {
      assert !p(m);
    }
  }

  /** The unread rows of a thread addressed to `user`. */
  function UnreadIn(conv: string, user: string): Message -> bool {
    (m: Message) => VisibleIn(m, conv, user) && m.status == Unread
  }

  /** The last row of a thread view is the newest row the user can see. */
  lemma LastVisible(rows: seq<Message>, conv: string, user: string)
    ensures var r := Last(Filter(rows, VisibleTo(conv, user)));
            && (r.Some? ==> r.value in rows && VisibleIn(r.value, conv, user) && NewestVisible(rows, r.value, conv, user))
            && (r.None? <==> forall m :: m in rows ==> !VisibleIn(m, conv, user))
  {
    if Filter(rows, VisibleTo(conv, user)) != [] {
      NewestOfThread(rows, conv, user);
    } else {
      NoneVisible(rows, conv, user);
    }
  }

  /** A delivery to `user` in a thread becomes that thread's last message
      in the user's list and adds one to its unread count. */
  lemma DeliverBecomesLast(l: Ledger, user: string, c: Conversation, senderName: string, t: SenderType,
                           message: string, direction: Direction, now: int)
    ensures var (l', m) := DeliverAs(l, user, senderName, t, message, c.id, direction, now);
            && Summarize(l', user, c).lastMessage == Some(m)
            && Summarize(l', user, c).unreadCount == Summarize(l, user, c).unreadCount + 1
  {
    var (l', m) := DeliverAs(l, user, senderName, t, message, c.id, direction, now);
    var p, u := VisibleTo(c.id, user), UnreadIn(c.id, user);
    assert p(m) && u(m);
    FilterSnoc(l.rows, m, p);
    CountAppend(l.rows, [m], u);
    assert Count([m], u) == 1;
  }

  function Summaries(l: Ledger, user: string, cs: seq<Conversation>): (r: seq<ConversationSummary>)
    ensures |r| == |cs|
    ensures forall i :: 0 <= i < |cs| ==> r[i] == Summarize(l, user, cs[i])
  {
    seq(|cs|, i requires 0 <= i < |cs| => Summarize(l, user, cs[i]))
  }

  /** Newest activity first. */
  function NewerFirst(a: ConversationSummary, b: ConversationSummary): bool {
    a.conversation.lastMessageAt >= b.conversation.lastMessageAt
  }

  lemma NewerFirstTotal()
    ensures TotalPreorder(NewerFirst)
  {
  }

  /** `get_conversations`: one summary per thread the user takes part in,
      most recently active first. */
  function GetConversations(l: Ledger, user: string): (r: seq<ConversationSummary>)
    ensures multiset(r) == multiset(Summaries(l, user, Filter(l.conversations, (c: Conversation) => Involves(c, user))))
    ensures Sorted(r, NewerFirst)
    ensures forall s :: s in r ==> s.conversation in l.conversations && Involves(s.conversation, user)
    ensures forall c :: c in l.conversations && Involves(c, user) ==> Summarize(l, user, c) in r
  {
    var mine := Filter(l.conversations, (c: Conversation) => Involves(c, user));
    var sums := Summaries(l, user, mine);
    NewerFirstTotal();
    SortByMembers(sums, NewerFirst);
    SummariesMembers(l, user, mine);
    SortBy(sums, NewerFirst)
  }

  /** The summaries of a list of threads are those of its members. */
  lemma SummariesMembers(l: Ledger, user: string, cs: seq<Conversation>)
    ensures forall s :: s in Summaries(l, user, cs) ==> s.conversation in cs
    ensures forall c :: c in cs ==> Summarize(l, user, c) in Summaries(l, user, cs)
  {
    var sums := Summaries(l, user, cs);
    forall c | c in cs ensures Summarize(l, user, c) in sums {
      var i :| 0 <= i < |cs| && cs[i] == c;
      assert sums[i] == Summarize(l, user, c);
    }
  }

  /** `get_unread`: the recipient's unread rows, oldest first. */
  function GetUnread(l: Ledger, recipientId: string): (r: seq<Message>)
    ensures forall m :: m in r <==> m in l.rows && UnreadFor(m, recipientId)
    ensures SubseqOf(r, l.rows)
  {
    FilterIsSubseq(l.rows, (m: Message) => UnreadFor(m, recipientId));
    Filter(l.rows, (m: Message) => UnreadFor(m, recipientId))
  }

  function Reverse<T>(xs: seq<T>): (r: seq<T>)
    ensures |r| == |xs|
    ensures forall i :: 0 <= i < |xs| ==> r[i] == xs[|xs| - 1 - i]
  {
    seq(|xs|, i requires 0 <= i < |xs| => xs[|xs| - 1 - i])
  }

  const AllLimit: nat := 50

  /** Every row addressed to the recipient, oldest first. */
  function Addressed(l: Ledger, recipientId: string): (r: seq<Message>)
    ensures forall m :: m in r <==> m in l.rows && m.recipientId == recipientId
  {
    Filter(l.rows, (m: Message) => m.recipientId == recipientId)
  }

  /** `get_all`: the recipient's newest 50 rows, newest first. */
  function GetAll(l: Ledger, recipientId: string): (r: seq<Message>)
    ensures |r| <= AllLimit
    ensures forall m :: m in r ==> m in l.rows && m.recipientId == recipientId
    ensures |r| == if |Addressed(l, recipientId)| < AllLimit then |Addressed(l, recipientId)| else AllLimit
    ensures forall i :: 0 <= i < |r| ==> r[i] == Addressed(l, recipientId)[|Addressed(l, recipientId)| - 1 - i]
  {
    var rev := Reverse(Addressed(l, recipientId));
    if |rev| <= AllLimit then rev else rev[..AllLimit]
  }

  /** `unread_count` */
  function UnreadCount(l: Ledger, recipientId: string): (r: nat)
    ensures r == |GetUnread(l, recipientId)|
  {
    FilterCount(l.rows, (m: Message) => UnreadFor(m, recipientId));
    Count(l.rows, (m: Message) => UnreadFor(m, recipientId))
  }

  // ─── Status transitions ──────────────────────────────────────

  /** `mark_read`: the row with this id becomes read if it was unread. */
  function MarkRead(l: Ledger, id: nat): (r: Ledger)
    ensures r.conversations == l.conversations && r.nextId == l.nextId && |r.rows| == |l.rows|
    ensures forall i :: 0 <= i < |l.rows| ==>
      r.rows[i] == if l.rows[i].id == id && l.rows[i].status == Unread then l.rows[i].(status := Read) else l.rows[i]
    ensures Valid(l) ==> Valid(r)
  {
    l.(rows := UpdateRows(l.rows, (m: Message) => m.id == id && m.status == Unread, (m: Message) => m.(status := Read)))
  }

  /** `mark_read_conversation`: only this user's unread rows of this thread
      become read. */
  function MarkReadConversation(l: Ledger, conv: string, user: string): (r: Ledger)
    ensures r.conversations == l.conversations && r.nextId == l.nextId && |r.rows| == |l.rows|
    ensures forall i :: 0 <= i < |l.rows| ==>
      r.rows[i] == if VisibleIn(l.rows[i], conv, user) && l.rows[i].status == Unread then l.rows[i].(status := Read) else l.rows[i]
    ensures forall i :: 0 <= i < |r.rows| && VisibleIn(r.rows[i], conv, user) ==> r.rows[i].status != Unread
    ensures Valid(l) ==> Valid(r)
  {
    l.(rows := UpdateRows(l.rows, (m: Message) => VisibleIn(m, conv, user) && m.status == Unread, (m: Message) => m.(status := Read)))
  }

  /** `update_processing_log` */
  function UpdateProcessingLog(l: Ledger, id: nat, log: seq<EventSerializer.Payload>): (r: Ledger)
    ensures r.conversations == l.conversations && r.nextId == l.nextId && |r.rows| == |l.rows|
    ensures forall i :: 0 <= i < |l.rows| ==>
      r.rows[i] == if l.rows[i].id == id then l.rows[i].(processingLog := log) else l.rows[i]
    ensures Valid(l) ==> Valid(r)
  {
    l.(rows := UpdateRows(l.rows, (m: Message) => m.id == id, (m: Message) => m.(processingLog := log)))
  }

  /** `mark_processed`: from any status, stamped with the time. */
  function MarkProcessed(l: Ledger, id: nat, now: int): (r: Ledger)
    ensures r.conversations == l.conversations && r.nextId == l.nextId && |r.rows| == |l.rows|
    ensures forall i :: 0 <= i < |l.rows| ==>
      r.rows[i] == if l.rows[i].id == id then l.rows[i].(status := Processed, processedAt := Some(now)) else l.rows[i]
    ensures Valid(l) ==> Valid(r)
  {
    l.(rows := UpdateRows(l.rows, (m: Message) => m.id == id, (m: Message) => m.(status := Processed, processedAt := Some(now))))
  }

  /** In a valid ledger, a transition addressed by row id touches at most
      one row. */
  lemma MarkReadTouchesOne(l: Ledger, id: nat, i: nat, j: nat)
    requires Valid(l)
    requires i < |l.rows| && j < |l.rows| && i != j
    ensures MarkRead(l, id).rows[i] == l.rows[i] || MarkRead(l, id).rows[j] == l.rows[j]
  {
    if i < j { assert l.rows[i].id < l.rows[j].id; } else { assert l.rows[j].id < l.rows[i].id; }
  }

  // ─── Rate window ─────────────────────────────────────────────

  predicate RecentIn(m: Message, conv: string, since: int) {
    m.conversationId == conv && m.createdAt > since
  }

  /** `count_recent_messages`: rows of the thread created strictly after
      `now - minutes`, whoever they are addressed to. */
  function CountRecentMessages(l: Ledger, conv: string, minutes: int, now: int): (r: nat)
    ensures r <= |l.rows|
    ensures r == |RecentRows(l, conv, now - minutes * 60)|
  {
    FilterCount(l.rows, (m: Message) => RecentIn(m, conv, now - minutes * 60));
    Count(l.rows, (m: Message) => RecentIn(m, conv, now - minutes * 60))
  }

  /** The rows of the thread created strictly after `since`. */
  function RecentRows(l: Ledger, conv: string, since: int): (r: seq<Message>)
    ensures forall m :: m in r <==> m in l.rows && RecentIn(m, conv, since)
  {
    Filter(l.rows, (m: Message) => RecentIn(m, conv, since))
  }

  /** Each delivery into the thread at the current time adds one to the
      recent count (for a positive window), whoever the recipient is. */
  lemma DeliverCountsOnce(l: Ledger, conv: string, minutes: int, now: int,
                          recipientId: string, senderName: string, t: SenderType,
                          message: string, direction: Direction)
    requires minutes > 0
    ensures var l' := DeliverAs(l, recipientId, senderName, t, message, conv, direction, now).0;
            CountRecentMessages(l', conv, minutes, now) == CountRecentMessages(l, conv, minutes, now) + 1
  {
    var (l', m) := DeliverAs(l, recipientId, senderName, t, message, conv, direction, now);
    FilterAppend(l.rows, [m], (m: Message) => RecentIn(m, conv, now - minutes * 60));
  }

  /** A deleted thread has no rows left to count and reports neither
      stopped nor auto-respond. */
  lemma DeletedThreadIsBlank(l: Ledger, conv: string, minutes: int, now: int)
    ensures var l' := DeleteConversation(l, conv);
            CountRecentMessages(l', conv, minutes, now) == 0
            && !IsConversationStopped(l', conv) && !IsAutoRespond(l', conv)
  {
    var l' := DeleteConversation(l, conv);
    assert forall i :: 0 <= i < |l'.rows| ==> l'.rows[i] in l'.rows;
    CountNone(l'.rows, (m: Message) => RecentIn(m, conv, now - minutes * 60));
  }
}

=== FILE: interaction_context.dfy ===
/** The ambient per-request context (app/services/interaction_context.py):
    the interaction channel, the agent-to-agent turn budget and the current
    agent-to-agent conversation id. Python keeps each in a context variable;
    here the three are one explicit value threaded through the callers, and
    a `set` hands back a token holding the value it replaced. */
module InteractionContext {
  import opened Wrappers

  datatype Context = Context(channel: string, turnBudget: Option<int>, conversationId: Option<string>)

  /** A token from a `set`: the value that was current before it. */
  datatype Token<T> = Token(previous: T)

  const DefaultChannel: string := "chat"

  /** The defaults of the three context variables. */
  const Initial: Context := Context(DefaultChannel, None, None)

  function SetChannel(c: Context, channel: string): (r: (Context, Token<string>))
    ensures r.0.channel == channel
    ensures r.0.turnBudget == c.turnBudget && r.0.conversationId == c.conversationId
    ensures r.1.previous == c.channel
  {
    (c.(channel := channel), Token(c.channel))
  }

  function ResetChannel(c: Context, t: Token<string>): (r: Context)
    ensures r.channel == t.previous
    ensures r.turnBudget == c.turnBudget && r.conversationId == c.conversationId
  {
    c.(channel := t.previous)
  }

  function SetTurnBudget(c: Context, budget: Option<int>): (r: (Context, Token<Option<int>>))
    ensures r.0.turnBudget == budget
    ensures r.0.channel == c.channel && r.0.conversationId == c.conversationId
    ensures r.1.previous == c.turnBudget
  {
    (c.(turnBudget := budget), Token(c.turnBudget))
  }

  function ResetTurnBudget(c: Context, t: Token<Option<int>>): (r: Context)
    ensures r.turnBudget == t.previous
    ensures r.channel == c.channel && r.conversationId == c.conversationId
  {
    c.(turnBudget := t.previous)
  }

  function SetConversationId(c: Context, id: Option<string>): (r: (Context, Token<Option<string>>))
    ensures r.0.conversationId == id
    ensures r.0.channel == c.channel && r.0.turnBudget == c.turnBudget
    ensures r.1.previous == c.conversationId
  {
    (c.(conversationId := id), Token(c.conversationId))
  }

  function ResetConversationId(c: Context, t: Token<Option<string>>): (r: Context)
    ensures r.conversationId == t.previous
    ensures r.channel == c.channel && r.turnBudget == c.turnBudget
  {
    c.(conversationId := t.previous)
  }

  /** `decrement_a2a_turn_budget`: an unlimited budget stays unlimited;
      otherwise the budget drops by one but never below zero, and the new
      value is both stored and returned. */
  function Decrement(c: Context): (r: (Context, Option<int>))
    ensures c.turnBudget.None? ==> r.0 == c && r.1.None?
    ensures c.turnBudget.Some? ==> r.1.Some? && r.1.value >= 0
    ensures c.turnBudget.Some? && c.turnBudget.value >= 1 ==> r.1 == Some(c.turnBudget.value - 1)
    ensures c.turnBudget.Some? && c.turnBudget.value < 1 ==> r.1 == Some(0)
    ensures r.0.turnBudget == r.1
    ensures r.0.channel == c.channel && r.0.conversationId == c.conversationId
  {
    match c.turnBudget
    case None => (c, None)
    case Some(b) =>
      var remaining := if b - 1 > 0 then b - 1 else 0;
      (c.(turnBudget := Some(remaining)), Some(remaining))
  }

  /** The context after `k` decrements. */
  function DecrementTimes(c: Context, k: nat): Context
    decreases k
  {
    if k == 0 then c else DecrementTimes(Decrement(c).0, k - 1)
  }

  /** From a budget `b >= 0`, `k` decrements leave `max(0, b - k)`: the
      budget never goes negative and, once at zero, stays there. */
  lemma {:induction false} DecrementTimesBudget(c: Context, k: nat)
    requires c.turnBudget.Some? && c.turnBudget.value >= 0
    ensures DecrementTimes(c, k).turnBudget == Some(if c.turnBudget.value >= k then c.turnBudget.value - k else 0)
    ensures DecrementTimes(c, k).channel == c.channel
    ensures DecrementTimes(c, k).conversationId == c.conversationId
    decreases k
  {
    if k > 0 {
      DecrementTimesBudget(Decrement(c).0, k - 1);
    }
  }

  /** An unlimited budget is never consumed. */
  lemma {:induction false} DecrementTimesUnlimited(c: Context, k: nat)
    requires c.turnBudget.None?
    ensures DecrementTimes(c, k) == c
    decreases k
  {
    if k > 0 {
      DecrementTimesUnlimited(Decrement(c).0, k - 1);
    }
  }

  /** Setting a variable and resetting it with the token restores the
      context, even with the other two variables changed in between, and
      nested set/reset pairs unwind in order. */
  lemma ResetRestores(c: Context, channel: string, budget: Option<int>, id: Option<string>)
    ensures var (c1, t1) := SetChannel(c, channel);
            ResetChannel(c1, t1) == c
    ensures var (c1, t1) := SetTurnBudget(c, budget);
            ResetTurnBudget(c1, t1) == c
    ensures var (c1, t1) := SetConversationId(c, id);
            ResetConversationId(c1, t1) == c
    ensures var (c1, t1) := SetChannel(c, channel);
            var (c2, t2) := SetTurnBudget(c1, budget);
            var (c3, t3) := SetConversationId(c2, id);
            ResetChannel(ResetTurnBudget(ResetConversationId(c3, t3), t2), t1) == c
  {
  }
}

=== FILE: local_router.dfy ===
/** Delivery between platform users (app/services/local_router.py): the
    two-copy write, the auto-reply gate and the bounded retry loop of the
    background responder. The router's module-level references become the
    `inbox` argument (`None` when the router was never initialised) and the
    users table's `auto_inbox_enabled` column becomes the map `autoInbox`. */
module LocalRouter {
  import opened Wrappers
  import opened Text
  import opened Inbox
  import opened EventSerializer
  import opened InteractionContext
  import opened ConversationIds

  /** Auto-replies allowed within the recent window of a thread. */
  const MaxAutoMessages: nat := 20
  /** Attempts of the background responder. */
  const MaxRetries: nat := 3
  /** The recent window, in minutes. */
  const RecentWindow: int := 10

  const NotInitializedReply: string := "[Local router not initialized — no inbox store]"
  const NoResponse: string := "[No response generated]"

  function AutoReply(target: string): string {
    "Message delivered to " + target + ". Their agent is responding automatically."
  }

  function ManualReply(target: string): string {
    "Message delivered to " + target + "'s inbox. Awaiting manual response."
  }

  /** A scheduled run of the target's agent on a delivered row. */
  datatype AutoJob = AutoJob(message: Message, agentId: string)

  datatype Routed = Routed(ledger: Ledger, conversationId: string, reply: string, job: Option<AutoJob>)

  /** A missing user row means auto-reply is off. */
  predicate AutoInboxEnabled(autoInbox: map<string, bool>, handle: string) {
    handle in autoInbox && autoInbox[handle]
  }

  /** A given conversation id is reused verbatim; an empty or missing one
      is replaced by a freshly minted id. */
  function ChooseConversationId(given: string, sender: string, target: string, uuidHex: string): (r: string)
    ensures given != "" ==> r == given
    ensures given == "" ==> StartsWith(r, PairThreadId(sender, target) + "_")
  {
    if given != "" then given else MintedThreadId(sender, target, uuidHex)
  }

  /** The thread is created if missing and resumed if stopped: a direct
      message always reopens a thread the recipient had stopped. */
  function OpenThread(l: Ledger, conv: string, sender: string, target: string, now: int): (r: Ledger)
    ensures r.rows == l.rows && r.nextId == l.nextId
    ensures HasConversation(r, conv) && !IsConversationStopped(r, conv)
    ensures Valid(l) ==> Valid(r)
  {
    var l1 := EnsureConversation(l, conv, sender, target, now);
    if IsConversationStopped(l1, conv) then
      FindUpdated(l1.conversations, conv, (c: Conversation) => c.(status := ThreadActive));
      ResumeConversation(l1, conv)
    else l1
  }

  /** The two copies of a routed message: the sender's outbound copy first,
      then the target's inbound copy; the second is returned. Both are
      delivered with sender type "friend", that is `Friend` (see
      `NormalizeFriend`). */
  function DeliverCopies(l: Ledger, conv: string, sender: string, target: string, message: string, now: int)
    : (r: (Ledger, Message))
    ensures |r.0.rows| == |l.rows| + 2 && r.0.rows[..|l.rows|] == l.rows
    ensures r.0.rows[|l.rows|] == Message(l.nextId, conv, sender, sender, Friend, Outbound, message, Unread, [], now, None)
    ensures r.0.rows[|l.rows| + 1] == r.1
    ensures r.1 == Message(l.nextId + 1, conv, target, sender, Friend, Inbound, message, Unread, [], now, None)
    ensures HasConversation(r.0, conv) == HasConversation(l, conv)
    ensures IsConversationStopped(r.0, conv) == IsConversationStopped(l, conv)
    ensures Valid(l) ==> Valid(r.0)
  {
    var l1 := DeliverAs(l, sender, sender, Friend, message, conv, Outbound, now).0;
    DeliverKeepsFlags(l, sender, sender, Friend, message, conv, Outbound, now, conv);
    DeliverKeepsFlags(l1, target, sender, Friend, message, conv, Inbound, now, conv);
    DeliverAs(l1, target, sender, Friend, message, conv, Inbound, now)
  }

  /** `route_local_message`. */
  function RouteLocalMessage(inbox: Option<Ledger>, autoInbox: map<string, bool>, target: string, message: string,
                             sender: string, conversationId: string, uuidHex: string, now: int): (r: Result<Routed, string>)
    ensures inbox.None? <==> r == Err(NotInitializedReply)
    ensures inbox.Some? ==> r.Ok?
    ensures r.Ok? ==> var l := inbox.value; var ro := r.value;
      && ro.conversationId == ChooseConversationId(conversationId, sender, target, uuidHex)
      && |ro.ledger.rows| == |l.rows| + 2
      && ro.ledger.rows[..|l.rows|] == l.rows
      && HasConversation(ro.ledger, ro.conversationId)
      && !IsConversationStopped(ro.ledger, ro.conversationId)
    ensures r.Ok? ==> var l := inbox.value; var ro := r.value; var out := ro.ledger.rows[|l.rows|];
      && out.recipientId == sender && out.senderName == sender && out.direction == Outbound
      && out.senderType == Friend && out.message == message && out.conversationId == ro.conversationId
      && out.status == Unread
    ensures r.Ok? ==> var l := inbox.value; var ro := r.value; var inb := ro.ledger.rows[|l.rows| + 1];
      && inb.recipientId == target && inb.senderName == sender && inb.direction == Inbound
      && inb.senderType == Friend && inb.message == message && inb.conversationId == ro.conversationId
      && inb.status == Unread
    ensures r.Ok? ==> var ro := r.value;
      (ro.job.Some? <==> AutoInboxEnabled(autoInbox, target) &&
                         CountRecentMessages(ro.ledger, ro.conversationId, RecentWindow, now) < MaxAutoMessages)
    ensures r.Ok? ==> var l := inbox.value; var ro := r.value;
      && (ro.job.Some? ==> ro.job.value == AutoJob(ro.ledger.rows[|l.rows| + 1], target) && ro.reply == AutoReply(target))
      && (ro.job.None? ==> ro.reply == ManualReply(target))
    ensures r.Ok? && Valid(inbox.value) ==> Valid(r.value.ledger)
  {
    match inbox
    case None => Err(NotInitializedReply)
    case Some(l) =>
      Ok(RouteInto(l, autoInbox, target, message, sender, ChooseConversationId(conversationId, sender, target, uuidHex), now))
  }

  /** The delivery once the conversation id is chosen. */
  function RouteInto(l: Ledger, autoInbox: map<string, bool>, target: string, message: string,
                     sender: string, conv: string, now: int): (ro: Routed)
    ensures ro.conversationId == conv
    ensures |ro.ledger.rows| == |l.rows| + 2 && ro.ledger.rows[..|l.rows|] == l.rows
    ensures HasConversation(ro.ledger, conv) && !IsConversationStopped(ro.ledger, conv)
    ensures ro.ledger.rows[|l.rows|] == Message(l.nextId, conv, sender, sender, Friend, Outbound, message, Unread, [], now, None)
    ensures ro.ledger.rows[|l.rows| + 1] == Message(l.nextId + 1, conv, target, sender, Friend, Inbound, message, Unread, [], now, None)
    ensures ro.job.Some? <==> AutoInboxEnabled(autoInbox, target) &&
                              CountRecentMessages(ro.ledger, conv, RecentWindow, now) < MaxAutoMessages
    ensures ro.job.Some? ==> ro.job.value == AutoJob(ro.ledger.rows[|l.rows| + 1], target) && ro.reply == AutoReply(target)
    ensures ro.job.None? ==> ro.reply == ManualReply(target)
    ensures Valid(l) ==> Valid(ro.ledger)
  {
    var d := WriteCopies(l, conv, sender, target, message, now);
    Gate(d.0, conv, d.1, autoInbox, target, now)
  }

  /** The thread opened (or resumed) and the two copies written into it. */
  function WriteCopies(l: Ledger, conv: string, sender: string, target: string, message: string, now: int)
    : (r: (Ledger, Message))
    ensures |r.0.rows| == |l.rows| + 2 && r.0.rows[..|l.rows|] == l.rows
    ensures HasConversation(r.0, conv) && !IsConversationStopped(r.0, conv)
    ensures r.0.rows[|l.rows|] == Message(l.nextId, conv, sender, sender, Friend, Outbound, message, Unread, [], now, None)
    ensures r.0.rows[|l.rows| + 1] == r.1
    ensures r.1 == Message(l.nextId + 1, conv, target, sender, Friend, Inbound, message, Unread, [], now, None)
    ensures Valid(l) ==> Valid(r.0)
  {
    var l1 := OpenThread(l, conv, sender, target, now);
    assert l1.rows == l.rows && l1.nextId == l.nextId;
    DeliverCopies(l1, conv, sender, target, message, now)
  }

  /** The auto-reply gate on a delivered row: an auto-reply job is
      scheduled exactly when the target has auto-inbox on and the thread is
      below the recent-message cap. */
  function Gate(ledger: Ledger, conv: string, delivered: Message, autoInbox: map<string, bool>, target: string, now: int)
    : (ro: Routed)
    ensures ro.ledger == ledger && ro.conversationId == conv
    ensures ro.job.Some? <==> AutoInboxEnabled(autoInbox, target) &&
                              CountRecentMessages(ledger, conv, RecentWindow, now) < MaxAutoMessages
    ensures ro.job.Some? ==> ro.job.value == AutoJob(delivered, target) && ro.reply == AutoReply(target)
    ensures ro.job.None? ==> ro.reply == ManualReply(target)
  {
    if AutoInboxEnabled(autoInbox, target) && CountRecentMessages(ledger, conv, RecentWindow, now) < MaxAutoMessages then
      Routed(ledger, conv, AutoReply(target), Some(AutoJob(delivered, target)))
    else
      Routed(ledger, conv, ManualReply(target), None)
  }

  /** The spelling the router delivers with normalises to `Friend`. */
  lemma NormalizeFriend()
    ensures NormalizeSenderType("friend") == Friend
  {
    NormalizeRoundTrip(Friend);
  }

  /** Each routed message adds two rows to the thread's recent window, so a
      thread with 18 or more recent rows no longer schedules an automatic
      reply: the cap of 20 bounds a reply chain to about ten exchanges. */
  lemma RouteAddsTwoRecent(l: Ledger, autoInbox: map<string, bool>, target: string, message: string,
                           sender: string, conversationId: string, now: int)
    requires conversationId != ""
    ensures var r := RouteLocalMessage(Some(l), autoInbox, target, message, sender, conversationId, "", now);
            CountRecentMessages(r.value.ledger, conversationId, RecentWindow, now)
              == CountRecentMessages(l, conversationId, RecentWindow, now) + 2
    ensures CountRecentMessages(l, conversationId, RecentWindow, now) + 2 >= MaxAutoMessages ==>
            RouteLocalMessage(Some(l), autoInbox, target, message, sender, conversationId, "", now).value.job.None?
  {
    var thread := OpenThread(l, conversationId, sender, target, now);
    var l1 := DeliverAs(thread, sender, sender, Friend, message, conversationId, Outbound, now).0;
    DeliverCountsOnce(thread, conversationId, RecentWindow, now, sender, sender, Friend, message, Outbound);
    DeliverCountsOnce(l1, conversationId, RecentWindow, now, target, sender, Friend, message, Inbound);
  }

  /** The routed rows are visible only to their own recipients: the
      sender's view of the thread gains the outbound copy and the target's
      gains the inbound copy. */
  lemma RouteCopiesVisibleToOwners(l: Ledger, autoInbox: map<string, bool>, target: string, message: string,
                                   sender: string, conversationId: string, uuidHex: string, now: int)
    requires sender != target
    ensures var r := RouteLocalMessage(Some(l), autoInbox, target, message, sender, conversationId, uuidHex, now).value;
            var out := r.ledger.rows[|l.rows|];
            var inb := r.ledger.rows[|l.rows| + 1];
            View(out) in GetConversationMessages(r.ledger, r.conversationId, sender) &&
            View(inb) !in GetConversationMessages(r.ledger, r.conversationId, sender) &&
            View(inb) in GetConversationMessages(r.ledger, r.conversationId, target) &&
            View(out) !in GetConversationMessages(r.ledger, r.conversationId, target)
  {
    var r := RouteLocalMessage(Some(l), autoInbox, target, message, sender, conversationId, uuidHex, now).value;
    assert r.ledger.rows[|l.rows|] in r.ledger.rows;
    assert r.ledger.rows[|l.rows| + 1] in r.ledger.rows;
  }

  /** `send_response_to_sender`: a reply travels back through the router
      with the roles swapped, in the same thread. */
  function SendResponseToSender(inbox: Option<Ledger>, autoInbox: map<string, bool>, senderHandle: string,
                                recipientHandle: string, response: string, conversationId: string,
                                uuidHex: string, now: int): (r: Result<Routed, string>)
    ensures r == RouteLocalMessage(inbox, autoInbox, senderHandle, response, recipientHandle, conversationId, uuidHex, now)
    ensures r.Ok? && conversationId != "" ==> r.value.conversationId == conversationId
  {
    RouteLocalMessage(inbox, autoInbox, senderHandle, response, recipientHandle, conversationId, uuidHex, now)
  }

  // ─── Background responder ────────────────────────────────────

  /** How one attempt of the agent run ends: with the run's events, with a
      transient network error (connection, OS, timeout) or with any other
      exception. */
  datatype Attempt = Streamed(events: seq<Event>) | TransientError(error: string) | OtherError(error: string)

  datatype AutoOutcome =
    | Skipped
    | Answered(reply: string, routed: Option<Result<Routed, string>>)
    | Abandoned(error: string)
    | GaveUp(lastError: string)

  function Pow2(k: nat): (r: nat)
    ensures r >= 1
  {
    if k == 0 then 1 else 2 * Pow2(k - 1)
  }

  /** The waits after `n` transient failures: 1, 2, 4, ... seconds. */
  function Backoff(n: nat): (r: seq<nat>)
    ensures |r| == n
    ensures forall i :: 0 <= i < n ==> r[i] == Pow2(i)
  {
    seq(n, i requires 0 <= i < n => Pow2(i))
  }

  /** The first attempt from `k` on that does not fail transiently, or
      `MaxRetries` when all remaining attempts do. */
  function SettledAttempt(engine: nat -> Attempt, k: nat): (r: nat)
    ensures k <= r <= MaxRetries || (k > MaxRetries && r == MaxRetries)
    ensures r < MaxRetries ==> !engine(r).TransientError?
    ensures forall j :: k <= j < r ==> engine(j).TransientError?
    decreases MaxRetries - k
  {
    if k >= MaxRetries then MaxRetries
    else if !engine(k).TransientError? then k
    else SettledAttempt(engine, k + 1)
  }

  /** The work after a successful run: the tool log is stored on the row,
      the row is marked processed, and the reply is routed back to the
      original sender when the row belongs to a thread. */
  function Answer(l: Ledger, autoInbox: map<string, bool>, job: AutoJob, events: seq<Event>,
                  uuidHex: string, now: int): (r: (Ledger, AutoOutcome))
    ensures r.1.Answered?
    ensures var ps := StreamPayloads(events);
            r.1.reply == Reply(ps, NoResponse)
    ensures job.message.conversationId == "" ==>
      r.1.routed.None? &&
      r.0 == MarkProcessed(UpdateProcessingLog(l, job.message.id, ToolLog(StreamPayloads(events))), job.message.id, now)
    ensures job.message.conversationId != "" ==>
      var marked := MarkProcessed(UpdateProcessingLog(l, job.message.id, ToolLog(StreamPayloads(events))), job.message.id, now);
      r.1.routed == Some(SendResponseToSender(Some(marked), autoInbox, job.message.senderName, job.agentId,
                                             r.1.reply, job.message.conversationId, uuidHex, now)) &&
      r.0 == r.1.routed.value.value.ledger &&
      r.0.rows[..|l.rows|] == marked.rows
  {
    var ps := StreamPayloads(events);
    var reply := Reply(ps, NoResponse);
    var marked := MarkProcessed(UpdateProcessingLog(l, job.message.id, ToolLog(ps)), job.message.id, now);
    var conv := job.message.conversationId;
    if conv != "" then
      var routed := SendResponseToSender(Some(marked), autoInbox, job.message.senderName, job.agentId, reply, conv, uuidHex, now);
      (routed.value.ledger, Answered(reply, Some(routed)))
    else
      (marked, Answered(reply, None))
  }

  /** `_run_auto_process`. `engine(k)` is how attempt `k` ends; `sleeps`
      lists the back-off waits in seconds. The channel is "inbox" while the
      engine runs and is restored after every attempt. */
  method RunAutoProcess(inbox: Option<Ledger>, autoInbox: map<string, bool>, job: AutoJob, ctx: Context,
                        engine: nat -> Attempt, uuidHex: string, now: int)
    returns (ledger: Option<Ledger>, ctxOut: Context, sleeps: seq<nat>, outcome: AutoOutcome)
    ensures ctxOut == ctx
    ensures inbox.None? ==> ledger.None? && sleeps == [] && outcome == Skipped
    ensures inbox.Some? ==>
      var k := SettledAttempt(engine, 0);
      && sleeps == Backoff(k)
      && (k == MaxRetries ==> ledger == inbox && outcome == GaveUp(engine(MaxRetries - 1).error))
      && (k < MaxRetries && engine(k).OtherError? ==> ledger == inbox && outcome == Abandoned(engine(k).error))
      && (k < MaxRetries && engine(k).Streamed? ==>
            var (l', o) := Answer(inbox.value, autoInbox, job, engine(k).events, uuidHex, now);
            ledger == Some(l') && outcome == o)
  {
    ctxOut := ctx;
    sleeps := [];
    ledger := inbox;
    if inbox.None? {
      outcome := Skipped;
      return;
    }
    var attempt := 0;
    var lastError := "";
    while attempt < MaxRetries
      invariant 0 <= attempt <= MaxRetries
      invariant SettledAttempt(engine, 0) == SettledAttempt(engine, attempt)
      invariant sleeps == Backoff(attempt)
      invariant ctxOut == ctx && ledger == inbox
      invariant attempt > 0 ==> lastError == engine(attempt - 1).error
      decreases MaxRetries - attempt
    {
      var (running, token) := SetChannel(ctxOut, "inbox");
      var result := engine(attempt);
      ctxOut := ResetChannel(running, token);
      match result {
        case Streamed(events) =>
          var (l', o) := Answer(inbox.value, autoInbox, job, events, uuidHex, now);
          ledger := Some(l');
          outcome := o;
          return;
        case OtherError(e) =>
          outcome := Abandoned(e);
          return;
        case TransientError(e) =>
          lastError := e;
          sleeps := sleeps + [Pow2(attempt)];
          attempt := attempt + 1;
      }
    }
    outcome := GaveUp(lastError);
  }

  /** When every attempt fails transiently the responder waits 1, 2 and 4
      seconds (the last wait included) and leaves the row untouched. */
  lemma AllTransientSchedule(engine: nat -> Attempt)
    requires forall k: nat :: k < MaxRetries ==> engine(k).TransientError?
    ensures SettledAttempt(engine, 0) == MaxRetries
    ensures Backoff(SettledAttempt(engine, 0)) == [1, 2, 4]
  {
  }

  /** `route_local_message_direct`: the agent's reply without touching the
      ledger. */
  function RouteLocalMessageDirect(initialized: bool, events: seq<Event>): (r: string)
    ensures !initialized ==> r == "[Local router not initialized]"
    ensures initialized && FinalTexts(StreamPayloads(events)) == [] ==> r == NoResponse
    ensures initialized && FinalTexts(StreamPayloads(events)) != [] ==>
      r == Text.Join(FinalTexts(StreamPayloads(events)), "\n")
  {
    if !initialized then "[Local router not initialized]" else Reply(StreamPayloads(events), NoResponse)
  }
}

=== FILE: negotiation.dfy ===
/** The merchant-side price negotiation (common/negotiation.py). Prices are
    integer cents. The session table is a map keyed by merchant and item
    id; a round takes the state it works on and returns the state after
    it, in place of the source's mutation. */
module Negotiation {
  import opened Wrappers

  /** A catalog item (common/models.py), the fields the merchants use. */
  datatype Item = Item(
    id: string,
    name: string,
    category: string,
    description: string,
    price: int,
    minPrice: int,
    inStock: bool)

  /** The outcome of an offer. `Reject` is part of the vocabulary the tool
      layer maps but no evaluation produces it. */
  datatype Decision = Accept(finalPrice: int) | Counter(counterPrice: int) | Reject | FinalOffer(finalPrice: int)

  datatype Status = Open | Accepted | Rejected | Expired

  datatype State = State(
    itemId: string,
    itemName: string,
    listedPrice: int,
    currentOffer: int,
    counterOffer: Option<int>,
    rounds: int,
    maxRounds: int,
    status: Status)

  const DefaultMaxRounds: int := 3

  type Sessions = map<(string, string), State>

  /** `round((a + b) / 2, 2)` in cents, a half cent going up. */
  function Midpoint(a: int, b: int): (r: int)
    ensures 2 * r - (a + b) in {0, 1}
    ensures a < b ==> a < r <= b
  {
    (a + b + 1) / 2
  }

  /** The price a decision names, if any. */
  function PriceOf(d: Decision): Option<int> {
    match d
    case Accept(p) => Some(p)
    case Counter(p) => Some(p)
    case FinalOffer(p) => Some(p)
    case Reject => None
  }

  /** The within-5% test `offer >= price * 0.95`, decided exactly in
      cents. The source multiplies binary floats, whose product can land
      just above the exact boundary (16.60 * 0.95 is 15.770000000000001),
      so at such a boundary the source counters an offer this test
      accepts. */
  predicate NearList(offer: int, price: int) {
    100 * offer >= 95 * price
  }

  /** `evaluate_offer`. An offer at or above the list price is accepted at
      the list price; one at or above the floor and within 5% of the list
      price is accepted as offered; any other offer is countered, with
      the midpoint of offer and list price (never under the floor) when
      the offer reaches the floor, and with the floor itself otherwise. */
  function EvaluateOffer(item: Item, offer: int): (r: Decision)
    ensures r.Accept? || r.Counter?
    ensures r.Accept? <==> offer >= item.price || (offer >= item.minPrice && NearList(offer, item.price))
    ensures r.Accept? ==> r.finalPrice <= offer && (r.finalPrice == offer || r.finalPrice == item.price)
    ensures r.Counter? ==> r.counterPrice >= item.minPrice && r.counterPrice > offer
    ensures r.Counter? && offer >= item.minPrice ==> r.counterPrice <= item.price
    ensures offer < item.minPrice && offer < item.price ==> r == Counter(item.minPrice)
    ensures item.minPrice <= offer < item.price && !NearList(offer, item.price) ==>
      r.Counter? && r.counterPrice >= Midpoint(offer, item.price) &&
      (r.counterPrice == Midpoint(offer, item.price) || r.counterPrice == item.minPrice)
  {
    if offer >= item.price then Accept(item.price)
    else if offer >= item.minPrice then
      if NearList(offer, item.price) then Accept(offer)
      else
        var counter := Midpoint(offer, item.price);
        Counter(if counter > item.minPrice then counter else item.minPrice)
    else Counter(item.minPrice)
  }

  /** With a floor at or under the list price, every price an evaluation
      names lies between the floor and the list price. */
  lemma EvaluationWithinRange(item: Item, offer: int)
    requires item.minPrice <= item.price
    ensures var p := PriceOf(EvaluateOffer(item, offer));
            p.Some? && item.minPrice <= p.value <= item.price
  {
  }

  /** Raising an offer never turns an acceptance into a counter. */
  lemma AcceptanceMonotone(item: Item, offer: int, higher: int)
    requires offer <= higher
    requires EvaluateOffer(item, offer).Accept?
    ensures EvaluateOffer(item, higher).Accept?
  {
  }

  /** `start_negotiation`: a fresh open state in round 1, stored under the
      merchant and item id, replacing any earlier session for that pair. */
  function StartNegotiation(sessions: Sessions, merchant: string, item: Item, offer: int): (r: (Sessions, State))
    ensures r.1.rounds == 1 && r.1.status == Open && r.1.maxRounds == DefaultMaxRounds
    ensures r.1.itemId == item.id && r.1.listedPrice == item.price && r.1.currentOffer == offer
    ensures GetSession(r.0, merchant, item.id) == Some(r.1)
    ensures forall m, i :: (m, i) != (merchant, item.id) ==> GetSession(r.0, m, i) == GetSession(sessions, m, i)
  {
    var st := State(item.id, item.name, item.price, offer, None, 1, DefaultMaxRounds, Open);
    (sessions[(merchant, item.id) := st], st)
  }

  /** `get_session` */
  function GetSession(sessions: Sessions, merchant: string, itemId: string): (r: Option<State>)
    ensures r.Some? <==> (merchant, itemId) in sessions
    ensures r.Some? ==> r.value == sessions[(merchant, itemId)]
  {
    if (merchant, itemId) in sessions then Some(sessions[(merchant, itemId)]) else None
  }

  /** `process_round`: the offer recorded and the round counted; past the
      last round the state expires and the floor is the final offer,
      otherwise the offer is evaluated and an acceptance marks the state
      accepted. */
  function ProcessRound(state: State, item: Item, offer: int): (r: (State, Decision))
    ensures r.0.rounds == state.rounds + 1 && r.0.currentOffer == offer
    ensures r.0.maxRounds == state.maxRounds
    ensures state.rounds + 1 > state.maxRounds ==> r.0.status == Expired && r.1 == FinalOffer(item.minPrice)
    ensures state.rounds + 1 <= state.maxRounds ==> r.1 == EvaluateOffer(item, offer)
    ensures state.rounds + 1 <= state.maxRounds ==> (r.0.status == Accepted <==> r.1.Accept? || state.status == Accepted)
    ensures state.rounds + 1 <= state.maxRounds && !r.1.Accept? ==> r.0.status == state.status
  {
    var st := state.(currentOffer := offer, rounds := state.rounds + 1);
    if st.rounds > st.maxRounds then (st.(status := Expired), FinalOffer(item.minPrice))
    else
      var d := EvaluateOffer(item, offer);
      if d.Accept? then (st.(status := Accepted), d) else (st, d)
  }

  /** Several rounds in a row: the state after them and each decision. */
  function RunRounds(state: State, item: Item, offers: seq<int>): (r: (State, seq<Decision>))
    ensures |r.1| == |offers|
    decreases |offers|
  {
    if |offers| == 0 then (state, [])
    else
      var (st, d) := ProcessRound(state, item, offers[0]);
      var (end, ds) := RunRounds(st, item, offers[1..]);
      (end, [d] + ds)
  }

  /** Over a run, the i-th offer is evaluated while the round count stays
      within the limit, and answered with the floor as final offer once
      it exceeds it; a state that has gone past the limit is expired. */
  lemma {:induction false} RunRoundsSpec(state: State, item: Item, offers: seq<int>)
    ensures RunRounds(state, item, offers).0.rounds == state.rounds + |offers|
    ensures forall i :: 0 <= i < |offers| ==>
      RunRounds(state, item, offers).1[i] ==
        if state.rounds + i + 1 > state.maxRounds then FinalOffer(item.minPrice) else EvaluateOffer(item, offers[i])
    ensures |offers| > 0 && state.rounds + |offers| > state.maxRounds ==> RunRounds(state, item, offers).0.status == Expired
    decreases |offers|
  {
    if |offers| > 0 {
      var (st, d) := ProcessRound(state, item, offers[0]);
      RunRoundsSpec(st, item, offers[1..]);
      var ds := RunRounds(st, item, offers[1..]).1;
      forall i | 0 < i < |offers| ensures ([d] + ds)[i] ==
        if state.rounds + i + 1 > state.maxRounds then FinalOffer(item.minPrice) else EvaluateOffer(item, offers[i]) {
        assert ([d] + ds)[i] == ds[i - 1];
        assert offers[1..][i - 1] == offers[i];
      }
    }
  }

  /** A session started with the default limit evaluates two more offers
      at most: from the third round on the answer is the floor. */
  lemma SessionExpires(sessions: Sessions, merchant: string, item: Item, first: int, offers: seq<int>)
    requires |offers| >= 3
    ensures var st := StartNegotiation(sessions, merchant, item, first).1;
            var (end, ds) := RunRounds(st, item, offers);
            && ds[0] == EvaluateOffer(item, offers[0])
            && ds[1] == EvaluateOffer(item, offers[1])
            && (forall i :: 2 <= i < |offers| ==> ds[i] == FinalOffer(item.minPrice))
            && end.status == Expired
  {
    var st := StartNegotiation(sessions, merchant, item, first).1;
    RunRoundsSpec(st, item, offers);
  }

  /** No price named in a run of rounds is under the floor, as long as the
      floor is at or under the list price. */
  lemma NeverBelowFloor(state: State, item: Item, offers: seq<int>)
    requires item.minPrice <= item.price
    ensures forall i :: 0 <= i < |offers| ==>
      PriceOf(RunRounds(state, item, offers).1[i]).Some? &&
      PriceOf(RunRounds(state, item, offers).1[i]).value >= item.minPrice
  {
    RunRoundsSpec(state, item, offers);
    forall i | 0 <= i < |offers|
      ensures PriceOf(RunRounds(state, item, offers).1[i]).Some?
      ensures PriceOf(RunRounds(state, item, offers).1[i]).value >= item.minPrice
    {
      EvaluationWithinRange(item, offers[i]);
    }
  }
}

=== FILE: platform.dfy ===
/** Platform addresses shared by the routers and tools: a platform user is
    named either by the internal `platform://user/<handle>` form or by the
    public agent-card URL under the configured base URL (app/config.py,
    default `http://localhost:8080`). */
module Platform {
  import opened Wrappers
  import opened Text

  const PublicBaseUrl: string := "http://localhost:8080"
  const UserScheme: string := "platform://user/"
  const AgentsPrefix: string := PublicBaseUrl + "/a2a/"
  const CardSuffix: string := "/.well-known/agent-card.json"

  /** An HTTP error response: status code and detail. */
  datatype HttpError = HttpError(code: int, detail: string)

  /** Python's `x or default` for an optional string: `None` and `""` are
      both falsy. */
  function OrElse(x: Option<string>, default: string): (r: string)
    ensures x.Some? && x.value != "" ==> r == x.value
    ensures x.None? || x.value == "" ==> r == default
  {
    if x.Some? && x.value != "" then x.value else default
  }

  /** The public agent card of a platform user. */
  function AgentCardUrl(handle: string): (r: string)
    ensures StartsWith(r, AgentsPrefix) && EndsWith(r, CardSuffix)
  {
    var r := AgentsPrefix + handle + CardSuffix;
    assert r[..|AgentsPrefix|] == AgentsPrefix;
    assert r[|r| - |CardSuffix|..] == CardSuffix;
    r
  }

  /** The handle in a `platform://user/...` URL: every occurrence of the
      scheme removed, then surrounding slashes. */
  function SchemeHandle(raw: string): string {
    StripChars(ReplaceAll(raw, UserScheme, ""), {'/'})
  }

  /** `_resolve_agent_card_url` (app/routers/debug.py:38-43), the same rewrite
      `send_message_to_contact` and `ping` make: a platform URL becomes the
      user's public card; anything else is only stripped. */
  function ResolveAgentCardUrl(url: string): (r: string)
    ensures StartsWith(Strip(url), UserScheme) ==> r == AgentCardUrl(SchemeHandle(Strip(url)))
    ensures !StartsWith(Strip(url), UserScheme) ==> r == Strip(url)
  {
    var raw := Strip(url);
    if StartsWith(raw, UserScheme) then AgentCardUrl(SchemeHandle(raw)) else raw
  }

  predicate IsCardUrl(raw: string) {
    StartsWith(raw, AgentsPrefix) && EndsWith(raw, CardSuffix)
  }

  /** `_internal_handle_from_sender_url` (app/routers/a2a_rpc.py:48-60): the
      platform user behind a sender URL, if it is one. */
  function InternalHandle(senderUrl: string): (r: Option<string>)
    ensures Strip(senderUrl) == "" ==> r.None?
    ensures r.Some? ==> r.value != ""
    ensures r.Some? ==> StartsWith(Strip(senderUrl), UserScheme) || IsCardUrl(Strip(senderUrl))
    ensures !StartsWith(Strip(senderUrl), UserScheme) && !IsCardUrl(Strip(senderUrl)) ==> r.None?
  {
    var raw := Strip(senderUrl);
    if raw == "" then None
    else if StartsWith(raw, UserScheme) then
      var h := SchemeHandle(raw);
      if h == "" then None else Some(h)
    else if IsCardUrl(raw) && |AgentsPrefix| <= |raw| - |CardSuffix| then
      var h := StripChars(raw[|AgentsPrefix|..|raw| - |CardSuffix|], {'/'});
      if h == "" then None else Some(h)
    else None
  }

  /** A handle without slashes or whitespace at either end (every valid
      handle is one). */
  predicate PlainHandle(h: string) {
    h != [] && '/' !in h && h[0] !in Whitespace && h[|h| - 1] !in Whitespace
  }

  lemma StripPlain(h: string)
    requires PlainHandle(h)
    ensures Strip(h) == h && StripChars(h, {'/'}) == h
  {
  }

  lemma SchemeShape(h: string)
    ensures var raw := UserScheme + h;
            StartsWith(raw, UserScheme) && raw[|UserScheme|..] == h && raw[0] == 'p'
  {
  }

  lemma SchemeReplace(h: string)
    requires '/' !in h
    ensures ReplaceAll(UserScheme + h, UserScheme, "") == h
  {
    var raw := UserScheme + h;
    SchemeShape(h);
    assert ReplaceAll(raw, UserScheme, "") == "" + ReplaceAll(h, UserScheme, "");
    if Contains(h, UserScheme) {
      ContainsChar(h, UserScheme, '/');
    }
    ReplaceAllAbsent(h, UserScheme, "");
  }

  /** The scheme form names the handle it was built from. */
  lemma SchemeRoundTrip(h: string)
    requires PlainHandle(h)
    ensures InternalHandle(UserScheme + h) == Some(h)
    ensures SchemeHandle(UserScheme + h) == h
  {
    var raw := UserScheme + h;
    SchemeShape(h);
    assert raw[|raw| - 1] == h[|h| - 1];
    StripCharsEnds(raw, Whitespace);
    SchemeReplace(h);
    StripPlain(h);
  }

  lemma CardUrlShape(h: string)
    ensures var raw := AgentCardUrl(h);
            raw[0] == 'h' && raw[|raw| - 1] == 'n' && raw[|AgentsPrefix|..|raw| - |CardSuffix|] == h
  {
    var raw := AgentCardUrl(h);
    assert raw == AgentsPrefix + h + CardSuffix;
  }

  /** The public card URL names the handle it was built from. */
  lemma CardRoundTrip(h: string)
    requires PlainHandle(h)
    ensures InternalHandle(AgentCardUrl(h)) == Some(h)
  {
    var raw := AgentCardUrl(h);
    CardUrlShape(h);
    StripCharsEnds(raw, Whitespace);
    assert Strip(raw) == raw;
    assert !StartsWith(raw, UserScheme) by {
      assert raw[0] != UserScheme[0];
    }
    assert IsCardUrl(raw);
    assert |AgentsPrefix| <= |raw| - |CardSuffix|;
    StripPlain(h);
    assert StripChars(raw[|AgentsPrefix|..|raw| - |CardSuffix|], {'/'}) == h;
  }

  /** A scheme URL resolves to the public card of the same handle. */
  lemma ResolveScheme(h: string)
    requires PlainHandle(h)
    ensures ResolveAgentCardUrl(UserScheme + h) == AgentCardUrl(h)
  {
    var raw := UserScheme + h;
    SchemeShape(h);
    assert raw[|raw| - 1] == h[|h| - 1];
    StripCharsEnds(raw, Whitespace);
    SchemeRoundTrip(h);
  }
}

=== FILE: scheduler.dfy ===
/** The scheduler (app/services/scheduler.py) over the `scheduled_tasks`
    table (app/database.py:94-104). A trigger is stored as text, as the
    column is, and the poll compares it as text with the formatted clock.
    Reading a trigger (`datetime.fromisoformat`) and writing a time
    (`strftime("%Y-%m-%d %H:%M:%S")`) are the clock's two conversions,
    which the caller supplies. The fresh UUIDs a poll draws are the
    parameter `uuid`, the i-th draw being `uuid(i)`. */
module Scheduler {
  import opened Wrappers
  import opened Text
  import TaskStore
  import TaskRunner
  import Seqs

  const Day := 86400

  datatype Recurrence = Once | Daily | Weekly | Monthly

  datatype SchedStatus = Active | Paused | Completed | Cancelled

  datatype Schedule = Schedule(
    id: string,
    owner: string,
    intent: string,
    trigger: string,
    recurrence: Recurrence,
    status: SchedStatus,
    lastRunAt: Option<string>,
    taskId: Option<string>)

  /** The clock of one poll: the current second, `datetime.fromisoformat`
      (`None` where it raises) and `strftime("%Y-%m-%d %H:%M:%S")`. */
  datatype Clock = Clock(now: int, parse: string -> Option<int>, format: int -> string)

  /** The formatted current time: what triggers are compared with and
      what a run records. */
  function Stamp(c: Clock): string {
    c.format(c.now)
  }

  /** `strftime` with a fixed-width year orders texts as it orders times. */
  ghost predicate OrderedFormat(format: int -> string) {
    forall a, b :: a <= b ==> LexLe(format(a), format(b))
  }

  /** Schedule ids are the table's primary key. */
  ghost predicate UniqueIds(rows: seq<Schedule>) {
    forall i, j :: 0 <= i < j < |rows| ==> rows[i].id != rows[j].id
  }

  /** The CHECK domain of `recurrence`. */
  function ParseRecurrence(raw: string): (r: Option<Recurrence>)
    ensures r.Some? <==> raw in {"once", "daily", "weekly", "monthly"}
  {
    if raw == "once" then Some(Once)
    else if raw == "daily" then Some(Daily)
    else if raw == "weekly" then Some(Weekly)
    else if raw == "monthly" then Some(Monthly)
    else None
  }

  function RecurrenceName(rec: Recurrence): (r: string)
    ensures ParseRecurrence(r) == Some(rec)
  {
    match rec
    case Once => "once"
    case Daily => "daily"
    case Weekly => "weekly"
    case Monthly => "monthly"
  }

  /** `_advance_trigger` once the trigger is read: one period after it, or
      after `now` when it does not parse. A period is 7 days for weekly,
      30 days for monthly and a day otherwise; the column's CHECK leaves
      no other recurrence name to fall back from. */
  function AdvanceTrigger(parsed: Option<int>, rec: Recurrence, now: int): (r: int)
    ensures parsed.Some? && rec == Weekly ==> r == parsed.value + 7 * Day
    ensures parsed.Some? && rec == Monthly ==> r == parsed.value + 30 * Day
    ensures parsed.Some? && rec in {Once, Daily} ==> r == parsed.value + Day
    ensures parsed.None? ==> r - now in {Day, 7 * Day, 30 * Day}
    ensures r - parsed.GetOr(now) >= Day
  {
    var base := parsed.GetOr(now);
    var delta := match rec
      case Weekly => 7 * Day
      case Monthly => 30 * Day
      case _ => Day;
    base + delta
  }

  /** The trigger text a recurring row is given after it fires. */
  function NextTrigger(row: Schedule, c: Clock): string {
    c.format(AdvanceTrigger(c.parse(row.trigger), row.recurrence, c.now))
  }

  /** The due test of the poll query (`status = 'active' AND trigger_at <= ?`):
      a text comparison with the formatted clock, whatever form the
      trigger was written in. */
  predicate Due(s: Schedule, nowText: string) {
    s.status == Active && LexLe(s.trigger, nowText)
  }

  function IsDue(nowText: string): Schedule -> bool {
    (s: Schedule) => Due(s, nowText)
  }

  function DueRows(rows: seq<Schedule>, nowText: string): (r: seq<Schedule>)
    ensures forall s :: s in r <==> s in rows && Due(s, nowText)
    ensures Seqs.KeptFrom(r, rows, IsDue(nowText))
  {
    Seqs.FilterKeeps(rows, IsDue(nowText));
    Seqs.Filter(rows, IsDue(nowText))
  }

  /** The due rows of a table with unique ids have unique ids. */
  lemma DueRowsUnique(rows: seq<Schedule>, nowText: string)
    ensures UniqueIds(rows) ==> UniqueIds(DueRows(rows, nowText))
  {
    if UniqueIds(rows) {
      var apart := (a: Schedule, b: Schedule) => a.id != b.id;
      assert Seqs.Sorted(rows, apart);
      Seqs.FilterSorted(rows, IsDue(nowText), apart);
    }
  }

  /** A trigger written in the ISO form with a `T` between date and time
      (the form the agent tool documents) is never due on its own date:
      `T` sorts after the space of the clock's format, so it fires only
      once the date has changed, however early its time of day. */
  lemma IsoTriggerWaitsForNextDay(s: Schedule, date: string, at: string, time: string)
    requires s.trigger == date + "T" + at
    ensures !Due(s, date + " " + time)
  {
    LexCommonPrefix(date, "T" + at, " " + time);
    assert (date + "T") + at == date + ("T" + at);
    assert (date + " ") + time == date + (" " + time);
  }

  /** The state a poll works on. */
  datatype World = World(rows: seq<Schedule>, store: TaskStore.Store, registry: TaskRunner.Registry)

  /** The row after it fired task `taskId`, as read in the snapshot `row`:
      a one-off is completed, a recurring one keeps its status and moves
      its trigger one period on from the snapshot's trigger. Both record
      the formatted run time. */
  function AfterFiring(row: Schedule, current: Schedule, taskId: string, c: Clock): (r: Schedule)
    ensures r.lastRunAt == Some(Stamp(c)) && r.taskId == Some(taskId)
    ensures row.recurrence == Once ==> r.status == Completed && r.trigger == current.trigger
    ensures row.recurrence != Once ==>
      r.status == current.status &&
      r.trigger == c.format(AdvanceTrigger(c.parse(row.trigger), row.recurrence, c.now))
    ensures r.id == current.id && r.owner == current.owner && r.intent == current.intent
    ensures r.recurrence == current.recurrence
  {
    if row.recurrence == Once then current.(status := Completed, lastRunAt := Some(Stamp(c)), taskId := Some(taskId))
    else current.(trigger := NextTrigger(row, c), lastRunAt := Some(Stamp(c)), taskId := Some(taskId))
  }

  function UpdateById(rows: seq<Schedule>, row: Schedule, taskId: string, c: Clock): (r: seq<Schedule>)
    ensures |r| == |rows|
    ensures forall j :: 0 <= j < |rows| ==>
      r[j] == if rows[j].id == row.id then AfterFiring(row, rows[j], taskId, c) else rows[j]
  {
    seq(|rows|, j requires 0 <= j < |rows| =>
      if rows[j].id == row.id then AfterFiring(row, rows[j], taskId, c) else rows[j])
  }

  /** The task a fired row creates: pending, for the row's owner and intent. */
  predicate ForRow(t: TaskStore.Task, row: Schedule) {
    t.owner == row.owner && t.intent == row.intent && t.status == TaskStore.Pending
  }

  /** One due row: create a task for its owner and intent, submit it, then
      update the row. A task id already taken fails before anything else. */
  function FireRow(w: World, row: Schedule, hex: string, c: Clock): Result<World, string> {
    match TaskStore.Create(w.store, row.owner, row.intent, "", hex, c.now)
    case Err(e) => Err(e)
    case Ok((store', t)) =>
      Ok(World(UpdateById(w.rows, row, t.id, c), store', TaskRunner.Submit(w.registry, t.id)))
  }

  /** What firing one row does: it fails exactly when the store refuses the
      new task, and otherwise stores a pending task for the row's owner and
      intent, submits it and rewrites the row with the task's id. */
  lemma FireRowEffect(w: World, row: Schedule, hex: string, c: Clock)
    ensures var r := FireRow(w, row, hex, c);
      && (TaskStore.Create(w.store, row.owner, row.intent, "", hex, c.now).Err? <==> r.Err?)
      && (r.Ok? ==>
           var created := TaskStore.Create(w.store, row.owner, row.intent, "", hex, c.now).value;
           && r.value.store == created.0
           && ForRow(created.1, row)
           && r.value.registry.running == w.registry.running + {created.1.id}
           && r.value.rows == UpdateById(w.rows, row, created.1.id, c))
  {
  }

  /** `w'` holds, after the tasks of `w`, one submitted task per row of
      `fired`, in order. */
  ghost predicate TasksFired(w: World, w': World, fired: seq<Schedule>) {
    && |w'.store.tasks| == |w.store.tasks| + |fired|
    && w.store.tasks <= w'.store.tasks
    && w.registry.running <= w'.registry.running
    && forall i :: 0 <= i < |fired| ==>
         ForRow(w'.store.tasks[|w.store.tasks| + i], fired[i]) && w'.store.tasks[|w.store.tasks| + i].id in w'.registry.running
  }

  /** In `w'` the rows whose id no fired row has are untouched, and (ids
      being unique) the row of the i-th fired schedule is that schedule
      after firing the i-th new task. */
  ghost predicate RowsFired(w: World, w': World, fired: seq<Schedule>, c: Clock)
    requires |w'.store.tasks| == |w.store.tasks| + |fired|
  {
    && |w'.rows| == |w.rows|
    && (forall j :: 0 <= j < |w.rows| && (forall i :: 0 <= i < |fired| ==> fired[i].id != w.rows[j].id) ==>
          w'.rows[j] == w.rows[j])
    && (UniqueIds(fired) ==>
          forall i, j :: 0 <= i < |fired| && 0 <= j < |w.rows| && w.rows[j].id == fired[i].id ==>
            w'.rows[j] == AfterFiring(fired[i], w.rows[j], w'.store.tasks[|w.store.tasks| + i].id, c))
  }

  ghost predicate Fired(w: World, w': World, fired: seq<Schedule>, c: Clock) {
    TasksFired(w, w', fired) && RowsFired(w, w', fired, c)
  }

  lemma FiredNothing(w: World, c: Clock)
    ensures Fired(w, w, [], c)
  {
  }

  /** Firing one row and then the rest is firing them all. */
  lemma FiredStep(w: World, row: Schedule, hex: string, c: Clock, w2: World, rest: seq<Schedule>)
    requires FireRow(w, row, hex, c).Ok?
    requires Fired(FireRow(w, row, hex, c).value, w2, rest, c)
    ensures Fired(w, w2, [row] + rest, c)
  {
    var w1 := FireRow(w, row, hex, c).value;
    FireRowEffect(w, row, hex, c);
    TasksStep(w, w1, w2, row, rest);
    RowsStep(w, w1, w2, row, rest, c);
  }

  /** `FiredStep` on a slice of the due rows. */
  lemma FiredSlice(w: World, due: seq<Schedule>, i: nat, j: nat, hex: string, c: Clock, w2: World)
    requires i < j <= |due|
    requires FireRow(w, due[i], hex, c).Ok?
    requires Fired(FireRow(w, due[i], hex, c).value, w2, due[i + 1..j], c)
    ensures Fired(w, w2, due[i..j], c)
  {
    FiredStep(w, due[i], hex, c, w2, due[i + 1..j]);
    assert [due[i]] + due[i + 1..j] == due[i..j];
  }

  lemma TasksStep(w: World, w1: World, w2: World, row: Schedule, rest: seq<Schedule>)
    requires |w1.store.tasks| == |w.store.tasks| + 1 && w.store.tasks <= w1.store.tasks
    requires ForRow(w1.store.tasks[|w.store.tasks|], row)
    requires w1.registry.running == w.registry.running + {w1.store.tasks[|w.store.tasks|].id}
    requires TasksFired(w1, w2, rest)
    ensures TasksFired(w, w2, [row] + rest)
  {
    var base, fired := |w.store.tasks|, [row] + rest;
    Seqs.PrefixTrans(w.store.tasks, w1.store.tasks, w2.store.tasks);
    assert w2.store.tasks[base] == w1.store.tasks[base];
    forall i | 0 <= i < |fired|
      ensures ForRow(w2.store.tasks[base + i], fired[i]) && w2.store.tasks[base + i].id in w2.registry.running
    {
      if i > 0 {
        assert fired[i] == rest[i - 1];
        assert w2.store.tasks[base + i] == w2.store.tasks[|w1.store.tasks| + (i - 1)];
      }
    }
  }

  lemma RowsStep(w: World, w1: World, w2: World, row: Schedule, rest: seq<Schedule>, c: Clock)
    requires |w1.store.tasks| == |w.store.tasks| + 1 && w.store.tasks <= w1.store.tasks
    requires TasksFired(w1, w2, rest)
    requires w1.rows == UpdateById(w.rows, row, w1.store.tasks[|w.store.tasks|].id, c)
    requires RowsFired(w1, w2, rest, c)
    ensures |w2.store.tasks| == |w.store.tasks| + |[row] + rest|
    ensures RowsFired(w, w2, [row] + rest, c)
  {
    UntouchedStep(w, w1, w2, row, rest, c);
    if UniqueIds([row] + rest) {
      FiredRowsStep(w, w1, w2, row, rest, c);
    }
  }

  lemma UntouchedStep(w: World, w1: World, w2: World, row: Schedule, rest: seq<Schedule>, c: Clock)
    requires |w1.store.tasks| == |w.store.tasks| + 1
    requires |w2.store.tasks| == |w1.store.tasks| + |rest|
    requires w1.rows == UpdateById(w.rows, row, w1.store.tasks[|w.store.tasks|].id, c)
    requires RowsFired(w1, w2, rest, c)
    ensures forall j :: 0 <= j < |w.rows| && (forall i :: 0 <= i < |[row] + rest| ==> ([row] + rest)[i].id != w.rows[j].id) ==>
              w2.rows[j] == w.rows[j]
  {
    var fired := [row] + rest;
    forall j | 0 <= j < |w.rows| && (forall i :: 0 <= i < |fired| ==> fired[i].id != w.rows[j].id)
      ensures w2.rows[j] == w.rows[j]
    {
      assert fired[0] == row;
      forall i | 0 <= i < |rest| ensures rest[i].id != w1.rows[j].id {
        assert fired[i + 1] == rest[i];
      }
    }
  }

  lemma FiredRowsStep(w: World, w1: World, w2: World, row: Schedule, rest: seq<Schedule>, c: Clock)
    requires |w1.store.tasks| == |w.store.tasks| + 1 && w.store.tasks <= w1.store.tasks
    requires TasksFired(w1, w2, rest)
    requires w1.rows == UpdateById(w.rows, row, w1.store.tasks[|w.store.tasks|].id, c)
    requires RowsFired(w1, w2, rest, c)
    requires UniqueIds([row] + rest)
    ensures forall i, j :: 0 <= i < |[row] + rest| && 0 <= j < |w.rows| && w.rows[j].id == ([row] + rest)[i].id ==>
              w2.rows[j] == AfterFiring(([row] + rest)[i], w.rows[j], w2.store.tasks[|w.store.tasks| + i].id, c)
  {
    var base, fired := |w.store.tasks|, [row] + rest;
    assert w2.store.tasks[base] == w1.store.tasks[base];
    assert UniqueIds(rest) by {
      forall a, b | 0 <= a < b < |rest| ensures rest[a].id != rest[b].id {
        assert fired[a + 1] == rest[a] && fired[b + 1] == rest[b];
      }
    }
    forall i, j | 0 <= i < |fired| && 0 <= j < |w.rows| && w.rows[j].id == fired[i].id
      ensures w2.rows[j] == AfterFiring(fired[i], w.rows[j], w2.store.tasks[base + i].id, c)
    {
      if i == 0 {
        forall k | 0 <= k < |rest| ensures rest[k].id != w1.rows[j].id {
          assert fired[k + 1] == rest[k];
        }
      } else {
        assert fired[i] == rest[i - 1] && fired[0] == row;
        assert w2.store.tasks[base + i] == w2.store.tasks[|w1.store.tasks| + (i - 1)];
      }
    }
  }

  /** The due rows from index `i` on fired in order, the i-th with the
      i-th UUID; the first failure ends the poll with what was done so far,
      the index it stopped at and the error. */
  function FireAll(w: World, due: seq<Schedule>, uuid: nat -> string, i: nat, c: Clock)
    : (r: (World, nat, Option<string>))
    requires i <= |due|
    decreases |due| - i
  {
    if i == |due| then (w, i, None)
    else
      match FireRow(w, due[i], uuid(i), c)
      case Err(e) => (w, i, Some(e))
      case Ok(w1) => FireAll(w1, due, uuid, i + 1, c)
  }

  /** A poll fires the rows from `i` up to where it stopped, and stops
      short exactly when it reports an error. */
  lemma {:induction false} FireAllCount(w: World, due: seq<Schedule>, uuid: nat -> string, i: nat, c: Clock,
                                        r: (World, nat, Option<string>))
    requires i <= |due| && r == FireAll(w, due, uuid, i, c)
    ensures i <= r.1 <= |due|
    ensures r.2.None? <==> r.1 == |due|
    decreases |due| - i
  {
    if i < |due| && FireRow(w, due[i], uuid(i), c).Ok? {
      var w1 := FireRow(w, due[i], uuid(i), c).value;
      FireAllCount(w1, due, uuid, i + 1, c, r);
    }
  }

  /** The error that ends a poll early is the failure of the row it
      stopped at, with the draw it was given. */
  lemma {:induction false} FireAllStops(w: World, due: seq<Schedule>, uuid: nat -> string, i: nat, c: Clock,
                                        r: (World, nat, Option<string>))
    requires i <= |due| && r == FireAll(w, due, uuid, i, c)
    ensures r.2.Some? ==> r.1 < |due| && FireRow(r.0, due[r.1], uuid(r.1), c).Err?
    decreases |due| - i
  {
    if i < |due| && FireRow(w, due[i], uuid(i), c).Ok? {
      var w1 := FireRow(w, due[i], uuid(i), c).value;
      FireAllStops(w1, due, uuid, i + 1, c, r);
    }
  }

  /** Everything a poll did is the firing of the rows it went through. */
  lemma {:induction false} FireAllFired(w: World, due: seq<Schedule>, uuid: nat -> string, i: nat, c: Clock,
                                        r: (World, nat, Option<string>))
    requires i <= |due| && r == FireAll(w, due, uuid, i, c)
    ensures i <= r.1 <= |due|
    ensures Fired(w, r.0, due[i..r.1], c)
    decreases |due| - i
  {
    if i == |due| || FireRow(w, due[i], uuid(i), c).Err? {
      FiredNothing(w, c);
    } else {
      var w1 := FireRow(w, due[i], uuid(i), c).value;
      FireAllFired(w1, due, uuid, i + 1, c, r);
      FiredSlice(w, due, i, r.1, uuid(i), c, r.0);
    }
  }

  /** `_check_due_tasks`: the due rows of a snapshot taken first, each
      fired once. Returns the world, the number of tasks created and the
      error that ended the poll early, if any. */
  function CheckDue(w: World, uuid: nat -> string, c: Clock): (r: (World, nat, Option<string>))
    ensures r.1 <= |DueRows(w.rows, Stamp(c))|
    ensures r.2.None? <==> r.1 == |DueRows(w.rows, Stamp(c))|
    ensures Fired(w, r.0, DueRows(w.rows, Stamp(c))[..r.1], c)
    ensures r.2.Some? ==> TaskStore.Get(r.0.store, Take(uuid(r.1), 12)).Some?
    ensures DueRows(w.rows, Stamp(c)) == [] ==> r.0 == w && r.2.None?
  {
    var due := DueRows(w.rows, Stamp(c));
    var r := FireAll(w, due, uuid, 0, c);
    FireAllCount(w, due, uuid, 0, c, r);
    FireAllFired(w, due, uuid, 0, c, r);
    FireAllStops(w, due, uuid, 0, c, r);
    assert due[0..r.1] == due[..r.1];
    if r.2.Some? then FireRowEffect(r.0, due[r.1], uuid(r.1), c); r else r
  }

  /** One iteration of `_poll_loop`: an error is logged and swallowed, so
      the rows fired before it keep their tasks and updates. */
  function Poll(w: World, uuid: nat -> string, c: Clock): (r: World)
    ensures exists n :: 0 <= n <= |DueRows(w.rows, Stamp(c))| && Fired(w, r, DueRows(w.rows, Stamp(c))[..n], c)
  {
    var (w', n, _) := CheckDue(w, uuid, c);
    w'
  }

  /** The `n` draws from `k` on name no stored task and differ from one
      another in their first 12 digits. */
  ghost predicate FreshDraws(s: TaskStore.Store, uuid: nat -> string, k: nat, n: nat) {
    && (forall a :: k <= a < k + n ==> TaskStore.Get(s, Take(uuid(a), 12)).None?)
    && (forall a, b :: k <= a < b < k + n ==> Take(uuid(a), 12) != Take(uuid(b), 12))
  }

  /** A fresh draw fires its row, and the draws after it stay fresh. */
  lemma FreshStep(w: World, due: seq<Schedule>, uuid: nat -> string, i: nat, c: Clock)
    requires i < |due| && FreshDraws(w.store, uuid, i, |due| - i)
    ensures FireRow(w, due[i], uuid(i), c).Ok?
    ensures FreshDraws(FireRow(w, due[i], uuid(i), c).value.store, uuid, i + 1, |due| - (i + 1))
  {
    assert TaskStore.Get(w.store, Take(uuid(i), 12)).None?;
    FireRowEffect(w, due[i], uuid(i), c);
    var w1 := FireRow(w, due[i], uuid(i), c).value;
    var t := w1.store.tasks[|w.store.tasks|];
    assert w1.store.tasks == w.store.tasks + [t] && t.id == Take(uuid(i), 12);
    forall a | i + 1 <= a < i + 1 + (|due| - (i + 1)) ensures TaskStore.Get(w1.store, Take(uuid(a), 12)).None? {
      assert TaskStore.Get(w.store, Take(uuid(a), 12)).None?;
      assert Take(uuid(i), 12) != Take(uuid(a), 12);
    }
  }

  lemma {:induction false} FireAllFresh(w: World, due: seq<Schedule>, uuid: nat -> string, i: nat, c: Clock)
    requires i <= |due| && FreshDraws(w.store, uuid, i, |due| - i)
    ensures FireAll(w, due, uuid, i, c).2.None?
    decreases |due| - i
  {
    if i < |due| {
      FreshStep(w, due, uuid, i, c);
      FireAllFresh(FireRow(w, due[i], uuid(i), c).value, due, uuid, i + 1, c);
    }
  }

  /** With fresh task ids the poll fires every due row: one pending,
      submitted task per due row, for its owner and intent, and every due
      row updated. */
  lemma PollFiresAll(w: World, uuid: nat -> string, c: Clock)
    requires FreshDraws(w.store, uuid, 0, |DueRows(w.rows, Stamp(c))|)
    ensures CheckDue(w, uuid, c).2.None?
    ensures Fired(w, Poll(w, uuid, c), DueRows(w.rows, Stamp(c)), c)
  {
    var due := DueRows(w.rows, Stamp(c));
    FireAllFresh(w, due, uuid, 0, c);
    assert due[0..|due|] == due;
  }

  /** A due one-off schedule alone in the table fires once: the poll
      creates one task, submits it, and completes the schedule, which is
      then no longer due. */
  lemma OnceFiresOnce(w: World, row: Schedule, uuid: nat -> string, c: Clock)
    requires w.rows == [row] && Due(row, Stamp(c)) && row.recurrence == Once
    requires TaskStore.Create(w.store, row.owner, row.intent, "", uuid(0), c.now).Ok?
    ensures var (w', n, err) := CheckDue(w, uuid, c);
            && err.None? && n == 1
            && w'.rows[0].status == Completed && w'.rows[0].lastRunAt == Some(Stamp(c))
            && w'.rows[0].taskId == Some(w'.store.tasks[|w.store.tasks|].id)
            && w'.store.tasks[|w.store.tasks|].id in w'.registry.running
            && !Due(w'.rows[0], Stamp(c))
  {
    assert DueRows(w.rows, Stamp(c)) == [row];
    var w1 := FireRow(w, row, uuid(0), c).value;
    assert FireAll(w1, [row], uuid, 1, c).0 == w1;
  }

  /** A recurring schedule moves one period on from its previous trigger,
      not from now: one that fell several periods behind stays due and
      fires again at the next poll. */
  lemma RecurringCatchesUp(w: World, row: Schedule, uuid: nat -> string, c: Clock, t: int)
    requires w.rows == [row] && Due(row, Stamp(c)) && row.recurrence == Daily
    requires c.parse(row.trigger) == Some(t) && t + Day <= c.now && OrderedFormat(c.format)
    requires TaskStore.Create(w.store, row.owner, row.intent, "", uuid(0), c.now).Ok?
    ensures var (w', n, err) := CheckDue(w, uuid, c);
            && n == 1 && w'.rows[0].trigger == c.format(t + Day)
            && Due(w'.rows[0], Stamp(c))
  {
    assert DueRows(w.rows, Stamp(c)) == [row];
    var w1 := FireRow(w, row, uuid(0), c).value;
    assert FireAll(w1, [row], uuid, 1, c).0 == w1;
    assert LexLe(c.format(t + Day), c.format(c.now));
  }

  /** `create_schedule_static`: a new active schedule with a 12-hex id and
      the trigger text stored as given. A recurrence outside the column's
      domain, or an id already taken, is rejected and nothing is written. */
  function CreateSchedule(rows: seq<Schedule>, owner: string, intent: string, trigger: string, recurrence: string,
                          uuidHex: string): (r: Result<(seq<Schedule>, string), string>)
    ensures ParseRecurrence(recurrence).None? ==> r.Err?
    ensures (exists j :: 0 <= j < |rows| && rows[j].id == Take(uuidHex, 12)) ==> r.Err?
    ensures r.Ok? ==>
      && r.value.1 == Take(uuidHex, 12)
      && r.value.0 == rows + [Schedule(Take(uuidHex, 12), owner, intent, trigger, ParseRecurrence(recurrence).value,
                                        Active, None, None)]
    ensures r.Err? ==> ParseRecurrence(recurrence).None? || exists j :: 0 <= j < |rows| && rows[j].id == Take(uuidHex, 12)
  {
    var id := Take(uuidHex, 12);
    match ParseRecurrence(recurrence)
    case None => Err("CHECK constraint failed: recurrence")
    case Some(rec) =>
      if Seqs.FirstIndex(rows, (s: Schedule) => s.id == id).Some? then Err("UNIQUE constraint failed: scheduled_tasks.id")
      else Ok((rows + [Schedule(id, owner, intent, trigger, rec, Active, None, None)], id))
  }

  /** A new schedule is due at the next poll exactly when its trigger text
      sorts at or before the clock's text. */
  lemma CreatedIsDue(rows: seq<Schedule>, owner: string, intent: string, trigger: string, recurrence: string,
                     uuidHex: string, nowText: string)
    requires CreateSchedule(rows, owner, intent, trigger, recurrence, uuidHex).Ok?
    ensures var rows' := CreateSchedule(rows, owner, intent, trigger, recurrence, uuidHex).value.0;
            rows'[|rows|] in DueRows(rows', nowText) <==> LexLe(trigger, nowText)
  {
  }
}

=== FILE: seqs.dfy ===
/** Sequence combinators shared by the stores: filtering (the `WHERE` of a
    query), counting (`COUNT(*)`), subsequences, and a stable sort
    (`ORDER BY`, Python's `sorted`). */
module Seqs {
  import opened Wrappers

  function Filter<T(!new)>(xs: seq<T>, p: T -> bool): (r: seq<T>)
    ensures |r| <= |xs|
    ensures forall i :: 0 <= i < |r| ==> p(r[i])
    ensures forall x :: x in r <==> x in xs && p(x)
    decreases |xs|
  {
    if |xs| == 0 then []
    else (if p(xs[0]) then [xs[0]] else []) + Filter(xs[1..], p)
  }

  function Count<T>(xs: seq<T>, p: T -> bool): nat
    decreases |xs|
  {
    if |xs| == 0 then 0 else (if p(xs[0]) then 1 else 0) + Count(xs[1..], p)
  }

  lemma {:induction false} FilterCount<T(!new)>(xs: seq<T>, p: T -> bool)
    ensures |Filter(xs, p)| == Count(xs, p)
    decreases |xs|
  {
    if |xs| > 0 {
      FilterCount(xs[1..], p);
    }
  }

  /** Filtering keeps every copy of a kept element and none of the others. */
  lemma {:induction false} FilterMultiplicity<T(!new)>(xs: seq<T>, p: T -> bool)
    ensures forall x :: multiset(Filter(xs, p))[x] == if p(x) then multiset(xs)[x] else 0
    decreases |xs|
  {
    if |xs| > 0 {
      FilterMultiplicity(xs[1..], p);
      assert xs == [xs[0]] + xs[1..];
      assert multiset(xs) == multiset{xs[0]} + multiset(xs[1..]);
      var head: seq<T> := if p(xs[0]) then [xs[0]] else [];
      assert multiset(Filter(xs, p)) == multiset(head) + multiset(Filter(xs[1..], p));
    }
  }

  /** Filtering two permutations of each other gives permutations of
      each other. */
  lemma FilterPerm<T(!new)>(xs: seq<T>, ys: seq<T>, p: T -> bool)
    requires multiset(xs) == multiset(ys)
    ensures multiset(Filter(xs, p)) == multiset(Filter(ys, p))
  {
    FilterMultiplicity(xs, p);
    FilterMultiplicity(ys, p);
    assert forall x :: multiset(Filter(xs, p))[x] == multiset(Filter(ys, p))[x];
  }

  lemma {:induction false} CountNone<T>(xs: seq<T>, p: T -> bool)
    requires forall i :: 0 <= i < |xs| ==> !p(xs[i])
    ensures Count(xs, p) == 0
    decreases |xs|
  {
    if |xs| > 0 {
      CountNone(xs[1..], p);
    }
  }

  lemma {:induction false} FilterAppend<T(!new)>(xs: seq<T>, ys: seq<T>, p: T -> bool)
    ensures Filter(xs + ys, p) == Filter(xs, p) + Filter(ys, p)
    decreases |xs|
  {
    if |xs| > 0 {
      assert (xs + ys)[1..] == xs[1..] + ys;
      FilterAppend(xs[1..], ys, p);
    } else {
      assert xs + ys == ys;
    }
  }

  /** Filtering a list with one more element at its end. */
  lemma FilterSnoc<T(!new)>(xs: seq<T>, x: T, p: T -> bool)
    ensures Filter(xs + [x], p) == Filter(xs, p) + (if p(x) then [x] else [])
  {
    FilterAppend(xs, [x], p);
    assert [x][1..] == [];
  }

  /** `Filter` written from the end of the list: the form a loop that
      appends as it goes builds. */
  function FilterBack<T>(xs: seq<T>, p: T -> bool): seq<T>
    decreases |xs|
  {
    if |xs| == 0 then []
    else FilterBack(xs[..|xs| - 1], p) + if p(xs[|xs| - 1]) then [xs[|xs| - 1]] else []
  }

  /** `FilterBack` of a list with one more element at its end. */
  lemma FilterBackSnoc<T>(xs: seq<T>, x: T, p: T -> bool)
    ensures FilterBack(xs + [x], p) == FilterBack(xs, p) + if p(x) then [x] else []
  {
    assert (xs + [x])[..|xs|] == xs;
  }

  lemma {:induction false} FilterBackIsFilter<T(!new)>(xs: seq<T>, p: T -> bool)
    ensures FilterBack(xs, p) == Filter(xs, p)
    decreases |xs|
  {
    if |xs| > 0 {
      var init, x := xs[..|xs| - 1], xs[|xs| - 1];
      FilterBackIsFilter(init, p);
      assert init + [x] == xs;
      FilterSnoc(init, x, p);
    }
  }

  lemma {:induction false} CountAppend<T>(xs: seq<T>, ys: seq<T>, p: T -> bool)
    ensures Count(xs + ys, p) == Count(xs, p) + Count(ys, p)
    decreases |xs|
  {
    if |xs| > 0 {
      assert (xs + ys)[1..] == xs[1..] + ys;
      CountAppend(xs[1..], ys, p);
    } else {
      assert xs + ys == ys;
    }
  }

  /** The index of the first element satisfying `p`. */
  function FirstIndex<T>(xs: seq<T>, p: T -> bool): (r: Option<nat>)
    ensures r.Some? ==> r.value < |xs| && p(xs[r.value])
    ensures r.Some? ==> forall j :: 0 <= j < r.value ==> !p(xs[j])
    ensures r.None? <==> forall j :: 0 <= j < |xs| ==> !p(xs[j])
    decreases |xs|
  {
    if |xs| == 0 then None
    else if p(xs[0]) then Some(0)
    else
      var rest := FirstIndex(xs[1..], p);
      if rest.Some? then Some(rest.value + 1) else None
  }

  /** The first index is the one before which nothing satisfies `p`. */
  lemma FirstIndexAt<T>(xs: seq<T>, p: T -> bool, k: nat)
    requires k < |xs| && p(xs[k])
    requires forall j :: 0 <= j < k ==> !p(xs[j])
    ensures FirstIndex(xs, p) == Some(k)
  {
    var r := FirstIndex(xs, p);
    assert r.Some?;
    assert !(r.value < k);
    assert !(r.value > k);
  }

  /** Being a prefix is transitive. */
  lemma PrefixTrans<T>(a: seq<T>, b: seq<T>, c: seq<T>)
    requires |a| <= |b| <= |c| && b[..|a|] == a && c[..|b|] == b
    ensures c[..|a|] == a
  {
    assert forall i :: 0 <= i < |a| ==> c[i] == b[i];
  }

  /** `a` is obtained from `b` by deleting elements: same relative order. */
  ghost predicate SubseqOf<T>(a: seq<T>, b: seq<T>)
    decreases |b|
  {
    if |a| == 0 then true
    else if |b| == 0 then false
    else (a[0] == b[0] && SubseqOf(a[1..], b[1..])) || SubseqOf(a, b[1..])
  }

  lemma {:induction false} FilterIsSubseq<T(!new)>(xs: seq<T>, p: T -> bool)
    ensures SubseqOf(Filter(xs, p), xs)
    decreases |xs|
  {
    if |xs| > 0 {
      FilterIsSubseq(xs[1..], p);
      var r := Filter(xs, p);
      if p(xs[0]) {
        assert r[0] == xs[0] && r[1..] == Filter(xs[1..], p);
      } else {
        assert r == Filter(xs[1..], p);
      }
    }
  }

  /** A comparator that is total and transitive. */
  ghost predicate TotalPreorder<T(!new)>(le: (T, T) -> bool) {
    && (forall a, b :: le(a, b) || le(b, a))
    && (forall a, b, c :: le(a, b) && le(b, c) ==> le(a, c))
  }

  ghost predicate Sorted<T>(xs: seq<T>, le: (T, T) -> bool) {
    forall i, j :: 0 <= i < j < |xs| ==> le(xs[i], xs[j])
  }

  /** `r` is `xs` with exactly the elements failing `p` left out: every copy
      of a kept element stays, none of the others, in their order. */
  ghost predicate KeptFrom<T(!new)>(r: seq<T>, xs: seq<T>, p: T -> bool) {
    && SubseqOf(r, xs)
    && forall x :: multiset(r)[x] == if p(x) then multiset(xs)[x] else 0
  }

  lemma FilterKeeps<T(!new)>(xs: seq<T>, p: T -> bool)
    ensures KeptFrom(Filter(xs, p), xs, p)
  {
    FilterIsSubseq(xs, p);
    FilterMultiplicity(xs, p);
  }

  lemma {:induction false} SubseqMultiset<T>(a: seq<T>, b: seq<T>)
    requires SubseqOf(a, b)
    ensures multiset(a) <= multiset(b)
    decreases |b|
  {
    if |a| > 0 {
      assert b == [b[0]] + b[1..];
      if a[0] == b[0] && SubseqOf(a[1..], b[1..]) {
        SubseqMultiset(a[1..], b[1..]);
        assert a == [a[0]] + a[1..];
      } else {
        SubseqMultiset(a, b[1..]);
      }
    }
  }

  /** `KeptFrom` pins the result down: the only such sequence is `Filter`. */
  lemma {:induction false} KeptFromIsFilter<T(!new)>(r: seq<T>, xs: seq<T>, p: T -> bool)
    requires KeptFrom(r, xs, p)
    ensures r == Filter(xs, p)
    decreases |xs|
  {
    if |xs| > 0 {
      var h, t := xs[0], xs[1..];
      assert xs == [h] + t;
      assert multiset(xs) == multiset{h} + multiset(t);
      if |r| > 0 && r[0] == h && SubseqOf(r[1..], t) {
        assert r == [h] + r[1..];
        assert multiset(r) == multiset{h} + multiset(r[1..]);
        assert p(h) by {
          assert multiset(r)[h] > 0;
        }
        KeptFromIsFilter(r[1..], t, p);
      } else {
        assert SubseqOf(r, t);
        SubseqMultiset(r, t);
        assert multiset(r)[h] <= multiset(t)[h] < multiset(xs)[h];
        KeptFromIsFilter(r, t, p);
      }
    }
  }

  /** The last element kept by a filter is the last element of `xs` that
      passes `p`: nothing after it passes. */
  lemma {:induction false} LastOfFilter<T(!new)>(xs: seq<T>, p: T -> bool)
    requires Filter(xs, p) != []
    ensures exists i :: 0 <= i < |xs| && xs[i] == Filter(xs, p)[|Filter(xs, p)| - 1]
                        && forall j :: i < j < |xs| ==> !p(xs[j])
    decreases |xs|
  {
    var r, rest := Filter(xs, p), Filter(xs[1..], p);
    if rest != [] {
      LastOfFilter(xs[1..], p);
      var k :| 0 <= k < |xs[1..]| && xs[1..][k] == rest[|rest| - 1]
               && forall j :: k < j < |xs[1..]| ==> !p(xs[1..][j]);
      assert xs[k + 1] == r[|r| - 1];
      forall j | k + 1 < j < |xs| ensures !p(xs[j]) {
        assert xs[j] == xs[1..][j - 1];
      }
    } else {
      assert r == [xs[0]];
      forall j | 0 < j < |xs| ensures !p(xs[j]) {
        assert xs[j] in xs[1..];
      }
    }
  }

  /** Filtering keeps a sorted sequence sorted. */
  lemma {:induction false} FilterSorted<T(!new)>(xs: seq<T>, p: T -> bool, le: (T, T) -> bool)
    requires Sorted(xs, le)
    ensures Sorted(Filter(xs, p), le)
    decreases |xs|
  {
    if |xs| > 0 {
      var rest := Filter(xs[1..], p);
      FilterSorted(xs[1..], p, le);
      if p(xs[0]) {
        var r := Filter(xs, p);
        assert r == [xs[0]] + rest;
        forall k | 0 <= k < |rest| ensures le(xs[0], rest[k]) {
          assert rest[k] in xs[1..];
          var m :| 0 <= m < |xs[1..]| && xs[1..][m] == rest[k];
          assert xs[m + 1] == rest[k];
        }
      }
    }
  }

  /** Predicates that agree on the elements filter alike. */
  lemma {:induction false} FilterCongruent<T(!new)>(xs: seq<T>, p: T -> bool, q: T -> bool)
    requires forall i :: 0 <= i < |xs| ==> p(xs[i]) == q(xs[i])
    ensures Filter(xs, p) == Filter(xs, q)
    decreases |xs|
  {
    if |xs| > 0 {
      FilterCongruent(xs[1..], p, q);
    }
  }

  /** Inserts `x` in front of the first element it is `le` to, so that an
      element inserted later (taken earlier from the input) precedes its
      equals: the sort below is stable. */
  function Insert<T>(x: T, ys: seq<T>, le: (T, T) -> bool): (r: seq<T>)
    ensures multiset(r) == multiset(ys) + multiset{x}
    ensures |r| == |ys| + 1
    decreases |ys|
  {
    if |ys| == 0 || le(x, ys[0]) then [x] + ys
    else
      var rest := Insert(x, ys[1..], le);
      assert ys == [ys[0]] + ys[1..];
      [ys[0]] + rest
  }

  lemma {:induction false} InsertSorted<T(!new)>(x: T, ys: seq<T>, le: (T, T) -> bool)
    requires TotalPreorder(le)
    requires Sorted(ys, le)
    ensures Sorted(Insert(x, ys, le), le)
    decreases |ys|
  {
    if |ys| == 0 || le(x, ys[0]) {
    } else {
      var rest := Insert(x, ys[1..], le);
      InsertSorted(x, ys[1..], le);
      assert le(ys[0], x);
      forall k | 0 <= k < |rest| ensures le(ys[0], rest[k]) {
        assert rest[k] in multiset(rest);
        assert rest[k] == x || rest[k] in multiset(ys[1..]);
        if rest[k] != x {
          var m :| 0 <= m < |ys[1..]| && ys[1..][m] == rest[k];
          assert ys[1..][m] == ys[m + 1];
        }
      }
    }
  }

  /** Stable insertion sort: a permutation of `xs`, ordered by `le`. */
  function SortBy<T(!new)>(xs: seq<T>, le: (T, T) -> bool): (r: seq<T>)
    requires TotalPreorder(le)
    ensures multiset(r) == multiset(xs)
    ensures Sorted(r, le)
    decreases |xs|
  {
    if |xs| == 0 then []
    else
      var tail := SortBy(xs[1..], le);
      InsertSorted(xs[0], tail, le);
      assert xs == [xs[0]] + xs[1..];
      Insert(xs[0], tail, le)
  }

  /** Sorting keeps exactly the elements it was given. */
  lemma SortByMembers<T(!new)>(xs: seq<T>, le: (T, T) -> bool)
    requires TotalPreorder(le)
    ensures forall x :: x in SortBy(xs, le) <==> x in xs
  {
    var r := SortBy(xs, le);
    assert forall x :: x in r <==> x in multiset(r);
    assert forall x :: x in xs <==> x in multiset(xs);
  }

  /** Sorting the elements that satisfy `p`: exactly those, each as often
      as in `xs`. */
  lemma SortFilterContents<T(!new)>(xs: seq<T>, p: T -> bool, le: (T, T) -> bool)
    requires TotalPreorder(le)
    ensures forall x :: x in SortBy(Filter(xs, p), le) <==> x in xs && p(x)
    ensures forall x :: multiset(SortBy(Filter(xs, p), le))[x] == if p(x) then multiset(xs)[x] else 0
  {
    FilterMultiplicity(xs, p);
    SortByMembers(Filter(xs, p), le);
  }

  /** Lists with the same multiset have the same members. */
  lemma SameMembers<T>(a: seq<T>, b: seq<T>)
    requires multiset(a) == multiset(b)
    ensures forall x :: x in a <==> x in b
  {
    assert forall x :: x in a <==> x in multiset(a);
    assert forall x :: x in b <==> x in multiset(b);
  }

  /** The first `limit` elements in `le` order, all of them when `limit`
      is negative (SQLite's `ORDER BY ... LIMIT ?`). */
  function TopBy<T(!new)>(xs: seq<T>, le: (T, T) -> bool, limit: int): (r: seq<T>)
    requires TotalPreorder(le)
    ensures Sorted(r, le)
    ensures multiset(r) <= multiset(xs)
    ensures limit < 0 ==> multiset(r) == multiset(xs)
    ensures limit >= 0 ==> |r| == if limit < |xs| then limit else |xs|
    ensures forall x, i :: x in xs && x !in r && 0 <= i < |r| ==> le(r[i], x)
  {
    var s := SortBy(xs, le);
    var k := if limit < 0 || limit > |s| then |s| else limit;
    SortByMembers(xs, le);
    SortedPrefixFirst(s, le, k);
    assert s == s[..k] + s[k..];
    assert multiset(s) == multiset(s[..k]) + multiset(s[k..]);
    s[..k]
  }

  /** In a sorted list, what is left out of a prefix comes after all of
      it. */
  lemma SortedPrefixFirst<T>(s: seq<T>, le: (T, T) -> bool, k: nat)
    requires Sorted(s, le) && k <= |s|
    ensures forall x, i :: x in s && x !in s[..k] && 0 <= i < k ==> le(s[..k][i], x)
  {
    forall x, i | x in s && x !in s[..k] && 0 <= i < k ensures le(s[..k][i], x) {
      var j :| 0 <= j < |s| && s[j] == x;
      assert forall m :: 0 <= m < k ==> s[..k][m] == s[m];
      assert k <= j;
    }
  }
}

=== FILE: shared_tools.dfy ===
/** The personal agents' tools (personal_agents/shared_tools.py) that
    carry decisions: contact search and its scoring, the trust gate of
    `add_contact`, the turn-budget gate and ledger writes of
    `send_message_to_contact`, and the small input normalisers. The tools
    run for one agent, `agentId`; the remote agent's reply to a send is
    the parameter `response`. */
module SharedTools {
  import opened Wrappers
  import opened Text
  import opened Seqs
  import Contacts
  import DbContacts
  import opened Inbox
  import opened InteractionContext
  import opened ConversationIds
  import opened Platform
  import A2aClient

  // ─── Contact search ──────────────────────────────────────────

  predicate IsTermChar(c: char) {
    IsLowerLetter(c) || IsDigit(c)
  }

  /** Length of the run of `[a-z0-9]` characters at the start of `s`. */
  function RunLength(s: string): (n: nat)
    ensures n <= |s|
    ensures forall i :: 0 <= i < n ==> IsTermChar(s[i])
    ensures n == |s| || !IsTermChar(s[n])
  {
    if |s| == 0 || !IsTermChar(s[0]) then 0 else 1 + RunLength(s[1..])
  }

  /** `[t for t in re.split(r"[^a-z0-9]+", s) if t]`: the maximal runs of
      `[a-z0-9]`. */
  function Tokens(s: string): (r: seq<string>)
    ensures forall k :: 0 <= k < |r| ==> |r[k]| > 0
    ensures forall k, j :: 0 <= k < |r| && 0 <= j < |r[k]| ==> IsTermChar(r[k][j])
    decreases |s|
  {
    if |s| == 0 then []
    else if !IsTermChar(s[0]) then Tokens(s[1..])
    else
      var n := RunLength(s);
      [s[..n]] + Tokens(s[n..])
  }

  /** The fixed synonym map. */
  function Synonyms(t: string): seq<string> {
    if t == "mobile" then ["phone", "smartphone", "electronics"]
    else if t == "phone" then ["mobile", "smartphone", "electronics"]
    else if t == "smartphone" then ["phone", "mobile", "electronics"]
    else if t == "laptop" then ["computer", "electronics"]
    else if t == "book" then ["books", "reading"]
    else if t == "food" then ["restaurant", "delivery", "grocery", "cuisine"]
    else if t == "shoes" then ["footwear", "sneakers", "running"]
    else []
  }

  /** `t` is a synonym of one of the tokens in `raw`. */
  predicate SynonymOfAny(raw: seq<string>, t: string)
    decreases |raw|
  {
    |raw| > 0 && (t in Synonyms(raw[0]) || SynonymOfAny(raw[1..], t))
  }

  function Expansions(raw: seq<string>): (r: seq<string>)
    ensures forall t :: t in r <==> SynonymOfAny(raw, t)
    decreases |raw|
  {
    if |raw| == 0 then [] else Synonyms(raw[0]) + Expansions(raw[1..])
  }

  /** The distinct elements of `xs`. */
  function Distinct(xs: seq<string>): (r: seq<string>)
    ensures forall t :: t in r <==> t in xs
    ensures forall i, j :: 0 <= i < j < |r| ==> r[i] != r[j]
    decreases |xs|
  {
    if |xs| == 0 then []
    else if xs[0] in xs[1..] then Distinct(xs[1..])
    else [xs[0]] + Distinct(xs[1..])
  }

  /** The search terms of a query: its tokens after strip and lower-casing,
      plus the synonyms of each token, each term once. */
  function Terms(query: string): (r: seq<string>)
    ensures forall t :: t in r <==> t in Tokens(Lower(Strip(query))) || SynonymOfAny(Tokens(Lower(Strip(query))), t)
    ensures forall i, j :: 0 <= i < j < |r| ==> r[i] != r[j]
  {
    var raw := Tokens(Lower(Strip(query)));
    Distinct(raw + Expansions(raw))
  }

  predicate AnyContains(tags: seq<string>, t: string) {
    exists k :: 0 <= k < |tags| && Contains(tags[k], t)
  }

  /** One term's contribution, doubled so that it is an integer: 8 for an
      exact tag, else 5 for a tag containing the term; 4 for the name and 3
      for the description containing it. */
  function TermScore(c: Contacts.Contact, t: string): (r: nat)
    ensures r <= 15
    ensures t in Contacts.LowerAll(c.tags) && t != "" ==> r >= 8
    ensures t != "" && Contains(Lower(c.name), t) ==> r >= 4
    ensures r > 0 <==> t != "" && (AnyContains(Contacts.LowerAll(c.tags), t) || Contains(Lower(c.name), t)
                                   || Contains(Lower(c.description), t))
  {
    var tags := Contacts.LowerAll(c.tags);
    if t == "" then 0
    else
      assert t in tags ==> AnyContains(tags, t) by {
        if t in tags {
          var k :| 0 <= k < |tags| && tags[k] == t;
          ContainsSelf(t);
        }
      }
      (if t in tags then 8 else if AnyContains(tags, t) then 5 else 0)
      + (if Contains(Lower(c.name), t) then 4 else 0)
      + (if Contains(Lower(c.description), t) then 3 else 0)
  }

  function Score(c: Contacts.Contact, terms: seq<string>): (r: nat)
    ensures r > 0 <==> exists k :: 0 <= k < |terms| && TermScore(c, terms[k]) > 0
    decreases |terms|
  {
    if |terms| == 0 then 0
    else
      var rest := Score(c, terms[1..]);
      assert rest > 0 <==> exists k :: 1 <= k < |terms| && TermScore(c, terms[k]) > 0 by {
        if rest > 0 {
          var k :| 0 <= k < |terms[1..]| && TermScore(c, terms[1..][k]) > 0;
          assert terms[1..][k] == terms[k + 1];
        }
        if exists k :: 1 <= k < |terms| && TermScore(c, terms[k]) > 0 {
          var k :| 1 <= k < |terms| && TermScore(c, terms[k]) > 0;
          assert terms[1..][k - 1] == terms[k];
        }
      }
      TermScore(c, terms[0]) + rest
  }

  /** Scoring reads the contact lower-cased: changing the case of its name
      and description does not change its score. */
  lemma {:induction false} ScoreIgnoresCase(c: Contacts.Contact, terms: seq<string>)
    ensures Score(c.(name := Lower(c.name), description := Lower(c.description)), terms) == Score(c, terms)
    decreases |terms|
  {
    LowerIdempotent(c.name);
    LowerIdempotent(c.description);
    if |terms| > 0 {
      ScoreIgnoresCase(c, terms[1..]);
    }
  }

  datatype Scored = Scored(contact: Contacts.Contact, score: nat)

  function HigherFirst(a: Scored, b: Scored): bool {
    a.score >= b.score
  }

  function ScoreAll(cs: seq<Contacts.Contact>, terms: seq<string>): (r: seq<Scored>)
    ensures |r| == |cs|
    ensures forall i :: 0 <= i < |cs| ==> r[i] == Scored(cs[i], Score(cs[i], terms))
  {
    seq(|cs|, i requires 0 <= i < |cs| => Scored(cs[i], Score(cs[i], terms)))
  }

  function ContactsOf(ss: seq<Scored>): (r: seq<Contacts.Contact>)
    ensures |r| == |ss|
    ensures forall i :: 0 <= i < |ss| ==> r[i] == ss[i].contact
  {
    seq(|ss|, i requires 0 <= i < |ss| => ss[i].contact)
  }

  /** The scored contacts with a positive score, highest first. */
  function Ranked(cs: seq<Contacts.Contact>, terms: seq<string>): (r: seq<Scored>)
    ensures forall s :: s in r <==> s in ScoreAll(cs, terms) && s.score > 0
    ensures forall i, j :: 0 <= i < j < |r| ==> r[i].score >= r[j].score
  {
    var scored := ScoreAll(cs, terms);
    assert TotalPreorder(HigherFirst);
    var ranked := SortBy(scored, HigherFirst);
    assert forall s :: s in ranked <==> s in scored by {
      assert forall s :: s in ranked <==> s in multiset(ranked);
    }
    FilterKeepsOrder(ranked, (s: Scored) => s.score > 0);
    Filter(ranked, (s: Scored) => s.score > 0)
  }

  lemma RankedScores(cs: seq<Contacts.Contact>, terms: seq<string>)
    ensures forall i :: 0 <= i < |Ranked(cs, terms)| ==>
      Ranked(cs, terms)[i].score == Score(Ranked(cs, terms)[i].contact, terms) > 0
  {
    var r := Ranked(cs, terms);
    forall i | 0 <= i < |r| ensures r[i].score == Score(r[i].contact, terms) > 0 {
      assert r[i] in r;
      var k :| 0 <= k < |cs| && ScoreAll(cs, terms)[k] == r[i];
    }
  }

  lemma RankedContacts(cs: seq<Contacts.Contact>, terms: seq<string>)
    ensures forall c :: c in ContactsOf(Ranked(cs, terms)) <==> c in cs && Score(c, terms) > 0
  {
    var r := Ranked(cs, terms);
    var scored := ScoreAll(cs, terms);
    forall c ensures c in ContactsOf(r) <==> c in cs && Score(c, terms) > 0 {
      if c in ContactsOf(r) {
        var i :| 0 <= i < |r| && ContactsOf(r)[i] == c;
        assert r[i] in r;
        var k :| 0 <= k < |scored| && scored[k] == r[i];
      }
      if c in cs && Score(c, terms) > 0 {
        var k :| 0 <= k < |cs| && cs[k] == c;
        assert scored[k] in scored;
        assert scored[k] in r;
        var i :| 0 <= i < |r| && r[i] == scored[k];
        assert ContactsOf(r)[i] == c;
      }
    }
  }

  /** Nothing is ranked exactly when no contact scores. */
  lemma RankedNoneIff(cs: seq<Contacts.Contact>, terms: seq<string>)
    ensures Ranked(cs, terms) == [] <==> forall c :: c in cs ==> Score(c, terms) == 0
  {
    var hits := Ranked(cs, terms);
    RankedContacts(cs, terms);
    if hits == [] {
      forall c | c in cs ensures Score(c, terms) == 0 {
        assert c !in ContactsOf(hits);
      }
    } else {
      assert ContactsOf(hits)[0] in ContactsOf(hits);
    }
  }

  function ScoresOf(ss: seq<Scored>): (r: seq<nat>)
    ensures |r| == |ss|
    ensures forall i :: 0 <= i < |ss| ==> r[i] == ss[i].score
  {
    seq(|ss|, i requires 0 <= i < |ss| => ss[i].score)
  }

  datatype SearchOutcome =
    | NeedTerm
    | NoneFound
    | Found(matches: seq<Contacts.Contact>, scores: seq<nat>)

  /** The ranking step of the search for a non-empty query's terms. */
  function SearchTerms(cs: seq<Contacts.Contact>, terms: seq<string>): (r: SearchOutcome)
    ensures r != NeedTerm
    ensures r.Found? ==> |r.matches| == |r.scores| > 0
    ensures r.Found? ==> forall c :: c in r.matches <==> c in cs && Score(c, terms) > 0
    ensures r.Found? ==> forall i :: 0 <= i < |r.matches| ==> r.scores[i] == Score(r.matches[i], terms) > 0
    ensures r.Found? ==> forall i, j :: 0 <= i < j < |r.scores| ==> r.scores[i] >= r.scores[j]
    ensures r == NoneFound <==> forall c :: c in cs ==> Score(c, terms) == 0
  {
    var hits := Ranked(cs, terms);
    RankedScores(cs, terms);
    RankedContacts(cs, terms);
    RankedNoneIff(cs, terms);
    if hits == [] then NoneFound
    else Found(ContactsOf(hits), ScoresOf(hits))
  }

  /** `search_contacts_by_tag` over the agent's contacts `cs`: the contacts
      with a positive score, highest score first. */
  function Search(cs: seq<Contacts.Contact>, tag: string): (r: SearchOutcome)
    ensures r == NeedTerm <==> Lower(Strip(tag)) == ""
    ensures r.Found? ==> |r.matches| == |r.scores| > 0
    ensures r.Found? ==> forall c :: c in r.matches <==> c in cs && Score(c, Terms(tag)) > 0
    ensures r.Found? ==> forall i :: 0 <= i < |r.matches| ==> r.scores[i] == Score(r.matches[i], Terms(tag)) > 0
    ensures r.Found? ==> forall i, j :: 0 <= i < j < |r.scores| ==> r.scores[i] >= r.scores[j]
    ensures r == NoneFound <==> Lower(Strip(tag)) != "" && forall c :: c in cs ==> Score(c, Terms(tag)) == 0
  {
    if Lower(Strip(tag)) == "" then NeedTerm else SearchTerms(cs, Terms(tag))
  }

  /** Filtering keeps a sorted list sorted. */
  lemma {:induction false} FilterKeepsOrder(xs: seq<Scored>, p: Scored -> bool)
    requires forall i, j :: 0 <= i < j < |xs| ==> HigherFirst(xs[i], xs[j])
    ensures forall i, j :: 0 <= i < j < |Filter(xs, p)| ==> Filter(xs, p)[i].score >= Filter(xs, p)[j].score
    decreases |xs|
  {
    if |xs| > 0 {
      FilterKeepsOrder(xs[1..], p);
      var rest := Filter(xs[1..], p);
      forall j | 0 <= j < |rest| ensures xs[0].score >= rest[j].score {
        assert rest[j] in xs[1..];
      }
    }
  }

  function TypeName(t: Contacts.ContactType): string {
    match t
    case Personal => "personal"
    case Merchant => "merchant"
  }

  function MatchLines(cs: seq<Contacts.Contact>): (r: seq<string>)
    ensures |r| == |cs|
  {
    seq(|cs|, i requires 0 <= i < |cs| => "- " + cs[i].name + " (" + TypeName(cs[i].ctype) + ") — " + cs[i].description)
  }

  /** The tool's reply text. */
  function RenderSearch(tag: string, r: SearchOutcome): string {
    match r
    case NeedTerm => "Please provide a search term."
    case NoneFound => "No contacts found with tag '" + tag + "'."
    case Found(ms, _) => Join(MatchLines(ms), "\n")
  }

  /** A query for "mobile" reaches a contact tagged "phone" through the
      synonym map. */
  lemma SynonymReach(c: Contacts.Contact, query: string)
    requires c.tags == ["phone"]
    requires Lower(Strip(query)) == "mobile"
    ensures Score(c, Terms(query)) >= 8
  {
    MobileTerm(query);
    var terms := Terms(query);
    var k :| 0 <= k < |terms| && terms[k] == "phone";
    PhoneTagged(c);
    ScoreAtLeast(c, terms, k);
  }

  lemma MobileTerm(query: string)
    requires Lower(Strip(query)) == "mobile"
    ensures "phone" in Terms(query)
  {
    var m := "mobile";
    assert forall i :: 0 <= i < |m| ==> IsTermChar(m[i]);
    SingleToken(m);
    assert SynonymOfAny([m], "phone");
  }

  lemma PhoneTagged(c: Contacts.Contact)
    requires c.tags == ["phone"]
    ensures TermScore(c, "phone") >= 8
  {
    var ph := "phone";
    assert forall i :: 0 <= i < |ph| ==> !IsUpper(ph[i]);
    LowerNoUpper(ph);
    var tags := Contacts.LowerAll(c.tags);
    assert tags[0] == Lower(c.tags[0]) == ph;
    assert ph in tags;
  }

  /** A non-empty run of term characters is a single token. */
  lemma SingleToken(s: string)
    requires |s| > 0 && forall i :: 0 <= i < |s| ==> IsTermChar(s[i])
    ensures Tokens(s) == [s]
  {
    RunLengthFull(s);
    assert s[..|s|] == s && s[|s|..] == [];
  }

  lemma {:induction false} RunLengthFull(s: string)
    requires forall i :: 0 <= i < |s| ==> IsTermChar(s[i])
    ensures RunLength(s) == |s|
    decreases |s|
  {
    if |s| > 0 {
      RunLengthFull(s[1..]);
    }
  }

  lemma {:induction false} ScoreAtLeast(c: Contacts.Contact, terms: seq<string>, k: nat)
    requires k < |terms|
    ensures Score(c, terms) >= TermScore(c, terms[k])
    decreases |terms|
  {
    if k > 0 {
      ScoreAtLeast(c, terms[1..], k - 1);
    }
  }

  // ─── add_contact ─────────────────────────────────────────────

  /** A tag as `add_contact` keeps it: non-empty and already stripped. */
  predicate CleanTag(t: string) {
    t != "" && t[0] !in Whitespace && t[|t| - 1] !in Whitespace
  }

  /** The non-empty stripped pieces of a comma-separated list. */
  function CleanPieces(pieces: seq<string>): (r: seq<string>)
    ensures |r| <= |pieces|
    decreases |pieces|
  {
    if |pieces| == 0 then []
    else
      var t := Strip(pieces[0]);
      (if t != "" then [t] else []) + CleanPieces(pieces[1..])
  }

  lemma {:induction false} CleanPiecesClean(pieces: seq<string>)
    ensures forall k :: 0 <= k < |CleanPieces(pieces)| ==> CleanTag(CleanPieces(pieces)[k])
    decreases |pieces|
  {
    if |pieces| > 0 {
      StripEnds(pieces[0]);
      CleanPiecesClean(pieces[1..]);
    }
  }

  /** Stripping never introduces a character. */
  lemma {:induction false} CleanPiecesAvoid(pieces: seq<string>, c: char)
    requires forall p :: p in pieces ==> c !in p
    ensures forall t :: t in CleanPieces(pieces) ==> c !in t
    decreases |pieces|
  {
    if |pieces| > 0 {
      StripAvoids(pieces[0], c);
      CleanPiecesAvoid(pieces[1..], c);
    }
  }

  /** The tag list of `add_contact`. */
  function SplitTags(tags: string): (r: seq<string>)
    ensures tags == "" ==> r == []
    ensures forall k :: 0 <= k < |r| ==> CleanTag(r[k]) && ',' !in r[k]
  {
    if tags == "" then []
    else
      var pieces := Split(tags, ',');
      SplitJoin(tags, ',');
      assert forall p :: p in pieces ==> ',' !in p;
      CleanPiecesAvoid(pieces, ',');
      CleanPiecesClean(pieces);
      var r := CleanPieces(pieces);
      assert forall k :: 0 <= k < |r| ==> r[k] in r;
      r
  }

  lemma {:induction false} CleanClean(ts: seq<string>)
    requires forall k :: 0 <= k < |ts| ==> CleanTag(ts[k])
    ensures CleanPieces(ts) == ts
    decreases |ts|
  {
    if |ts| > 0 {
      StripCharsEnds(ts[0], Whitespace);
      CleanClean(ts[1..]);
      assert ts == [ts[0]] + ts[1..];
    }
  }

  /** Joining a tag list with commas and splitting it again gives the same
      list: the tag list is a fixed point of its own parsing. */
  lemma SplitTagsStable(tags: string)
    ensures SplitTags(Join(SplitTags(tags), ",")) == SplitTags(tags)
  {
    var ts := SplitTags(tags);
    if ts != [] {
      JoinSplit(ts, ',');
      assert Join(ts, ",") != "" by {
        JoinNonEmpty(ts, ",");
      }
      CleanClean(ts);
    }
  }

  lemma {:induction false} JoinNonEmpty(ts: seq<string>, sep: string)
    requires |ts| > 0 && ts[0] != ""
    ensures Join(ts, sep) != ""
  {
    if |ts| > 1 {
      assert Join(ts, sep) == ts[0] + sep + Join(ts[1..], sep);
      assert Join(ts, sep)[0] == ts[0][0];
    }
  }

  const MissingUrl: string := "Refused to add contact: missing agent_card_url."
  const UntrustedUrl: string :=
    "Refused to add contact: agent_card_url is not trusted. Only platform users or pre-registered agents can be added."

  function ParseContactType(raw: string): Option<Contacts.ContactType> {
    if raw == "personal" then Some(Contacts.Personal)
    else if raw == "merchant" then Some(Contacts.Merchant)
    else None
  }

  /** A URL the contact book may hold: a platform user, or one of the
      card URLs of the registered agents. */
  predicate Trusted(url: string, registered: set<string>) {
    StartsWith(url, UserScheme) || url in registered
  }

  /** `add_contact`: the card URL (stripped) must be present and trusted;
      a type outside personal/merchant fails the record's validation
      (`Err`). The stored URL is the argument as given. */
  function AddContact(rows: seq<DbContacts.ContactRow>, agentId: string, registered: set<string>,
                      name: string, agentCardUrl: string, contactType: string, description: string,
                      tags: string): (r: Result<(seq<DbContacts.ContactRow>, string), string>)
    ensures Strip(agentCardUrl) == "" ==> r == Ok((rows, MissingUrl))
    ensures Strip(agentCardUrl) != "" && !Trusted(Strip(agentCardUrl), registered) ==> r == Ok((rows, UntrustedUrl))
    ensures Strip(agentCardUrl) != "" && Trusted(Strip(agentCardUrl), registered) ==>
      match ParseContactType(contactType)
      case None => r.Err?
      case Some(t) =>
        r == Ok(DbContacts.Add(rows, agentId,
                  Contacts.Contact(name, t, agentCardUrl, description, SplitTags(tags), Contacts.Unknown)))
    ensures r.Ok? && r.value.0 != rows ==> Trusted(Strip(agentCardUrl), registered)
  {
    var url := Strip(agentCardUrl);
    if url == "" then Ok((rows, MissingUrl))
    else if !Trusted(url, registered) then Ok((rows, UntrustedUrl))
    else match ParseContactType(contactType)
      case None => Err("contact type must be 'personal' or 'merchant'")
      case Some(t) =>
        Ok(DbContacts.Add(rows, agentId, Contacts.Contact(name, t, agentCardUrl, description, SplitTags(tags), Contacts.Unknown)))
  }

  // ─── send_message_to_contact ─────────────────────────────────

  /** What a send tells the agent: the budget is spent, the contact is
      unknown, or the remote agent's response. */
  datatype SendReply = TurnLimitReached | ContactNotFound(name: string) | Response(text: string)

  /** The reply as the tool returns it. */
  function ReplyText(r: SendReply): string {
    match r
    case TurnLimitReached => "Turn limit reached. Pausing further outreach."
    case ContactNotFound(name) =>
      "Contact '" + name + "' not found in your contacts. Use get_my_contacts to see available contacts."
    case Response(text) => text
  }

  datatype Sent = Sent(ledger: Ledger, ctx: Context, reply: SendReply, call: Option<A2aClient.RemoteCall>)

  /** The URL a contact is reached at: platform users via their card URL. */
  function ContactUrl(url: string): (r: string)
    ensures !StartsWith(url, UserScheme) ==> r == url
    ensures StartsWith(url, UserScheme) ==> r == AgentCardUrl(SchemeHandle(url))
  {
    if StartsWith(url, UserScheme) then AgentCardUrl(SchemeHandle(url)) else url
  }

  /** The thread id the remote side sees: the ambient one if set and
      non-empty, else one derived from this agent and the target URL. */
  function RemoteThreadId(ctx: Context, agentId: string, url: string, sha1: string -> string): (r: string)
    ensures ctx.conversationId.Some? && ctx.conversationId.value != "" ==> r == ctx.conversationId.value
    ensures ctx.conversationId.None? || ctx.conversationId.value == "" ==> r == A2aThreadId(agentId, url, sha1)
  {
    if ctx.conversationId.Some? && ctx.conversationId.value != "" then ctx.conversationId.value
    else A2aThreadId(agentId, url, sha1)
  }

  predicate Exhausted(ctx: Context) {
    ctx.turnBudget.Some? && ctx.turnBudget.value <= 0
  }

  /** The budget after a permitted send: one less when limited. */
  function Spend(ctx: Context): (r: Context)
    ensures ctx.turnBudget.None? ==> r == ctx
    ensures ctx.turnBudget.Some? ==> r == Decrement(ctx).0
  {
    if ctx.turnBudget.Some? then Decrement(ctx).0 else ctx
  }

  function ReplySenderType(t: Contacts.ContactType): string {
    if t == Contacts.Merchant then "merchant" else "friend"
  }

  /** The sender's copy of a send: the thread is ensured, then one
      outbound row addressed to the agent itself. */
  function LogSend(l: Ledger, thread: string, agentId: string, peer: string, message: string, now: int): (r: Ledger)
    ensures |r.rows| == |l.rows| + 1 && r.rows[..|l.rows|] == l.rows
    ensures r.rows[|l.rows|] == Message(l.nextId, thread, agentId, agentId, Friend, Outbound, message, Unread, [], now, None)
    ensures r.nextId == l.nextId + 1
    ensures Valid(l) ==> Valid(r)
  {
    var l1 := EnsureConversation(l, thread, agentId, peer, now);
    DeliverAs(l1, agentId, agentId, Friend, message, thread, Outbound, now).0
  }

  /** The reply's copy: one inbound row addressed to the agent, from the
      contact, typed merchant exactly for a merchant contact. */
  function LogReply(l: Ledger, thread: string, agentId: string, c: Contacts.Contact, response: string, now: int): (r: Ledger)
    ensures |r.rows| == |l.rows| + 1 && r.rows[..|l.rows|] == l.rows
    ensures r.rows[|l.rows|] == Message(l.nextId, thread, agentId, c.name,
                                        if c.ctype == Contacts.Merchant then Merchant else Friend,
                                        Inbound, response, Unread, [], now, None)
    ensures Valid(l) ==> Valid(r)
  {
    ReplyTypeNormalized(c.ctype);
    Deliver(l, agentId, c.name, ReplySenderType(c.ctype), response, thread, Inbound, now).0
  }

  /** A send to a contact that was found. In the chat channel the budget is
      checked before anything is written; in any other channel the outbound
      copy is written first, so a refused send still leaves that row. */
  function SendTo(agentId: string, l: Ledger, ctx: Context, sha1: string -> string, c: Contacts.Contact,
                  message: string, response: string, now: int): (r: Sent)
    ensures Exhausted(ctx) ==> r.reply == TurnLimitReached && r.ctx == ctx && r.call.None?
    ensures Exhausted(ctx) && ctx.channel == "chat" ==> r.ledger == l
    ensures Exhausted(ctx) && ctx.channel != "chat" ==>
      |r.ledger.rows| == |l.rows| + 1 &&
      r.ledger.rows[|l.rows|].direction == Outbound && r.ledger.rows[|l.rows|].message == message
    ensures !Exhausted(ctx) ==>
      var url := ContactUrl(c.agentCardUrl);
      && r.ctx == Spend(ctx)
      && r.reply == Response(response)
      && r.call == Some(A2aClient.RemoteCall(url, message, agentId, AgentCardUrl(agentId), "personal",
                                   RemoteThreadId(ctx, agentId, url, sha1)))
      && |r.ledger.rows| == |l.rows| + 2
      && r.ledger.rows[|l.rows|].direction == Outbound
      && r.ledger.rows[|l.rows|].message == message
      && r.ledger.rows[|l.rows| + 1].direction == Inbound
      && r.ledger.rows[|l.rows| + 1].message == response
      && r.ledger.rows[|l.rows| + 1].senderName == c.name
      && (r.ledger.rows[|l.rows| + 1].senderType == Merchant <==> c.ctype == Contacts.Merchant)
    ensures |l.rows| <= |r.ledger.rows| <= |l.rows| + 2 && r.ledger.rows[..|l.rows|] == l.rows
    ensures |r.ledger.rows| > |l.rows| ==>
      r.ledger.rows[|l.rows|].recipientId == agentId &&
      r.ledger.rows[|l.rows|].conversationId == PairThreadId(agentId, c.name)
    ensures |r.ledger.rows| > |l.rows| + 1 ==>
      r.ledger.rows[|l.rows| + 1].recipientId == agentId &&
      r.ledger.rows[|l.rows| + 1].conversationId == PairThreadId(agentId, c.name)
    ensures Valid(l) ==> Valid(r.ledger)
  {
    var url := ContactUrl(c.agentCardUrl);
    var call := A2aClient.RemoteCall(url, message, agentId, AgentCardUrl(agentId), "personal", RemoteThreadId(ctx, agentId, url, sha1));
    var thread := PairThreadId(agentId, c.name);
    if ctx.channel == "chat" && Exhausted(ctx) then Sent(l, ctx, TurnLimitReached, None)
    else
      var l1 := LogSend(l, thread, agentId, c.name, message, now);
      if Exhausted(ctx) then Sent(l1, ctx, TurnLimitReached, None)
      else
        var l2 := LogReply(l1, thread, agentId, c, response, now);
        PrefixTrans(l.rows, l1.rows, l2.rows);
        Sent(l2, Spend(ctx), Response(response), Some(call))
  }

  /** `send_message_to_contact`: an unknown contact changes nothing;
      otherwise the send to the contact found. */
  function SendMessageToContact(rows: seq<DbContacts.ContactRow>, agentId: string, l: Ledger, ctx: Context,
                                sha1: string -> string, contactName: string, message: string,
                                response: string, now: int): (r: Sent)
    ensures DbContacts.Find(rows, agentId, contactName).None? ==>
      r == Sent(l, ctx, ContactNotFound(contactName), None)
    ensures Exhausted(ctx) && ctx.channel == "chat" ==> r.ledger == l && r.ctx == ctx && r.call.None?
    ensures Exhausted(ctx) ==> r.ctx == ctx && r.call.None?
    ensures !Exhausted(ctx) && r.call.Some? ==> r.ctx == Spend(ctx)
    ensures r.call.None? ==> r.ctx == ctx
    ensures |r.ledger.rows| >= |l.rows| && r.ledger.rows[..|l.rows|] == l.rows
    ensures Valid(l) ==> Valid(r.ledger)
  {
    match DbContacts.Find(rows, agentId, contactName)
    case None => Sent(l, ctx, ContactNotFound(contactName), None)
    case Some(c) => SendTo(agentId, l, ctx, sha1, c, message, response, now)
  }

  lemma ReplyTypeNormalized(t: Contacts.ContactType)
    ensures NormalizeSenderType(ReplySenderType(t)) == if t == Contacts.Merchant then Merchant else Friend
  {
    if t == Contacts.Merchant {
      NormalizeRoundTrip(Merchant);
    } else {
      NormalizeRoundTrip(Friend);
    }
  }

  /** The number of remote calls made by a series of sends. */
  function CallsMade(rows: seq<DbContacts.ContactRow>, agentId: string, l: Ledger, ctx: Context,
                     sha1: string -> string, contactName: string, messages: seq<string>,
                     response: string, now: int): nat
    decreases |messages|
  {
    if |messages| == 0 then 0
    else
      var s := SendMessageToContact(rows, agentId, l, ctx, sha1, contactName, messages[0], response, now);
      (if s.call.Some? then 1 else 0) + CallsMade(rows, agentId, s.ledger, s.ctx, sha1, contactName, messages[1..], response, now)
  }

  /** A turn budget of `b` lets at most `b` messages out, however many sends
      the agent attempts and in whichever channel. */
  lemma {:induction false} BudgetBoundsCalls(rows: seq<DbContacts.ContactRow>, agentId: string, l: Ledger, ctx: Context,
                                             sha1: string -> string, contactName: string, messages: seq<string>,
                                             response: string, now: int)
    requires ctx.turnBudget.Some? && ctx.turnBudget.value >= 0
    ensures CallsMade(rows, agentId, l, ctx, sha1, contactName, messages, response, now) <= ctx.turnBudget.value
    decreases |messages|
  {
    if |messages| > 0 {
      var s := SendMessageToContact(rows, agentId, l, ctx, sha1, contactName, messages[0], response, now);
      if s.call.Some? {
        assert !Exhausted(ctx);
        assert s.ctx.turnBudget == Some(ctx.turnBudget.value - 1);
      } else {
        assert s.ctx == ctx || s.ctx == Spend(ctx);
      }
      BudgetBoundsCalls(rows, agentId, s.ledger, s.ctx, sha1, contactName, messages[1..], response, now);
    }
  }

  // ─── Normalisers ─────────────────────────────────────────────

  /** `query_mssql`'s read-only gate. */
  predicate ReadOnlyQuery(q: string) {
    StartsWith(Upper(Strip(q)), "SELECT") || StartsWith(Upper(Strip(q)), "WITH")
  }

  lemma UpperLower(s: string)
    ensures Upper(Lower(s)) == Upper(s)
  {
  }

  /** The gate ignores the case of the query. */
  lemma ReadOnlyQueryCaseless(q: string)
    ensures ReadOnlyQuery(Lower(q)) == ReadOnlyQuery(q)
  {
    LowerTrimStart(q);
    LowerTrimEnd(TrimStart(q, Whitespace));
    assert Strip(Lower(q)) == Lower(Strip(q));
    UpperLower(Strip(q));
  }

  /** `add_memory`'s sentiment: one of the four known values, else neutral. */
  function NormalizeSentiment(s: string): (r: string)
    ensures r in {"positive", "negative", "neutral", "mixed"}
    ensures s in {"positive", "negative", "neutral", "mixed"} ==> r == s
  {
    if s in {"positive", "negative", "neutral", "mixed"} then s else "neutral"
  }

  const PostTypes: set<string> :=
    {"purchase", "recommendation", "review", "research", "inquiry", "note", "preference", "contact_exchange"}

  /** `post_to_feed`'s post type: a known type, else note. */
  function NormalizePostType(t: string): (r: string)
    ensures r in PostTypes
    ensures t in PostTypes ==> r == t
  {
    if t in PostTypes then t else "note"
  }

  /** `react_to_feed_post` accepts exactly these reaction types. */
  predicate ValidReaction(t: string) {
    t in {"like", "interesting", "helpful"}
  }
}

=== FILE: simulation.dfy ===
/** The demo simulation engine (app/services/simulation.py): each cycle a
    merchant sends one promo, or one user shares a discovery with or asks
    a question of another. The engine's random draws (which action, which
    merchant, which pair of users, which template) are the fields of an
    `Action`; the clock is a parameter of each cycle. */
module Simulation {
  import opened Wrappers
  import opened Text
  import opened Inbox
  import Seqs
  import DbContacts
  import ConversationIds

  /** A row of `SELECT handle, display_name FROM users`. */
  datatype SimUser = SimUser(handle: string, displayName: Option<string>)

  /** `display_name or handle`: a missing or empty display name falls back
      to the handle. */
  function SenderName(u: SimUser): (r: string)
    ensures u.displayName.Some? && u.displayName.value != "" ==> r == u.displayName.value
    ensures u.displayName.None? || u.displayName.value == "" ==> r == u.handle
  {
    if u.displayName.Some? && u.displayName.value != "" then u.displayName.value else u.handle
  }

  /** `_conv_id`: one thread per unordered pair of names, whatever their
      case. */
  function ConvId(a: string, b: string): (r: string)
    ensures StartsWith(r, "conv_")
  {
    ConversationIds.PairThreadId(a, b)
  }

  /** Either side may be named first, in any case. */
  lemma ConvIdSymmetric(a: string, b: string)
    ensures ConvId(a, b) == ConvId(b, a)
    ensures ConvId(Lower(a), Lower(b)) == ConvId(a, b)
  {
    ConversationIds.PairKeySymmetric(a, b);
  }

  // ─── Friend messages ────────────────────────────────────────

  /** Both rows of a friend message carry the pair's thread. */
  predicate FriendCopies(o: Message, i: Message, sender: string, recipient: string, senderName: string, message: string) {
    && o.recipientId == sender && o.senderName == sender && o.direction == Outbound
    && i.recipientId == recipient && i.senderName == senderName && i.direction == Inbound
    && o.message == message && i.message == message
    && o.senderType == Friend && i.senderType == Friend
    && o.conversationId == ConvId(sender, recipient) && i.conversationId == ConvId(sender, recipient)
  }

  /** `_deliver_friend_message`: the pair's thread made sure of, then an
      outbound copy for the sender and an inbound copy for the recipient,
      in that order, and nothing else. */
  function DeliverFriendMessage(l: Ledger, sender: string, recipient: string, senderName: string,
                                message: string, now: int): (r: Ledger)
    ensures |r.rows| == |l.rows| + 2 && r.rows[..|l.rows|] == l.rows
    ensures FriendCopies(r.rows[|l.rows|], r.rows[|l.rows| + 1], sender, recipient, senderName, message)
    ensures HasConversation(r, ConvId(sender, recipient))
    ensures Valid(l) ==> Valid(r)
  {
    var conv := ConvId(sender, recipient);
    DeliverCopies(EnsureConversation(l, conv, sender, recipient, now), sender, recipient, senderName, message, conv, now)
  }

  /** `r` is `l` with the two copies of a friend message in thread `conv`. */
  predicate TwoCopies(l: Ledger, r: Ledger, sender: string, recipient: string, senderName: string,
                      message: string, conv: string) {
    && |r.rows| == |l.rows| + 2 && r.rows[..|l.rows|] == l.rows
    && r.rows[|l.rows|].recipientId == sender && r.rows[|l.rows|].senderName == sender
    && r.rows[|l.rows|].direction == Outbound && r.rows[|l.rows|].message == message
    && r.rows[|l.rows| + 1].recipientId == recipient && r.rows[|l.rows| + 1].senderName == senderName
    && r.rows[|l.rows| + 1].direction == Inbound && r.rows[|l.rows| + 1].message == message
    && r.rows[|l.rows|].senderType == Friend && r.rows[|l.rows| + 1].senderType == Friend
    && r.rows[|l.rows|].conversationId == conv && r.rows[|l.rows| + 1].conversationId == conv
  }

  lemma TwoCopiesOf(l: Ledger, r: Ledger, m1: Message, m2: Message, sender: string, recipient: string,
                    senderName: string, message: string, conv: string)
    requires r.rows == l.rows + [m1] + [m2]
    requires m1.recipientId == sender && m1.senderName == sender && m1.direction == Outbound
    requires m2.recipientId == recipient && m2.senderName == senderName && m2.direction == Inbound
    requires m1.message == message && m2.message == message && m1.senderType == Friend && m2.senderType == Friend
    requires m1.conversationId == conv && m2.conversationId == conv
    ensures TwoCopies(l, r, sender, recipient, senderName, message, conv)
  {
    assert r.rows[..|l.rows|] == l.rows;
  }

  /** The two copies of a friend message in thread `conv`. */
  function DeliverCopies(l: Ledger, sender: string, recipient: string, senderName: string,
                         message: string, conv: string, now: int): (r: Ledger)
    ensures TwoCopies(l, r, sender, recipient, senderName, message, conv)
    ensures HasConversation(l, conv) ==> HasConversation(r, conv)
    ensures Valid(l) ==> Valid(r)
  {
    var (l1, m1) := DeliverAs(l, sender, sender, Friend, message, conv, Outbound, now);
    var (l2, m2) := DeliverAs(l1, recipient, senderName, Friend, message, conv, Inbound, now);
    KeepsConversation(l, sender, sender, message, conv, Outbound, now);
    KeepsConversation(l1, recipient, senderName, message, conv, Inbound, now);
    TwoCopiesOf(l, l2, m1, m2, sender, recipient, senderName, message, conv);
    l2
  }

  /** Delivery keeps the ids of the conversations, so a known thread stays
      known. */
  lemma KeepsConversation(l: Ledger, recipientId: string, senderName: string, message: string,
                          conv: string, direction: Direction, now: int)
    ensures HasConversation(l, conv) ==>
      HasConversation(DeliverAs(l, recipientId, senderName, Friend, message, conv, direction, now).0, conv)
  {
    var l' := DeliverAs(l, recipientId, senderName, Friend, message, conv, direction, now).0;
    if HasConversation(l, conv) {
      var i :| 0 <= i < |l.conversations| && l.conversations[i].id == conv;
      assert l'.conversations[i].id == conv;
    }
  }

  /** `_friend_share` and `_friend_question` after their draws: nothing
      with fewer than two users, otherwise the message from user `s` to
      user `t`, two distinct draws of `random.sample`. The two differ only
      in the text they compose. */
  function FriendMessage(l: Ledger, users: seq<SimUser>, s: nat, t: nat, message: string, now: int): (r: Ledger)
    requires |users| >= 2 ==> s < |users| && t < |users| && s != t
    ensures |users| < 2 ==> r == l
    ensures |users| >= 2 ==>
      && |r.rows| == |l.rows| + 2 && r.rows[..|l.rows|] == l.rows
      && FriendCopies(r.rows[|l.rows|], r.rows[|l.rows| + 1],
                      users[s].handle, users[t].handle, SenderName(users[s]), message)
    ensures Valid(l) ==> Valid(r)
  {
    if |users| < 2 then l
    else DeliverFriendMessage(l, users[s].handle, users[t].handle, SenderName(users[s]), message, now)
  }

  /** Handles are the users table's primary key. */
  predicate UniqueHandles(users: seq<SimUser>) {
    forall i, j :: 0 <= i < j < |users| ==> users[i].handle != users[j].handle
  }

  /** Nobody messages themself: the two copies go to two different users. */
  lemma FriendMessageTwoUsers(l: Ledger, users: seq<SimUser>, s: nat, t: nat, message: string, now: int)
    requires |users| >= 2 && s < |users| && t < |users| && s != t
    requires UniqueHandles(users)
    ensures var r := FriendMessage(l, users, s, t, message, now);
      r.rows[|l.rows|].recipientId != r.rows[|l.rows| + 1].recipientId
  {
    if s > t {
      assert users[t].handle != users[s].handle;
    }
  }

  // ─── Merchant promos ────────────────────────────────────────

  /** `SELECT 1 FROM contacts WHERE owner_agent_id = ? AND name = ?` */
  predicate HasMerchant(contacts: seq<DbContacts.ContactRow>, handle: string, merchant: string) {
    exists k :: 0 <= k < |contacts| && contacts[k].owner == handle && contacts[k].name == merchant
  }

  /** The first user, in table order, with the merchant among its contacts. */
  function PromoTarget(users: seq<SimUser>, contacts: seq<DbContacts.ContactRow>, merchant: string): (r: Option<nat>)
    ensures r.Some? ==> r.value < |users| && HasMerchant(contacts, users[r.value].handle, merchant)
    ensures r.Some? ==> forall j :: 0 <= j < r.value ==> !HasMerchant(contacts, users[j].handle, merchant)
    ensures r.None? <==> forall j :: 0 <= j < |users| ==> !HasMerchant(contacts, users[j].handle, merchant)
  {
    Seqs.FirstIndex(users, (u: SimUser) => HasMerchant(contacts, u.handle, merchant))
  }

  /** `_merchant_promo` after its draws: the promo goes, as one inbound
      merchant row, to the first user who has the merchant as a contact,
      and to nobody when no user has. */
  function MerchantPromo(l: Ledger, users: seq<SimUser>, contacts: seq<DbContacts.ContactRow>,
                         merchant: string, promo: string, now: int): (r: Ledger)
    ensures PromoTarget(users, contacts, merchant).None? ==> r == l
    ensures PromoTarget(users, contacts, merchant).Some? ==>
      PromoRow(l, r, users[PromoTarget(users, contacts, merchant).value].handle, merchant, promo)
    ensures Valid(l) ==> Valid(r)
  {
    var target := PromoTarget(users, contacts, merchant);
    if target.None? then l else SendPromo(l, users[target.value].handle, merchant, promo, now)
  }

  /** `r` is `l` with one more row: the promo, inbound from the merchant
      to `handle`, in their pair's thread. */
  predicate PromoRow(l: Ledger, r: Ledger, handle: string, merchant: string, promo: string) {
    && |r.rows| == |l.rows| + 1 && r.rows[..|l.rows|] == l.rows
    && r.rows[|l.rows|].recipientId == handle
    && r.rows[|l.rows|].senderName == merchant
    && r.rows[|l.rows|].senderType == Merchant
    && r.rows[|l.rows|].direction == Inbound
    && r.rows[|l.rows|].message == promo
    && r.rows[|l.rows|].conversationId == ConvId(merchant, handle)
  }

  /** The promo delivered to `handle` with sender type "merchant". */
  function SendPromo(l: Ledger, handle: string, merchant: string, promo: string, now: int): (r: Ledger)
    ensures PromoRow(l, r, handle, merchant, promo)
    ensures Valid(l) ==> Valid(r)
  {
    var conv := ConvId(merchant, handle);
    var l0 := EnsureConversation(l, conv, merchant, handle, now);
    var (l1, m) := DeliverAs(l0, handle, merchant, Merchant, promo, conv, Inbound, now);
    assert l1.rows[..|l.rows|] == l.rows;
    l1
  }

  /** A promo reaches at most one user, and only one who has the merchant
      as a contact. */
  lemma PromoAtMostOne(l: Ledger, users: seq<SimUser>, contacts: seq<DbContacts.ContactRow>,
                       merchant: string, promo: string, now: int)
    ensures var r := MerchantPromo(l, users, contacts, merchant, promo, now);
      && |l.rows| <= |r.rows| <= |l.rows| + 1
      && (|r.rows| > |l.rows| ==> HasMerchant(contacts, r.rows[|l.rows|].recipientId, merchant))
  {
  }

  // ─── Cycles ─────────────────────────────────────────────────

  /** The draws of one `_act`. */
  datatype Action =
    | Promo(merchant: string, promo: string)
    | Share(sender: nat, recipient: nat, message: string)
    | Question(sender: nat, recipient: nat, message: string)

  /** What `random.sample(users, 2)` guarantees of the drawn pair. */
  predicate Drawable(a: Action, users: seq<SimUser>) {
    !a.Promo? && |users| >= 2 ==> a.sender < |users| && a.recipient < |users| && a.sender != a.recipient
  }

  /** `_act`: nothing without users, otherwise the drawn action. */
  function Act(l: Ledger, users: seq<SimUser>, contacts: seq<DbContacts.ContactRow>, a: Action, now: int): (r: Ledger)
    requires Drawable(a, users)
    ensures |users| == 0 ==> r == l
    ensures |r.rows| <= |l.rows| + 2 && (|l.rows| <= |r.rows| && r.rows[..|l.rows|] == l.rows)
    ensures Valid(l) ==> Valid(r)
  {
    if |users| == 0 then l
    else
      match a
      case Promo(merchant, promo) => MerchantPromo(l, users, contacts, merchant, promo, now)
      case Share(s, t, message) => FriendMessage(l, users, s, t, message, now)
      case Question(s, t, message) => FriendMessage(l, users, s, t, message, now)
  }

  /** One turn of `_loop`: an action run at time `now`, an action that
      raised an error, or the task's cancellation. */
  datatype Cycle = Ran(action: Action, now: int) | Raised | Cancelled

  predicate Drawn(cycles: seq<Cycle>, users: seq<SimUser>) {
    forall i :: 0 <= i < |cycles| && cycles[i].Ran? ==> Drawable(cycles[i].action, users)
  }

  /** `_loop`: an error in a cycle is logged and the loop goes on with the
      next; cancellation ends it. */
  function RunLoop(l: Ledger, users: seq<SimUser>, contacts: seq<DbContacts.ContactRow>, cycles: seq<Cycle>): (r: Ledger)
    requires Drawn(cycles, users)
    ensures |l.rows| <= |r.rows| && r.rows[..|l.rows|] == l.rows
    ensures Valid(l) ==> Valid(r)
    decreases |cycles|
  {
    if |cycles| == 0 then l
    else
      match cycles[0]
      case Cancelled => l
      case Raised => RunLoop(l, users, contacts, cycles[1..])
      case Ran(a, now) =>
        var l1 := Act(l, users, contacts, a, now);
        var r := RunLoop(l1, users, contacts, cycles[1..]);
        Seqs.PrefixTrans(l.rows, l1.rows, r.rows);
        r
  }

  /** The cycles with the failed ones left out. */
  function Succeeded(cycles: seq<Cycle>): (r: seq<Cycle>)
    ensures |r| <= |cycles|
    ensures forall i :: 0 <= i < |r| ==> !r[i].Raised? && r[i] in cycles
    decreases |cycles|
  {
    if |cycles| == 0 then []
    else (if cycles[0].Raised? then [] else [cycles[0]]) + Succeeded(cycles[1..])
  }

  /** A failing cycle does not stop the loop: the outcome is that of the
      cycles that succeeded. */
  lemma {:induction false} ErrorsSkipped(l: Ledger, users: seq<SimUser>, contacts: seq<DbContacts.ContactRow>,
                                         cycles: seq<Cycle>)
    requires Drawn(cycles, users)
    ensures Drawn(Succeeded(cycles), users)
    ensures RunLoop(l, users, contacts, cycles) == RunLoop(l, users, contacts, Succeeded(cycles))
    decreases |cycles|
  {
    if |cycles| > 0 {
      var rest := cycles[1..];
      assert Drawn(rest, users) by {
        forall i | 0 <= i < |rest| && rest[i].Ran? ensures Drawable(rest[i].action, users) {
          assert rest[i] == cycles[i + 1];
        }
      }
      var s := Succeeded(cycles);
      assert Drawn(s, users) by {
        forall i | 0 <= i < |s| && s[i].Ran? ensures Drawable(s[i].action, users) {
          var j :| 0 <= j < |cycles| && cycles[j] == s[i];
        }
      }
      match cycles[0]
      case Cancelled =>
        assert s[0] == Cancelled;
      case Raised =>
        assert s == Succeeded(rest);
        ErrorsSkipped(l, users, contacts, rest);
      case Ran(a, now) =>
        assert s[0] == cycles[0] && s[1..] == Succeeded(rest);
        ErrorsSkipped(Act(l, users, contacts, a, now), users, contacts, rest);
    }
  }

  /** Nothing after the cancellation runs. */
  lemma {:induction false} CancelStops(l: Ledger, users: seq<SimUser>, contacts: seq<DbContacts.ContactRow>,
                                       before: seq<Cycle>, after: seq<Cycle>)
    requires Drawn(before + [Cancelled] + after, users)
    ensures Drawn(before, users)
    ensures RunLoop(l, users, contacts, before + [Cancelled] + after) ==
            RunLoop(l, users, contacts, before + [Cancelled])
    decreases |before|
  {
    var all := before + [Cancelled] + after;
    assert forall i :: 0 <= i < |before| ==> before[i] == all[i];
    if |before| == 0 {
      assert all[0] == Cancelled;
    } else {
      var short := before + [Cancelled];
      assert all[0] == before[0] && short[0] == before[0];
      assert all[1..] == before[1..] + [Cancelled] + after;
      assert short[1..] == before[1..] + [Cancelled];
      assert Drawn(all[1..], users) by {
        forall i | 0 <= i < |all| - 1 && all[1..][i].Ran? ensures Drawable(all[1..][i].action, users) {
          assert all[1..][i] == all[i + 1];
        }
      }
      match before[0]
      case Cancelled =>
      case Raised =>
        CancelStops(l, users, contacts, before[1..], after);
      case Ran(a, now) =>
        CancelStops(Act(l, users, contacts, a, now), users, contacts, before[1..], after);
    }
  }
}

=== FILE: skills.dfy ===
/** The skill catalogue and per-user installs (app/services/skill_service.py).
    `catalog` is the `skills_catalog` table, `installs` the `user_skills`
    table, both in insertion order; `now` is the install time. Fetching
    from GitHub is left to the caller: an import receives the fetched
    text. */
module Skills {
  import opened Wrappers
  import opened Text
  import Seqs

  datatype Skill = Skill(
    slug: string,
    name: string,
    description: string,
    category: string,
    tags: seq<string>,
    content: string,
    downloads: int)

  datatype Install = Install(user: string, slug: string, enabled: bool, config: map<string, string>, installedAt: int)

  datatype SkillDb = SkillDb(catalog: seq<Skill>, installs: seq<Install>)

  predicate HasSlug(cat: seq<Skill>, slug: string) {
    exists i :: 0 <= i < |cat| && cat[i].slug == slug
  }

  /** `slug` is the catalogue's key. */
  ghost predicate UniqueSlugs(cat: seq<Skill>) {
    forall i, j :: 0 <= i < j < |cat| ==> cat[i].slug != cat[j].slug
  }

  // ─── Seeding ─────────────────────────────────────────────────

  /** `seed_skills_catalog`: each starter whose slug is not yet present is
      appended, in order; the others are skipped. */
  function Seed(cat: seq<Skill>, starters: seq<Skill>): (r: seq<Skill>)
    ensures |cat| <= |r| && r[..|cat|] == cat
    ensures forall k :: 0 <= k < |starters| ==> HasSlug(r, starters[k].slug)
    ensures forall i :: |cat| <= i < |r| ==> r[i] in starters && !HasSlug(cat, r[i].slug)
    decreases |starters|
  {
    if |starters| == 0 then cat
    else
      var s := starters[0];
      var cat' := if HasSlug(cat, s.slug) then cat else cat + [s];
      assert HasSlug(cat', s.slug) by {
        if !HasSlug(cat, s.slug) { assert cat'[|cat|] == s; }
      }
      var r := Seed(cat', starters[1..]);
      Seqs.PrefixTrans(cat, cat', r);
      KeepSlugs(cat', r);
      SeedNewRows(cat, cat', r, starters);
      r
  }

  lemma KeepSlugs(cat: seq<Skill>, r: seq<Skill>)
    requires |cat| <= |r| && r[..|cat|] == cat
    ensures forall slug :: HasSlug(cat, slug) ==> HasSlug(r, slug)
  {
    forall slug | HasSlug(cat, slug) ensures HasSlug(r, slug) {
      var i :| 0 <= i < |cat| && cat[i].slug == slug;
      assert r[i] == cat[i];
    }
  }

  lemma SeedNewRows(cat: seq<Skill>, cat': seq<Skill>, r: seq<Skill>, starters: seq<Skill>)
    requires |starters| > 0
    requires cat' == if HasSlug(cat, starters[0].slug) then cat else cat + [starters[0]]
    requires |cat'| <= |r| && r[..|cat'|] == cat'
    requires forall i :: |cat'| <= i < |r| ==> r[i] in starters[1..] && !HasSlug(cat', r[i].slug)
    ensures forall i :: |cat| <= i < |r| ==> r[i] in starters && !HasSlug(cat, r[i].slug)
  {
    KeepSlugs(cat, cat');
    forall i | |cat| <= i < |r| ensures r[i] in starters && !HasSlug(cat, r[i].slug) {
      if i >= |cat'| {
        assert r[i] in starters[1..];
      } else {
        assert r[i] == cat'[i] == starters[0];
      }
    }
  }

  /** Seeding a catalogue that holds every starter's slug changes nothing. */
  lemma {:induction false} SeedNothingNew(cat: seq<Skill>, starters: seq<Skill>)
    requires forall k :: 0 <= k < |starters| ==> HasSlug(cat, starters[k].slug)
    ensures Seed(cat, starters) == cat
    decreases |starters|
  {
    if |starters| > 0 {
      assert HasSlug(cat, starters[0].slug);
      SeedNothingNew(cat, starters[1..]);
    }
  }

  /** A second seeding inserts nothing. */
  lemma SeedIdempotent(cat: seq<Skill>, starters: seq<Skill>)
    ensures Seed(Seed(cat, starters), starters) == Seed(cat, starters)
  {
    SeedNothingNew(Seed(cat, starters), starters);
  }

  // ─── Catalogue queries ───────────────────────────────────────

  /** `json.dumps` of a list of tags, for tags of printable ASCII
      without `"` or `\`: each tag quoted as it is. The escapes
      `json.dumps` writes for other characters are not modelled. */
  function TagsJson(tags: seq<string>): string {
    "[" + Join(seq(|tags|, i requires 0 <= i < |tags| => "\"" + tags[i] + "\""), ", ") + "]"
  }

  /** SQLite's `x LIKE '%q%'`: a substring test ignoring ASCII case. */
  predicate Like(x: string, q: string) {
    Contains(Lower(x), Lower(q))
  }

  /** The filters of `list_catalog`: the category when one is given, and
      the text in the name, description or tag list when one is given. */
  predicate Listed(s: Skill, category: string, q: string) {
    && (category == "" || s.category == category)
    && (q == "" || Like(s.name, q) || Like(s.description, q) || Like(TagsJson(s.tags), q))
  }

  function MostDownloaded(a: Skill, b: Skill): bool {
    a.downloads >= b.downloads
  }

  /** `list_catalog`: the skills passing the filters (an absent filter
      being the empty string), most downloaded first. */
  function ListCatalog(cat: seq<Skill>, category: string, q: string): (r: seq<Skill>)
    ensures forall s :: s in r <==> s in cat && Listed(s, category, q)
    ensures Seqs.Sorted(r, MostDownloaded)
    ensures multiset(r) == multiset(Seqs.Filter(cat, (s: Skill) => Listed(s, category, q)))
  {
    var kept := Seqs.Filter(cat, (s: Skill) => Listed(s, category, q));
    var r := Seqs.SortBy(kept, MostDownloaded);
    assert forall s :: s in r <==> s in multiset(r);
    assert forall s :: s in kept <==> s in multiset(kept);
    r
  }

  /** `get_skill` */
  function FindSkill(cat: seq<Skill>, slug: string): (r: Option<Skill>)
    ensures r.None? <==> !HasSlug(cat, slug)
    ensures r.Some? ==> r.value in cat && r.value.slug == slug
  {
    match Seqs.FirstIndex(cat, (s: Skill) => s.slug == slug)
    case None => None
    case Some(k) => Some(cat[k])
  }

  // ─── Installs ────────────────────────────────────────────────

  predicate Mine(x: Install, user: string, slug: string) {
    x.user == user && x.slug == slug
  }

  predicate Installed(db: SkillDb, user: string, slug: string) {
    exists i :: 0 <= i < |db.installs| && Mine(db.installs[i], user, slug)
  }

  /** `install_skill`: a slug outside the catalogue is refused; otherwise
      the user's row for the skill is enabled, or added enabled with an
      empty configuration. */
  function InstallSkill(db: SkillDb, user: string, slug: string, now: int): (r: Result<SkillDb, string>)
    ensures r.Err? <==> !HasSlug(db.catalog, slug)
    ensures r.Ok? ==> r.value.catalog == db.catalog
    ensures r.Ok? ==> forall i :: 0 <= i < |r.value.installs| && Mine(r.value.installs[i], user, slug) ==>
      r.value.installs[i].enabled
    ensures r.Ok? ==> Installed(r.value, user, slug)
    ensures r.Ok? && Installed(db, user, slug) ==> |r.value.installs| == |db.installs|
    ensures r.Ok? && !Installed(db, user, slug) ==>
      r.value.installs == db.installs + [Install(user, slug, true, map[], now)]
  {
    if FindSkill(db.catalog, slug).None? then Err("Skill '" + slug + "' not found in catalog")
    else if Installed(db, user, slug) then
      Ok(db.(installs := Updated(db.installs, user, slug, (x: Install) => x.(enabled := true))))
    else
      var r := db.(installs := db.installs + [Install(user, slug, true, map[], now)]);
      assert Mine(r.installs[|db.installs|], user, slug);
      Ok(r)
  }

  /** The user's rows for the skill rewritten by `f`, the others kept. */
  function Updated(xs: seq<Install>, user: string, slug: string, f: Install -> Install): (r: seq<Install>)
    ensures |r| == |xs|
    ensures forall i :: 0 <= i < |xs| ==> r[i] == if Mine(xs[i], user, slug) then f(xs[i]) else xs[i]
  {
    seq(|xs|, i requires 0 <= i < |xs| => if Mine(xs[i], user, slug) then f(xs[i]) else xs[i])
  }

  /** `uninstall_skill`: only the user's rows for that skill go. */
  function UninstallSkill(db: SkillDb, user: string, slug: string): (r: SkillDb)
    ensures r.catalog == db.catalog
    ensures !Installed(r, user, slug)
    ensures forall x :: x in r.installs <==> x in db.installs && !Mine(x, user, slug)
  {
    var r := db.(installs := Seqs.Filter(db.installs, (x: Install) => !Mine(x, user, slug)));
    assert forall i :: 0 <= i < |r.installs| ==> r.installs[i] in r.installs;
    r
  }

  /** Installing then uninstalling leaves what uninstalling alone leaves. */
  lemma InstallThenUninstall(db: SkillDb, user: string, slug: string, now: int)
    requires HasSlug(db.catalog, slug)
    ensures UninstallSkill(InstallSkill(db, user, slug, now).value, user, slug) == UninstallSkill(db, user, slug)
  {
    var p := (x: Install) => !Mine(x, user, slug);
    var db' := InstallSkill(db, user, slug, now).value;
    if Installed(db, user, slug) {
      UpdatedFiltersAlike(db.installs, user, slug, (x: Install) => x.(enabled := true));
    } else {
      Seqs.FilterAppend(db.installs, [Install(user, slug, true, map[], now)], p);
    }
  }

  /** A rewrite that keeps user and slug leaves the other rows to the
      filter as they were. */
  lemma {:induction false} UpdatedFiltersAlike(xs: seq<Install>, user: string, slug: string, f: Install -> Install)
    requires forall x :: Mine(x, user, slug) ==> Mine(f(x), user, slug)
    ensures Seqs.Filter(Updated(xs, user, slug, f), (x: Install) => !Mine(x, user, slug)) ==
            Seqs.Filter(xs, (x: Install) => !Mine(x, user, slug))
    decreases |xs|
  {
    if |xs| > 0 {
      var u := Updated(xs, user, slug, f);
      UpdatedFiltersAlike(xs[1..], user, slug, f);
      assert u[1..] == Updated(xs[1..], user, slug, f);
      assert Mine(u[0], user, slug) == Mine(xs[0], user, slug);
      assert !Mine(xs[0], user, slug) ==> u[0] == xs[0];
    }
  }

  /** `toggle_skill`: only the user's rows for that skill change, and only
      their flag. */
  function ToggleSkill(db: SkillDb, user: string, slug: string, enabled: bool): (r: SkillDb)
    ensures r.catalog == db.catalog && |r.installs| == |db.installs|
    ensures forall i :: 0 <= i < |db.installs| && !Mine(db.installs[i], user, slug) ==> r.installs[i] == db.installs[i]
    ensures forall i :: 0 <= i < |db.installs| && Mine(db.installs[i], user, slug) ==>
      r.installs[i] == db.installs[i].(enabled := enabled)
  {
    db.(installs := Updated(db.installs, user, slug, (x: Install) => x.(enabled := enabled)))
  }

  /** `save_skill_config`: only the user's rows for that skill change, and
      only their configuration. */
  function SaveConfig(db: SkillDb, user: string, slug: string, config: map<string, string>): (r: SkillDb)
    ensures r.catalog == db.catalog && |r.installs| == |db.installs|
    ensures forall i :: 0 <= i < |db.installs| && !Mine(db.installs[i], user, slug) ==> r.installs[i] == db.installs[i]
    ensures forall i :: 0 <= i < |db.installs| && Mine(db.installs[i], user, slug) ==>
      r.installs[i] == db.installs[i].(config := config)
  {
    db.(installs := Updated(db.installs, user, slug, (x: Install) => x.(config := config)))
  }

  // ─── What the agent sees ─────────────────────────────────────

  datatype Active = Active(install: Install, skill: Skill)

  /** The join with the catalogue: each install with its skill, those
      whose slug is not catalogued dropped. */
  function Joined(cat: seq<Skill>, xs: seq<Install>): (r: seq<Active>)
    ensures forall i :: 0 <= i < |r| ==> r[i].install in xs && r[i].skill in cat && r[i].skill.slug == r[i].install.slug
    decreases |xs|
  {
    if |xs| == 0 then []
    else
      var rest := Joined(cat, xs[1..]);
      match FindSkill(cat, xs[0].slug)
      case None => rest
      case Some(s) => [Active(xs[0], s)] + rest
  }

  /** No install with a catalogued slug is dropped by the join. */
  lemma {:induction false} JoinedComplete(cat: seq<Skill>, xs: seq<Install>)
    ensures forall j :: 0 <= j < |xs| && HasSlug(cat, xs[j].slug) ==> JoinedHas(cat, xs, xs[j])
    decreases |xs|
  {
    if |xs| > 0 {
      JoinedComplete(cat, xs[1..]);
      forall j | 0 <= j < |xs| && HasSlug(cat, xs[j].slug) ensures JoinedHas(cat, xs, xs[j]) {
        if j == 0 {
          assert Joined(cat, xs)[0].install == xs[0];
        } else {
          assert xs[1..][j - 1] == xs[j];
          JoinedHasTail(cat, xs, xs[j]);
        }
      }
    }
  }

  /** The skill the join pairs with an install is the catalogue's first
      row for its slug. */
  lemma {:induction false} JoinedSkill(cat: seq<Skill>, xs: seq<Install>, i: nat)
    requires i < |Joined(cat, xs)|
    ensures FindSkill(cat, Joined(cat, xs)[i].install.slug) == Some(Joined(cat, xs)[i].skill)
    decreases |xs|
  {
    var rest := Joined(cat, xs[1..]);
    if FindSkill(cat, xs[0].slug).Some? {
      if i > 0 {
        JoinedSkill(cat, xs[1..], i - 1);
      }
    } else {
      JoinedSkill(cat, xs[1..], i);
    }
  }

  lemma JoinedHasTail(cat: seq<Skill>, xs: seq<Install>, x: Install)
    requires |xs| > 0 && JoinedHas(cat, xs[1..], x)
    ensures JoinedHas(cat, xs, x)
  {
    var rest := Joined(cat, xs[1..]);
    var r := Joined(cat, xs);
    var i :| 0 <= i < |rest| && rest[i].install == x;
    if FindSkill(cat, xs[0].slug).Some? {
      assert r[i + 1] == rest[i];
    } else {
      assert r[i] == rest[i];
    }
  }

  predicate JoinedHas(cat: seq<Skill>, xs: seq<Install>, x: Install) {
    exists i :: 0 <= i < |Joined(cat, xs)| && Joined(cat, xs)[i].install == x
  }

  function OlderInstall(a: Install, b: Install): bool {
    a.installedAt <= b.installedAt
  }

  function NewerInstall(a: Install, b: Install): bool {
    a.installedAt >= b.installedAt
  }

  /** The user's installs, newest first (the query's `ORDER BY
      installed_at DESC`). */
  function UserInstalls(db: SkillDb, user: string): (r: seq<Install>)
    ensures forall x :: x in r <==> x in db.installs && x.user == user
    ensures Seqs.Sorted(r, NewerInstall)
  {
    var mine := Seqs.Filter(db.installs, (x: Install) => x.user == user);
    Seqs.SortByMembers(mine, NewerInstall);
    Seqs.SortBy(mine, NewerInstall)
  }

  /** `get_user_skills`: the user's installed skills, newest first. */
  function UserSkills(db: SkillDb, user: string): (r: seq<Active>)
    ensures forall i :: 0 <= i < |r| ==> r[i].install in db.installs && r[i].install.user == user
    ensures forall x :: x in db.installs && x.user == user && HasSlug(db.catalog, x.slug) ==>
      exists i :: 0 <= i < |r| && r[i].install == x
  {
    var mine := UserInstalls(db, user);
    JoinedComplete(db.catalog, mine);
    Joined(db.catalog, mine)
  }

  /** The user's enabled installs, oldest first. */
  function EnabledInstalls(db: SkillDb, user: string): (r: seq<Install>)
    ensures forall x :: x in r <==> x in db.installs && x.user == user && x.enabled
    ensures Seqs.Sorted(r, OlderInstall)
  {
    var mine := Seqs.Filter(db.installs, (x: Install) => x.user == user && x.enabled);
    Seqs.SortByMembers(mine, OlderInstall);
    Seqs.SortBy(mine, OlderInstall)
  }

  /** The enabled skills with content, in install order. */
  function EnabledSkills(db: SkillDb, user: string): (r: seq<Active>)
    ensures forall i :: 0 <= i < |r| ==>
      && r[i].install in db.installs && r[i].install.user == user && r[i].install.enabled
      && r[i].skill in db.catalog && r[i].skill.slug == r[i].install.slug && r[i].skill.content != ""
    ensures forall i, j :: 0 <= i < j < |r| ==> r[i].install.installedAt <= r[j].install.installedAt
    ensures forall x :: x in db.installs && x.user == user && x.enabled && Usable(db.catalog, x) ==>
      exists i :: 0 <= i < |r| && r[i] == Active(x, FindSkill(db.catalog, x.slug).value)
  {
    var mine := EnabledInstalls(db, user);
    var r := Seqs.Filter(Joined(db.catalog, mine), WithContent);
    EnabledSound(db, user, mine, r);
    EnabledComplete(db.catalog, mine, r);
    r
  }

  lemma EnabledSound(db: SkillDb, user: string, mine: seq<Install>, r: seq<Active>)
    requires mine == EnabledInstalls(db, user) && r == Seqs.Filter(Joined(db.catalog, mine), WithContent)
    ensures forall i :: 0 <= i < |r| ==>
      && r[i].install in db.installs && r[i].install.user == user && r[i].install.enabled
      && r[i].skill in db.catalog && r[i].skill.slug == r[i].install.slug && r[i].skill.content != ""
    ensures forall i, j :: 0 <= i < j < |r| ==> r[i].install.installedAt <= r[j].install.installedAt
  {
    var joined := Joined(db.catalog, mine);
    JoinedOrder(db.catalog, mine);
    Seqs.FilterSorted(joined, WithContent, InstallOrder);
    assert forall i :: 0 <= i < |r| ==> r[i] in joined && r[i].install in mine;
  }

  /** The install's skill is catalogued and has content. */
  predicate Usable(cat: seq<Skill>, x: Install) {
    FindSkill(cat, x.slug).Some? && FindSkill(cat, x.slug).value.content != ""
  }

  lemma EnabledComplete(cat: seq<Skill>, mine: seq<Install>, r: seq<Active>)
    requires r == Seqs.Filter(Joined(cat, mine), WithContent)
    ensures forall x :: x in mine && Usable(cat, x) ==> exists i :: 0 <= i < |r| && r[i] == Active(x, FindSkill(cat, x.slug).value)
  {
    var joined := Joined(cat, mine);
    JoinedComplete(cat, mine);
    forall x | x in mine && Usable(cat, x) ensures exists i :: 0 <= i < |r| && r[i] == Active(x, FindSkill(cat, x.slug).value) {
      var j :| 0 <= j < |mine| && mine[j] == x;
      assert HasSlug(cat, mine[j].slug);
      var k :| 0 <= k < |joined| && joined[k].install == x;
      JoinedSkill(cat, mine, k);
      assert WithContent(joined[k]);
      assert joined[k] in r;
    }
  }

  predicate WithContent(a: Active) {
    a.skill.content != ""
  }

  function InstallOrder(a: Active, b: Active): bool {
    a.install.installedAt <= b.install.installedAt
  }

  /** The join keeps the order of the installs. */
  lemma {:induction false} JoinedOrder(cat: seq<Skill>, xs: seq<Install>)
    requires Seqs.Sorted(xs, OlderInstall)
    ensures Seqs.Sorted(Joined(cat, xs), InstallOrder)
    decreases |xs|
  {
    if |xs| > 0 {
      assert Seqs.Sorted(xs[1..], OlderInstall);
      JoinedOrder(cat, xs[1..]);
      var rest := Joined(cat, xs[1..]);
      forall i | 0 <= i < |rest| ensures xs[0].installedAt <= rest[i].install.installedAt {
        FirstIsLeast(xs, rest[i].install);
      }
    }
  }

  lemma FirstIsLeast(xs: seq<Install>, x: Install)
    requires |xs| > 0 && Seqs.Sorted(xs, OlderInstall) && x in xs[1..]
    ensures xs[0].installedAt <= x.installedAt
  {
    var k :| 0 <= k < |xs[1..]| && xs[1..][k] == x;
    assert OlderInstall(xs[0], xs[k + 1]);
  }

  function Section(a: Active): string {
    "\n\n═══ SKILL: " + a.skill.name + " ═══\n" + a.skill.content
  }

  function Sections(es: seq<Active>): (r: seq<string>)
    ensures |r| == |es| && forall i :: 0 <= i < |es| ==> r[i] == Section(es[i])
  {
    seq(|es|, i requires 0 <= i < |es| => Section(es[i]))
  }

  /** `get_skill_instructions`: empty without an enabled skill that has
      content; otherwise one headed section per such skill, in install
      order, each in the text. */
  function Instructions(db: SkillDb, user: string): (r: string)
    ensures r == "" <==> |EnabledSkills(db, user)| == 0
    ensures forall i :: 0 <= i < |EnabledSkills(db, user)| ==> Contains(r, Section(EnabledSkills(db, user)[i]))
    ensures forall i :: 0 <= i < |EnabledSkills(db, user)| ==> PartAt(r, Sections(EnabledSkills(db, user)), "\n", i)
  {
    var es := EnabledSkills(db, user);
    if |es| == 0 then ""
    else
      var parts := Sections(es);
      JoinContains(parts, "\n");
      assert |Section(es[0])| > 0;
      JoinStarts(parts, "\n");
      SectionsAt(parts);
      Join(parts, "\n")
  }

  lemma SectionsAt(parts: seq<string>)
    ensures forall i :: 0 <= i < |parts| ==> PartAt(Join(parts, "\n"), parts, "\n", i)
  {
    forall i | 0 <= i < |parts| ensures PartAt(Join(parts, "\n"), parts, "\n", i) {
      JoinPartAt(parts, "\n", i);
    }
  }

  /** The sections come in install order: the section of an earlier
      enabled skill ends before that of a later one begins. */
  lemma InstructionsInOrder(db: SkillDb, user: string, i: nat, j: nat)
    requires i < j < |EnabledSkills(db, user)|
    ensures var es := EnabledSkills(db, user);
            && es[i].install.installedAt <= es[j].install.installedAt
            && PartAt(Instructions(db, user), Sections(es), "\n", i)
            && PartAt(Instructions(db, user), Sections(es), "\n", j)
            && JoinOffset(Sections(es), "\n", i) + |Section(es[i])| < JoinOffset(Sections(es), "\n", j)
  {
    JoinOffsetIncreasing(Sections(EnabledSkills(db, user)), "\n", i, j);
  }

  /** Every enabled install of the user whose skill is catalogued with
      content has its section in the instructions. */
  lemma InstructionsComplete(db: SkillDb, user: string, x: Install)
    requires x in db.installs && x.user == user && x.enabled && Usable(db.catalog, x)
    ensures Contains(Instructions(db, user), Section(Active(x, FindSkill(db.catalog, x.slug).value)))
  {
    var es := EnabledSkills(db, user);
    var i :| 0 <= i < |es| && es[i] == Active(x, FindSkill(db.catalog, x.slug).value);
  }

  lemma {:induction false} JoinStarts(parts: seq<string>, sep: string)
    requires |parts| > 0
    ensures StartsWith(Join(parts, sep), parts[0])
  {
    if |parts| > 1 {
      assert Join(parts, sep) == parts[0] + (sep + Join(parts[1..], sep));
    }
  }

  /** Every part is in the joined text. */
  lemma {:induction false} JoinContains(parts: seq<string>, sep: string)
    ensures forall k :: 0 <= k < |parts| ==> Contains(Join(parts, sep), parts[k])
    decreases |parts|
  {
    if |parts| > 1 {
      var s := Join(parts, sep);
      var tail := Join(parts[1..], sep);
      JoinContains(parts[1..], sep);
      assert s == parts[0] + sep + tail;
      ContainsAt(s, parts[0], 0);
      forall k | 1 <= k < |parts| ensures Contains(s, parts[k]) {
        assert parts[1..][k - 1] == parts[k];
        ContainsSuffix(parts[0] + sep, tail, parts[k]);
      }
    } else if |parts| == 1 {
      ContainsAt(parts[0], parts[0], 0);
    }
  }

  lemma {:induction false} ContainsSuffix(a: string, b: string, sub: string)
    requires Contains(b, sub)
    ensures Contains(a + b, sub)
    decreases |a|
  {
    if |a| > 0 {
      ContainsSuffix(a[1..], b, sub);
      assert (a + b)[1..] == a[1..] + b;
    } else {
      assert a + b == b;
    }
  }

  /** `apply_<slug>_skill`, dashes and slashes turned into underscores. */
  function ToolName(slug: string): (r: string)
    ensures StartsWith(r, "apply_") && EndsWith(r, "_skill")
    ensures |r| == |slug| + 12
    ensures forall i :: 0 <= i < |slug| ==> r[6 + i] == if slug[i] in {'-', '/'} then '_' else slug[i]
  {
    var r := "apply_" + ReplaceChar(ReplaceChar(slug, '-', '_'), '/', '_') + "_skill";
    assert r[..6] == "apply_";
    assert r[|r| - 6..] == "_skill";
    r
  }

  /** The name drops the difference between a dash, a slash and an
      underscore, so distinct slugs can share a tool name. */
  lemma ToolNamesCollide()
    ensures ToolName("a-b") == ToolName("a/b") == ToolName("a_b")
  {
  }

  datatype Tool = Tool(name: string, result: string)

  /** `create_skill_tools`: one tool per enabled skill with content, in
      install order, returning the skill's text. */
  function SkillTools(db: SkillDb, user: string): (r: seq<Tool>)
    ensures |r| == |EnabledSkills(db, user)|
    ensures forall i :: 0 <= i < |r| ==>
      var a := EnabledSkills(db, user)[i];
      r[i].name == ToolName(a.skill.slug) && r[i].result == a.skill.content && r[i].result != ""
  {
    var es := EnabledSkills(db, user);
    seq(|es|, i requires 0 <= i < |es| => Tool(ToolName(es[i].skill.slug), es[i].skill.content))
  }

  // ─── ClawhHub ────────────────────────────────────────────────

  /** The display name derived from a slug segment: dashes to spaces,
      title-cased. */
  function DisplayName(segment: string): string {
    Title(ReplaceChar(segment, '-', ' '))
  }

  datatype Listing = Listing(slug: string, name: string)

  /** One search hit of `browse_clawhub`: kept only when its path has four
      "/"-separated segments (skills/user/name/SKILL.md). */
  function ParseClawhubPath(path: string): (r: Option<Listing>)
    ensures r.Some? <==> |Split(path, '/')| == 4
    ensures r.Some? ==> var parts := Split(path, '/');
      r.value == Listing(parts[1] + "/" + parts[2], DisplayName(parts[2]))
  {
    var parts := Split(path, '/');
    if |parts| == 4 then Some(Listing(parts[1] + "/" + parts[2], DisplayName(parts[2]))) else None
  }

  /** A path built from four slash-free segments parses back to the two
      middle ones. */
  lemma ClawhubPathRoundTrip(top: string, owner: string, skill: string, file: string)
    requires '/' !in top && '/' !in owner && '/' !in skill && '/' !in file
    ensures ParseClawhubPath(top + "/" + owner + "/" + skill + "/" + file) ==
            Some(Listing(owner + "/" + skill, DisplayName(skill)))
  {
    var parts := [top, owner, skill, file];
    assert Join(parts, "/") == top + "/" + owner + "/" + skill + "/" + file by {
      assert Join(parts[3..], "/") == file;
      assert Join(parts[2..], "/") == skill + "/" + file;
      assert Join(parts[1..], "/") == owner + "/" + skill + "/" + file;
    }
    JoinSplit(parts, '/');
  }

  /** The text after the first colon, stripped of whitespace and then of
      quote characters. */
  function FieldValue(line: string): string {
    if ':' in line then StripChars(Strip(line[IndexOf(line, ':') + 1..]), {'"', '\''}) else ""
  }

  /** The frontmatter lines up to the closing "---": `name:` and
      `description:` lines set the fields, a later one overriding an
      earlier one. */
  function ScanFrontmatter(lines: seq<string>, name: string, description: string): (r: (string, string))
    decreases |lines|
  {
    if |lines| == 0 || StartsWith(lines[0], "---") then (name, description)
    else
      var line := lines[0];
      var d := if StartsWith(line, "description:") then FieldValue(line) else description;
      var n := if StartsWith(line, "name:") then FieldValue(line) else name;
      ScanFrontmatter(lines[1..], n, d)
  }

  /** Lines after the closing "---" are never read. */
  lemma {:induction false} ScanStopsAtClose(pre: seq<string>, close: string, post: seq<string>, name: string,
                                            description: string)
    requires StartsWith(close, "---")
    requires forall k :: 0 <= k < |pre| ==> !StartsWith(pre[k], "---")
    ensures ScanFrontmatter(pre + [close] + post, name, description) == ScanFrontmatter(pre, name, description)
    decreases |pre|
  {
    if |pre| == 0 {
      assert (pre + [close] + post)[0] == close;
    } else {
      var line := pre[0];
      assert (pre + [close] + post)[0] == line;
      assert (pre + [close] + post)[1..] == pre[1..] + [close] + post;
      var d := if StartsWith(line, "description:") then FieldValue(line) else description;
      var n := if StartsWith(line, "name:") then FieldValue(line) else name;
      ScanStopsAtClose(pre[1..], close, post, n, d);
    }
  }

  /** A `name:` line at the end of the open frontmatter decides the name. */
  lemma {:induction false} LastNameWins(pre: seq<string>, line: string, name: string, description: string)
    requires StartsWith(line, "name:")
    requires forall k :: 0 <= k < |pre| ==> !StartsWith(pre[k], "---")
    ensures ScanFrontmatter(pre + [line], name, description).0 == FieldValue(line)
    decreases |pre|
  {
    if |pre| == 0 {
      assert !StartsWith(line, "---") by { assert line[0] == 'n'; }
      assert [line][1..] == [];
    } else {
      var l := pre[0];
      assert (pre + [line])[0] == l;
      assert (pre + [line])[1..] == pre[1..] + [line];
      var d := if StartsWith(l, "description:") then FieldValue(l) else description;
      var n := if StartsWith(l, "name:") then FieldValue(l) else name;
      LastNameWins(pre[1..], line, n, d);
    }
  }

  /** The last "/"-segment of a slug. */
  function LastSegment(slug: string): string {
    var parts := Split(slug, '/');
    parts[|parts| - 1]
  }

  /** The name and description an imported file declares: the defaults
      (the slug's last segment as a display name, no description) unless
      the text opens with "---". */
  function ParseFrontmatter(slug: string, content: string): (r: (string, string))
    ensures !StartsWith(content, "---") ==> r == (DisplayName(LastSegment(slug)), "")
  {
    var name := DisplayName(LastSegment(slug));
    if StartsWith(content, "---") then ScanFrontmatter(Split(content, '\n')[1..], name, "") else (name, "")
  }

  /** `import_from_clawhub`: a new slug is catalogued under ClawhHub with
      the declared name and description and no downloads; a slug already
      catalogued only has its content replaced. */
  function ImportFromClawhub(cat: seq<Skill>, slug: string, content: string): (r: seq<Skill>)
    ensures HasSlug(r, slug)
    ensures HasSlug(cat, slug) ==> |r| == |cat| && forall i :: 0 <= i < |cat| ==>
      r[i] == if cat[i].slug == slug then cat[i].(content := content) else cat[i]
    ensures !HasSlug(cat, slug) ==>
      var (name, description) := ParseFrontmatter(slug, content);
      r == cat + [Skill(slug, name, description, "ClawhHub", [], content, 0)]
  {
    if HasSlug(cat, slug) then
      var i :| 0 <= i < |cat| && cat[i].slug == slug;
      var r := seq(|cat|, j requires 0 <= j < |cat| => if cat[j].slug == slug then cat[j].(content := content) else cat[j]);
      assert r[i].slug == slug;
      r
    else
      var (name, description) := ParseFrontmatter(slug, content);
      var r := cat + [Skill(slug, name, description, "ClawhHub", [], content, 0)];
      assert r[|cat|].slug == slug;
      r
  }

  /** Re-importing a catalogued skill keeps its name and description. */
  lemma ReimportKeepsName(cat: seq<Skill>, slug: string, content: string)
    requires HasSlug(cat, slug)
    ensures FindSkill(ImportFromClawhub(cat, slug, content), slug).value.name == FindSkill(cat, slug).value.name
  {
    var r := ImportFromClawhub(cat, slug, content);
    var k := Seqs.FirstIndex(cat, (s: Skill) => s.slug == slug).value;
    assert forall j :: 0 <= j < |cat| ==> r[j].slug == cat[j].slug;
    Seqs.FirstIndexAt(r, (s: Skill) => s.slug == slug, k);
  }
}

=== FILE: slugs.dfy ===
/** The slug the debug endpoints make of a contact's name
    (`_slug` in app/routers/debug.py): lower-case letters and digits with
    single dashes between the runs, used in simulated thread ids. */
module Slugs {
  import opened Text

  predicate SlugChar(c: char) {
    'a' <= c <= 'z' || '0' <= c <= '9'
  }

  /** The slug characters of `s`, in order. */
  function KeptChars(s: string): (r: string)
    ensures forall i :: 0 <= i < |r| ==> SlugChar(r[i])
    decreases |s|
  {
    if |s| == 0 then "" else (if SlugChar(s[0]) then [s[0]] else "") + KeptChars(s[1..])
  }

  lemma {:induction false} KeptNone(s: string)
    requires forall i :: 0 <= i < |s| ==> !SlugChar(s[i])
    ensures KeptChars(s) == ""
    decreases |s|
  {
    if |s| > 0 {
      KeptNone(s[1..]);
    }
  }

  /** `s` without its leading run of non-slug characters. */
  function DropRun(s: string): (r: string)
    ensures |r| <= |s|
    decreases |s|
  {
    if |s| > 0 && !SlugChar(s[0]) then DropRun(s[1..]) else s
  }

  /** What `DropRun` leaves is a suffix that starts on a slug character,
      and everything before it is outside the slug alphabet. */
  lemma {:induction false} DropRunShape(s: string)
    ensures var r := DropRun(s);
            && r == s[|s| - |r|..]
            && (r == [] || SlugChar(r[0]))
            && (forall i :: 0 <= i < |s| - |r| ==> !SlugChar(s[i]))
    decreases |s|
  {
    if |s| > 0 && !SlugChar(s[0]) {
      DropRunShape(s[1..]);
    }
  }

  /** No two dashes in a row. */
  predicate SingleDashes(s: string) {
    forall i :: 0 <= i < |s| - 1 ==> s[i] != '-' || s[i + 1] != '-'
  }

  predicate SlugAlphabet(s: string) {
    forall i :: 0 <= i < |s| ==> SlugChar(s[i]) || s[i] == '-'
  }

  /** `re.sub("[^a-z0-9]+", "-", s)`: each maximal run of other
      characters becomes one dash. What the result looks like is stated
      by `CollapseShape`, where the dashes go by `CollapseAppend` and
      `CollapseRun`. */
  function Collapse(s: string): string
    decreases |s|
  {
    if |s| == 0 then ""
    else if SlugChar(s[0]) then [s[0]] + Collapse(s[1..])
    else "-" + Collapse(DropRun(s[1..]))
  }

  /** The collapsed string uses only slug characters and single dashes,
      is empty exactly when its input is, starts like its input, and
      keeps every slug character of it in order. */
  lemma {:induction false} CollapseShape(s: string)
    ensures var r := Collapse(s);
            && SlugAlphabet(r) && SingleDashes(r)
            && (r == [] <==> s == [])
            && (|s| > 0 && SlugChar(s[0]) ==> r[0] == s[0])
            && (|s| > 0 && !SlugChar(s[0]) ==> r[0] == '-')
            && KeptChars(r) == KeptChars(s)
    decreases |s|
  {
    if |s| > 0 {
      if SlugChar(s[0]) {
        CollapseShape(s[1..]);
        var rest := Collapse(s[1..]);
        assert ([s[0]] + rest)[1..] == rest;
      } else {
        CollapseShape(DropRun(s[1..]));
        DropRunShape(s[1..]);
        KeptDropRun(s[1..]);
        var rest := Collapse(DropRun(s[1..]));
        assert ("-" + rest)[0] == '-' && ("-" + rest)[1..] == rest;
      }
    }
  }

  /** Skipping a leading run of non-slug characters loses no slug
      character. */
  lemma {:induction false} KeptDropRun(s: string)
    ensures KeptChars(DropRun(s)) == KeptChars(s)
    decreases |s|
  {
    if |s| > 0 && !SlugChar(s[0]) {
      KeptDropRun(s[1..]);
    }
  }

  /** Skipping a run of non-slug characters that ends where a slug
      character (or the end) begins leaves what follows it. */
  lemma {:induction false} DropRunPrefix(m: string, y: string)
    requires forall i :: 0 <= i < |m| ==> !SlugChar(m[i])
    requires y == [] || SlugChar(y[0])
    ensures DropRun(m + y) == y
    decreases |m|
  {
    if |m| > 0 {
      assert (m + y)[1..] == m[1..] + y;
      DropRunPrefix(m[1..], y);
    } else {
      assert m + y == y;
    }
  }

  /** Skipping the leading run of a text that ends in a slug character
      stops inside it, whatever follows. */
  lemma {:induction false} DropRunAppend(x: string, y: string)
    requires |x| > 0 && SlugChar(x[|x| - 1])
    ensures DropRun(x + y) == DropRun(x) + y
    decreases |x|
  {
    if !SlugChar(x[0]) {
      assert (x + y)[1..] == x[1..] + y;
      DropRunAppend(x[1..], y);
    }
  }

  /** One step of `Collapse` on a kept first character. */
  lemma CollapseKept(s: string)
    requires |s| > 0 && SlugChar(s[0])
    ensures Collapse(s) == [s[0]] + Collapse(s[1..])
  {
  }

  /** One step of `Collapse` on a first character of a run. */
  lemma CollapseDash(s: string)
    requires |s| > 0 && !SlugChar(s[0])
    ensures Collapse(s) == "-" + Collapse(DropRun(s[1..]))
  {
  }

  /** Where the dashes go: a text ending in a slug character collapses
      apart from what follows it. */
  lemma {:induction false} CollapseAppend(x: string, y: string)
    requires |x| > 0 && SlugChar(x[|x| - 1])
    ensures Collapse(x + y) == Collapse(x) + Collapse(y)
    decreases |x|
  {
    if SlugChar(x[0]) {
      if |x| > 1 {
        CollapseAppend(x[1..], y);
      }
      AppendKeptStep(x, y);
    } else {
      DropRunAppend(x[1..], y);
      var d := DropRun(x[1..]);
      DropRunShape(x[1..]);
      assert |d| > 0 && d[|d| - 1] == x[|x| - 1];
      CollapseAppend(d, y);
      AppendRunStep(x, y);
    }
  }

  lemma AppendKeptStep(x: string, y: string)
    requires |x| > 0 && SlugChar(x[0])
    requires |x| == 1 || Collapse(x[1..] + y) == Collapse(x[1..]) + Collapse(y)
    ensures Collapse(x + y) == Collapse(x) + Collapse(y)
  {
    calc {
      Collapse(x + y);
    == { assert (x + y)[0] == x[0] && (x + y)[1..] == x[1..] + y; CollapseKept(x + y); }
      [x[0]] + Collapse(x[1..] + y);
    == { if |x| == 1 { assert x[1..] + y == y && x[1..] == []; } }
      [x[0]] + (Collapse(x[1..]) + Collapse(y));
    == { SeqAssoc([x[0]], Collapse(x[1..]), Collapse(y)); }
      ([x[0]] + Collapse(x[1..])) + Collapse(y);
    == { CollapseKept(x); }
      Collapse(x) + Collapse(y);
    }
  }

  lemma AppendRunStep(x: string, y: string)
    requires |x| > 0 && !SlugChar(x[0])
    requires DropRun(x[1..] + y) == DropRun(x[1..]) + y
    requires Collapse(DropRun(x[1..]) + y) == Collapse(DropRun(x[1..])) + Collapse(y)
    ensures Collapse(x + y) == Collapse(x) + Collapse(y)
  {
    calc {
      Collapse(x + y);
    == { assert (x + y)[0] == x[0] && (x + y)[1..] == x[1..] + y; CollapseDash(x + y); }
      "-" + Collapse(DropRun(x[1..]) + y);
    ==
      "-" + (Collapse(DropRun(x[1..])) + Collapse(y));
    == { SeqAssoc("-", Collapse(DropRun(x[1..])), Collapse(y)); }
      ("-" + Collapse(DropRun(x[1..]))) + Collapse(y);
    == { CollapseDash(x); }
      Collapse(x) + Collapse(y);
    }
  }

  lemma SeqAssoc(a: string, b: string, c: string)
    ensures a + (b + c) == (a + b) + c
  {
  }

  /** A run of other characters in front of a slug character (or the end)
      becomes exactly one dash. */
  lemma CollapseRun(m: string, y: string)
    requires |m| > 0 && forall i :: 0 <= i < |m| ==> !SlugChar(m[i])
    requires y == [] || SlugChar(y[0])
    ensures Collapse(m + y) == "-" + Collapse(y)
  {
    var s := m + y;
    assert s[0] == m[0] && s[1..] == m[1..] + y;
    DropRunPrefix(m[1..], y);
    CollapseDash(s);
  }

  /** A string already in slug form collapses to itself. */
  lemma {:induction false} CollapseFixed(s: string)
    requires SlugAlphabet(s) && SingleDashes(s)
    requires s == [] || s[0] != '-' || |s| == 1 || s[1] != '-'
    ensures Collapse(s) == s
    decreases |s|
  {
    if |s| > 0 {
      assert SlugAlphabet(s[1..]) && SingleDashes(s[1..]);
      if SlugChar(s[0]) {
        CollapseFixed(s[1..]);
      } else {
        assert DropRun(s[1..]) == s[1..];
        CollapseFixed(s[1..]);
      }
    }
  }

  /** A slice of a slug-form string is in slug form. */
  lemma SliceForm(s: string, i: nat, j: nat)
    requires i <= j <= |s| && SlugAlphabet(s) && SingleDashes(s)
    ensures SlugAlphabet(s[i..j]) && SingleDashes(s[i..j])
  {
    var t := s[i..j];
    assert forall k :: 0 <= k < |t| ==> t[k] == s[i + k];
  }

  /** Cutting non-slug characters off the front keeps the slug
      characters. */
  lemma {:induction false} KeptDropFront(s: string, i: nat)
    requires i <= |s|
    requires forall k :: 0 <= k < i ==> !SlugChar(s[k])
    ensures KeptChars(s[i..]) == KeptChars(s)
    decreases i
  {
    if i > 0 {
      KeptDropFront(s[1..], i - 1);
      assert s[1..][i - 1..] == s[i..];
    }
  }

  /** Cutting non-slug characters off the back keeps the slug
      characters. */
  lemma {:induction false} KeptDropBack(s: string, j: nat)
    requires j <= |s|
    requires forall k :: j <= k < |s| ==> !SlugChar(s[k])
    ensures KeptChars(s[..j]) == KeptChars(s)
    decreases |s|
  {
    if j == 0 {
      KeptNone(s);
    } else {
      assert s[..j][1..] == s[1..][..j - 1];
      KeptDropBack(s[1..], j - 1);
    }
  }

  /** Cutting non-slug characters off both ends keeps the slug
      characters. */
  lemma KeptSlice(s: string, i: nat, j: nat)
    requires i <= j <= |s|
    requires forall k :: 0 <= k < i ==> !SlugChar(s[k])
    requires forall k :: j <= k < |s| ==> !SlugChar(s[k])
    ensures KeptChars(s[i..j]) == KeptChars(s)
  {
    assert s[..j][i..] == s[i..j];
    KeptDropFront(s[..j], i);
    KeptDropBack(s, j);
  }

  /** Removing dashes at both ends keeps the slug characters and the
      alphabet. */
  lemma StripDashes(s: string)
    requires SlugAlphabet(s) && SingleDashes(s)
    ensures SlugAlphabet(StripChars(s, {'-'})) && SingleDashes(StripChars(s, {'-'}))
    ensures KeptChars(StripChars(s, {'-'})) == KeptChars(s)
    ensures StripChars(s, {'-'}) == [] ||
            (StripChars(s, {'-'})[0] != '-' && StripChars(s, {'-'})[|StripChars(s, {'-'})| - 1] != '-')
  {
    var i, j := StripCharsSlice(s, {'-'});
    DashSlice(s, i, j);
  }

  /** The slice between two runs of dashes keeps the slug characters and
      the alphabet, and starts and ends on a non-dash. */
  lemma DashSlice(s: string, i: nat, j: nat)
    requires i <= j <= |s| && SlugAlphabet(s) && SingleDashes(s)
    requires forall k :: 0 <= k < i ==> s[k] in {'-'}
    requires forall k :: j <= k < |s| ==> s[k] in {'-'}
    requires i < j ==> s[i] !in {'-'} && s[j - 1] !in {'-'}
    ensures SlugAlphabet(s[i..j]) && SingleDashes(s[i..j])
    ensures KeptChars(s[i..j]) == KeptChars(s)
    ensures s[i..j] == [] || (s[i..j][0] != '-' && s[i..j][|s[i..j]| - 1] != '-')
  {
    assert forall k :: 0 <= k < i ==> !SlugChar(s[k]);
    assert forall k :: j <= k < |s| ==> !SlugChar(s[k]);
    SliceForm(s, i, j);
    KeptSlice(s, i, j);
  }

  /** A non-empty slug-form string without dashes at its ends has slug
      characters. */
  lemma KeptNonEmpty(t: string)
    requires t != [] && SlugAlphabet(t) && t[0] != '-'
    ensures KeptChars(t) != ""
  {
    assert KeptChars(t)[0] == t[0];
  }

  /** The prepared text a slug is made of. */
  function SlugSource(value: string): string {
    Lower(Strip(value))
  }

  /** The last step of `_slug`: dashes stripped from both ends of a
      collapsed string, "friend" when nothing is left. */
  function StripOrFriend(c: string): (r: string)
    requires SlugAlphabet(c) && SingleDashes(c)
    ensures r != [] && r[0] != '-' && r[|r| - 1] != '-'
    ensures SlugAlphabet(r) && SingleDashes(r)
    ensures KeptChars(c) != "" ==> KeptChars(r) == KeptChars(c)
    ensures KeptChars(c) == "" ==> r == "friend"
  {
    var t := StripChars(c, {'-'});
    StripDashes(c);
    if t == "" then
      assert "friend"[0] == 'f' && "friend"[5] == 'd';
      assert SlugAlphabet("friend");
      "friend"
    else
      KeptNonEmpty(t);
      t
  }

  /** `_slug`: the stripped, lower-cased text with each run of other
      characters made a dash and dashes trimmed; "friend" when nothing
      is left. */
  function Slug(value: string): (r: string)
    ensures r != [] && r[0] != '-' && r[|r| - 1] != '-'
    ensures SlugAlphabet(r) && SingleDashes(r)
    ensures KeptChars(SlugSource(value)) != "" ==> KeptChars(r) == KeptChars(SlugSource(value))
    ensures KeptChars(SlugSource(value)) == "" ==> r == "friend"
  {
    CollapseShape(SlugSource(value));
    StripOrFriend(Collapse(SlugSource(value)))
  }

  lemma SlugFormPlain(s: string)
    requires SlugAlphabet(s)
    ensures forall i :: 0 <= i < |s| ==> s[i] !in Whitespace && !IsUpper(s[i])
  {
    forall i | 0 <= i < |s| ensures s[i] !in Whitespace && !IsUpper(s[i]) {
      assert SlugChar(s[i]) || s[i] == '-';
    }
  }

  /** Stripping and lower-casing leave slug-form text alone. */
  lemma SourceOfSlugForm(s: string)
    requires SlugAlphabet(s)
    ensures SlugSource(s) == s
  {
    SlugFormPlain(s);
    StripNoSpace(s);
    LowerNoUpper(s);
  }

  /** A slug is its own slug. */
  lemma SlugIdempotent(value: string)
    ensures Slug(Slug(value)) == Slug(value)
  {
    var s := Slug(value);
    SourceOfSlugForm(s);
    CollapseFixed(s);
    StripCharsEnds(s, {'-'});
  }
}

=== FILE: task_runner.dfy ===
/** The background task executor (app/services/task_runner.py). The agent
    engine is not modelled: a run is the sequence of payloads it produced
    before it ended, and how it ended (finished, cancelled, raised) is a
    parameter. Every write of one execution uses the same clock reading
    `now`. */
module TaskRunner {
  import opened Wrappers
  import opened Text
  import opened TaskStore
  import opened EventSerializer
  import Seqs

  // ─── Prompt and phase vocabulary ─────────────────────────────

  datatype Prompt = AutonomousPrompt | SocialPulsePrompt | FeedEngagementPrompt

  /** The prompt template: chosen by a PREFIX of the lower-cased intent,
      social pulse checked first. */
  function PromptFor(intent: string): (r: Prompt)
    ensures r == SocialPulsePrompt <==> StartsWith(Lower(intent), "social pulse")
    ensures r == FeedEngagementPrompt <==>
      !StartsWith(Lower(intent), "social pulse") && StartsWith(Lower(intent), "feed engagement")
  {
    if StartsWith(Lower(intent), "social pulse") then SocialPulsePrompt
    else if StartsWith(Lower(intent), "feed engagement") then FeedEngagementPrompt
    else AutonomousPrompt
  }

  const FeedKeywords: seq<string> := ["gather context", "evaluate", "engage", "react", "comment", "post"]
  const PulseKeywords: seq<string> := ["pick friends", "conversation", "back-and-forth", "wrap up", "catching up"]
  const TaskKeywords: seq<string> := ["research", "gather opinions", "shop & compare", "negotiate", "recommend"]

  /** The phase vocabulary: chosen by CONTAINMENT in the lower-cased
      intent, feed engagement checked first. */
  function Vocabulary(intent: string): (r: seq<string>)
    ensures Contains(Lower(intent), "feed engagement") ==> r == FeedKeywords
    ensures !Contains(Lower(intent), "feed engagement") && Contains(Lower(intent), "social pulse") ==> r == PulseKeywords
    ensures !Contains(Lower(intent), "feed engagement") && !Contains(Lower(intent), "social pulse") ==> r == TaskKeywords
  {
    if Contains(Lower(intent), "feed engagement") then FeedKeywords
    else if Contains(Lower(intent), "social pulse") then PulseKeywords
    else TaskKeywords
  }

  lemma LowerOfLower(s: string)
    requires forall i :: 0 <= i < |s| ==> !IsUpper(s[i])
    ensures Lower(s) == s
  {
    LowerNoUpper(s);
  }

  /** The two choices can disagree: a social-pulse task that mentions feed
      engagement gets the social-pulse prompt but the feed vocabulary. */
  lemma PromptAndVocabularyDisagree()
    ensures var intent := "social pulse: feed engagement";
            PromptFor(intent) == SocialPulsePrompt && Vocabulary(intent) == FeedKeywords
  {
    var pulse, sep, feed := "social pulse", ": ", "feed engagement";
    assert pulse + sep + feed == "social pulse: feed engagement";
    PrefixAndInfix(pulse, sep, feed);
  }

  /** In a lower-case text made of three parts, the first is a prefix and
      the last is contained. */
  lemma PrefixAndInfix(a: string, m: string, b: string)
    requires forall i :: 0 <= i < |a + m + b| ==> !IsUpper((a + m + b)[i])
    ensures Lower(a + m + b) == a + m + b
    ensures StartsWith(Lower(a + m + b), a) && Contains(Lower(a + m + b), b)
  {
    var s := a + m + b;
    LowerOfLower(s);
    assert s[..|a|] == a;
    assert s[|a + m|..|a + m| + |b|] == b;
    ContainsAt(s, b, |a + m|);
  }

  /** Whenever the intent starts with its kind the two choices agree: a
      prefix is contained. */
  lemma {:induction false} PrefixIsContained(s: string, p: string)
    requires StartsWith(s, p)
    ensures Contains(s, p)
  {
    ContainsAt(s, p, 0);
  }

  lemma PulseIntentAgrees(intent: string)
    requires StartsWith(Lower(intent), "social pulse")
    requires !Contains(Lower(intent), "feed engagement")
    ensures PromptFor(intent) == SocialPulsePrompt && Vocabulary(intent) == PulseKeywords
  {
    PrefixIsContained(Lower(intent), "social pulse");
  }

  lemma FeedIntentAgrees(intent: string)
    requires StartsWith(Lower(intent), "feed engagement")
    ensures PromptFor(intent) == FeedEngagementPrompt && Vocabulary(intent) == FeedKeywords
  {
    PrefixIsContained(Lower(intent), "feed engagement");
    assert Lower(intent)[0] == 'f';
  }

  /** The phase a text announces: the upper-cased first keyword of the
      vocabulary it contains (lower-cased), `None` when it contains none. */
  function PhaseOf(vocab: seq<string>, text: string): (r: Option<string>)
    ensures r.Some? <==> exists k :: 0 <= k < |vocab| && Contains(Lower(text), vocab[k])
    ensures r.Some? ==> exists k :: 0 <= k < |vocab| && Contains(Lower(text), vocab[k]) && r.value == Upper(vocab[k])
                                    && forall j :: 0 <= j < k ==> !Contains(Lower(text), vocab[j])
  {
    match Seqs.FirstIndex(vocab, (w: string) => Contains(Lower(text), w))
    case None => None
    case Some(k) => Some(Upper(vocab[k]))
  }

  // ─── Progress entries ────────────────────────────────────────

  /** Every payload but a partial text writes a progress entry. */
  predicate Logged(p: Payload) {
    !(p.TextPayload? && p.partial)
  }

  /** The progress entry a payload writes. `showArgs` is the comma-joined
      `k=v` rendering of a non-empty argument dict, whose order the model
      does not carry. */
  function LogLine(p: Payload, showArgs: map<string, Value> -> string): (r: string)
    requires Logged(p)
  {
    match p
    case TextPayload(_, content, _) => Snippet(content, 200)
    case CallPayload(_, name, args) => "Tool: " + name + "(" + (if args == map[] then "" else showArgs(args)) + ")"
    case ResponsePayload(_, name, response) => "Result from " + name + ": " + Snippet(response, 150)
  }

  /** One payload applied to the task: a final text first moves the phase
      when it announces one, then the entry is appended. */
  function Step(t: Task, p: Payload, intent: string, showArgs: map<string, Value> -> string, now: int): (r: Task)
    ensures r.id == t.id && r.owner == t.owner && r.intent == t.intent && r.createdAt == t.createdAt
    ensures r.resultSummary == t.resultSummary && r.completedAt == t.completedAt
    ensures t.status == Running ==> r.status == Running
    ensures !Logged(p) ==> r == t
    ensures Logged(p) ==> r.progress == t.progress + [ProgressEntry(now, LogLine(p, showArgs))]
    ensures p.TextPayload? && !p.partial && PhaseOf(Vocabulary(intent), p.content).Some? ==>
      r.phase == PhaseOf(Vocabulary(intent), p.content).value
    ensures !(p.TextPayload? && !p.partial && PhaseOf(Vocabulary(intent), p.content).Some?) ==> r.phase == t.phase
  {
    if !Logged(p) then t
    else
      var t1 := if p.TextPayload? && PhaseOf(Vocabulary(intent), p.content).Some?
                then SetStatus(t, Running, PhaseOf(Vocabulary(intent), p.content), None, now)
                else t;
      Append(t1, LogLine(p, showArgs), now)
  }

  /** A run's payloads applied in order. */
  function RunSteps(t: Task, ps: seq<Payload>, intent: string, showArgs: map<string, Value> -> string, now: int)
    : (r: Task)
    ensures r.id == t.id && r.owner == t.owner && r.intent == t.intent && r.createdAt == t.createdAt
    ensures r.resultSummary == t.resultSummary && r.completedAt == t.completedAt
    ensures t.status == Running ==> r.status == Running
    decreases |ps|
  {
    if |ps| == 0 then t else RunSteps(Step(t, ps[0], intent, showArgs, now), ps[1..], intent, showArgs, now)
  }

  /** What one payload writes: its log line, or nothing for a partial
      text. */
  function Entry(p: Payload, showArgs: map<string, Value> -> string): seq<string> {
    if Logged(p) then [LogLine(p, showArgs)] else []
  }

  /** What a series of payloads writes, `entry` giving each one's part. */
  function Lines(ps: seq<Payload>, entry: Payload -> seq<string>): seq<string>
    decreases |ps|
  {
    if |ps| == 0 then [] else entry(ps[0]) + Lines(ps[1..], entry)
  }

  /** The entries a run writes, one per logged payload, in order. */
  function LogLines(ps: seq<Payload>, showArgs: map<string, Value> -> string): seq<string> {
    Lines(ps, (p: Payload) => Entry(p, showArgs))
  }

  function Stamped(msgs: seq<string>, now: int): (r: seq<ProgressEntry>)
    ensures |r| == |msgs|
    ensures forall i :: 0 <= i < |msgs| ==> r[i] == ProgressEntry(now, msgs[i])
  {
    seq(|msgs|, i requires 0 <= i < |msgs| => ProgressEntry(now, msgs[i]))
  }

  /** The phase a run leaves: the one announced by its last final text
      that announces any. */
  function LastPhase(ps: seq<Payload>, intent: string): (r: Option<string>)
    decreases |ps|
  {
    if |ps| == 0 then None
    else
      var p := ps[|ps| - 1];
      if p.TextPayload? && !p.partial && PhaseOf(Vocabulary(intent), p.content).Some?
      then PhaseOf(Vocabulary(intent), p.content)
      else LastPhase(ps[..|ps| - 1], intent)
  }

  lemma {:induction false} LogLinesCount(ps: seq<Payload>, showArgs: map<string, Value> -> string)
    ensures |LogLines(ps, showArgs)| == Seqs.Count(ps, Logged)
  {
    LinesCount(ps, showArgs);
  }

  lemma {:induction false} LinesCount(ps: seq<Payload>, showArgs: map<string, Value> -> string)
    ensures |Lines(ps, (p: Payload) => Entry(p, showArgs))| == Seqs.Count(ps, Logged)
    decreases |ps|
  {
    if |ps| > 0 {
      LinesCount(ps[1..], showArgs);
    }
  }

  lemma StampedAppend(a: seq<string>, b: seq<string>, now: int)
    ensures Stamped(a + b, now) == Stamped(a, now) + Stamped(b, now)
  {
    assert forall i :: 0 <= i < |a + b| ==> (a + b)[i] == if i < |a| then a[i] else b[i - |a|];
  }

  /** The progress log after a run's payloads, `entry` giving what each
      one writes. */
  function RunProgress(prog: seq<ProgressEntry>, ps: seq<Payload>, entry: Payload -> seq<string>, now: int)
    : seq<ProgressEntry>
    decreases |ps|
  {
    if |ps| == 0 then prog else RunProgress(prog + Stamped(entry(ps[0]), now), ps[1..], entry, now)
  }

  /** A run's progress log depends on nothing but the log before it. */
  lemma {:induction false} RunStepsProgress(t: Task, ps: seq<Payload>, intent: string,
                                            showArgs: map<string, Value> -> string, now: int)
    ensures RunSteps(t, ps, intent, showArgs, now).progress ==
            RunProgress(t.progress, ps, (p: Payload) => Entry(p, showArgs), now)
    decreases |ps|
  {
    if |ps| > 0 {
      var t1 := Step(t, ps[0], intent, showArgs, now);
      RunStepsProgress(t1, ps[1..], intent, showArgs, now);
      assert t1.progress == t.progress + Stamped(Entry(ps[0], showArgs), now);
    }
  }

  /** Folding the steps appends the stamped lines. */
  lemma {:induction false} RunProgressLog(prog: seq<ProgressEntry>, ps: seq<Payload>,
                                          entry: Payload -> seq<string>, now: int)
    ensures RunProgress(prog, ps, entry, now) == prog + Stamped(Lines(ps, entry), now)
    decreases |ps|
  {
    if |ps| > 0 {
      var head, tail := entry(ps[0]), Lines(ps[1..], entry);
      RunProgressLog(prog + Stamped(head, now), ps[1..], entry, now);
      StampedAppend(head, tail, now);
    } else {
      assert Stamped([], now) == [];
    }
  }

  /** A run appends exactly its log lines to the progress log, one entry
      per payload that is not a partial text, and leaves the entries
      already there alone. */
  lemma RunStepsLog(t: Task, ps: seq<Payload>, intent: string, showArgs: map<string, Value> -> string, now: int)
    ensures RunSteps(t, ps, intent, showArgs, now).progress == t.progress + Stamped(LogLines(ps, showArgs), now)
  {
    RunStepsProgress(t, ps, intent, showArgs, now);
    RunProgressLog(t.progress, ps, (p: Payload) => Entry(p, showArgs), now);
  }

  /** A run adds one entry per payload that is not a partial text. */
  lemma RunStepsCount(t: Task, ps: seq<Payload>, intent: string, showArgs: map<string, Value> -> string, now: int)
    ensures |RunSteps(t, ps, intent, showArgs, now).progress| == |t.progress| + Seqs.Count(ps, Logged)
  {
    RunStepsLog(t, ps, intent, showArgs, now);
    LogLinesCount(ps, showArgs);
  }

  lemma {:induction false} LastPhaseAppend(ps: seq<Payload>, p: Payload, intent: string)
    ensures var q := ps + [p];
            LastPhase(q, intent) ==
              if p.TextPayload? && !p.partial && PhaseOf(Vocabulary(intent), p.content).Some?
              then PhaseOf(Vocabulary(intent), p.content) else LastPhase(ps, intent)
  {
    var q := ps + [p];
    assert q[|q| - 1] == p;
    assert q[..|q| - 1] == ps;
  }

  /** The run leaves the phase announced last, or the phase it started
      with when no final text announced one. */
  lemma {:induction false} RunStepsPhase(t: Task, ps: seq<Payload>, intent: string,
                                         showArgs: map<string, Value> -> string, now: int)
    ensures RunSteps(t, ps, intent, showArgs, now).phase == LastPhase(ps, intent).GetOr(t.phase)
    decreases |ps|
  {
    if |ps| > 0 {
      var t1 := Step(t, ps[0], intent, showArgs, now);
      RunStepsPhase(t1, ps[1..], intent, showArgs, now);
      LastPhaseFront(ps[0], ps[1..], intent);
      assert ps == [ps[0]] + ps[1..];
    }
  }

  /** `LastPhase` read from the front: the rest decides unless it
      announces nothing. */
  lemma {:induction false} LastPhaseFront(p: Payload, ps: seq<Payload>, intent: string)
    ensures LastPhase([p] + ps, intent) ==
      if LastPhase(ps, intent).Some? then LastPhase(ps, intent)
      else if p.TextPayload? && !p.partial && PhaseOf(Vocabulary(intent), p.content).Some?
      then PhaseOf(Vocabulary(intent), p.content) else None
    decreases |ps|
  {
    if |ps| == 0 {
      assert [p] + ps == [p];
      assert LastPhase([p][..0], intent) == None;
    } else {
      var init := ps[..|ps| - 1];
      var last := ps[|ps| - 1];
      assert ps == init + [last];
      assert [p] + ps == ([p] + init) + [last];
      LastPhaseAppend([p] + init, last, intent);
      LastPhaseAppend(init, last, intent);
      LastPhaseFront(p, init, intent);
    }
  }

  // ─── One execution ───────────────────────────────────────────

  /** How the engine run ended: normally, cancelled, or by an exception
      with this text. */
  datatype Outcome = Finished | CancelledDuring | Raised(error: string)

  const NoOutput := "[No output from agent]"

  /** Status `running` at phase STARTING and the started entry. */
  function Started(t: Task, intent: string, now: int): (r: Task)
    ensures r.status == Running && r.phase == "STARTING"
    ensures r.progress == t.progress + [ProgressEntry(now, "Task started: " + intent)]
    ensures r.id == t.id && r.owner == t.owner && r.intent == t.intent && r.createdAt == t.createdAt
    ensures r.resultSummary == t.resultSummary && r.completedAt == t.completedAt
  {
    Append(SetStatus(t, Running, Some("STARTING"), None, now), "Task started: " + intent, now)
  }

  /** `_execute_task` on the task row. `runner` is the outcome of getting
      the owner's engine; `run` the payloads produced before the run
      ended as `outcome` says. */
  function ExecuteTask(t: Task, intent: string, runner: Result<(), string>, run: seq<Payload>, outcome: Outcome,
                       showArgs: map<string, Value> -> string, now: int): (r: Task)
    ensures r.id == t.id && r.owner == t.owner && r.intent == t.intent && r.createdAt == t.createdAt
    ensures r.status == Completed <==> runner.Ok? && outcome.Finished?
    ensures r.status == Cancelled <==> runner.Ok? && outcome.CancelledDuring?
    ensures r.status == Failed <==> runner.Err? || outcome.Raised?
    ensures runner.Err? ==> r.phase == "ERROR" && r.resultSummary == "Runner init failed: " + runner.error
    ensures runner.Ok? && outcome.Finished? ==> r.phase == "DONE" && r.resultSummary == Reply(run, NoOutput)
    ensures runner.Ok? && outcome.CancelledDuring? ==> r.phase == "CANCELLED" && r.resultSummary == t.resultSummary
    ensures runner.Ok? && outcome.Raised? ==> r.phase == "ERROR" && r.resultSummary == outcome.error
    ensures r.completedAt == if r.status == Cancelled then t.completedAt else Some(now)
  {
    var t1 := Started(t, intent, now);
    if runner.Err? then SetStatus(t1, Failed, Some("ERROR"), Some("Runner init failed: " + runner.error), now)
    else
      Close(RunSteps(Append(t1, "Agent starting work...", now), run, intent, showArgs, now), run, outcome, now)
  }

  /** The end of an execution whose engine came up: the status the
      outcome calls for, and its closing entry. */
  function Close(t2: Task, run: seq<Payload>, outcome: Outcome, now: int): (r: Task)
    ensures r.progress == t2.progress + [ProgressEntry(now, OutcomeLine(outcome))]
  {
    match outcome
    case Finished =>
      Append(SetStatus(t2, Completed, Some("DONE"), Some(Reply(run, NoOutput)), now), "Task completed", now)
    case CancelledDuring =>
      Append(SetStatus(t2, Cancelled, Some("CANCELLED"), None, now), "Task cancelled", now)
    case Raised(e) =>
      Append(SetStatus(t2, Failed, Some("ERROR"), Some(e), now), "Error: " + e, now)
  }

  /** The last entry an execution writes. */
  function OutcomeLine(outcome: Outcome): string {
    match outcome
    case Finished => "Task completed"
    case CancelledDuring => "Task cancelled"
    case Raised(e) => "Error: " + e
  }

  /** The progress log of an execution: the entries already there, the
      started entry, and, once the engine is up, the starting-work entry,
      one line per logged payload and the closing entry. */
  lemma ExecuteLog(t: Task, intent: string, runner: Result<(), string>, run: seq<Payload>, outcome: Outcome,
                   showArgs: map<string, Value> -> string, now: int)
    ensures var r := ExecuteTask(t, intent, runner, run, outcome, showArgs, now);
            && (runner.Err? ==> r.progress == t.progress + [ProgressEntry(now, "Task started: " + intent)])
            && (runner.Ok? ==>
                  r.progress == t.progress + [ProgressEntry(now, "Task started: " + intent),
                                              ProgressEntry(now, "Agent starting work...")]
                                           + Stamped(LogLines(run, showArgs), now)
                                           + [ProgressEntry(now, OutcomeLine(outcome))])
            && |r.progress| == |t.progress| + (if runner.Err? then 1 else 3 + Seqs.Count(run, Logged))
  {
    if runner.Ok? {
      var t1 := Started(t, intent, now);
      var t0 := Append(t1, "Agent starting work...", now);
      RunStepsLog(t0, run, intent, showArgs, now);
      RunStepsCount(t0, run, intent, showArgs, now);
    }
  }

  // ─── The runner registry ─────────────────────────────────────

  /** The ids of the submitted tasks whose execution has not ended. */
  datatype Registry = Registry(running: set<string>)

  /** `submit` registers the execution. */
  function Submit(g: Registry, id: string): (r: Registry)
    ensures r.running == g.running + {id}
  {
    Registry(g.running + {id})
  }

  /** The done callback drops the id whatever way the execution ended. */
  function Done(g: Registry, id: string): (r: Registry)
    ensures r.running == g.running - {id}
  {
    Registry(g.running - {id})
  }

  /** `cancel`: for a running task, request cancellation and mark it
      cancelled at once (phase and completion time untouched); the id
      leaves the registry only when the execution ends. */
  function Cancel(g: Registry, s: Store, id: string, now: int): (r: (Store, bool))
    ensures r.1 <==> id in g.running
    ensures !r.1 ==> r.0 == s
    ensures r.1 ==> r.0 == UpdateStatus(s, id, Cancelled, None, None, now)
  {
    if id in g.running then (UpdateStatus(s, id, Cancelled, None, None, now), true) else (s, false)
  }

  /** `stop` cancels every running execution and empties the registry. */
  function Stop(g: Registry): (r: (set<string>, Registry))
    ensures r.0 == g.running && r.1.running == {}
  {
    (g.running, Registry({}))
  }

  /** A submitted task stays cancellable until its execution ends, and
      cancelling it marks its row cancelled. */
  lemma SubmittedIsCancellable(g: Registry, s: Store, id: string, now: int)
    requires Get(s, id).Some?
    ensures var (s', ok) := Cancel(Submit(g, id), s, id, now);
            ok && Get(s', id).Some? && Get(s', id).value.status == Cancelled
            && Get(s', id).value.phase == Get(s, id).value.phase
            && Get(s', id).value.completedAt == Get(s, id).value.completedAt
  {
    GetAfterUpdate(s, id, (t: Task) => SetStatus(t, Cancelled, None, None, now));
  }

  /** Once the execution has ended the id is no longer cancellable. */
  lemma DoneIsNotCancellable(g: Registry, s: Store, id: string, now: int)
    ensures Cancel(Done(Submit(g, id), id), s, id, now) == (s, false)
  {
  }

  /** The execution of a task on the table rewrites that one row. */
  function Execute(s: Store, id: string, intent: string, runner: Result<(), string>, run: seq<Payload>,
                   outcome: Outcome, showArgs: map<string, Value> -> string, now: int): (r: Store)
    ensures Get(s, id).None? ==> r == s
    ensures Get(s, id).Some? ==>
      Get(r, id) == Some(ExecuteTask(Get(s, id).value, intent, runner, run, outcome, showArgs, now))
  {
    var f := (t: Task) => ExecuteTask(t, intent, runner, run, outcome, showArgs, now);
    if Get(s, id).None? then s
    else
      GetAfterUpdate(s, id, f);
      UpdateWhere(s, id, f)
  }
}

=== FILE: task_store.dfy ===
/** The background-task table (app/services/task_store.py). The table is a
    sequence of tasks in insertion order; `now` is the clock reading used
    for every timestamp an operation writes, and `uuidHex` the hex of a
    fresh UUID. */
module TaskStore {
  import opened Wrappers
  import opened Text
  import Seqs

  /** The CHECK domain of `tasks.status` (app/database.py:112). */
  datatype TaskStatus = Pending | Running | Completed | Failed | Cancelled

  datatype ProgressEntry = ProgressEntry(ts: int, msg: string)

  datatype Task = Task(
    id: string,
    owner: string,
    intent: string,
    status: TaskStatus,
    phase: string,
    progress: seq<ProgressEntry>,
    resultSummary: string,
    sessionId: string,
    createdAt: int,
    updatedAt: int,
    completedAt: Option<int>)

  datatype Store = Store(tasks: seq<Task>)

  /** `id` is the primary key. */
  ghost predicate Valid(s: Store) {
    forall i, j :: 0 <= i < j < |s.tasks| ==> s.tasks[i].id != s.tasks[j].id
  }

  predicate Terminal(st: TaskStatus) {
    st == Completed || st == Failed
  }

  // ─── One task ────────────────────────────────────────────────

  /** `update_status` on one row: status and `updated_at` always,
      `completed_at` only for completed or failed, and `phase` and
      `result_summary` only when given. */
  function SetStatus(t: Task, status: TaskStatus, phase: Option<string>, summary: Option<string>, now: int): (r: Task)
    ensures r.status == status && r.updatedAt == now
    ensures Terminal(status) ==> r.completedAt == Some(now)
    ensures !Terminal(status) ==> r.completedAt == t.completedAt
    ensures r.phase == phase.GetOr(t.phase) && r.resultSummary == summary.GetOr(t.resultSummary)
    ensures r.id == t.id && r.owner == t.owner && r.intent == t.intent && r.progress == t.progress
    ensures r.sessionId == t.sessionId && r.createdAt == t.createdAt
  {
    t.(status := status, updatedAt := now,
       completedAt := if Terminal(status) then Some(now) else t.completedAt,
       phase := phase.GetOr(t.phase), resultSummary := summary.GetOr(t.resultSummary))
  }

  /** `append_progress` on one row: one `{ts, msg}` entry at the end. */
  function Append(t: Task, msg: string, now: int): (r: Task)
    ensures r.progress == t.progress + [ProgressEntry(now, msg)]
    ensures r.updatedAt == now
    ensures r == t.(progress := r.progress, updatedAt := now)
  {
    t.(progress := t.progress + [ProgressEntry(now, msg)], updatedAt := now)
  }

  // ─── The table ───────────────────────────────────────────────

  function FindIndex(s: Store, id: string): (r: Option<nat>)
    ensures r.Some? ==> r.value < |s.tasks| && s.tasks[r.value].id == id
    ensures r.None? <==> forall j :: 0 <= j < |s.tasks| ==> s.tasks[j].id != id
  {
    Seqs.FirstIndex(s.tasks, (t: Task) => t.id == id)
  }

  /** `get`: the task with this id, `None` for an unknown id. */
  function Get(s: Store, id: string): (r: Option<Task>)
    ensures r.None? <==> forall j :: 0 <= j < |s.tasks| ==> s.tasks[j].id != id
    ensures r.Some? ==> r.value in s.tasks && r.value.id == id
  {
    match FindIndex(s, id)
    case None => None
    case Some(k) => Some(s.tasks[k])
  }

  /** The rows with this id rewritten by `f`, the others untouched (an
      `UPDATE ... WHERE id = ?`). */
  function UpdateWhere(s: Store, id: string, f: Task -> Task): (r: Store)
    ensures |r.tasks| == |s.tasks|
    ensures forall j :: 0 <= j < |s.tasks| ==> r.tasks[j] == if s.tasks[j].id == id then f(s.tasks[j]) else s.tasks[j]
  {
    Store(seq(|s.tasks|, j requires 0 <= j < |s.tasks| => if s.tasks[j].id == id then f(s.tasks[j]) else s.tasks[j]))
  }

  /** Two updates of the same rows are one update by their composition,
      as long as the first keeps the id. */
  lemma UpdateCompose(s: Store, id: string, f: Task -> Task, g: Task -> Task)
    requires forall t :: f(t).id == t.id
    ensures UpdateWhere(UpdateWhere(s, id, f), id, g) == UpdateWhere(s, id, (t: Task) => g(f(t)))
  {
    var a := UpdateWhere(UpdateWhere(s, id, f), id, g);
    var b := UpdateWhere(s, id, (t: Task) => g(f(t)));
    assert forall j :: 0 <= j < |s.tasks| ==> a.tasks[j] == b.tasks[j];
  }

  /** After an update the id finds the updated row. */
  lemma GetAfterUpdate(s: Store, id: string, f: Task -> Task)
    requires Get(s, id).Some?
    requires forall t :: f(t).id == t.id
    ensures Get(UpdateWhere(s, id, f), id) == Some(f(Get(s, id).value))
  {
    var r := UpdateWhere(s, id, f);
    var k := FindIndex(s, id).value;
    assert r.tasks[k] == f(s.tasks[k]);
    assert forall j :: 0 <= j < k ==> r.tasks[j].id == s.tasks[j].id;
    Seqs.FirstIndexAt(r.tasks, (t: Task) => t.id == id, k);
  }

  /** `create`: a pending task with the given session and an empty
      progress log, its id the first 12 hex digits of a fresh UUID; an id
      already present violates the primary key. */
  function Create(s: Store, owner: string, intent: string, sessionId: string, uuidHex: string, now: int)
    : (r: Result<(Store, Task), string>)
    ensures Get(s, Take(uuidHex, 12)).Some? <==> r.Err?
    ensures r.Ok? ==>
      var (s', t) := r.value;
      && s'.tasks == s.tasks + [t]
      && t == Task(Take(uuidHex, 12), owner, intent, Pending, "", [], "", sessionId, now, now, None)
    ensures r.Ok? && Valid(s) ==> Valid(r.value.0)
  {
    var id := Take(uuidHex, 12);
    if Get(s, id).Some? then Err("UNIQUE constraint failed: tasks.id")
    else
      var t := Task(id, owner, intent, Pending, "", [], "", sessionId, now, now, None);
      Ok((Store(s.tasks + [t]), t))
  }

  /** A created task is found again unchanged. */
  lemma CreateThenGet(s: Store, owner: string, intent: string, sessionId: string, uuidHex: string, now: int)
    requires Create(s, owner, intent, sessionId, uuidHex, now).Ok?
    ensures var (s', t) := Create(s, owner, intent, sessionId, uuidHex, now).value;
            Get(s', t.id) == Some(t)
  {
    var (s', t) := Create(s, owner, intent, sessionId, uuidHex, now).value;
    assert s'.tasks[|s.tasks|] == t;
    assert forall j :: 0 <= j < |s.tasks| ==> s'.tasks[j] == s.tasks[j];
  }

  /** `update_status`. Of the extra arguments only `phase` and
      `result_summary` exist here: the source ignores every other key. */
  function UpdateStatus(s: Store, id: string, status: TaskStatus, phase: Option<string>, summary: Option<string>,
                        now: int): (r: Store)
    ensures |r.tasks| == |s.tasks|
    ensures forall j :: 0 <= j < |s.tasks| && s.tasks[j].id != id ==> r.tasks[j] == s.tasks[j]
    ensures forall j :: 0 <= j < |s.tasks| && s.tasks[j].id == id ==>
      r.tasks[j] == SetStatus(s.tasks[j], status, phase, summary, now)
  {
    UpdateWhere(s, id, (t: Task) => SetStatus(t, status, phase, summary, now))
  }

  /** `append_progress`: nothing at all for an unknown id. */
  function AppendProgress(s: Store, id: string, msg: string, now: int): (r: Store)
    ensures Get(s, id).None? ==> r == s
    ensures |r.tasks| == |s.tasks|
    ensures forall j :: 0 <= j < |s.tasks| && s.tasks[j].id != id ==> r.tasks[j] == s.tasks[j]
    ensures forall j :: 0 <= j < |s.tasks| && s.tasks[j].id == id ==> r.tasks[j] == Append(s.tasks[j], msg, now)
  {
    if Get(s, id).None? then s
    else UpdateWhere(s, id, (t: Task) => Append(t, msg, now))
  }

  /** The progress log only grows, by exactly the appended entry, and
      entries already there stay as they were. */
  lemma AppendKeepsLog(s: Store, id: string, msg: string, now: int)
    requires Get(s, id).Some?
    ensures var r := AppendProgress(s, id, msg, now);
            Get(r, id).Some? &&
            Get(r, id).value.progress == Get(s, id).value.progress + [ProgressEntry(now, msg)]
  {
    var r := AppendProgress(s, id, msg, now);
    var k := FindIndex(s, id).value;
    assert r.tasks[k] == Append(s.tasks[k], msg, now);
    SameIdsSameIndex(s, r, id, k);
  }

  /** A table with the same ids in the same places finds a task at the
      same index. */
  lemma SameIdsSameIndex(s: Store, r: Store, id: string, k: nat)
    requires FindIndex(s, id) == Some(k)
    requires |r.tasks| == |s.tasks| && r.tasks[k].id == id
    requires forall j :: 0 <= j < |s.tasks| && s.tasks[j].id != id ==> r.tasks[j] == s.tasks[j]
    ensures FindIndex(r, id) == Some(k)
  {
    Seqs.FirstIndexAt(r.tasks, (t: Task) => t.id == id, k);
  }

  // ─── Listings ────────────────────────────────────────────────

  function NewerFirst(a: Task, b: Task): bool {
    a.createdAt >= b.createdAt
  }

  function OlderFirst(a: Task, b: Task): bool {
    a.createdAt <= b.createdAt
  }

  lemma OrdersTotal()
    ensures Seqs.TotalPreorder(NewerFirst)
    ensures Seqs.TotalPreorder(OlderFirst)
  {
  }

  /** `list_by_owner`: the owner's tasks, newest first. */
  function ListByOwner(s: Store, owner: string): (r: seq<Task>)
    ensures forall t :: t in r <==> t in s.tasks && t.owner == owner
    ensures forall t :: multiset(r)[t] == if t.owner == owner then multiset(s.tasks)[t] else 0
    ensures Seqs.Sorted(r, NewerFirst)
  {
    OrdersTotal();
    Seqs.SortFilterContents(s.tasks, (t: Task) => t.owner == owner, NewerFirst);
    Seqs.SortBy(Seqs.Filter(s.tasks, (t: Task) => t.owner == owner), NewerFirst)
  }

  /** `list_pending`: the pending tasks, oldest first. */
  function ListPending(s: Store): (r: seq<Task>)
    ensures forall t :: t in r <==> t in s.tasks && t.status == Pending
    ensures forall t :: multiset(r)[t] == if t.status == Pending then multiset(s.tasks)[t] else 0
    ensures Seqs.Sorted(r, OlderFirst)
  {
    OrdersTotal();
    Seqs.SortFilterContents(s.tasks, (t: Task) => t.status == Pending, OlderFirst);
    Seqs.SortBy(Seqs.Filter(s.tasks, (t: Task) => t.status == Pending), OlderFirst)
  }
}

=== FILE: text.dfy ===
/** String helpers with the meaning of the Python `str` methods the source
    uses. Case mapping and the whitespace class are restricted to ASCII:
    the model does not carry Unicode tables. */
module Text {

  predicate IsUpper(c: char) { 'A' <= c <= 'Z' }
  predicate IsLowerLetter(c: char) { 'a' <= c <= 'z' }
  predicate IsLetter(c: char) { IsUpper(c) || IsLowerLetter(c) }
  predicate IsDigit(c: char) { '0' <= c <= '9' }

  /** Python's `str.isspace()` restricted to ASCII. */
  const Whitespace: set<char> :=
    {' ', '\t', '\n', '\r', '\U{B}', '\U{C}', '\U{1C}', '\U{1D}', '\U{1E}', '\U{1F}'}

  function LowerChar(c: char): char {
    if IsUpper(c) then (c as int + 32) as char else c
  }

  function UpperChar(c: char): char {
    if IsLowerLetter(c) then (c as int - 32) as char else c
  }

  /** `s.lower()` */
  function Lower(s: string): (r: string)
    ensures |r| == |s|
    ensures forall i :: 0 <= i < |s| ==> r[i] == LowerChar(s[i])
  {
    seq(|s|, i requires 0 <= i < |s| => LowerChar(s[i]))
  }

  /** `s.upper()` */
  function Upper(s: string): (r: string)
    ensures |r| == |s|
    ensures forall i :: 0 <= i < |s| ==> r[i] == UpperChar(s[i])
  {
    seq(|s|, i requires 0 <= i < |s| => UpperChar(s[i]))
  }

  lemma LowerIdempotent(s: string)
    ensures Lower(Lower(s)) == Lower(s)
  {
  }

  lemma LowerAppend(a: string, b: string)
    ensures Lower(a + b) == Lower(a) + Lower(b)
  {
  }

  lemma LowerNoUpper(s: string)
    requires forall i :: 0 <= i < |s| ==> !IsUpper(s[i])
    ensures Lower(s) == s
  {
  }

  /** Case mapping never moves a character in or out of the whitespace
      class. */
  lemma LowerCharSpace(c: char)
    ensures LowerChar(c) in Whitespace <==> c in Whitespace
  {
  }

  /** `s.lstrip(cs)` */
  function TrimStart(s: string, cs: set<char>): (r: string)
    ensures |r| <= |s| && r == s[|s| - |r|..]
    ensures r == [] || r[0] !in cs
    ensures forall i :: 0 <= i < |s| - |r| ==> s[i] in cs
    decreases |s|
  {
    if |s| > 0 && s[0] in cs then TrimStart(s[1..], cs) else s
  }

  /** `s.rstrip(cs)` */
  function TrimEnd(s: string, cs: set<char>): (r: string)
    ensures |r| <= |s| && r == s[..|r|]
    ensures r == [] || r[|r| - 1] !in cs
    ensures forall i :: |r| <= i < |s| ==> s[i] in cs
    decreases |s|
  {
    if |s| > 0 && s[|s| - 1] in cs then TrimEnd(s[..|s| - 1], cs) else s
  }

  /** `s.strip(cs)` */
  function StripChars(s: string, cs: set<char>): string {
    TrimEnd(TrimStart(s, cs), cs)
  }

  /** `s.strip()` */
  function Strip(s: string): string {
    StripChars(s, Whitespace)
  }

  /** Stripping leaves nothing exactly when every character is stripped. */
  lemma StripCharsEmptyIff(s: string, cs: set<char>)
    ensures StripChars(s, cs) == [] <==> forall i :: 0 <= i < |s| ==> s[i] in cs
  {
  }

  /** Stripping stops at once when both ends are outside the class. */
  lemma StripCharsEnds(s: string, cs: set<char>)
    requires s != [] && s[0] !in cs && s[|s| - 1] !in cs
    ensures StripChars(s, cs) == s
  {
  }

  /** Where `StripChars(s, cs)` sits in `s`: only class characters are
      cut at either end, and the kept part starts and ends outside it. */
  lemma StripCharsSlice(s: string, cs: set<char>) returns (i: nat, j: nat)
    ensures i <= j <= |s| && StripChars(s, cs) == s[i..j]
    ensures forall k :: 0 <= k < i ==> s[k] in cs
    ensures forall k :: j <= k < |s| ==> s[k] in cs
    ensures i < j ==> s[i] !in cs && s[j - 1] !in cs
  {
    var a := TrimStart(s, cs);
    var t := TrimEnd(a, cs);
    i, j := |s| - |a|, |s| - |a| + |t|;
    CutBothEnds(s, a, t, cs);
  }

  /** `t`, a prefix of the suffix `a` of `s`, sits at `|s| - |a|` in `s`;
      what follows it is what `a` lost. */
  lemma CutBothEnds(s: string, a: string, t: string, cs: set<char>)
    requires |a| <= |s| && a == s[|s| - |a|..] && (a == [] || a[0] !in cs)
    requires |t| <= |a| && t == a[..|t|] && (t == [] || t[|t| - 1] !in cs)
    requires forall k :: |t| <= k < |a| ==> a[k] in cs
    ensures t == s[|s| - |a|..|s| - |a| + |t|]
    ensures forall k :: |s| - |a| + |t| <= k < |s| ==> s[k] in cs
    ensures |t| > 0 ==> s[|s| - |a|] !in cs && s[|s| - |a| + |t| - 1] !in cs
  {
    var i := |s| - |a|;
    forall k | i + |t| <= k < |s| ensures s[k] in cs {
      assert s[k] == a[k - i];
    }
  }

  /** A stripped string is empty or has no whitespace at either end. */
  lemma StripEnds(s: string)
    ensures Strip(s) == [] || (Strip(s)[0] !in Whitespace && Strip(s)[|Strip(s)| - 1] !in Whitespace)
  {
    var a := TrimStart(s, Whitespace);
    var b := TrimEnd(a, Whitespace);
    if b != [] {
      assert b[0] == a[0];
    }
  }

  lemma StripNoSpace(s: string)
    requires forall i :: 0 <= i < |s| ==> s[i] !in Whitespace
    ensures Strip(s) == s
  {
  }

  /** A word of lower-case letters is its own stripped lower-case form. */
  lemma LowerWord(w: string)
    requires forall i :: 0 <= i < |w| ==> IsLowerLetter(w[i])
    ensures Lower(Strip(w)) == w
  {
    StripNoSpace(w);
    LowerNoUpper(w);
  }

  lemma {:induction false} LowerTrimStart(t: string)
    ensures TrimStart(Lower(t), Whitespace) == Lower(TrimStart(t, Whitespace))
    decreases |t|
  {
    if |t| > 0 {
      LowerCharSpace(t[0]);
      if t[0] in Whitespace {
        assert Lower(t)[1..] == Lower(t[1..]);
        LowerTrimStart(t[1..]);
      }
    }
  }

  lemma {:induction false} LowerTrimEnd(t: string)
    ensures TrimEnd(Lower(t), Whitespace) == Lower(TrimEnd(t, Whitespace))
    decreases |t|
  {
    if |t| > 0 {
      var n, lt := |t| - 1, Lower(t);
      LowerCharSpace(t[n]);
      assert lt[n] == LowerChar(t[n]);
      if t[n] in Whitespace {
        assert lt[..n] == Lower(t[..n]);
        LowerTrimEnd(t[..n]);
        assert TrimEnd(lt, Whitespace) == TrimEnd(lt[..n], Whitespace);
        assert TrimEnd(t, Whitespace) == TrimEnd(t[..n], Whitespace);
      } else {
        assert TrimEnd(lt, Whitespace) == lt;
        assert TrimEnd(t, Whitespace) == t;
      }
    }
  }

  /** Stripping never introduces a character. */
  lemma StripAvoids(s: string, c: char)
    requires c !in s
    ensures c !in Strip(s)
  {
    var a := TrimStart(s, Whitespace);
    assert a == s[|s| - |a|..];
    var b := TrimEnd(a, Whitespace);
    assert b == a[..|b|];
  }

  /** Stripping is idempotent. */
  lemma StripIdempotent(s: string)
    ensures Strip(Strip(s)) == Strip(s)
  {
    var t := Strip(s);
    var u := TrimStart(s, Whitespace);
    if |t| > 0 {
      assert t[0] == u[0];
    }
  }

  /** `s.strip().lower()` is unchanged by another strip and lower. */
  lemma StripLowerStable(s: string)
    ensures Lower(Strip(Lower(Strip(s)))) == Lower(Strip(s))
  {
    var t := Strip(s);
    LowerTrimStart(t);
    LowerTrimEnd(TrimStart(t, Whitespace));
    StripIdempotent(s);
    LowerIdempotent(t);
  }

  predicate StartsWith(s: string, p: string) {
    |p| <= |s| && s[..|p|] == p
  }

  predicate EndsWith(s: string, p: string) {
    |p| <= |s| && s[|s| - |p|..] == p
  }

  /** Python's `sub in s` on strings. */
  predicate Contains(s: string, sub: string)
    decreases |s|
  {
    StartsWith(s, sub) || (|s| > 0 && Contains(s[1..], sub))
  }

  lemma ContainsAt(s: string, sub: string, i: nat)
    requires i + |sub| <= |s| && s[i..i + |sub|] == sub
    ensures Contains(s, sub)
    decreases i
  {
    if i > 0 {
      assert s[1..][i - 1..i - 1 + |sub|] == sub;
      ContainsAt(s[1..], sub, i - 1);
    }
  }

  lemma ContainsSelf(s: string)
    ensures Contains(s, s)
  {
  }

  lemma ContainsEmpty(s: string)
    ensures Contains(s, "")
  {
  }

  /** `sep.join(parts)` */
  function Join(parts: seq<string>, sep: string): string
    decreases |parts|
  {
    if |parts| == 0 then ""
    else if |parts| == 1 then parts[0]
    else parts[0] + sep + Join(parts[1..], sep)
  }

  /** Where the k-th part begins in `Join(parts, sep)`: after the parts
      before it, each followed by the separator. */
  function JoinOffset(parts: seq<string>, sep: string, k: nat): nat
    requires k <= |parts|
  {
    if k == 0 then 0 else JoinOffset(parts, sep, k - 1) + |parts[k - 1]| + |sep|
  }

  /** The k-th part of a join lies at its offset. */
  ghost predicate PartAt(s: string, parts: seq<string>, sep: string, k: nat)
    requires k < |parts|
  {
    var o := JoinOffset(parts, sep, k);
    o + |parts[k]| <= |s| && s[o..o + |parts[k]|] == parts[k]
  }

  lemma {:induction false} JoinOffsetShift(parts: seq<string>, sep: string, k: nat)
    requires 1 <= k <= |parts|
    ensures JoinOffset(parts, sep, k) == |parts[0]| + |sep| + JoinOffset(parts[1..], sep, k - 1)
  {
    if k > 1 {
      JoinOffsetShift(parts, sep, k - 1);
      assert parts[1..][k - 2] == parts[k - 1];
    }
  }

  /** Each part sits at its offset in the joined text. */
  lemma {:induction false} JoinPartAt(parts: seq<string>, sep: string, k: nat)
    requires k < |parts|
    ensures PartAt(Join(parts, sep), parts, sep, k)
    decreases |parts|
  {
    var s := Join(parts, sep);
    if |parts| > 1 {
      var tail := Join(parts[1..], sep);
      assert s == parts[0] + sep + tail;
      if k == 0 {
        assert s[..|parts[0]|] == parts[0];
      } else {
        JoinOffsetShift(parts, sep, k);
        JoinPartAt(parts[1..], sep, k - 1);
        var o := JoinOffset(parts[1..], sep, k - 1);
        var n := |parts[0]| + |sep|;
        assert parts[1..][k - 1] == parts[k];
        assert s[n + o..n + o + |parts[k]|] == tail[o..o + |parts[k]|];
      }
    }
  }

  /** With a non-empty separator the parts come in order and do not overlap. */
  lemma {:induction false} JoinOffsetIncreasing(parts: seq<string>, sep: string, i: nat, j: nat)
    requires i < j <= |parts| && |sep| > 0
    ensures JoinOffset(parts, sep, i) + |parts[i]| < JoinOffset(parts, sep, j)
    decreases j
  {
    if j > i + 1 {
      JoinOffsetIncreasing(parts, sep, i, j - 1);
    }
  }

  function IndexOf(s: string, c: char): (i: nat)
    requires c in s
    ensures i < |s| && s[i] == c && c !in s[..i]
  {
    if s[0] == c then 0 else 1 + IndexOf(s[1..], c)
  }

  /** `s.split(sep)` for a one-character separator. */
  function Split(s: string, sep: char): (parts: seq<string>)
    ensures |parts| >= 1
    decreases |s|
  {
    if sep in s then
      var i := IndexOf(s, sep);
      [s[..i]] + Split(s[i + 1..], sep)
    else [s]
  }

  /** Splitting and joining again with the same separator gives back the
      original string, and no piece contains the separator. */
  lemma {:induction false} SplitJoin(s: string, sep: char)
    ensures Join(Split(s, sep), [sep]) == s
    ensures forall k :: 0 <= k < |Split(s, sep)| ==> sep !in Split(s, sep)[k]
    decreases |s|
  {
    if sep in s {
      var i := IndexOf(s, sep);
      var rest := Split(s[i + 1..], sep);
      SplitJoin(s[i + 1..], sep);
      var parts := [s[..i]] + rest;
      assert Split(s, sep) == parts;
      assert parts[0] == s[..i] && parts[1..] == rest && |parts| >= 2;
      assert Join(parts, [sep]) == s[..i] + [sep] + Join(rest, [sep]);
      assert s == s[..i] + [sep] + s[i + 1..];
      assert forall k :: 1 <= k < |parts| ==> parts[k] == rest[k - 1];
    }
  }

  /** Joining pieces free of the separator and splitting again gives the
      pieces back. */
  lemma {:induction false} JoinSplit(parts: seq<string>, sep: char)
    requires |parts| >= 1
    requires forall k :: 0 <= k < |parts| ==> sep !in parts[k]
    ensures Split(Join(parts, [sep]), sep) == parts
    decreases |parts|
  {
    if |parts| > 1 {
      var s := Join(parts, [sep]);
      var rest := Join(parts[1..], [sep]);
      assert s == parts[0] + [sep] + rest;
      assert s[|parts[0]|] == sep;
      var i := IndexOf(s, sep);
      assert i == |parts[0]|;
      assert s[..i] == parts[0];
      assert s[i + 1..] == rest;
      JoinSplit(parts[1..], sep);
    } else {
      assert Join(parts, [sep]) == parts[0];
    }
  }

  /** Length of the run of non-whitespace characters at the start of `s`. */
  function WordLength(s: string): (n: nat)
    ensures n <= |s|
    ensures forall i :: 0 <= i < n ==> s[i] !in Whitespace
    ensures n == |s| || s[n] in Whitespace
    ensures |s| > 0 && s[0] !in Whitespace ==> n >= 1
  {
    if |s| == 0 || s[0] in Whitespace then 0 else 1 + WordLength(s[1..])
  }

  /** `s.split()`: the maximal runs of non-whitespace characters. */
  function Words(s: string): seq<string>
    decreases |s|
  {
    if |s| == 0 then []
    else if s[0] in Whitespace then Words(s[1..])
    else
      var n := WordLength(s);
      [s[..n]] + Words(s[n..])
  }

  /** Every word is non-empty and free of whitespace; there are no words
      exactly when the string is all whitespace. */
  lemma {:induction false} WordsShape(s: string)
    ensures forall k :: 0 <= k < |Words(s)| ==> |Words(s)[k]| > 0
    ensures forall k, j :: 0 <= k < |Words(s)| && 0 <= j < |Words(s)[k]| ==> Words(s)[k][j] !in Whitespace
    ensures Words(s) == [] <==> forall i :: 0 <= i < |s| ==> s[i] in Whitespace
    decreases |s|
  {
    if |s| == 0 {
    } else if s[0] in Whitespace {
      WordsShape(s[1..]);
      if Words(s) == [] {
        forall i | 0 <= i < |s| ensures s[i] in Whitespace {
          if i > 0 { assert s[i] == s[1..][i - 1]; }
        }
      }
    } else {
      var n := WordLength(s);
      WordsShape(s[n..]);
    }
  }

  /** `s.replace(a, b)` for single characters. */
  function ReplaceChar(s: string, a: char, b: char): (r: string)
    ensures |r| == |s|
    ensures a != b ==> a !in r
    ensures forall i :: 0 <= i < |s| ==> r[i] == (if s[i] == a then b else s[i])
  {
    seq(|s|, i requires 0 <= i < |s| => if s[i] == a then b else s[i])
  }

  /** `s.replace(pat, rep)`: every non-overlapping occurrence, left to right. */
  function ReplaceAll(s: string, pat: string, rep: string): string
    requires |pat| > 0
    decreases |s|
  {
    if |s| < |pat| then s
    else if s[..|pat|] == pat then rep + ReplaceAll(s[|pat|..], pat, rep)
    else [s[0]] + ReplaceAll(s[1..], pat, rep)
  }

  /** Removing a pattern that does not occur changes nothing. */
  lemma {:induction false} ReplaceAllAbsent(s: string, pat: string, rep: string)
    requires |pat| > 0
    requires !Contains(s, pat)
    ensures ReplaceAll(s, pat, rep) == s
    decreases |s|
  {
    if |s| >= |pat| {
      ReplaceAllAbsent(s[1..], pat, rep);
      assert s == [s[0]] + s[1..];
    }
  }

  /** A string containing `sub` contains every character of `sub`. */
  lemma {:induction false} ContainsChar(s: string, sub: string, c: char)
    requires Contains(s, sub) && c in sub
    ensures c in s
    decreases |s|
  {
    if StartsWith(s, sub) {
      var k :| 0 <= k < |sub| && sub[k] == c;
      assert s[k] == c;
    } else {
      ContainsChar(s[1..], sub, c);
    }
  }

  /** Some word of `words` occurs in `text`. */
  predicate AnyWordIn(words: seq<string>, text: string)
    decreases |words|
  {
    |words| > 0 && (Contains(text, words[0]) || AnyWordIn(words[1..], text))
  }

  lemma {:induction false} AnyWordInIff(words: seq<string>, text: string)
    ensures AnyWordIn(words, text) <==> exists k :: 0 <= k < |words| && Contains(text, words[k])
    decreases |words|
  {
    if |words| > 0 {
      AnyWordInIff(words[1..], text);
      if exists k :: 0 <= k < |words| && Contains(text, words[k]) {
        var k :| 0 <= k < |words| && Contains(text, words[k]);
        if k > 0 {
          assert words[1..][k - 1] == words[k];
        }
      }
    }
  }

  /** Python's string ordering: lexicographic by code point. */
  predicate LexLe(a: string, b: string)
    decreases |a|
  {
    |a| == 0 || (|b| > 0 && (a[0] < b[0] || (a[0] == b[0] && LexLe(a[1..], b[1..]))))
  }

  /** A common prefix does not decide the order. */
  lemma {:induction false} LexCommonPrefix(p: string, a: string, b: string)
    ensures LexLe(p + a, p + b) <==> LexLe(a, b)
    decreases |p|
  {
    if |p| > 0 {
      assert (p + a)[1..] == p[1..] + a && (p + b)[1..] == p[1..] + b;
      assert (p + a)[0] == p[0] == (p + b)[0];
      LexCommonPrefix(p[1..], a, b);
    } else {
      assert p + a == a && p + b == b;
    }
  }

  lemma {:induction false} LexTotal(a: string, b: string)
    ensures LexLe(a, b) || LexLe(b, a)
    decreases |a|
  {
    if |a| > 0 && |b| > 0 && a[0] == b[0] {
      LexTotal(a[1..], b[1..]);
    }
  }

  lemma {:induction false} LexAntisymmetric(a: string, b: string)
    requires LexLe(a, b) && LexLe(b, a)
    ensures a == b
    decreases |a|
  {
    if |a| > 0 {
      LexAntisymmetric(a[1..], b[1..]);
      assert a == [a[0]] + a[1..] && b == [b[0]] + b[1..];
    }
  }

  lemma {:induction false} LexTransitive(a: string, b: string, c: string)
    requires LexLe(a, b) && LexLe(b, c)
    ensures LexLe(a, c)
    decreases |a|
  {
    if |a| > 0 && a[0] == b[0] && b[0] == c[0] {
      LexTransitive(a[1..], b[1..], c[1..]);
    }
  }

  /** `s[:n]` */
  function Take(s: string, n: nat): (r: string)
    ensures |r| <= n && |r| <= |s|
    ensures StartsWith(s, r)
    ensures |s| <= n ==> r == s
  {
    if |s| <= n then s else s[..n]
  }

  /** `s[:n]` with "..." appended when something was cut. */
  function Snippet(s: string, n: nat): (r: string)
    ensures |s| <= n ==> r == s
    ensures |s| > n ==> |r| == n + 3 && r[..n] == s[..n] && r[n..] == "..."
    ensures forall c :: c in r ==> c in s || c == '.'
  {
    if |s| <= n then s
    else
      assert forall c :: c in s[..n] ==> c in s;
      s[..n] + "..."
  }

  /** Python's `str.title()` on ASCII: a letter is upper-cased when the
      character before it is not a letter and lower-cased otherwise. */
  function TitleFrom(s: string, prevCased: bool): (r: string)
    ensures |r| == |s|
    decreases |s|
  {
    if |s| == 0 then ""
    else
      var c := s[0];
      var c' := if !IsLetter(c) then c else if prevCased then LowerChar(c) else UpperChar(c);
      [c'] + TitleFrom(s[1..], IsLetter(c))
  }

  function Title(s: string): string {
    TitleFrom(s, false)
  }

  /** The canonical decimal rendering of a natural number, `str(n)`. */
  function NatToString(n: nat): (r: string)
    ensures |r| >= 1
    decreases n
  {
    var d := ['0' + (n % 10) as char];
    if n < 10 then d else NatToString(n / 10) + d
  }
}

=== FILE: wrappers.dfy ===
/** Option and Result, the failure-carrying datatypes the rest of the model
    uses in place of Python's `None` and raised exceptions. */
module Wrappers {

  datatype Option<+T> = None | Some(value: T) {

    /** The value, or `default` when there is none (Python's `x or default`
        for values that are never falsy). */
    function GetOr(default: T): T {
      match this
      case Some(v) => v
      case None => default
    }
  }

  /** Either a value or an error; an `Err` stands for an exception or an
      HTTP error response of the source. */
  datatype Result<+T, +E> = Ok(value: T) | Err(error: E) {

    predicate IsFailure() {
      Err?
    }

    function PropagateFailure<U>(): Result<U, E>
      requires Err?
    {
      Err(error)
    }

    function Extract(): T
      requires Ok?
    {
      value
    }
  }
}
